=== FILE: README.md ===
# hwcert-jenkins-tools, modelled in Dafny

The hwcert-jenkins-tools repository holds the operational scripts of a
hardware-certification team. Its CI jobs run them one at a time. Between
them they:

- harvest test and boot-timing results into InfluxDB;
- validate InfluxDB data points, both in a push tool and in a small HTTP bridge;
- install a private PPA;
- aggregate project KPIs and Launchpad bug-status statistics;
- poll the snap store until a set of snaps is published;
- keep the team's Trello boards in step with the store, the kernel archive and Launchpad;
- mirror bugs from the ODM Launchpad projects into an umbrella project.

This project models the deterministic rules inside those scripts. Every
call to Launchpad, Trello, Google Sheets, the snap store, Jenkins,
InfluxDB, the clock or the file system becomes an input value. Every
write becomes part of the returned value.

There is one module per script:

- `SnappyTiming` and `LegacySnappyTiming`: the two boot-timing extractors.
- `DataPoints`, `InfluxPush` and `DbBridge`: the point validators and the bridge's status ladder.
- `PrivatePpa`: the PPA installer.
- `ProjectKpis` and `HarvestStats`: the KPI scripts.
- `SnapAvailability`: the store poller.
- `SnapBoard`, `SnapUpdater`, `SruBugManager`, `DesktopBoard`, `DesktopUpdater` and `ImageUpdater`: the Trello bots.
- `OdmSync` and `OdmSyncLegacy`: the two ODM bug-sync tools.

Shared modules hold the vocabulary the scripts share:

- `Wrappers` for optional values;
- `Text` for Python's `str` operations;
- `Decimal` for `int()` and `float()` on text, read as exact rationals;
- `Json` for decoded JSON values;
- `CardTitle` for the card-title regular expressions;
- `Checklists` for Trello checklists.

Every regular expression is written out as its own search. The search
follows the order in which Python's backtracking engine tries
alternatives: lazy groups shortest first, greedy groups longest first.
Each search is proved to return the first match in that order.

The boot-timing parser `parse_sysd_analyze` of
`snappy_measurements/measure_snappy_jobs.py` does the following:

- It returns `None` when the text lacks a `+` or an `=`.
- It raises unless the text holds exactly one `+` and, after it, exactly one `=`.
- Otherwise it returns the triple (kernel, userspace, total) in seconds.
- Each value is read as optional hours, optional minutes and whole seconds with an optional fraction; there is no millisecond component.
- It raises on a segment without a whitespace-preceded seconds component.

`SnappyTiming` models each of these behaviours, with raising as a
separate outcome.

## Model

| member | source | states |
|---|---|---|
| SnappyTiming.ParseSysd | snappy_measurements/measure_snappy_jobs.py:154-168 | `None` exactly when the text lacks `+` or `=`; a result means exactly one `+`, and each of its three values is what the segment before `+`, between `+` and `=`, and after `=` reports |
| SnappyTiming.SegmentOfRendered | snappy_measurements/measure_snappy_jobs.py:158-167 | round trip: a digit-free lead-in followed by a duration written as `[ Nh][ Nmin] N[.F]s` gives 3600·h + 60·min + s + fraction, absent parts counting 0, whatever follows |
| SnappyTiming.ParseSysdOfRendered | snappy_measurements/measure_snappy_jobs.py:137-168 | three written durations joined by one `+` and one `=`, with digit-free labels, parse to the triple of their lengths (covers the doctests, the `finihsed` typo included) |
| SnappyTiming.ParseSysdOfSegments | snappy_measurements/measure_snappy_jobs.py:156-168 | three sign-free segments joined by `+` and `=` parse to the triple of the segments' values |
| SnappyTiming.SegmentMinutesOnly | snappy_measurements/measure_snappy_jobs.py:159-160 | a segment with minutes but no seconds component (`2min` alone) has no match, so parsing raises |
| SnappyTiming.SegmentMilliseconds | snappy_measurements/measure_snappy_jobs.py:159-160 | `752ms` is not a seconds component: no match |
| SnappyTiming.SegmentNeedsSpace | snappy_measurements/measure_snappy_jobs.py:159-160 | a number not preceded by whitespace is not matched |
| SnappyTiming.ParseSysdTwoPluses | snappy_measurements/measure_snappy_jobs.py:156 | a second `+` makes the two-way unpacking of the split raise |
| SnappyTiming.TruncateToInt | snappy_measurements/measure_snappy_jobs.py:58 | `int()` truncates toward zero: the result is within one of the argument on the zero side |
| SnappyTiming.CoreRevisionFirst | snappy_measurements/measure_snappy_jobs.py:62-68 | the core revision is that of the first snap named `core` (default `'0'`), and `'0'` when there is none |
| SnappyTiming.SharedTags | snappy_measurements/measure_snappy_jobs.py:56-72 | every extracted point carries the submission-wide tags: the quoted title and OS description with `unknown` defaults, the quoted hardware id, the revision of the first `core` snap, and the timestamp truncated to nanoseconds |
| SnappyTiming.UnitStamp | snappy_measurements/test_measure_snappy_jobs.py:40-45 | a clock reading of one second stamps every point with `1000000000` |
| SnappyTiming.ResultPoints | snappy_measurements/measure_snappy_jobs.py:88-132 | every point of a result carries the writer's time and project tag |
| SnappyTiming.ExtractFromConcat | snappy_measurements/measure_snappy_jobs.py:88-89 | extraction over two result lists is the first list's points followed by the second's, and stops at the first raise |
| SnappyTiming.OnlyOneSuffix | snappy_measurements/measure_snappy_jobs.py:39-46 | a job id ends with at most one tracked job name, and then not with the boot job's id |
| SnappyTiming.TrackedJobPoint | snappy_measurements/measure_snappy_jobs.py:91-109 | a tracked job with a truthy duration yields exactly one point whose elapsed value is that duration |
| SnappyTiming.FalsyDurationNoPoint | snappy_measurements/measure_snappy_jobs.py:92-94 | a missing or falsy duration yields no duration point |
| SnappyTiming.BootupPoint | snappy_measurements/measure_snappy_jobs.py:111-132 | the boot job yields one point with the parsed total when its log parses, none when parsing gives `None`, and stops extraction when parsing raises |
| SnappyTiming.SqlInsertsTemplate | snappy_measurements/measure_snappy_jobs.py:74-86 | line `i` is the `snap_timing` insert carrying point `i`'s job name and elapsed value together with the writer's project, hardware, OS and core-revision tags and its timestamp; there is one line per point |
| SnappyTiming.SqlInsertsEndWithTime | snappy_measurements/measure_snappy_jobs.py:75-86 | every line ends with the writer's timestamp |
| SnappyTiming.NoResultsNoLines | snappy_measurements/measure_snappy_jobs.py:69-72 | a submission without results or resource results gives no line |
| LegacySnappyTiming.Match | measure_snappy_jobs.py:115-116 | a match consists of three token starts, each the start of a `\s\d+\.\d+s` token |
| LegacySnappyTiming.ParseLegacyChoice | measure_snappy_jobs.py:115-119 | the pattern matches exactly when three tokens fit in order, and then reports the triple the backtracking engine reaches first (the greatest fitting one) |
| LegacySnappyTiming.ChainComplete | measure_snappy_jobs.py:115-116 | the backtracking search finds a chain whenever one fits and never passes over one it would try first |
| LegacySnappyTiming.LastTokenWins | measure_snappy_jobs.py:115 | on one line the third value comes from the last token: the greedy `.*` skips every earlier one |
| LegacySnappyTiming.WholeSecondsNoToken | measure_snappy_jobs.py:115 | whole seconds (`9s`) are not a token: the decimal point is required |
| LegacySnappyTiming.SharedTags | measure_snappy_jobs.py:38-49 | every extracted point carries the clock reading in truncated nanoseconds, the hardware id `"unknown"`, and the quoted title and OS description with `unknown` defaults |
| LegacySnappyTiming.DurationPoints | measure_snappy_jobs.py:66-83 | every duration point belongs to a tracked job the id ends with and carries the truthy duration |
| LegacySnappyTiming.ExtractedJobs | measure_snappy_jobs.py:63-105 | only the tracked jobs and the boot job give points |
| LegacySnappyTiming.ResourceResultsIgnored | measure_snappy_jobs.py:49 | resource results never reach the writer |
| LegacySnappyTiming.TrackedJobPoint | measure_snappy_jobs.py:66-83 | a tracked job with a truthy duration yields exactly one point carrying it |
| LegacySnappyTiming.NoSuffixNoPoint | measure_snappy_jobs.py:66-69 | an id with no tracked suffix, or a missing or falsy duration, yields no duration point |
| LegacySnappyTiming.BootupPoint | measure_snappy_jobs.py:85-105 | the boot job yields the third parsed value when the log matches and nothing otherwise |
| LegacySnappyTiming.SqlInsertsTemplate | measure_snappy_jobs.py:51-61 | line `i` is the older `snap_timing` insert (no core revision) carrying point `i`'s job name and elapsed value with the writer's project, hardware and OS tags and its timestamp; there is one line per point |
| LegacySnappyTiming.SqlInsertsEndWithTime | measure_snappy_jobs.py:52-61 | every line ends with the writer's single timestamp |
| DataPoints.FitsTwo | kpi-tools/influx_push.py:28-30 | `isanyinstance` over two types holds exactly when the value is an instance of one of them |
| DataPoints.AllErrors | kpi-tools/influx_push.py:102-103 | the collected problem list is empty exactly when every point validates |
| DataPoints.Mandatory | kpi-tools/influx_push.py:55-64 | a required field gives at most one problem: `missing` exactly when absent, none exactly when present with an accepted type |
| DataPoints.Optional | kpi-tools/influx_push.py:65-71 | an optional field gives no problem when absent or well typed, otherwise exactly one type problem |
| InfluxPush.ValidatePoint | kpi-tools/influx_push.py:44-45 | a non-object gives exactly the one `not a dict` problem; at most four problems in all |
| InfluxPush.ValidatePointMeaning | kpi-tools/influx_push.py:33-72 | no problem exactly for a valid point; a field is reported missing exactly when it is `measurement` or `fields` and absent |
| InfluxPush.BoolTimeAccepted | kpi-tools/influx_push.py:65-71 | a boolean `time` passes, since `isinstance` counts `bool` as `int` |
| InfluxPush.HostWithoutPort | kpi-tools/influx_push.py:93-95 | a host without `:` gets port 8086 |
| InfluxPush.HostWithPort | kpi-tools/influx_push.py:93-95 | `host:port` gives that host and the integer port, and fails exactly when the port is not a signed run of digits (`_` separators are not modelled) |
| InfluxPush.Push | kpi-tools/influx_push.py:96-111 | a write happens only for decoded data whose points all validate; an abort carries at least one problem |
| InfluxPush.SingleObjectListified | kpi-tools/influx_push.py:100-101 | a single object is pushed as a one-element list |
| InfluxPush.PushWritesIffValid | kpi-tools/influx_push.py:102-111 | the points are written exactly when all of them are valid |
| DbBridge.ValidatePoint | db-bridge/db-bridge-app/influx.py:21-22 | a non-object gives exactly the one `not a dict` problem; at most four problems |
| DbBridge.ValidatePointMeaning | db-bridge/db-bridge-app/influx.py:10-40 | no problem exactly for a valid point; a field is reported missing exactly when it is one of the four and absent |
| DbBridge.BoolTimeRejected | db-bridge/db-bridge-app/influx.py:36 | a boolean `time` is rejected, since its exact type is `bool` |
| DbBridge.Points | db-bridge/db-bridge-app/influx.py:67 | a payload without `measurements` has no points: the lookup raises and the framework answers 500 |
| DbBridge.Handle | db-bridge/db-bridge-app/influx.py:59-60 | the status is 200, 400 or 500, and a request that is not JSON gets 400 `Not json!` |
| DbBridge.BodyErrors | db-bridge/db-bridge-app/influx.py:61-69 | a decode error is answered exactly for a JSON request whose text the decoder rejects; a body that is not UTF-8 escapes the handler's `except` and gets the framework's 500 |
| DbBridge.WritePointsOkIff | db-bridge/db-bridge-app/influx.py:70-80 | success exactly when every point is valid and the write returns a truthy value; any invalid point answers 400 with all problems |
| DbBridge.HandleOkIff | db-bridge/db-bridge-app/influx.py:57-80 | the request succeeds exactly when it is JSON naming a database with iterable measurements, every point is valid and the write returns a truthy value |
| DbBridge.InvalidPointNoWrite | db-bridge/db-bridge-app/influx.py:71-74 | an invalid point answers 400 whatever the database would have done: nothing is written |
| DbBridge.EmptyListWritten | db-bridge/db-bridge-app/influx.py:71-80 | an empty list of points is valid and written |
| PrivatePpa.Slugify | add_private_ppa.py:95-106 | the slug has the name's length and replaces exactly the ten unsafe characters by `-`, keeping every other character |
| PrivatePpa.SlugifyIdempotent | add_private_ppa.py:62-106 | a slug holds no unsafe character, and slugifying it again changes nothing |
| PrivatePpa.SlugifySafe | add_private_ppa.py:68-71 | a name without unsafe characters is its own slug |
| PrivatePpa.StripBlanks | add_private_ppa.py:158 | `urlparse` first strips the leading C0 controls and spaces: what is dropped is all blanks, and what is kept starts with none |
| PrivatePpa.DropRemovedConcat | add_private_ppa.py:158 | removing tabs, carriage returns and line feeds from two pieces is removing them from the whole |
| PrivatePpa.Clean | add_private_ppa.py:158 | the text `urlparse` parses holds no tab or line break, starts with the first non-blank character of the URL, is empty exactly when the URL is all blanks, and is the URL itself when the URL has neither |
| PrivatePpa.CleanIdempotent | add_private_ppa.py:158 | cleaning a cleaned URL changes nothing |
| PrivatePpa.CleanSkipsLeadingBlanks | add_private_ppa.py:158 | blanks in front of a URL do not change the text parsed |
| PrivatePpa.CleanSkipsRemoved | add_private_ppa.py:158 | a tab or line break after the first character does not change the text parsed |
| PrivatePpa.CleanAbsent | add_private_ppa.py:158 | cleaning adds no character |
| PrivatePpa.SplitScheme | add_private_ppa.py:158 | text without `:` has no scheme and is all rest |
| PrivatePpa.SchemeOf | add_private_ppa.py:158 | in the cleaned text (`Clean` has already removed tabs and line breaks), a valid scheme and its colon give the lower-cased scheme and the rest unchanged |
| PrivatePpa.PathOf | add_private_ppa.py:158-159 | `urlparse` raises exactly when the text starts with `//` and its network location holds one of `[` and `]` without the other; without `//` the path is a prefix of the text |
| PrivatePpa.PathAfterHost | add_private_ppa.py:158-159 | after `//host`, for a host without brackets, the path is what follows the host up to a query or fragment |
| PrivatePpa.UnbalancedHostRaises | add_private_ppa.py:158 | a host holding only one of `[` and `]` makes `urlparse` raise, whatever follows it |
| PrivatePpa.ExtractPpaName | add_private_ppa.py:158-162 | a name exactly when `urlparse` does not raise and the path starts with `/`, and then the path is `/` followed by the name |
| PrivatePpa.NameOfCleaned | add_private_ppa.py:158-162 | the name of a URL is the name of its cleaned text |
| PrivatePpa.LeadingBlanksIgnored | add_private_ppa.py:158-162 | C0 controls and spaces in front of a URL do not change its name |
| PrivatePpa.RemovedIgnored | add_private_ppa.py:158-162 | a tab or line break after the first character does not change the name |
| PrivatePpa.PpaNameOfUrl | add_private_ppa.py:139-143 | round trip: `scheme://host/name` gives back `name`, for a host without brackets and a name and host without tabs or line breaks |
| PrivatePpa.InnerTabRemoved | add_private_ppa.py:158-162 | a tab inside the name is dropped: `scheme://host/front<TAB>back` gives `front` then `back` |
| PrivatePpa.LeadingTabIgnored | add_private_ppa.py:158-162 | a path behind a tab, `<TAB>/name`, gives back `name` |
| PrivatePpa.LeadingTabExample | add_private_ppa.py:158-162 | `<TAB>/name` gives `name` |
| PrivatePpa.BareHostRejected | add_private_ppa.py:148-151 | a bare `scheme://host` is not a PPA address |
| PrivatePpa.UnbalancedHostRejected | add_private_ppa.py:158-161 | `scheme://host…` with only one of `[` and `]` in the host is not a PPA address |
| PrivatePpa.UnclosedBracketExample | add_private_ppa.py:158-161 | `https://[host/name` is not a PPA address |
| PrivatePpa.NoSchemeRejected | add_private_ppa.py:153-156 | text with no colon whose first character after the leading blanks is not `/` is not a PPA address |
| PrivatePpa.NoSlashNoPath | add_private_ppa.py:158-161 | without a scheme, a text not starting with `/` has a path not starting with `/` |
| PrivatePpa.PathOnlyAccepted | add_private_ppa.py:158-162 | text with no colon, query, fragment or parameters whose cleaned form starts with a single `/` has the rest of the cleaned form as its name |
| PrivatePpa.FilesAreDirectChildren | add_private_ppa.py:125-173 | both files are direct children of their directories: the slug cannot add a `/` |
| PrivatePpa.AuthContentsLines | add_private_ppa.py:117-123 | read back line by line, the credentials file holds the three settings |
| PrivatePpa.SourcesContentsLines | add_private_ppa.py:175-180 | read back line by line, the sources list holds the `deb` and `deb-src` entries |
| PrivatePpa.CreateIfAbsent | add_private_ppa.py:126-131 | an existing file is left as it was; otherwise the file is created with the contents; no other path changes |
| PrivatePpa.AuthIsNotSources | add_private_ppa.py:125-173 | the credentials file and the sources list of a PPA are different paths |
| PrivatePpa.InstallNeverOverwrites | add_private_ppa.py:211-223 | a non-PPA URL stops the run and writes nothing; otherwise no earlier file changes and the credentials file is in place (with the run's contents when it was absent); a failing `apt-key` or `lsb_release` (lines 48-59 and 193-208, through `neatly_run_command`) stops the run with only the credentials file added; a full run adds at most the two files, the sources list with the run's codename where it was absent |
| PrivatePpa.InstallIdempotent | add_private_ppa.py:126-190 | running the installer again leaves the files as the first run did |
| ProjectKpis.OptionalInt | kpi-tools/ce_proj_kpis.py:37-54 | text with no digit (`''`, `-`, `two`) gives no integer |
| ProjectKpis.OptionalIntOfString | kpi-tools/ce_proj_kpis.py:41-46 | round trip: a rendered integer, negative or zero too, reads back as itself |
| ProjectKpis.OptionalPercent | kpi-tools/ce_proj_kpis.py:56-77 | a percentage is read only from text ending in `%`, and the number before the sign is 100 times the result |
| ProjectKpis.OptionalPercentOfInt | kpi-tools/ce_proj_kpis.py:61-66 | round trip: `n%` reads as n/100, for negative `n` too |
| ProjectKpis.KeepCurrencyChars | kpi-tools/ce_proj_kpis.py:99-102 | the filtered text is no longer than the cell and holds only `0123456789-.` |
| ProjectKpis.KeepConcat | kpi-tools/ce_proj_kpis.py:99-102 | filtering a concatenation filters each part |
| ProjectKpis.KeepAll | kpi-tools/ce_proj_kpis.py:99-102 | text made only of kept characters passes unchanged |
| ProjectKpis.KeepNone | kpi-tools/ce_proj_kpis.py:99-102 | text with no kept character vanishes |
| ProjectKpis.CurrencyOfAmount | kpi-tools/ce_proj_kpis.py:81-93 | a currency sign or code before an integer amount is ignored (`$42`, `USD200`, `$-100`) |
| ProjectKpis.CurrencyThousands | kpi-tools/ce_proj_kpis.py:90-91 | a thousands separator is dropped: `$10,000` is ten thousand |
| ProjectKpis.CurrencyInnerMinus | kpi-tools/ce_proj_kpis.py:89-94 | a `-` after the first kept character makes the cell no number (`$-10-10`) |
| ProjectKpis.FromRow | kpi-tools/ce_proj_kpis.py:108-137 | a row makes a project exactly when it reaches the last column read; each field is its `FIELDS` factory applied to its `FIELDS` column (budget variance J as a percentage, line of business C, NPS N, ROI Q, scope creep M, status B, time to market G, planned and actual effort H and I, revenue O and cost P as currency) |
| ProjectKpis.LastColumnOfFields | kpi-tools/ce_proj_kpis.py:108-120 | column 16 (Q) is the highest column `FIELDS` reads, so a shorter row raises `IndexError` |
| ProjectKpis.FromRowReadsFields | kpi-tools/ce_proj_kpis.py:131-137 | rows that agree on the `FIELDS` columns make the same project: no other cell is read |
| ProjectKpis.GetProjects | kpi-tools/ce_proj_kpis.py:144-160 | at most one project per row, and every project's lower-cased status is one of the three valid ones |
| ProjectKpis.GetProjectsKept | kpi-tools/ce_proj_kpis.py:150-160 | the projects are exactly those of the rows with at least two cells, a valid status and every column, in sheet order |
| ProjectKpis.GetProjectsConcat | kpi-tools/ce_proj_kpis.py:151-159 | reading a sheet in two parts gives the two parts' projects in order |
| ProjectKpis.LobTotalsIgnores | kpi-tools/ce_proj_kpis.py:175-185 | a project of another line of business, or one without actual effort and cost, changes no total |
| ProjectKpis.PlannedNeedsActual | kpi-tools/ce_proj_kpis.py:178-181 | planned effort is summed only for projects that report actual effort |
| ProjectKpis.MetricValues | kpi-tools/ce_proj_kpis.py:193-198 | at most one value per project, and none exactly when no project of the line has the metric without being excluded |
| ProjectKpis.AnyAveragedExists | kpi-tools/ce_proj_kpis.py:195-199 | some project contributes exactly when one of them has the metric, is not excluded and belongs to the line |
| ProjectKpis.MetricValuesAppend | kpi-tools/ce_proj_kpis.py:195-198 | the list comprehension: a further project adds its value at the end exactly when it has the metric, is not excluded and belongs to the line |
| ProjectKpis.MetricValuesWithin | kpi-tools/ce_proj_kpis.py:195-198 | every value is the metric of a contributing project: bounds on those bound the values |
| ProjectKpis.ExcludedNotAveraged | kpi-tools/ce_proj_kpis.py:195-198 | an excluded project never enters an average |
| ProjectKpis.MeanOf | kpi-tools/ce_proj_kpis.py:199-200 | an average is posted exactly when some project of the line contributes a value |
| ProjectKpis.MeanOfExact | kpi-tools/ce_proj_kpis.py:199-200 | the posted average is exact: times the number of contributing projects it is the sum of their values |
| ProjectKpis.MeanOfAppend | kpi-tools/ce_proj_kpis.py:195-200 | a further contributing project makes the average the old values' sum plus its value, over one more |
| ProjectKpis.SumAppend | kpi-tools/ce_proj_kpis.py:199-200 | a sum grows by the value appended |
| ProjectKpis.MeanWithin | kpi-tools/ce_proj_kpis.py:195-200 | the average lies between the least and the greatest value a contributing project has |
| ProjectKpis.Variance | kpi-tools/ce_proj_kpis.py:186-188 | set exactly when both effort totals are nonzero, and then variance times planned is actual minus planned |
| ProjectKpis.Roi | kpi-tools/ce_proj_kpis.py:189-191 | set exactly when cost and revenue are nonzero, and then ROI times cost is revenue minus cost |
| ProjectKpis.StatusCount | kpi-tools/ce_proj_kpis.py:202-203 | a line never counts more projects than there are |
| ProjectKpis.StatusCountAppend | kpi-tools/ce_proj_kpis.py:202-203 | the `Counter` of the line's statuses grows by one for a further project of the line with exactly that status, and otherwise stays |
| ProjectKpis.ActiveIsCaseSensitive | kpi-tools/ce_proj_kpis.py:202-204 | the count is case-sensitive: a project whose status is not exactly `In-progress` does not add to the active count |
| ProjectKpis.AllCounts | kpi-tools/ce_proj_kpis.py:201-205 | two count entries per line of business |
| ProjectKpis.CountEntries | kpi-tools/ce_proj_kpis.py:204-205 | the `i`-th line's entries are its `In-progress` and `Delivered` counts under `<lob>_active_projects` and `<lob>_delivered_projects` |
| ProjectKpis.ToDictLast | kpi-tools/ce_proj_kpis.py:166-204 | a key assigned last keeps the value assigned |
| ProjectKpis.CountKeysDiffer | kpi-tools/ce_proj_kpis.py:204-205 | no line's active key equals a delivered key, and distinct lines have distinct active keys |
| ProjectKpis.ActiveCountPosted | kpi-tools/ce_proj_kpis.py:166-205 | for distinct lines of business, the posted dict holds each line's active-project count under its key |
| ProjectKpis.LaterCountKey | kpi-tools/ce_proj_kpis.py:201-205 | no later count entry overwrites a line's active count |
| HarvestStats.AllStatusesComplete | kpi-tools/harvest_stats.py:30-33 | every counted status is in the script's status list |
| HarvestStats.StatusNamed | kpi-tools/harvest_stats.py:30-33 | a Launchpad status name reads as the status of that name; a name outside the list is no status (a missing counter key) |
| HarvestStats.NameInjective | kpi-tools/harvest_stats.py:30-33 | distinct statuses have distinct Launchpad names |
| HarvestStats.StatusNamedName | kpi-tools/harvest_stats.py:30-33 | round trip: a status's name reads back as the status |
| HarvestStats.InfluxNameInjective | kpi-tools/harvest_stats.py:97-109 | distinct statuses go to distinct measurements |
| HarvestStats.Zeros | kpi-tools/harvest_stats.py:39 | a fresh counter holds every status at zero |
| HarvestStats.TotalBump | kpi-tools/harvest_stats.py:252-253 | adding `delta` to one status adds `delta` to the counter's total |
| HarvestStats.DayStamp | kpi-tools/harvest_stats.py:113 | a day's stamp is a whole number of seconds in nanoseconds |
| HarvestStats.DayStampMonotone | kpi-tools/harvest_stats.py:113 | later days have later stamps |
| HarvestStats.Bump | kpi-tools/harvest_stats.py:252-253 | a counter change succeeds exactly for a counted status name |
| HarvestStats.FirstStatusChange | kpi-tools/harvest_stats.py:241-245 | the found activity is the first status change of the project, and none means there is none |
| HarvestStats.TimeToFix | kpi-tools/harvest_stats.py:255-266 | the whole hours from confirmation (else triage, else creation) are rounded down, and the record is stamped with the fix's day |
| HarvestStats.FixRecords | kpi-tools/harvest_stats.py:255-267 | one time-to-fix record exactly when the fix date is set |
| HarvestStats.ProcessBug | kpi-tools/harvest_stats.py:233-285 | processing a bug appends exactly its time-to-fix-committed and time-to-fix-released records |
| HarvestStats.BumpTotals | kpi-tools/harvest_stats.py:252-253 | a counter change moves the total of its own day only |
| HarvestStats.ApplyChangesFails | kpi-tools/harvest_stats.py:241-253 | applying a bug's activity fails exactly on an in-window status change to or from an uncounted status |
| HarvestStats.MoveTotals | kpi-tools/harvest_stats.py:252-253 | one status down and another up on the same day keeps every day's total |
| HarvestStats.ApplyChangesTotals | kpi-tools/harvest_stats.py:241-253 | in-window status changes leave every day's total unchanged |
| HarvestStats.ProcessBugTotals | kpi-tools/harvest_stats.py:233-285 | a bug fails exactly on an uncounted birth status or bad change; otherwise it adds exactly one bug, on its creation day |
| HarvestStats.OutsideWindowIgnored | kpi-tools/harvest_stats.py:246-250 | status changes before `since` or after `until` change nothing |
| HarvestStats.BirthOnly | kpi-tools/harvest_stats.py:240-285 | with no in-window change, the bug's birth status (the old value of its first status change, else its current status) gains one on its creation day |
| HarvestStats.Step | kpi-tools/harvest_stats.py:88-91 | one day of the timeline has exactly the keys of the previous day |
| HarvestStats.TimelineFromEntries | kpi-tools/harvest_stats.py:87-93 | each day from the cursor on holds the counts it started from plus every change since; other days are untouched |
| HarvestStats.GenerateTimeline | kpi-tools/harvest_stats.py:81-93 | fails exactly when a day is to be computed and the base counter lacks a status |
| HarvestStats.GenerateTimelineEntries | kpi-tools/harvest_stats.py:81-93 | each day from `since` to yesterday holds the base counts plus all changes from `since` to that day; nothing else moves |
| HarvestStats.TimelineSteps | kpi-tools/harvest_stats.py:88-92 | consecutive days differ by exactly the later day's changes |
| HarvestStats.RunHarvest | kpi-tools/harvest_stats.py:43-60 | the run stops early exactly when `since` is past `until` |
| HarvestStats.UpToDateIff | kpi-tools/harvest_stats.py:43-60 | the run stops early exactly when the stored date is the last second of yesterday or later |
| HarvestStats.HarvestedCoversYesterday | kpi-tools/harvest_stats.py:43-93 | a harvest computes yesterday, which `dump_last_stats` reads; when the stored date ends a day, the next day continues from the stored counts |
| HarvestStats.RankIsNameOrder | kpi-tools/harvest_stats.py:111 | the status order used for records is the order `sorted` gives their names |
| HarvestStats.SortedDays | kpi-tools/harvest_stats.py:110 | the days in strictly ascending order, exactly the timeline's days |
| HarvestStats.DayRecordsShape | kpi-tools/harvest_stats.py:111-117 | a day's records are ordered by status name, and each reports its day's count of one status the counter holds |
| HarvestStats.DayRecordsComplete | kpi-tools/harvest_stats.py:111-117 | every status the counter holds has its record |
| HarvestStats.OrderedConcat | kpi-tools/harvest_stats.py:110-117 | two ordered runs, the first wholly before the second, make an ordered run |
| HarvestStats.GenerateRecords | kpi-tools/harvest_stats.py:95-118 | records are ordered by day and then by status name |
| HarvestStats.RecordSource | kpi-tools/harvest_stats.py:110-117 | every record reports a day's count of one status of the timeline |
| HarvestStats.RecordFor | kpi-tools/harvest_stats.py:110-117 | every day and status of the timeline has its record |
| HarvestStats.BundlesAsWritten | kpi-tools/harvest_stats.py:184-186 | as written, one bundle per 100 points, each non-empty and at most 1000 long |
| HarvestStats.BundleAsWrittenAt | kpi-tools/harvest_stats.py:185-186 | as written, bundle `k` is the up to 1000 points from point `100 * k` |
| HarvestStats.BundlesAsWrittenSendAll | kpi-tools/harvest_stats.py:184-186 | as written, every point is still pushed: point `i` is in bundle `i / 100` |
| HarvestStats.BundlesAsWrittenOverlap | kpi-tools/harvest_stats.py:184-186 | as written, with over 100 points the 101st is pushed in both the first and second bundles |
| HarvestStats.BundlesAsWrittenRepeat | kpi-tools/harvest_stats.py:184-186 | as written, point `i` is pushed in every bundle `k` with 100k ≤ i < 100k + 1000, so up to ten times |
| HarvestStats.Bundles | kpi-tools/harvest_stats.py:182-186 | as intended: ⌈n/1000⌉ non-empty bundles of at most 1000 points which, concatenated, are the points in order, so each is pushed once |
| SnapAvailability.MatchesSpec | snap-update-tools/check_snap_availability.py:99-103 | a result is readable exactly when it has the keys looked up, and matches exactly when its name and revision version are the snap's |
| SnapAvailability.AnyMatchMeaning | snap-update-tools/check_snap_availability.py:105 | `True` means some result describes the snap; `False` means none does |
| SnapAvailability.IsSnapFound | snap-update-tools/check_snap_availability.py:91-105 | an answer needs a `results` list; `True` exactly when one of its results describes the snap |
| SnapAvailability.FoundIff | snap-update-tools/check_snap_availability.py:91-105 | on a response whose results are all readable, the snap is found exactly when some result has its name and version |
| SnapAvailability.FoundIgnoresChannelArch | snap-update-tools/check_snap_availability.py:62-103 | channel and architecture play no part in reading the response; only the query selects them |
| SnapAvailability.Matrix | snap-update-tools/check_snap_availability.py:132-136 | names times architectures snaps |
| SnapAvailability.MatrixOnly | snap-update-tools/check_snap_availability.py:132-136 | every snap of the matrix has the run's version and channel and a requested name and architecture |
| SnapAvailability.MatrixAt | snap-update-tools/check_snap_availability.py:132-136 | name by name: the snap of name `i` and architecture `j` is at `i * |arches| + j` |
| SnapAvailability.MatrixMembers | snap-update-tools/check_snap_availability.py:132-136 | a snap is in the matrix exactly when its name and architecture were requested, with the run's version and channel |
| SnapAvailability.ArchesAsWritten | snap-update-tools/check_snap_availability.py:117-122 | as written, the option appends to the default: the list is `amd64` followed by the given architectures |
| SnapAvailability.DefaultArchAlwaysChecked | snap-update-tools/check_snap_availability.py:117-136 | as written, `amd64` is checked for every name even when other architectures are requested |
| SnapAvailability.Arches | snap-update-tools/check_snap_availability.py:117-122 | as intended: the given architectures when there are any, never empty |
| SnapAvailability.MatrixOfRequestedArches | snap-update-tools/check_snap_availability.py:132-136 | with the intended option, exactly the requested architectures are checked |
| SnapAvailability.Round | snap-update-tools/check_snap_availability.py:143-154 | a round keeps the map's keys and never turns a `True` flag back |
| SnapAvailability.RoundFlags | snap-update-tools/check_snap_availability.py:143-154 | a flag turns `True` only on an answer that finds the snap; a failed request leaves the flag as it was |
| SnapAvailability.Poll | snap-update-tools/check_snap_availability.py:141-159 | polling keeps the keys and the found snaps, and stops before the deadline only when everything is found |
| SnapAvailability.StopsWhenAllFound | snap-update-tools/check_snap_availability.py:156-157 | polling stops right after the first round that finds every snap |
| SnapAvailability.NotFound | snap-update-tools/check_snap_availability.py:162-166 | the snaps still not found are listed, each once |
| SnapAvailability.ExitStatus | snap-update-tools/check_snap_availability.py:167-173 | the exit status is 0 or 1 |
| SnapAvailability.ExitStatusIff | snap-update-tools/check_snap_availability.py:156-173 | the run exits 0 exactly when every snap was found |
| Checklists.FindChecklistFirst | trello-board-updater.py:29-35 | the search finds the first checklist with the name, and nothing exactly when no checklist has it |
| Checklists.FindOrCreate | trello-board-updater-desktop.py:54-66 | the returned index names a checklist with the requested name |
| Checklists.FindOrCreateKeeps | trello-board-updater-desktop.py:54-66 | an existing checklist is reused and nothing changes; otherwise one is appended holding one `(NO RESULTS)` placeholder per expected entry |
| Checklists.FindOrCreateIdempotent | trello-board-updater-desktop.py:54-66 | a second search for the same name reuses what the first found or made |
| Checklists.FindOrCreateFinds | trello-board-updater-desktop.py:54-66 | searching afterwards finds the checklist that was found or made |
| Checklists.FoundStaysFound | trello-board-updater.py:29-35 | a found checklist stays at its place when checklists are appended or items change |
| Checklists.KeyMeaning | trello-board-updater-desktop.py:69-75 | a key exists exactly when the pattern can match; the lazy key (desktop) ends at the first ` (`, the greedy key (image-testing updater, line 50 of trello-board-updater-image-testing.py) at the last |
| Checklists.KeyInName | trello-board-updater-desktop.py:71-73 | the key is a piece of the name it comes from |
| Checklists.ChangeItemMeaning | trello-board-updater-desktop.py:69-82 | a name without a key is rejected; no item holding the key means no match; otherwise exactly the first item holding the key takes the new name and state |
| Checklists.ChangeItemIdempotent | trello-board-updater-desktop.py:69-82 | reporting the same entry twice changes nothing the second time |
| Checklists.NameLookupsHitMatch | trello-board-updater-desktop.py:76-77 | no earlier item has the matched item's name or the new name, so the rename and the check hit the matched item |
| Checklists.ItemNameKey | trello-board-updater-desktop.py:70-73 | an entry `<sut> (…)` has key `<sut> ` when the SUT name holds no ` (`: lazily always, greedily when the rest holds none either |
| Checklists.SutItemMatches | trello-board-updater-desktop.py:63-75 | the SUT's next entry finds its item, whether it holds an earlier result or the `(NO RESULTS)` placeholder |
| Checklists.NoNewFailsInContext | trello-board-updater-desktop.py:85-92 | the verdict only looks for the two phrases, so text around a clean summary keeps it clean |
| CardTitle.SepIff | trello-board-manager.py:55-56 | the separator `\s+-\s+` from a position ends exactly within the span the scanner reports |
| CardTitle.BracketedFirst | trello-board-manager.py:56 | the bracketed group matches when a match exists, and then at the earliest closing position |
| CardTitle.FieldsFirst | trello-board-manager.py:54-56 | the three-group match is found exactly when one exists, and it is the first in the regular-expression engine's backtracking order |
| CardTitle.ParseTitleOf | trello-board-manager.py:54-74 | the snap, version, revision and optional track groups are the pieces between the match's cut points |
| CardTitle.HeadParses | trello-board-manager.py:54-56 | a title starting `snap - version - (revision)` reads back as those three fields |
| CardTitle.FormatParses | trello-board-updater.py:74-79 | round trip: the title the updater gives a new card reads back through the manager's pattern (lines 54-56 of trello-board-manager.py) as its snap, version, revision and track (none when empty) |
| SnapUpdater.NormaliseTrackCases | trello-board-updater.py:61 | a track without the placeholder is used as given, and the bare placeholder means no track |
| SnapUpdater.FirstNamed | trello-board-updater.py:69-72 | the first open list with the name, or none exactly when no open list has it |
| SnapUpdater.UpdateCreates | trello-board-updater.py:65-87 | the run crashes exactly when no card is found and no open list is named after the channel; a new card sits in the first such list and its title reads back as the snap, version, revision and track |
| SnapUpdater.UpdateRecords | trello-board-updater.py:87-110 | the Testflinger checklist gains exactly the run's entry, other checklists are unchanged, a Sign-Off checklist exists (the card's own if it had one), and the crash label is there exactly when it was before or the run had no C3 link and the board has the label |
| SnapUpdater.RecordRunRecords | trello-board-updater.py:88-110 | recording a run on any checklists leaves them as described above |
| SnapUpdater.AddedKeepsNames | trello-board-updater.py:90-94 | adding an item renames nothing and changes only its own checklist |
| ImageUpdater.FirstStartingFirst | trello-board-updater-image-testing.py:23-26 | the first open card whose title starts with the escaped pattern, or none when no card does |
| ImageUpdater.PlaceChooses | trello-board-updater-image-testing.py:92-114 | an open `image - version…` card is reused exactly when one exists; otherwise a card `image - version` is made, the first open card of the image is archived when there is one, and the first `Images` list (or a new one) takes the card |
| ImageUpdater.ArchivedIsOther | trello-board-updater-image-testing.py:98-103 | an archived card belongs to the image but not to this version |
| ImageUpdater.RerunReuses | trello-board-updater-image-testing.py:92-114 | once a card `image - version` is open, the next run reuses an open card and archives nothing |
| ImageUpdater.RecordMeaning | trello-board-updater-image-testing.py:130-134 | the entry ends up in the list with the run's result; at most one item changes, or the entry is appended |
| ImageUpdater.RecordReplaces | trello-board-updater-image-testing.py:48-59 | a device's earlier entry is replaced, not duplicated, when the rest of the entry holds no ` (` |
| ImageUpdater.WorkRecords | trello-board-updater-image-testing.py:115-134 | title and labels stay, the summary comment is appended, existing checklists keep their names, and the Testflinger checklist holds the run's entry with its verdict |
| SnapBoard.PromotionClimbs | trello-board-manager.py:31-36 | promotion moves exactly one risk level up, so a card can only travel edge, beta, candidate, stable in that order |
| SnapBoard.OpenLane | trello-board-manager.py:97-101 | the lane found is an open lane with the name searched for |
| SnapBoard.MoveCardShape | trello-board-manager.py:52-101 | a title the pattern rejects does nothing; every action but the last is an archive; the card is moved exactly when the last action is a move, and then to the first open lane named after the lane's promotion channel |
| SnapBoard.OtherTracksIgnored | trello-board-manager.py:72-76 | channel-map entries of other tracks are never looked at |
| SnapBoard.IncompleteIgnored | trello-board-manager.py:78-83 | channel entries without a version or revision are skipped |
| SnapBoard.FirstPromoted | trello-board-manager.py:93-101 | the first entry showing the card's version and revision in the promotion channel, or none exactly when no entry does |
| SnapBoard.ScanInfosDecides | trello-board-manager.py:75-101 | scanning a track's open channels archives the card once per entry of its own lane with another revision, up to the first entry showing the promotion, and then moves the card (stopping); with no such entry it is not moved |
| SnapBoard.ScanInfosConcat | trello-board-manager.py:75-101 | scanning two runs of entries is scanning one after the other |
| SnapBoard.MoveCardDecides | trello-board-manager.py:52-101 | on a well-formed store answer, `move_card` is the closed-form decision over the open channels of the card's track, in the answer's order |
| SnapBoard.LaneIsNotNext | trello-board-manager.py:84-86 | a lane's own channel is never its promotion channel, for any track |
| SnapBoard.LaneRun | trello-board-manager.py:125-130 | a lane's cards are decided one after the other, in listing order, each by the lane's decision; the board's cards only grow, by cards moved without being archived |
| SnapBoard.RunFrom | trello-board-manager.py:122-130 | every decision of a run belongs to a processed lane, lanes are taken in board order, and each decision is the lane's decision on the card |
| SnapBoard.ListedDecided | trello-board-manager.py:122-130 | the cards a processed lane holds when its turn comes are all decided there, in order, as one block of the run |
| SnapBoard.MovedDecidedAgain | trello-board-manager.py:122-130 | a card moved without archiving into a processed lane later on the board is decided again there, later in the run, because the lane is listed only when its turn comes |
| SnapBoard.BoardMovedDecidedAgain | trello-board-manager.py:122-130 | the same for a whole run from the first lane |
| SnapBoard.RunFromExplained | trello-board-manager.py:122-130 | every decided card was in its lane at the start or was brought there by an earlier decision of the run |
| SnapBoard.BoardExplained | trello-board-manager.py:122-130 | the same for a whole run: no card is decided in a lane it never reached |
| SnapBoard.OtherLanesUntouched | trello-board-manager.py:122-124 | a lane whose lower-cased name is not edge, beta or candidate gets no outcome: none of its cards is archived or moved |
| SnapBoard.OnlyPromotedMoves | trello-board-manager.py:122-130 | every decision is `move_card` on a card listed in an Edge, Beta or Candidate lane; a moved card goes, as its last action, to an open lane named after the next risk level (Edge to Beta, Beta to Candidate, Candidate to Stable) |
| SnapBoard.InitialCardsDecided | trello-board-manager.py:122-127 | every card an Edge, Beta or Candidate lane holds when the board is listed is decided by `move_card` in that lane, in order |
| SnapBoard.PromotedDecidedAgain | trello-board-manager.py:95-130 | a card promoted out of Edge or Beta, without archiving, into a lane further along the board is decided again in that lane later in the same run, so it can climb two levels in one run |
| SnapBoard.DecisionsExplained | trello-board-manager.py:122-130 | every card decided in a lane was in it when the board was listed or was moved there, without archiving, by an earlier decision |
| SruBugManager.CardSnapVersionOfTitle | trello-sru-bug-manager.py:128-135 | round trip: a title the snap board updater writes reads back as its snap and version |
| SruBugManager.SetKeyLookup | trello-sru-bug-manager.py:49 | after the assignment the key reads as the new value, and every other key as before |
| SruBugManager.RecordsFromMeaning | trello-sru-bug-manager.py:40-52 | the records are the leading run of mapping values in file order, each tagged with its own key; loading stops at the first value that is no mapping |
| SruBugManager.RecordsTagged | trello-sru-bug-manager.py:47-50 | every loaded record names the bug it was filed under |
| SruBugManager.SearchFirst | trello-sru-bug-manager.py:57-64 | the search hits the first record with the version and the snap's certification target, raises at the first record it cannot read, and misses exactly when every record answers no |
| SruBugManager.FindSruBug | trello-sru-bug-manager.py:38-64 | a bug found is one Launchpad knows |
| SruBugManager.FindSruBugMeaning | trello-sru-bug-manager.py:38-64 | a found bug is the first matching record's key, and no bug exactly when every record answers no |
| SruBugManager.TaskIndexFirst | trello-sru-bug-manager.py:98-102 | `get_task_state` finds the first task whose text contains the name, and fails exactly when none does |
| SruBugManager.SetThenGet | trello-sru-bug-manager.py:98-108 | setting a task's state changes only the tasks whose text contains the name, keeps every text, and the task `get_task_state` then finds has the new state |
| SruBugManager.Promote | trello-sru-bug-manager.py:203-207 | marking the certification task and commenting leaves the bug settled |
| SruBugManager.GetLaneFirst | trello-sru-bug-manager.py:72-78 | the first list whose lower-cased name is the id, and a lookup error exactly when none is |
| SruBugManager.SearchCardsMeaning | trello-sru-bug-manager.py:80-85 | the search keeps exactly the cards whose title contains the text |
| SruBugManager.SearchCardsConcat | trello-sru-bug-manager.py:83-85 | the search keeps the lane's order |
| SruBugManager.ItemIndexFirst | trello-sru-bug-manager.py:122-125 | the item looked up is the first with the name, and none exactly when no item has it |
| SruBugManager.ReadyMeaning | trello-sru-bug-manager.py:153-162 | no Sign-Off checklist reads as not ready; otherwise the first Sign-Off checklist's first `Ready for Candidate` item gives the answer, and its absence raises |
| SruBugManager.NewCardNotReady | trello-sru-bug-manager.py:153-162 | a card the snap board updater has just created (lines 101-110 of trello-board-updater.py) is not ready for candidate |
| SruBugManager.CardStage | trello-sru-bug-manager.py:170-187 | a bug a card is matched to is one Launchpad knows |
| SruBugManager.StepEffect | trello-sru-bug-manager.py:182-207 | a card's step raises exactly where the script crashes; it promotes only an unsettled known bug and then sets its task and comments, changes nothing else, and leaves the card's bug settled |
| SruBugManager.RunCardsStages | trello-sru-bug-manager.py:165-207 | each card's stage is fixed for the run: the status file is fetched again while the record list is empty, and every fetch in a run is modelled as returning the same answer, so every card sees the same records |
| SruBugManager.RunKeeps | trello-sru-bug-manager.py:165-207 | a run keeps Launchpad's bugs and never unsettles one |
| SruBugManager.RunShape | trello-sru-bug-manager.py:170-207 | a run processes cards up to the first whose stage raises, or all of them |
| SruBugManager.RunSettles | trello-sru-bug-manager.py:191-207 | every card processed has its bug settled at the end |
| SruBugManager.RunComments | trello-sru-bug-manager.py:191-207 | a bug is promoted at most once and never when settled; it keeps its comments and gains one per promotion |
| SruBugManager.MainComments | trello-sru-bug-manager.py:165-207 | each bug gets at most one comment per run, exactly when the run promotes it, and keeps the comments it had |
| SruBugManager.SecondRunQuiet | trello-sru-bug-manager.py:191-207 | running again on the same board changes nothing on Launchpad and promotes nothing |
| SruBugManager.UnmatchedCrashes | trello-sru-bug-manager.py:182-188 | as written, a ready first card whose bug is not in the status file crashes the run before any card is processed; the corrected run reports it as unmatched and goes on |
| SruBugManager.MainCrashes | trello-sru-bug-manager.py:165-207 | the corrected run stops only at a card whose title parses but whose Sign-Off checklist lacks `Ready for Candidate`, or when there is no beta lane |
| SruBugManager.RaiseMeaning | trello-sru-bug-manager.py:174-180 | a card stage raises only when its title parses and its readiness lookup fails |
| DesktopBoard.CodenameOf | trello-board-manager-desktop.py:78-85 | a stack `series-…` is built on `series`, except that `oem` stands for bionic and `oem_focal` for focal |
| DesktopBoard.DigitsSound | trello-board-manager-desktop.py:129-130 | a match the digit scanner returns satisfies the pattern `\d+.\d+.\d+.\d+.\d+` |
| DesktopBoard.DigitsComplete | trello-board-manager-desktop.py:129-130 | whenever the pattern can match at a position, the scanner finds a match |
| DesktopBoard.HweVersionMeaning | trello-board-manager-desktop.py:128-130 | the version read from an HWE entry is a prefix the pattern matches, and one is read whenever some prefix matches |
| DesktopBoard.StackVersionOf | trello-board-manager-desktop.py:131-133 | for a full version `a.b.c.d.e` whose first four fields hold no `.` or `-`, the stack version is `a_b_c-d` |
| DesktopBoard.StackVersionExample | trello-board-manager-desktop.py:118-133 | the script's own example: `4.4.0.150.158` gives `4_4_0-150` |
| DesktopBoard.ReadCard | trello-board-manager-desktop.py:72-76 | a card is left alone exactly when its title does not match, and is read only when the configuration gives its stack a string architecture (a missing one raises) |
| DesktopBoard.PocketsDecide | trello-board-manager-desktop.py:91-172 | the loop over `proposed` then `updates` is the closed-form decision when both reads succeed; it raises after the first pocket's actions when the second read fails, and at once when the first fails |
| DesktopBoard.MoveCardShape | trello-board-manager-desktop.py:69-172 | a card is archived at most once and moved at most once, the move last, to the first open Updates lane, and only out of Proposed; a title that does not match is left alone |
| DesktopBoard.MoveCardDecides | trello-board-manager-desktop.py:69-172 | the card raises exactly when the architecture or a pocket's kernel cannot be read; otherwise it is archived exactly when its own pocket has another version, and moved exactly when it sits in Proposed and -updates has its image at its version, with an Updates lane open |
| DesktopBoard.OtherLanesUntouched | trello-board-manager-desktop.py:211-213 | a lane whose lower-cased name is not proposed or updates is never listed: none of its cards is archived or moved |
| DesktopBoard.OnlyProposedMoves | trello-board-manager-desktop.py:210-218 | every decision is `move_card` on a card listed in a Proposed or Updates lane; only cards of a Proposed lane move, and only to an open lane named Updates |
| DesktopBoard.InitialCardsDecided | trello-board-manager-desktop.py:210-215 | every card a Proposed or Updates lane holds when the board is listed is decided by `move_card` in that lane, in order |
| DesktopBoard.MovedRestsInUpdates | trello-board-manager-desktop.py:163-172 | a card `move_card` moves out of Proposed is neither archived nor moved when it is decided in Updates, since -updates has its version |
| DesktopBoard.MovedDecidedAgain | trello-board-manager-desktop.py:210-218 | a card moved out of Proposed into an Updates lane further along the board is decided again there later in the same run, and that decision does nothing |
| DesktopBoard.DecisionsExplained | trello-board-manager-desktop.py:210-218 | every card decided in a lane was in it when the board was listed or was moved there, without archiving, by an earlier decision |
| DesktopUpdater.SplitTwo | trello-board-updater-desktop.py:123 | splitting `first-second…` at `-` gives `first` and `second` first |
| DesktopUpdater.KernelStackOf | trello-board-updater-desktop.py:122-133 | for a job `first-second…` the stack is the series, with `-hwe` exactly when `second` is `hwe`, then bionic with an OEM kernel becomes `oem` or `oem-osp1` |
| DesktopUpdater.KernelStackNeedsDash | trello-board-updater-desktop.py:123 | the stack cannot be named exactly when the job name has no `-` |
| DesktopUpdater.HweTwice | trello-board-updater-desktop.py:122-124 | as written, an HWE job of a series already named `…-hwe` gets the stack `…-hwe-hwe` |
| DesktopUpdater.HweOnce | trello-board-updater-desktop.py:122-124 | corrected, such a job's stack is the series itself, the stack the script's own test expects |
| DesktopUpdater.KernelStackFixedAgrees | trello-board-updater-desktop.py:122-133 | the corrected rule differs from the code only for a series that already ends in `-hwe` |
| DesktopUpdater.DlvShortOf | trello-board-updater-desktop.py:167-168 | a meta package version `a.b.c.d.e` gives `a_b_c-d` |
| DesktopUpdater.DlvShortAgrees | trello-board-updater-desktop.py:167-168 | the image version the updater names is the one the board manager derives from the same version (lines 131-133 of trello-board-manager-desktop.py) |
| DesktopUpdater.SuffixAgrees | trello-board-updater-desktop.py:171-200 | for stock runs and the bionic OEM stacks, the updater's kernel flavour is the board manager's (lines 134-139 of trello-board-manager-desktop.py) |
| DesktopUpdater.ArtifactAgrees | trello-board-updater-desktop.py:141-160 | for a plain or HWE stack of a series, the updater reads the -proposed artifact the board manager reads (lines 102-114 of trello-board-manager-desktop.py) |
| DesktopUpdater.ImageAgrees | trello-board-updater-desktop.py:167-200 | the card's image package is the one the board manager derives from the same version (lines 131-139 of trello-board-manager-desktop.py) |
| DesktopUpdater.SutOf | trello-board-updater-desktop.py:248-265 | a job `…-a-b` reports SUT `a-b`, with `-dgx-station`/`-dgx-1` on the argos queue and `-oem` for OEM xenial runs |
| DesktopUpdater.SignOffMeaning | trello-board-updater-desktop.py:286-290 | a Sign-Off checklist is added only when the card has none; existing checklists are kept |
| DesktopUpdater.ReviseMeaning | trello-board-updater-desktop.py:291-294 | the Revisions checklist (found or made) holds `<version> (<arch>)`, appended only when missing; no other checklist changes |
| DesktopUpdater.ReviseIdempotent | trello-board-updater-desktop.py:291-294 | noting a revision a second time changes nothing |
| DesktopUpdater.RecordRunRecords | trello-board-updater-desktop.py:282-294 | the Testflinger checklist takes the entry (renamed into place or appended), Sign-Off and Revisions exist, the revision is noted, and other checklists are unchanged |
| DesktopUpdater.RecordFindsSut | trello-board-updater-desktop.py:247-284 | a SUT's entry replaces its `(NO RESULTS)` placeholder or earlier entry: the first item starting with `<sut> ` takes it |
| DesktopUpdater.DeriveReads | trello-board-updater-desktop.py:122-208 | deriving the card raises on a job name without `-` or a missing artifact; otherwise the meta version has four fields and the card's version is the image package's version in the artifact |
| DesktopUpdater.ApplyCreates | trello-board-updater-desktop.py:202-235 | the job gives up exactly when no card is found and no open list is called Proposed; a new card sits in the first Proposed list and its title reads back through the board manager's pattern as the stack, image and version |
| DesktopUpdater.RecordHas | trello-board-updater-desktop.py:282-284 | recording an entry leaves an item of that name |
| DesktopUpdater.WorkRecords | trello-board-updater-desktop.py:247-294 | after the work the Testflinger checklist holds the run's entry, Sign-Off exists, Revisions holds the version and architecture, and existing checklists keep their names |
| DesktopUpdater.WorkNotes | trello-board-updater-desktop.py:236-277 | a card-only run posts and attaches nothing; any other run posts exactly the summary comment, and attaches the crash label (when the board has it) exactly when there is no C3 link |
| DesktopUpdater.RunAgrees | trello-board-updater-desktop.py:120-294 | the code as written and the corrected run differ only where the series already ends in `-hwe` |
| OdmSync.UrlToBugRefFinds | odm-sync/sync_odm_bugs.py:49-63 | the number of the leftmost bug URL followed by digits, and `None` exactly when the text has no such URL |
| OdmSync.UrlFromAt | odm-sync/sync_odm_bugs.py:61-63 | the search returns the number at the first position where the URL occurs |
| OdmSync.UrlRoundTrip | odm-sync/sync_odm_bugs.py:56-63 | round trip: a bug URL with a number, with no bug URL starting earlier and no digit right after it, reads back as that number |
| OdmSync.UrlRoundTripPlain | odm-sync/sync_odm_bugs.py:56-63 | the same round trip when the text before the URL has no `h` directly followed by `t`, so no URL can start there |
| OdmSync.FiledCopyRefers | odm-sync/sync_odm_bugs.py:173-175 | the comment `Bug filed from <project> see <web link>` on a new umbrella copy, with the ODM bug's web link `https://bugs.launchpad.net/bugs/<n>`, makes the copy refer back to bug n (project names without `ht`, such as the configured four; lines 144-148 read it back) |
| OdmSync.OwnLinksOfWebLinks | odm-sync/sync_odm_bugs.py:144-154 | for ODM bugs with different numbers and bug-URL web links, the first comment of each filed copy names its own bug and no other |
| OdmSync.QMetryMeaning | odm-sync/sync_odm_bugs.py:85-87 | the QMetry tag counts exactly when it starts on the first line |
| OdmSync.QMetryFirstLine | odm-sync/sync_odm_bugs.py:85-87 | only the first line of a title or description decides whether it carries the tag |
| OdmSync.MissingMeaning | odm-sync/sync_odm_bugs.py:115-122 | an item is missing exactly when the description, compared case-insensitively, lacks it; missing items keep the list's order |
| OdmSync.MissingConcat | odm-sync/sync_odm_bugs.py:119-122 | the missing items of a split list are those of each part |
| OdmSync.PlatformTagFirst | odm-sync/sync_odm_bugs.py:105-108 | the platform is the first tag the owners map knows, and none exactly when no tag is known |
| OdmSync.VerifyPasses | odm-sync/sync_odm_bugs.py:84-130 | the check stops early exactly when both QMetry and the `checkbox` tag are missing; it passes exactly when one is present, the bug is worked on (by the status of the task the search returned) or recent, a tag names a platform and every mandatory item is described |
| OdmSync.JudgeMeaning | odm-sync/sync_odm_bugs.py:95-130 | a pass means no comment and no status change; every comment carries the tool's header; a failure leaves the bug Invalid exactly when only staleness failed, Incomplete otherwise |
| OdmSync.VerifyPlatform | odm-sync/sync_odm_bugs.py:105-108 | the platform recorded is the first of the bug's tags the owners map knows |
| OdmSync.VerifyReadsSearchedTask | odm-sync/sync_odm_bugs.py:84-104 | vetting judges activity by the status of the task `searchTasks` returned: when that is not the bug's first task, the first task does not change the verdict, and a stale bug whose searched task is not worked on fails |
| OdmSync.PairedFirst | odm-sync/sync_odm_bugs.py:142-154 | the umbrella bug paired is the first whose first comment has the header and names the ODM bug, none exactly when none does |
| OdmSync.Step | odm-sync/sync_odm_bugs.py:139-178 | one ODM bug files at most one umbrella bug |
| OdmSync.StepPairsOrFiles | odm-sync/sync_odm_bugs.py:139-178 | an ODM bug is paired both ways with an umbrella bug that copies it, and files nothing exactly then; otherwise it is copied with the prefix into a new umbrella bug of its project, with the status of its first task (`bug_tasks[0]`), assigned to its platform's owner, and both bugs are told |
| OdmSync.PutKeeps | odm-sync/sync_odm_bugs.py:132-170 | storing a bug keeps the other entries, except one with the same title, and keeps numbers distinct |
| OdmSync.BuildCrossRefs | odm-sync/sync_odm_bugs.py:135-178 | after building, the cross-reference map is symmetric and every ODM bug has a partner |
| OdmSync.BuildCrossRefsLinked | odm-sync/sync_odm_bugs.py:135-178 | the same for ODM bugs whose web links are their bug URLs, assuming only that bug numbers differ (no bug has tasks on both an ODM project and the umbrella project) |
| OdmSync.RebuildFilesNothing | odm-sync/sync_odm_bugs.py:135-178 | a second build over the umbrella bugs the first leaves pairs every ODM bug with a copy: it files nothing, posts no comment and leaves the umbrella bugs as they are (for different ODM titles, bug-URL web links, and no umbrella bug titled as a copy that is not one) |
| OdmSync.AbsentMeaning | odm-sync/sync_odm_bugs.py:189-206 | a comment is copied exactly when the other side lacks it and it is not the tool's own |
| OdmSync.ExchangeSettles | odm-sync/sync_odm_bugs.py:184-206 | after the exchange each side holds every non-tool comment of the other, so a second exchange copies nothing |
| OdmSync.SyncMetaCopies | odm-sync/sync_odm_bugs.py:209-250 | the bug updated last is the source and is untouched; the other takes its title (prefix added or stripped), description, tags and the four fields of its first task (`bug_tasks[0]`, which is also its searched task when the search returned that one), keeps its web link and search hit, and each save happens exactly when one of its fields changed |
| OdmSync.SyncMetaSettles | odm-sync/sync_odm_bugs.py:209-250 | a second metadata sync, whichever bug is then newer, saves nothing (for titles that hold the prefix at most once) |
| OdmSync.SyncPairSettles | odm-sync/sync_odm_bugs.py:182-207 | syncing a pair a second time copies no comment and saves nothing |
| OdmSync.SyncFromPairs | odm-sync/sync_odm_bugs.py:181-183 | each ODM bug is synced with the umbrella bug its number maps to, in order, and the pass raises exactly at the first bug without a partner |
| OdmSync.SyncAllPairs | odm-sync/sync_odm_bugs.py:180-207 | the whole pass syncs every ODM bug with its partner, or raises exactly when some bug has none |
| OdmSync.Rows | odm-sync/sync_odm_bugs.py:305-311 | row `k` pairs the platform and owner cells of spreadsheet row `k + 2`, up to the shorter column |
| OdmSync.OwnersMeaning | odm-sync/sync_odm_bugs.py:300-330 | a platform has an owner exactly when some row names it with an owner that maps to a Launchpad id, and then the owner of the last such row |
| OdmSyncLegacy.VerifyBug | sync-odm-bugs.py:71-93 | a bug passes exactly when its title carries the QMetry tag, it is at most 14 days old and it is tagged `checkbox`, and then nothing is posted; otherwise one complaint per failed rule (staleness overriding the QMetry complaint) is posted and each sets the bug Invalid |
| OdmSyncLegacy.FindMeaning | sync-odm-bugs.py:96-124 | looking up a title fails exactly when no entry has it |
| OdmSyncLegacy.AddKeeps | sync-odm-bugs.py:95-96 | storing a bug keeps every title and adds the new one |
| OdmSyncLegacy.Step | sync-odm-bugs.py:102-118 | one ODM bug files at most one umbrella bug |
| OdmSyncLegacy.StepFiles | sync-odm-bugs.py:102-150 | a bug is filed exactly when no umbrella title contains its title and its project has an owner; with no owner the step raises; a filed bug is `[ODM bug] <title>` in the umbrella project with the ODM bug's description, status and tags plus its project, assigned when the owner is non-empty, and the ODM bug is told the new bug's link |
| OdmSyncLegacy.SyncFromUnchanged | sync-odm-bugs.py:98-118 | as written, `sync` never adds to the umbrella table |
| OdmSyncLegacy.SyncFromRaises | sync-odm-bugs.py:98-118 | as written, `sync` raises exactly when some uncovered ODM bug's project has no owner |
| OdmSyncLegacy.SyncFromRegisters | sync-odm-bugs.py:95-118 | corrected, `sync` keeps every umbrella title and every filed bug enters the table under its filed title |
| OdmSyncLegacy.StepKeeps | sync-odm-bugs.py:111-118 | corrected, one step keeps every title and registers what it files |
| OdmSyncLegacy.CommentOne | sync-odm-bugs.py:123-124 | the umbrella bug is looked up by `[ODM bug] ` plus the ODM title, and the lookup raises exactly when no entry has that title |
| OdmSyncLegacy.CopiesAppended | sync-odm-bugs.py:125-138 | a side keeps its messages and gains, in order, the other side's comments it lacked |
| OdmSyncLegacy.ExchangeEqualizes | sync-odm-bugs.py:125-138 | after the exchange both bugs hold the same comments; each keeps its messages and gains exactly the other's comments it lacked |
| OdmSyncLegacy.CommentStepSettles | sync-odm-bugs.py:122-138 | for one pair, both bugs end with the same comments, and no other bug changes |
| OdmSyncLegacy.CommentsFromRaises | sync-odm-bugs.py:120-138 | `sync_comments` raises exactly when some ODM bug has no umbrella entry titled `[ODM bug] <title>` |
| OdmSyncLegacy.UncoveredUnkeyed | sync-odm-bugs.py:104-123 | a title no umbrella title contains is not in the table with the prefix either |
| OdmSyncLegacy.MainAsWrittenRaises | sync-odm-bugs.py:104-167 | as written, any ODM bug that `sync` found uncovered makes the run raise in `sync_comments`, even when it was filed |
| OdmSyncLegacy.MainFindsFiled | sync-odm-bugs.py:111-167 | corrected, when `sync` does not raise and every ODM bug's prefixed title is in the table or was filed in the run, the run completes |
| OdmSyncLegacy.OneNewBug | sync-odm-bugs.py:104-167 | one new ODM bug with an owner: the run as written raises, the corrected run completes |

## Left out

- Network and service clients are not modelled. This covers Launchpad, Trello, Google Sheets, the snap store, Jenkins, InfluxDB, `requests`, Flask, SMTP and `subprocess`. Their answers are inputs, and their writes are returned values.
- File I/O and argument parsing are not modelled. The PPA installer's file system is a map from path to contents. Summary files and status files arrive as their decoded contents.
- The clock, `datetime.now()`/`today()` and local-timezone conversion are not modelled. Times are integer parameters.
- Python floats are exact rationals, and `statistics.mean` is the exact mean. The repr a float gets in an InfluxDB line is not modelled.
- Logging, `print` and warning output are not modelled, because they do not change any result.
- `\d`, `int()`, `lower()`, `upper()` and `capitalize()` are modelled on ASCII only. Python's Unicode digits and case mappings are not modelled.
- Decimal.ParseInt: accepts surrounding whitespace, one sign and ASCII digits only. Python's `int()` also accepts single `_` separators between digits (`1_000`). Such text reads as `None` here.
- Decimal.ParseFloat: accepts surrounding whitespace, one sign and digits with at most one point. Python's `float()` also accepts `_` separators, an exponent (`1e3`), and `inf`, `infinity` and `nan` in any case. The first two are not modelled. The last three have no exact-rational value.
- ProjectKpis.OptionalInt: built on `Decimal.ParseInt`, so a cell such as `1_000` reads as `None` where the script reads 1000.
- ProjectKpis.OptionalPercent: built on `Decimal.ParseFloat`, so `1e2%`, `1_0%`, `inf%` and `nan%` read as `None` where the script reads a float.
- InfluxPush.HostWithPort: "is an integer" means `Decimal.ParseInt` accepts the port. A port such as `8_086` is refused here but accepted by the script. `InfluxPush.HostPort` shares this limit.
- Writes that happen before an exception is raised are not modelled. A run that raises is reported as raised, together with the state the model had reached.
- `_generate_filename`'s directory probing in `kpi-tools/harvest_stats.py` is not modelled, because it only chooses an output file name.
- Attachments are not modelled. `sync_all` in `odm-sync/sync_odm_bugs.py` copies a missing comment together with its first attachment (`_add_comment` re-posts it with `addAttachment`). The model copies only the comment text. Titles, descriptions, tags and the four fields of the first task are compared and copied as in the script.
- OdmSync.BuildCrossRefs: assumes that bug numbers are distinct across ODM, umbrella and new bugs (`DistinctIds`). This is an assumption about the input, not a guarantee: it excludes a bug that has tasks on both an ODM project and the umbrella project, which Launchpad would return in both searches under one number. It also assumes that the first comment of an umbrella copy links no other ODM bug (`OwnLinks`). `OdmSync.OwnLinksOfWebLinks` derives that for bugs whose web links are their `https://bugs.launchpad.net/bugs/<n>` URLs and whose project names hold no `ht`.
- OdmSync.RebuildFilesNothing: the second run's umbrella bugs are those the model's first run leaves, in its map order. The script reads them back from Launchpad. The lemma also needs different titles for different ODM bugs: two ODM bugs with one title share one entry of the umbrella map, and one of them is filed again.
- OdmSync.SyncMetaSettles: requires that the newer bug's title, after its first prefix, does not contain the prefix again. A title that carries the prefix twice can keep changing on every run.
- OdmSync: the per-project bug tables are given flattened in database order, and the new bugs Launchpad creates, with their numbers and links, are inputs.
- OdmSync: a bug carries its first task (`bug_tasks[0]`) and a record of which task the project search returned: the first task, or another task with its own status. `verify_bug` reads and saves that searched task's status; filing and `_sync_meta` read and write the first task. A bug's other tasks are not modelled.
- OdmSyncLegacy: the script ships with an empty `owners` table. With that table, any attempt to file a bug raises. The model takes the table as a parameter.
- OdmSyncLegacy.Main: the corrected run registers each bug it files under its filed title. It still looks comments up by the exact prefixed title. An ODM bug covered only by an umbrella title that contains its title, but not as `[ODM bug] <title>`, therefore still raises in `sync_comments`, as in the original.
- OdmSyncLegacy: the searches in `main` that fill the bug database are not modelled. The database is given as the verified ODM bugs and the umbrella titles.
- SruBugManager: the script fetches the kernel team's status file again for each card while its record list is still empty (after a failed fetch, or a file with no leading mapping). Every fetch in a run is modelled as returning the same answer, so a status file that changes during a run is not modelled. A failed fetch or decode is an input (`None`), not an exception path.
- DesktopUpdater.DeriveReads: an image package whose version is not a string counts as raising. The script would format any value with `str()`.
- DesktopBoard.Arch: a stack's `arch` entry that is not a JSON string counts as missing, so the card's decision is `Raised`. The script formats any value into the artifact URL with `str.format` (`arch: 64` fetches `…-main-64-<repo>.json`) and does not raise there. Python's `str()` of a JSON value is not modelled.
- DesktopBoard.ReadCard: inherits the limit of `DesktopBoard.Arch`: it reads a card only when its stack's architecture is a string.
- SnapUpdater: the card search is a regular expression built from unescaped arguments. It is not modelled as a search; the card it found, if any, is an input.
- PrivatePpa.PathOf: follows `urlsplit` and `urlparse` as in Python 3.12. Leading C0 controls and spaces are stripped, tabs and line breaks are removed, and a netloc with only one of `[` and `]` raises. The validation of a bracketed host (an IPv6 or IPvFuture address) and the NFKC check of a non-ASCII netloc are not modelled, so any host with both brackets is accepted. The success lemmas require a host without brackets.
- PrivatePpa.ExtractPpaName: built on `PathOf`, with the same limits.
- HarvestStats.GenerateRecords: takes a timeline whose statuses are the eleven of the script's `influx_friendly_statuses` table. A status outside that table, such as Launchpad's `Deferred` read from a bug's activity log, makes `generate_records` raise `KeyError`. That status cannot be written in the model's `Status` type, so the raise is not modelled.
- DesktopUpdater: the card search is a regular expression whose `deb_version` part is not escaped. It is not modelled as a search; the card it found, if any, is an input.
- SnapBoard.LaneRun: a card moved without archiving joins its new lane's listing at the end. Trello lists cards by their stored position, which the model does not track. Each decision depends only on the card's lane and title, so only the order of decisions within a lane can differ.
- DesktopBoard: the card pattern of the desktop manager has no optional track group. Its three groups behave like those of the snap pattern, so `CardTitle` serves both boards.
- advocacy/, snappy_measurements/historical.py, the glue KPI scripts (time_to_plusone.py, time_to_candidate.py, failed_snaps.py, certified_model_kpi.py), get-snap-data.py, mailtool.py and snap_desktop_smoke_test.py are not modelled. They are plotting, network, SMTP or subprocess drivers with no rules beyond their I/O. odm-sync/odm_sync_config.py is not modelled as a file; its prefix and project names appear as constants.

## Findings

| source | as written | input that shows it | evidently intended | confidence | as-written member | corrected member |
|---|---|---|---|---|---|---|
| kpi-tools/harvest_stats.py:184-186 | each bundle is the first 1000 remaining records, but only 100 are dropped per iteration | 1001 records: 11 bundles, starting at records 0, 100, …, 1000; record 100 is sent in the first two bundles and record 1000 in ten bundles | consecutive disjoint bundles of at most 1000 records | not executed | HarvestStats.BundlesAsWrittenRepeat | HarvestStats.Bundles |
| snap-update-tools/check_snap_availability.py:117-122 | `--arch` appends to a default list that already holds `amd64`, so the default is checked even when other architectures are requested | `--arch arm64`: the matrix also polls `amd64` | only the requested architectures, or the default when none were requested | not executed | SnapAvailability.DefaultArchAlwaysChecked | SnapAvailability.MatrixOfRequestedArches |
| trello-sru-bug-manager.py:182-188 | `find_sru_bug` returns `None` when no record matches, and `main` then reads `bug.id` | a ready beta kernel card whose snap and version match no record in the status file: the run raises `AttributeError` | the card is skipped, as the `LookupError` handler skips it | not executed | SruBugManager.UnmatchedCrashes | SruBugManager.MainCrashes |
| trello-board-updater-desktop.py:122-124 | `-hwe` is appended to a series that already ends in `-hwe` | a job on series `xenial-hwe` whose name's second `-` field is `hwe`: the stack is `xenial-hwe-hwe` | `xenial-hwe`, as the script's own test at lines 594-616 expects for the oem/argos job `xenial-hwe-server-…` | not executed | DesktopUpdater.HweTwice | DesktopUpdater.HweOnce |
| sync-odm-bugs.py:104-124 | `sync` files `[ODM bug] <title>` but does not add it to the bug database, and `sync_comments` then looks that title up | owners `{"civet-cat": <user>}`, one verified civet-cat bug `Foo`, no umbrella title containing `Foo`: the bug is filed and `sync_comments` raises `KeyError` | the filed bug is registered, so its comments are exchanged | not executed | OdmSyncLegacy.OneNewBug | OdmSyncLegacy.MainFindsFiled |

=== FILE: card_title.dfy ===
/** The card-title grammar of the Trello boards. A snap card is titled
    `snap - version - (revision)` with an optional ` - [track]`, a desktop
    card `stack - package - (version)`. Both boards read titles with one
    `re.match` pattern: a lazy group, a dash between whitespace runs, a
    lazy group, another such dash, and a lazy group in parentheses, then
    (snap boards only) an optional dash and a lazy group in brackets.

    The pattern is modelled by a search that tries the alternatives in the
    order of Python's backtracking engine: the first group as short as
    possible, then the whitespace after the first dash as long as possible,
    then the second group as short as possible, then the group in
    parentheses as short as possible. `Fields` is proved to return the
    first match in that order, and `None` exactly when nothing matches. */
module CardTitle {
  import opened Wrappers
  import opened Text

  /** s[i..j] is a run of `\s` characters. */
  predicate Spaces(s: string, i: nat, j: nat) {
    i <= j <= |s| && forall k | i <= k < j :: IsSpace(s[k])
  }

  /** s[i..j] holds no line break, so `.` matches each of its characters. */
  predicate Dots(s: string, i: nat, j: nat) {
    i <= j <= |s| && forall k | i <= k < j :: s[k] != '\n'
  }

  /** Where the greedy whitespace run that starts at `i` stops. */
  function SpaceEnd(s: string, i: nat): (j: nat)
    requires i <= |s|
    ensures Spaces(s, i, j)
    ensures j < |s| ==> !IsSpace(s[j])
    decreases |s| - i
  {
    if i < |s| && IsSpace(s[i]) then SpaceEnd(s, i + 1) else i
  }

  lemma SpaceEndLongest(s: string, i: nat, j: nat)
    requires i <= |s| && Spaces(s, i, j)
    ensures j <= SpaceEnd(s, i)
  {
  }

  /** Positions: `lo..hi` for a separator, `(` and `)` for a bracketed group. */
  datatype Span = Span(lo: nat, hi: nat)

  /** The separator `\s+-\s+` starting at `i` can end anywhere in
      `lo..hi`; the engine tries `hi` (longest whitespace) first. */
  function Sep(s: string, i: nat): (r: Option<Span>)
    requires i <= |s|
    ensures r.Some? ==> i + 3 <= r.value.lo <= r.value.hi <= |s|
    ensures r.Some? ==> Spaces(s, r.value.lo - 1, r.value.hi)
    ensures r.Some? && r.value.hi < |s| ==> !IsSpace(s[r.value.hi])
  {
    var b := SpaceEnd(s, i);
    if i < b < |s| && s[b] == '-' then
      var w := SpaceEnd(s, b + 1);
      if b + 1 < w then Some(Span(b + 2, w)) else None
    else None
  }

  /** `\s+-\s+` matches s[i..c]. */
  ghost predicate SepAt(s: string, i: nat, c: nat) {
    exists b: nat | i < b && b + 1 < c :: Spaces(s, i, b) && Spaces(s, b + 1, c) && s[b] == '-'
  }

  lemma SepIff(s: string, i: nat)
    requires i <= |s|
    ensures forall c: nat :: SepAt(s, i, c) <==> Sep(s, i).Some? && Sep(s, i).value.lo <= c <= Sep(s, i).value.hi
  {
    var b := SpaceEnd(s, i);
    forall c: nat
      ensures SepAt(s, i, c) <==> Sep(s, i).Some? && Sep(s, i).value.lo <= c <= Sep(s, i).value.hi
    {
      if SepAt(s, i, c) {
        var b' :| i < b' && b' + 1 < c && Spaces(s, i, b') && Spaces(s, b' + 1, c) && s[b'] == '-';
        assert !IsSpace('-');
        SpaceEndLongest(s, i, b');
        assert b == b';
        SpaceEndLongest(s, b + 1, c);
      }
      if Sep(s, i).Some? && Sep(s, i).value.lo <= c <= Sep(s, i).value.hi {
        assert Spaces(s, b + 1, c);
        assert i < b && b + 1 < c && Spaces(s, i, b) && Spaces(s, b + 1, c) && s[b] == '-';
      }
    }
  }

  /** The first `close` at or after `i` that a lazy `.*?` reaches, that is
      with no line break before it. */
  function CloseFrom(s: string, i: nat, close: char): (r: Option<nat>)
    requires i <= |s| && close != '\n'
    ensures r.Some? ==> i <= r.value < |s| && s[r.value] == close && Dots(s, i, r.value)
    ensures forall k | i <= k < |s| && Dots(s, i, k) && s[k] == close :: r.Some? && r.value <= k
    decreases |s| - i
  {
    if i == |s| then None
    else if s[i] == close then Some(i)
    else if s[i] == '\n' then None
    else CloseFrom(s, i + 1, close)
  }

  /** `\s+-\s+` from `d`, then `open` at `f`, a lazy group, and `close` at `g`. */
  ghost predicate BracketAt(s: string, d: nat, open: char, close: char, f: nat, g: nat) {
    SepAt(s, d, f) && f < g < |s| && s[f] == open && s[g] == close && Dots(s, f + 1, g)
  }

  /** The first way a separator and a bracketed group match from `d`.
      Since `open` is not whitespace it must follow the longest whitespace
      run, and the lazy group stops at the first `close`. */
  function Bracketed(s: string, d: nat, open: char, close: char): (r: Option<Span>)
    requires d <= |s| && close != '\n'
    ensures r.Some? ==> d < r.value.lo < r.value.hi < |s|
  {
    match Sep(s, d)
    case None => None
    case Some(sp) =>
      if sp.hi < |s| && s[sp.hi] == open then
        match CloseFrom(s, sp.hi + 1, close)
        case None => None
        case Some(g) => Some(Span(sp.hi, g))
      else None
  }

  /** `Bracketed` finds a match when there is one, at the only possible
      opening position and with the earliest closing one. */
  lemma BracketedFirst(s: string, d: nat, open: char, close: char)
    requires d <= |s| && close != '\n' && !IsSpace(open)
    ensures var r := Bracketed(s, d, open, close);
      && (r.Some? ==> BracketAt(s, d, open, close, r.value.lo, r.value.hi))
      && (forall f, g | BracketAt(s, d, open, close, f, g) :: r.Some? && r.value.lo == f && r.value.hi <= g)
  {
    SepIff(s, d);
  }

  /** Where the pattern's pieces sit in one match: the first group is
      s[..a], the first separator s[a..c], the second group s[c..d], and
      the third group lies between `(` at `f` and `)` at `g`. */
  datatype Cut = Cut(a: nat, c: nat, d: nat, f: nat, g: nat)

  predicate Ordered(s: string, m: Cut) {
    m.a <= m.c <= m.d < m.f < m.g < |s|
  }

  ghost predicate MatchAt(s: string, m: Cut) {
    Dots(s, 0, m.a) && SepAt(s, m.a, m.c) && Dots(s, m.c, m.d) && BracketAt(s, m.d, '(', ')', m.f, m.g)
  }

  /** The engine's order of trying matches: a shorter first group, then a
      longer first separator, then a shorter second group, then a shorter
      third group. (`f` is fixed by the others.) */
  predicate Precedes(x: Cut, y: Cut) {
    x.a < y.a || (x.a == y.a && (x.c > y.c || (x.c == y.c && (x.d < y.d || (x.d == y.d && x.g <= y.g)))))
  }

  /** Lazily growing the second group from `d`. */
  function SecondGroup(s: string, a: nat, c: nat, d: nat): (r: Option<Cut>)
    requires a <= c <= d <= |s|
    ensures r.Some? ==> Ordered(s, r.value) && r.value.a == a && r.value.c == c && d <= r.value.d
    decreases |s| - d
  {
    match Bracketed(s, d, '(', ')')
    case Some(fg) => Some(Cut(a, c, d, fg.lo, fg.hi))
    case None => if d < |s| && s[d] != '\n' then SecondGroup(s, a, c, d + 1) else None
  }

  /** The second group and what follows it match with the second group
      ending at `d'` and the third between `f'` and `g'`. */
  ghost predicate TailAt(s: string, c: nat, d': nat, f': nat, g': nat) {
    Dots(s, c, d') && BracketAt(s, d', '(', ')', f', g')
  }

  lemma {:induction false} SecondGroupFirst(s: string, a: nat, c: nat, d: nat)
    requires a <= c <= d <= |s| && Dots(s, c, d)
    ensures var r := SecondGroup(s, a, c, d);
      && (r.Some? ==> TailAt(s, c, r.value.d, r.value.f, r.value.g))
      && (forall d', f', g' | d <= d' && TailAt(s, c, d', f', g') ::
            r.Some? && (r.value.d < d' || (r.value.d == d' && r.value.g <= g')))
    decreases |s| - d
  {
    assert !IsSpace('(');
    BracketedFirst(s, d, '(', ')');
    if Bracketed(s, d, '(', ')').None? && d < |s| && s[d] != '\n' {
      SecondGroupFirst(s, a, c, d + 1);
    }
  }

  /** Giving back whitespace of the first separator, from `c` down to `lo`. */
  function FirstSeparator(s: string, a: nat, lo: nat, c: nat): (r: Option<Cut>)
    requires a <= lo <= c <= |s|
    ensures r.Some? ==> Ordered(s, r.value) && r.value.a == a && lo <= r.value.c <= c
    decreases c
  {
    match SecondGroup(s, a, c, c)
    case Some(m) => Some(m)
    case None => if lo < c then FirstSeparator(s, a, lo, c - 1) else None
  }

  lemma {:induction false} FirstSeparatorFirst(s: string, a: nat, lo: nat, c: nat)
    requires a <= lo <= c <= |s|
    ensures var r := FirstSeparator(s, a, lo, c);
      && (r.Some? ==> TailAt(s, r.value.c, r.value.d, r.value.f, r.value.g))
      && (forall c', d', f', g' | lo <= c' <= c && c' <= d' && TailAt(s, c', d', f', g') ::
            r.Some? && Precedes(r.value, Cut(a, c', d', f', g')))
    decreases c
  {
    SecondGroupFirst(s, a, c, c);
    if SecondGroup(s, a, c, c).None? && lo < c {
      FirstSeparatorFirst(s, a, lo, c - 1);
    }
  }

  /** Lazily growing the first group from `a`. */
  function FirstGroup(s: string, a: nat): (r: Option<Cut>)
    requires a <= |s|
    ensures r.Some? ==> Ordered(s, r.value) && a <= r.value.a
    decreases |s| - a
  {
    var tried := match Sep(s, a)
      case None => None
      case Some(sp) => FirstSeparator(s, a, sp.lo, sp.hi);
    if tried.Some? then tried
    else if a < |s| && s[a] != '\n' then FirstGroup(s, a + 1)
    else None
  }

  lemma {:induction false} FirstGroupFirst(s: string, a: nat)
    requires Dots(s, 0, a)
    ensures var r := FirstGroup(s, a);
      && (r.Some? ==> MatchAt(s, r.value))
      && (forall m | MatchAt(s, m) && a <= m.a :: r.Some? && Precedes(r.value, m))
    decreases |s| - a
  {
    SepIff(s, a);
    var tried := match Sep(s, a)
      case None => None
      case Some(sp) => FirstSeparator(s, a, sp.lo, sp.hi);
    if Sep(s, a).Some? {
      var sp := Sep(s, a).value;
      FirstSeparatorFirst(s, a, sp.lo, sp.hi);
      forall m | MatchAt(s, m) && m.a == a
        ensures sp.lo <= m.c <= sp.hi && m.c <= m.d && TailAt(s, m.c, m.d, m.f, m.g)
      {
      }
    }
    if tried.None? && a < |s| && s[a] != '\n' {
      FirstGroupFirst(s, a + 1);
    }
  }

  /** The match `re.match` finds for the three-group pattern. */
  function Fields(s: string): (r: Option<Cut>)
    ensures r.Some? ==> Ordered(s, r.value)
  {
    FirstGroup(s, 0)
  }

  /** `Fields` returns a match exactly when one exists, and then the first
      one in the engine's order. */
  lemma FieldsFirst(s: string)
    ensures Fields(s).Some? ==> MatchAt(s, Fields(s).value)
    ensures forall m | MatchAt(s, m) :: Fields(s).Some? && Precedes(Fields(s).value, m)
  {
    FirstGroupFirst(s, 0);
  }

  /** The optional ` - [track]` group, tried right after the `)`. */
  function TrackAfter(s: string, e: nat): (r: Option<string>)
    requires e <= |s|
  {
    match Bracketed(s, e, '[', ']')
    case None => None
    case Some(fg) => Some(s[fg.lo + 1..fg.hi])
  }

  datatype Title = Title(snap: string, version: string, revision: string, track: Option<string>)

  /** The named groups of a snap card title, or `None` when the title does
      not match. */
  function ParseTitle(s: string): (r: Option<Title>)
  {
    match Fields(s)
    case None => None
    case Some(m) => Some(Title(s[..m.a], s[m.c..m.d], s[m.f + 1..m.g], TrackAfter(s, m.g + 1)))
  }

  lemma ParseTitleOf(s: string, m: Cut)
    requires Fields(s) == Some(m)
    ensures Ordered(s, m)
    ensures ParseTitle(s) == Some(Title(s[..m.a], s[m.c..m.d], s[m.f + 1..m.g], TrackAfter(s, m.g + 1)))
  {
  }

  /** The title a card is created with. */
  function FormatTitle(snap: string, version: string, revision: string, track: string): string {
    snap + " - " + version + " - (" + revision + ")" + (if track == "" then "" else " - [" + track + "]")
  }

  /** No separator starts at a character that is not whitespace. */
  lemma NoSepAt(s: string, i: nat, c: nat)
    requires i < |s| && !IsSpace(s[i])
    ensures !SepAt(s, i, c)
  {
  }

  /** The title's text before the optional track group. */
  function Head(snap: string, version: string, revision: string): string {
    snap + " - " + version + " - (" + revision + ")"
  }

  /** `s` starts with a head whose snap name ends at `n`, version at `d`
      and revision at `g`, where the `)` sits. */
  ghost predicate Layout(s: string, n: nat, d: nat, g: nat) {
    && n + 3 < d && d + 4 <= g < |s|
    && (forall k | 0 <= k < n :: !IsSpace(s[k]))
    && s[n] == ' ' && s[n + 1] == '-' && s[n + 2] == ' '
    && (forall k | n + 3 <= k < d :: !IsSpace(s[k]))
    && s[d] == ' ' && s[d + 1] == '-' && s[d + 2] == ' ' && s[d + 3] == '('
    && (forall k | d + 4 <= k < g :: s[k] != '\n' && s[k] != ')')
    && s[g] == ')'
  }

  /** A head lays its own fields out. */
  lemma HeadLayout(snap: string, version: string, revision: string, n: nat, d: nat, g: nat)
    requires NoSpace(snap) && version != "" && NoSpace(version)
    requires NoNewline(revision) && ')' !in revision
    requires n == |snap| && d == n + 3 + |version| && g == d + 4 + |revision|
    ensures var h := Head(snap, version, revision);
      && Layout(h, n, d, g) && g + 1 == |h|
      && h[..n] == snap && h[n + 3..d] == version && h[d + 4..g] == revision
  {
    var h := Head(snap, version, revision);
    assert h == snap + (" - " + (version + (" - (" + (revision + ")"))));
    forall k | d + 4 <= k < g
      ensures h[k] != '\n' && h[k] != ')'
    {
      assert h[k] == revision[k - d - 4];
      assert revision[k - d - 4] in revision;
    }
  }

  /** A layout, and its fields, carry over to any text it starts. */
  lemma PrefixLayout(h: string, s: string, n: nat, d: nat, g: nat)
    requires Layout(h, n, d, g) && h <= s
    ensures Layout(s, n, d, g)
    ensures s[..n] == h[..n] && s[n + 3..d] == h[n + 3..d] && s[d + 4..g] == h[d + 4..g]
  {
    assert forall k | 0 <= k < |h| :: s[k] == h[k];
  }

  /** The track group right at `e`: ` - [track]` gives `track`, and
      nothing at all gives no track. */
  lemma TrackLayout(s: string, e: nat, track: string)
    requires NoNewline(track) && ']' !in track
    requires e + 5 + |track| == |s| && s[e..] == " - [" + track + "]"
    ensures TrackAfter(s, e) == Some(track)
  {
    var h := e + 4 + |track|;
    assert s[e] == ' ' && s[e + 1] == '-' && s[e + 2] == ' ' && s[e + 3] == '[' && s[h] == ']' by {
      assert s[e..][0] == ' ' && s[e..][1] == '-' && s[e..][2] == ' ' && s[e..][3] == '[' && s[e..][4 + |track|] == ']';
    }
    assert forall k | 0 <= k < |track| :: s[e + 4 + k] == track[k] by {
      forall k | 0 <= k < |track|
        ensures s[e + 4 + k] == track[k]
      {
        assert s[e..][4 + k] == track[k];
      }
    }
    assert IsSpace(' ') && !IsSpace('-') && !IsSpace('[');
    assert SepAt(s, e, e + 3) by {
      assert Spaces(s, e, e + 1) && Spaces(s, e + 2, e + 3);
    }
    assert Dots(s, e + 4, h) by {
      forall k | e + 4 <= k < h
        ensures s[k] != '\n'
      {
        assert track[k - e - 4] in track;
      }
    }
    assert BracketAt(s, e, '[', ']', e + 3, h);
    var th := Bracketed(s, e, '[', ']');
    assert th.Some? && th.value.lo == e + 3;
    forall k | e + 3 < k < h
      ensures s[k] != ']'
    {
      assert track[k - e - 4] in track;
    }
    assert th.value.hi == h;
    assert s[e + 4..h] == track;
  }

  lemma NoTrackAtEnd(s: string)
    ensures TrackAfter(s, |s|).None?
  {
    assert Sep(s, |s|).None?;
  }

  /** Where `Fields` cuts a text laid out as a head. */
  lemma LayoutFields(s: string, n: nat, d: nat, g: nat)
    requires Layout(s, n, d, g)
    ensures Fields(s) == Some(Cut(n, n + 3, d, d + 3, g))
  {
    var m0 := Cut(n, n + 3, d, d + 3, g);
    assert MatchAt(s, m0) by {
      LayoutMatches(s, n, d, g);
    }
    assert Fields(s).Some? && MatchAt(s, Fields(s).value) && Precedes(Fields(s).value, m0) by {
      FieldsFirst(s);
    }
    LayoutCut(s, n, d, g, Fields(s).value);
  }

  /** The text matches with the pieces where the layout put them. */
  lemma LayoutMatches(s: string, n: nat, d: nat, g: nat)
    requires Layout(s, n, d, g)
    ensures MatchAt(s, Cut(n, n + 3, d, d + 3, g))
  {
    assert IsSpace(' ') && !IsSpace('-');
    assert SepAt(s, n, n + 3) by {
      assert Spaces(s, n, n + 1) && Spaces(s, n + 2, n + 3);
    }
    assert SepAt(s, d, d + 3) by {
      assert Spaces(s, d, d + 1) && Spaces(s, d + 2, d + 3);
    }
    assert Dots(s, 0, n);
    assert Dots(s, n + 3, d);
    assert Dots(s, d + 4, g);
  }

  /** No match of a laid-out text comes before the layout's own. */
  lemma LayoutCut(s: string, n: nat, d: nat, g: nat, m: Cut)
    requires Layout(s, n, d, g) && MatchAt(s, m) && Precedes(m, Cut(n, n + 3, d, d + 3, g))
    ensures m == Cut(n, n + 3, d, d + 3, g)
  {
    assert m.a == n && m.c == n + 3 by {
      LayoutFirstSep(s, n, d, g, m);
    }
    forall i | n + 3 <= i < d
      ensures !SepAt(s, i, m.f)
    {
      NoSepAt(s, i, m.f);
    }
    assert m.d == d;
    assert IsSpace(' ') && !IsSpace('(');
    var fg := Bracketed(s, d, '(', ')');
    assert fg.Some? && fg.value.lo == m.f && fg.value.lo == d + 3;
  }

  /** The first group and separator of any match before the layout's are
      the layout's. */
  lemma LayoutFirstSep(s: string, n: nat, d: nat, g: nat, m: Cut)
    requires Layout(s, n, d, g) && MatchAt(s, m) && Precedes(m, Cut(n, n + 3, d, d + 3, g))
    ensures m.a == n && m.c == n + 3
  {
    forall i | 0 <= i < n
      ensures !SepAt(s, i, m.c)
    {
      NoSepAt(s, i, m.c);
    }
    assert m.a == n;
    var b :| n < b && b + 1 < m.c && Spaces(s, n, b) && Spaces(s, b + 1, m.c) && s[b] == '-';
    assert IsSpace(' ') && !IsSpace('-');
    assert b == n + 1;
    assert !IsSpace(s[n + 3]);
  }

  /** A title that starts with this head reads back as the head's three
      fields. */
  lemma HeadParses(s: string, snap: string, version: string, revision: string)
    requires NoSpace(snap) && version != "" && NoSpace(version)
    requires NoNewline(revision) && ')' !in revision
    requires Head(snap, version, revision) <= s
    ensures ParseTitle(s) == Some(Title(snap, version, revision, TrackAfter(s, |Head(snap, version, revision)|)))
  {
    var n := |snap|;
    var d := n + 3 + |version|;
    var g := d + 4 + |revision|;
    var e := |Head(snap, version, revision)|;
    assert e == g + 1;
    assert Layout(s, n, d, g) && s[..n] == snap && s[n + 3..d] == version && s[d + 4..g] == revision by {
      HeadLayout(snap, version, revision, n, d, g);
      PrefixLayout(Head(snap, version, revision), s, n, d, g);
    }
    FieldsParse(s, snap, version, revision, n, d, g, e);
  }

  /** The three fields of a layout, read back. */
  lemma FieldsParse(s: string, snap: string, version: string, revision: string, n: nat, d: nat, g: nat, e: nat)
    requires Layout(s, n, d, g) && e == g + 1
    requires s[..n] == snap && s[n + 3..d] == version && s[d + 4..g] == revision
    ensures ParseTitle(s) == Some(Title(snap, version, revision, TrackAfter(s, e)))
  {
    var m := Cut(n, n + 3, d, d + 3, g);
    assert Fields(s) == Some(m) by {
      LayoutFields(s, n, d, g);
    }
    TitleOf(s, m, snap, version, revision, e);
  }

  /** The title read from where `Fields` cuts. */
  lemma TitleOf(s: string, m: Cut, snap: string, version: string, revision: string, e: nat)
    requires Fields(s) == Some(m) && e == m.g + 1
    requires s[..m.a] == snap && s[m.c..m.d] == version && s[m.f + 1..m.g] == revision
    ensures ParseTitle(s) == Some(Title(snap, version, revision, TrackAfter(s, e)))
  {
    ParseTitleOf(s, m);
  }

  /** A title built from a snap name and a version without whitespace, a
      revision without `)` and a track without `]` (none of them holding a
      line break) reads back as the same fields; an empty track leaves the
      bracketed group out, so it reads back as absent. */
  lemma {:induction false} FormatParses(snap: string, version: string, revision: string, track: string)
    requires NoSpace(snap) && version != "" && NoSpace(version)
    requires NoNewline(revision) && ')' !in revision && NoNewline(track) && ']' !in track
    ensures ParseTitle(FormatTitle(snap, version, revision, track))
         == Some(Title(snap, version, revision, if track == "" then None else Some(track)))
  {
    var head := Head(snap, version, revision);
    var tail := if track == "" then "" else " - [" + track + "]";
    var s := head + tail;
    assert FormatTitle(snap, version, revision, track) == s;
    assert head <= s;
    HeadParses(s, snap, version, revision);
    if track == "" {
      assert |head| == |s|;
      NoTrackAtEnd(s);
    } else {
      assert s[|head|..] == tail;
      TrackLayout(s, |head|, track);
    }
  }
}

=== FILE: checklists.dfy ===
/** Trello checklists as the board-updating scripts handle them: named
    lists of named, checkable items, found by name and updated in place.
    The three updaters share `find_or_create_checklist` and
    `no_new_fails_or_skips`; two of them share `change_checklist_item`,
    one with a lazy and one with a greedy key pattern. */
module Checklists {
  import opened Wrappers
  import opened Text

  datatype Item = Item(name: string, checked: bool)
  datatype Checklist = Checklist(name: string, items: seq<Item>)

  // ---- finding and creating a checklist ----

  /** Index of the first checklist called `name`, searching from `i`. */
  function FindChecklistFrom(cls: seq<Checklist>, name: string, i: nat): (r: Option<nat>)
    requires i <= |cls|
    ensures r.Some? ==> i <= r.value < |cls|
    decreases |cls| - i
  {
    if i == |cls| then None
    else if cls[i].name == name then Some(i)
    else FindChecklistFrom(cls, name, i + 1)
  }

  /** Index of the first checklist called `name`. */
  function FindChecklist(cls: seq<Checklist>, name: string): (r: Option<nat>)
    ensures r.Some? ==> r.value < |cls|
  {
    FindChecklistFrom(cls, name, 0)
  }

  lemma {:induction false} FindChecklistFromFirst(cls: seq<Checklist>, name: string, i: nat)
    requires i <= |cls|
    requires forall j | 0 <= j < i :: cls[j].name != name
    ensures var r := FindChecklistFrom(cls, name, i);
      && (r.Some? ==> r.value < |cls| && cls[r.value].name == name
                      && forall j | 0 <= j < r.value :: cls[j].name != name)
      && (r.None? ==> forall j | 0 <= j < |cls| :: cls[j].name != name)
    decreases |cls| - i
  {
    if i < |cls| && cls[i].name != name {
      FindChecklistFromFirst(cls, name, i + 1);
    }
  }

  /** The search finds the first checklist with the name, and nothing
      exactly when no checklist has it. */
  lemma FindChecklistFirst(cls: seq<Checklist>, name: string)
    ensures var r := FindChecklist(cls, name);
      && (r.Some? ==> r.value < |cls| && cls[r.value].name == name
                      && forall j | 0 <= j < r.value :: cls[j].name != name)
      && (r.None? <==> forall j | 0 <= j < |cls| :: cls[j].name != name)
  {
    FindChecklistFromFirst(cls, name, 0);
  }

  const NoResults := " (NO RESULTS)"

  /** The unchecked `<test> (NO RESULTS)` entries a new checklist starts with. */
  function Placeholders(expected: seq<string>): seq<Item> {
    seq(|expected|, i requires 0 <= i < |expected| => Item(expected[i] + NoResults, false))
  }

  /** `find_or_create_checklist`: the card's checklists afterwards and the
      index of the one to use. An existing checklist of that name is reused
      as it is; otherwise one is appended, holding a placeholder per
      expected entry. */
  function FindOrCreate(cls: seq<Checklist>, name: string, expected: seq<string>): (r: (seq<Checklist>, nat))
    ensures r.1 < |r.0| && r.0[r.1].name == name
  {
    FindChecklistFirst(cls, name);
    match FindChecklist(cls, name)
    case Some(i) => (cls, i)
    case None => (cls + [Checklist(name, Placeholders(expected))], |cls|)
  }

  /** Existing checklists are never changed: the result is the same list
      when a checklist of the name exists, and otherwise the list with one
      new checklist of placeholders after them. */
  lemma FindOrCreateKeeps(cls: seq<Checklist>, name: string, expected: seq<string>)
    ensures var (after, i) := FindOrCreate(cls, name, expected);
      && after[..|cls|] == cls
      && ((exists j | 0 <= j < |cls| :: cls[j].name == name) ==> after == cls && i < |cls|)
      && ((forall j | 0 <= j < |cls| :: cls[j].name != name) ==>
            && |after| == |cls| + 1 && i == |cls|
            && |after[i].items| == |expected|
            && forall k | 0 <= k < |expected| :: after[i].items[k] == Item(expected[k] + NoResults, false))
  {
    FindChecklistFirst(cls, name);
  }

  /** A second search for the same name reuses what the first one found or
      made, whatever entries it would have seeded a new one with. */
  lemma FindOrCreateIdempotent(cls: seq<Checklist>, name: string, expected: seq<string>, expected2: seq<string>)
    ensures var (after, i) := FindOrCreate(cls, name, expected);
      FindOrCreate(after, name, expected2) == (after, i)
  {
    var (after, i) := FindOrCreate(cls, name, expected);
    FindChecklistFirst(cls, name);
    assert after[i].name == name;
    assert forall j | 0 <= j < i :: after[j].name != name by {
      assert forall j | 0 <= j < i :: after[j] == cls[j];
    }
    FindChecklistFirst(after, name);
    assert FindChecklist(after, name) == Some(i);
  }

  /** Searching afterwards finds the checklist that was found or made. */
  lemma FindOrCreateFinds(cls: seq<Checklist>, name: string, expected: seq<string>)
    ensures var (after, i) := FindOrCreate(cls, name, expected);
      FindChecklist(after, name) == Some(i)
  {
    var (after, i) := FindOrCreate(cls, name, expected);
    FindChecklistFirst(cls, name);
    assert forall j | 0 <= j < i :: after[j] == cls[j];
    FindChecklistFirst(after, name);
  }

  /** Appending checklists or changing items keeps the names in front. */
  predicate Extends(before: seq<Checklist>, after: seq<Checklist>) {
    |before| <= |after| && forall k | 0 <= k < |before| :: after[k].name == before[k].name
  }

  /** A checklist that is found is found at the same place after
      checklists are appended or items changed. */
  lemma FoundStaysFound(before: seq<Checklist>, after: seq<Checklist>, name: string)
    requires Extends(before, after) && FindChecklist(before, name).Some?
    ensures FindChecklist(after, name) == FindChecklist(before, name)
  {
    var s := FindChecklist(before, name).value;
    FindChecklistFirst(before, name);
    assert after[s].name == name;
    FindChecklistFirst(after, name);
  }

  // ---- the item key of `change_checklist_item` ----

  /** Where the run of `[` that starts at `i` ends: `\[*` at the start of
      the item name. */
  function BracketsEnd(s: string, i: nat): (j: nat)
    requires i <= |s|
    ensures i <= j <= |s| && (j == |s| || s[j] != '[')
    ensures forall k | i <= k < j :: s[k] == '['
    decreases |s| - i
  {
    if i < |s| && s[i] == '[' then BracketsEnd(s, i + 1) else i
  }

  /** The key group can end at `q`: a space followed by `(` with no line
      break between the brackets and the space, since `.` does not match
      one. The group is then s[l..q + 1], trailing space included. */
  ghost predicate KeyEndAt(s: string, l: nat, q: nat) {
    l <= q && q + 1 < |s| && s[q] == ' ' && s[q + 1] == '(' && forall k | l <= k < q :: s[k] != '\n'
  }

  /** Lazy `.*? \(`: the first place the group can end, scanning from `i`. */
  function FirstKeyEnd(s: string, l: nat, i: nat): (r: Option<nat>)
    requires l <= i <= |s|
    ensures r.Some? ==> l <= r.value && r.value + 1 < |s|
    decreases |s| - i
  {
    if i + 1 >= |s| then None
    else if s[i] == ' ' && s[i + 1] == '(' then Some(i)
    else if s[i] == '\n' then None
    else FirstKeyEnd(s, l, i + 1)
  }

  lemma {:induction false} FirstKeyEndFirst(s: string, l: nat, i: nat)
    requires l <= i <= |s|
    requires forall k | l <= k < i :: s[k] != '\n'
    requires forall q: nat | l <= q < i :: !KeyEndAt(s, l, q)
    ensures var r := FirstKeyEnd(s, l, i);
      && (r.Some? ==> KeyEndAt(s, l, r.value) && forall q: nat | l <= q < r.value :: !KeyEndAt(s, l, q))
      && (r.None? ==> forall q: nat :: !KeyEndAt(s, l, q))
    decreases |s| - i
  {
    if i + 1 >= |s| {
    } else if s[i] == ' ' && s[i + 1] == '(' {
      assert KeyEndAt(s, l, i);
    } else if s[i] == '\n' {
      forall q: nat ensures !KeyEndAt(s, l, q) {
        if q > i {
          assert l <= i < q && s[i] == '\n';
        }
      }
    } else {
      assert !KeyEndAt(s, l, i);
      FirstKeyEndFirst(s, l, i + 1);
    }
  }

  /** Greedy `.* \(`: the last place the group can end, scanning from `i`
      with `last` the latest candidate before `i`. */
  function LastKeyEnd(s: string, l: nat, i: nat, last: Option<nat>): (r: Option<nat>)
    requires l <= i <= |s|
    requires last.Some? ==> l <= last.value && last.value + 1 < |s|
    ensures r.Some? ==> l <= r.value && r.value + 1 < |s|
    decreases |s| - i
  {
    if i + 1 >= |s| then last
    else if s[i] == ' ' && s[i + 1] == '(' then LastKeyEnd(s, l, i + 1, Some(i))
    else if s[i] == '\n' then last
    else LastKeyEnd(s, l, i + 1, last)
  }

  lemma {:induction false} LastKeyEndLast(s: string, l: nat, i: nat, last: Option<nat>)
    requires l <= i <= |s|
    requires forall k | l <= k < i :: s[k] != '\n'
    requires last.Some? ==> last.value < i && KeyEndAt(s, l, last.value)
                            && forall q: nat | last.value < q < i :: !KeyEndAt(s, l, q)
    requires last.None? ==> forall q: nat | l <= q < i :: !KeyEndAt(s, l, q)
    ensures var r := LastKeyEnd(s, l, i, last);
      && (r.Some? ==> KeyEndAt(s, l, r.value) && forall q: nat | r.value < q :: !KeyEndAt(s, l, q))
      && (r.None? ==> forall q: nat :: !KeyEndAt(s, l, q))
    decreases |s| - i
  {
    if i + 1 >= |s| {
    } else if s[i] == ' ' && s[i + 1] == '(' {
      assert KeyEndAt(s, l, i);
      LastKeyEndLast(s, l, i + 1, Some(i));
    } else if s[i] == '\n' {
      forall q: nat | q >= i ensures !KeyEndAt(s, l, q) {
        if q > i {
          assert l <= i < q && s[i] == '\n';
        }
      }
    } else {
      assert !KeyEndAt(s, l, i);
      LastKeyEndLast(s, l, i + 1, last);
    }
  }

  /** The key group of `re.match('\[*(.*? )\(', name)` (lazy) or
      `re.match('\[*(.* )\(', name)` (greedy), or `None` when the name does
      not match. Backing off the greedy `\[*` cannot help: the brackets it
      gives back hold no space and no line break, so a match from an earlier
      start would end at a place that is already a candidate. */
  function Key(s: string, greedy: bool): Option<string> {
    var l := BracketsEnd(s, 0);
    match KeyEnd(s, greedy)
    case None => None
    case Some(q) => Some(s[l..q + 1])
  }

  /** Where the key group ends, if the name matches. */
  function KeyEnd(s: string, greedy: bool): (r: Option<nat>)
    ensures r.Some? ==> BracketsEnd(s, 0) <= r.value && r.value + 1 < |s|
  {
    var l := BracketsEnd(s, 0);
    if greedy then LastKeyEnd(s, l, l, None) else FirstKeyEnd(s, l, l)
  }

  /** The key exists exactly when the group can end somewhere; the lazy key
      ends at the first such place and the greedy one at the last. */
  lemma KeyMeaning(s: string, greedy: bool)
    ensures var l := BracketsEnd(s, 0);
      && (KeyEnd(s, greedy).None? ==> forall q: nat :: !KeyEndAt(s, l, q))
      && (KeyEnd(s, greedy).Some? ==>
            && KeyEndAt(s, l, KeyEnd(s, greedy).value)
            && (!greedy ==> forall p: nat | p < KeyEnd(s, greedy).value :: !KeyEndAt(s, l, p))
            && (greedy ==> forall p: nat | p > KeyEnd(s, greedy).value :: !KeyEndAt(s, l, p)))
  {
    var l := BracketsEnd(s, 0);
    var r := KeyEnd(s, greedy);
    if greedy {
      assert r == LastKeyEnd(s, l, l, None);
      LastKeyEndLast(s, l, l, None);
    } else {
      assert r == FirstKeyEnd(s, l, l);
      FirstKeyEndFirst(s, l, l);
      if r.Some? {
        forall p: nat | p < r.value ensures !KeyEndAt(s, l, p) {
          if p < l {
            assert !(l <= p);
          }
        }
      }
    }
    if r.Some? {
      assert KeyEndAt(s, l, r.value);
    }
  }

  // ---- renaming an item ----

  /** Index of the first item whose name contains `key`, from `i`. */
  function FirstContaining(items: seq<Item>, key: string, i: nat): (r: Option<nat>)
    requires i <= |items|
    ensures r.Some? ==> i <= r.value < |items|
    decreases |items| - i
  {
    if i == |items| then None
    else if Contains(items[i].name, key) then Some(i)
    else FirstContaining(items, key, i + 1)
  }

  lemma {:induction false} FirstContainingFirst(items: seq<Item>, key: string, i: nat)
    requires i <= |items|
    requires forall j | 0 <= j < i :: !Contains(items[j].name, key)
    ensures var r := FirstContaining(items, key, i);
      && (r.Some? ==> r.value < |items| && Contains(items[r.value].name, key)
                      && forall j | 0 <= j < r.value :: !Contains(items[j].name, key))
      && (r.None? ==> forall j | 0 <= j < |items| :: !Contains(items[j].name, key))
    decreases |items| - i
  {
    if i < |items| && !Contains(items[i].name, key) {
      FirstContainingFirst(items, key, i + 1);
    }
  }

  /** What `change_checklist_item` did: renamed and set an item (`True`),
      found no item for the key (`False`), or rejected the name (`None`). */
  datatype Change = Changed(items: seq<Item>) | NoMatch | InvalidName

  /** `change_checklist_item(checklist, name, checked)`: the first item
      whose name contains the key of `name` takes `name` and `checked`. */
  function ChangeItem(items: seq<Item>, name: string, checked: bool, greedy: bool): Change {
    match Key(name, greedy)
    case None => InvalidName
    case Some(key) =>
      match FirstContaining(items, key, 0)
      case None => NoMatch
      case Some(i) => Changed(items[i := Item(name, checked)])
  }

  /** The rename touches exactly the first item holding the key, and only
      a name without a key is rejected. */
  lemma ChangeItemMeaning(items: seq<Item>, name: string, checked: bool, greedy: bool)
    ensures var r := ChangeItem(items, name, checked, greedy);
      && (r.InvalidName? <==> Key(name, greedy).None?)
      && (r.NoMatch? <==> Key(name, greedy).Some? && forall j | 0 <= j < |items| :: !Contains(items[j].name, Key(name, greedy).value))
      && (r.Changed? ==> exists i | 0 <= i < |items| ::
            && Contains(items[i].name, Key(name, greedy).value)
            && (forall j | 0 <= j < i :: !Contains(items[j].name, Key(name, greedy).value))
            && r.items == items[i := Item(name, checked)])
  {
    match Key(name, greedy)
    case None =>
    case Some(key) =>
      FirstContainingFirst(items, key, 0);
  }

  /** The key is a piece of the name it comes from. */
  lemma KeyInName(s: string, greedy: bool)
    requires Key(s, greedy).Some?
    ensures Contains(s, Key(s, greedy).value)
  {
    var q := KeyEnd(s, greedy).value;
    assert OccursAt(s, s[BracketsEnd(s, 0)..q + 1], BracketsEnd(s, 0));
  }

  /** Reporting the same item twice changes nothing the second time: the
      renamed item holds the key, and no item before it does. */
  lemma ChangeItemIdempotent(items: seq<Item>, name: string, checked: bool, greedy: bool)
    requires ChangeItem(items, name, checked, greedy).Changed?
    ensures var once := ChangeItem(items, name, checked, greedy).items;
      ChangeItem(once, name, checked, greedy) == Changed(once)
  {
    var key := Key(name, greedy).value;
    FirstContainingFirst(items, key, 0);
    var i := FirstContaining(items, key, 0).value;
    var once := items[i := Item(name, checked)];
    KeyInName(name, greedy);
    assert Contains(once[i].name, key);
    assert forall j | 0 <= j < i :: !Contains(once[j].name, key) by {
      assert forall j | 0 <= j < i :: once[j] == items[j];
    }
    FirstContainingFirst(once, key, 0);
    assert FirstContaining(once, key, 0) == Some(i);
    assert once[i := Item(name, checked)] == once;
  }

  /** The script renames and sets the item through lookups by name; both
      lookups land on the matched item, because an earlier item with the
      old or the new name would itself hold the key. */
  lemma NameLookupsHitMatch(items: seq<Item>, name: string, checked: bool, greedy: bool, i: nat)
    requires Key(name, greedy).Some?
    requires FirstContaining(items, Key(name, greedy).value, 0) == Some(i)
    ensures i < |items|
    ensures forall j | 0 <= j < i :: items[j].name != items[i].name && items[j].name != name
  {
    var key := Key(name, greedy).value;
    FirstContainingFirst(items, key, 0);
    KeyInName(name, greedy);
  }

  /** The name the updaters give a result, `<sut> (<rest>`, has the key
      `<sut> ` when the SUT name starts with no `[`, holds no line break and
      no ` (`: lazily always, greedily when the rest holds no ` (` either. */
  lemma ItemNameKey(sut: string, rest: string, greedy: bool)
    requires |sut| == 0 || sut[0] != '['
    requires NoNewline(sut) && !Contains(sut, " (")
    requires greedy ==> !Contains(rest, " (")
    ensures Key(sut + " (" + rest, greedy) == Some(sut + " ")
  {
    var s := sut + " (" + rest;
    var n := |sut|;
    assert s[n] == ' ' && s[n + 1] == '(';
    assert BracketsEnd(s, 0) == 0 by {
      if n == 0 { assert s[0] == ' '; } else { assert s[0] == sut[0]; }
    }
    assert KeyEndAt(s, 0, n) by {
      forall k | 0 <= k < n ensures s[k] != '\n' { assert s[k] == sut[k]; }
    }
    forall p: nat | p < n ensures !KeyEndAt(s, 0, p) {
      if p + 1 < n {
        assert !OccursAt(sut, " (", p);
        assert s[p] == sut[p] && s[p + 1] == sut[p + 1];
        assert sut[p..p + 2] == [sut[p], sut[p + 1]];
      } else {
        assert s[p + 1] == ' ';
      }
    }
    if greedy {
      forall p: nat | p > n ensures !KeyEndAt(s, 0, p) {
        if p == n + 1 {
          assert s[p] == '(';
        } else if p + 1 < |s| {
          assert !OccursAt(rest, " (", p - n - 2);
          assert s[p] == rest[p - n - 2] && s[p + 1] == rest[p - n - 1];
          assert rest[p - n - 2..p - n] == [rest[p - n - 2], rest[p - n - 1]];
        }
      }
    }
    KeyMeaning(s, greedy);
    assert KeyEnd(s, greedy) == Some(n);
    assert s[0..n + 1] == sut + " ";
  }

  /** The item of a SUT is found by the key of the SUT's next result,
      whether it holds an earlier result or the `(NO RESULTS)` placeholder. */
  lemma SutItemMatches(sut: string, rest: string, greedy: bool, itemName: string)
    requires |sut| == 0 || sut[0] != '['
    requires NoNewline(sut) && !Contains(sut, " (")
    requires greedy ==> !Contains(rest, " (")
    requires StartsWith(itemName, sut + " ")
    ensures Key(sut + " (" + rest, greedy).Some?
    ensures Contains(itemName, Key(sut + " (" + rest, greedy).value)
  {
    ItemNameKey(sut, rest, greedy);
    assert OccursAt(itemName, sut + " ", 0);
  }

  /** The rest of a Testflinger entry after `<device> (`: the run's time,
      then the Jenkins and C3 links when present. */
  function EntryRest(stamp: string, jenkins: string, c3: string): string {
    stamp + ")"
    + (if jenkins == "" then "" else " [[JENKINS](" + jenkins + ")]")
    + (if c3 == "" then "" else " [[C3](" + c3 + ")]")
  }

  /** A Testflinger entry `<device> (<time>)` with its links, the form
      `change_checklist_item` finds the device's earlier entry by. */
  function EntryName(device: string, stamp: string, jenkins: string, c3: string): string {
    device + " (" + EntryRest(stamp, jenkins, c3)
  }

  // ---- the result summary ----

  const NoNewFails := "No new failed or skipped tests"
  const AllPassed := "All tests passed"

  /** `no_new_fails_or_skips(summary)`. */
  predicate NoNewFailsOrSkips(summary: string) {
    Contains(summary, NoNewFails) && Contains(summary, AllPassed)
  }

  /** Text around a clean summary keeps it clean: the verdict only looks
      for the two phrases. */
  lemma NoNewFailsInContext(before: string, summary: string, after: string)
    requires NoNewFailsOrSkips(summary)
    ensures NoNewFailsOrSkips(before + summary + after)
  {
    ContainsInside(before, summary, after, NoNewFails);
    ContainsInside(before, summary, after, AllPassed);
  }

  lemma ContainsInside(a: string, s: string, b: string, t: string)
    requires Contains(s, t)
    ensures Contains(a + s + b, t)
  {
    var i :| 0 <= i <= |s| && OccursAt(s, t, i);
    assert (a + s + b)[|a| + i..|a| + i + |t|] == s[i..i + |t|];
    assert OccursAt(a + s + b, t, |a| + i);
  }
}

=== FILE: decimal.dfy ===
/** Decimal digit strings and the two number parsers the scripts call on
    text: Python's `int(s)` and `float(s)`, with floats read as exact
    rationals rather than binary doubles. */
module Decimal {
  import opened Wrappers
  import opened Text

  function DigitValue(c: char): (d: nat)
    requires IsDigit(c)
    ensures d < 10
  {
    c as int - '0' as int
  }

  function DigitChar(d: nat): (c: char)
    requires d < 10
    ensures IsDigit(c) && DigitValue(c) == d
  {
    ('0' as int + d) as char
  }

  /** The number a run of decimal digits denotes (leading zeros allowed). */
  function DigitsValue(s: string): nat
    requires AllDigits(s)
    decreases |s|
  {
    if |s| == 0 then 0 else DigitsValue(s[..|s| - 1]) * 10 + DigitValue(s[|s| - 1])
  }

  /** The value of the digits after a decimal point: `0.s`. */
  function FractionValue(s: string): (r: real)
    requires AllDigits(s)
    ensures 0.0 <= r < 1.0
    decreases |s|
  {
    if |s| == 0 then 0.0 else (DigitValue(s[0]) as real + FractionValue(s[1..])) / 10.0
  }

  /** The number the digits `s[i..j]` denote, read in place. */
  function NumberIn(s: string, i: nat, j: nat): nat
    requires i <= j <= |s| && forall k | i <= k < j :: IsDigit(s[k])
    decreases j - i
  {
    if i == j then 0 else NumberIn(s, i, j - 1) * 10 + DigitValue(s[j - 1])
  }

  lemma {:induction false} NumberInSlice(s: string, i: nat, j: nat)
    requires i <= j <= |s| && forall k | i <= k < j :: IsDigit(s[k])
    ensures NumberIn(s, i, j) == DigitsValue(s[i..j])
    decreases j - i
  {
    if i < j {
      NumberInSlice(s, i, j - 1);
      assert s[i..j][..j - i - 1] == s[i..j - 1];
    }
  }

  /** `0.s[i..j]`, read in place. */
  function FractionIn(s: string, i: nat, j: nat): (r: real)
    requires i <= j <= |s| && forall k | i <= k < j :: IsDigit(s[k])
    ensures 0.0 <= r < 1.0
    decreases j - i
  {
    if i == j then 0.0 else (DigitValue(s[i]) as real + FractionIn(s, i + 1, j)) / 10.0
  }

  lemma {:induction false} FractionInSlice(s: string, i: nat, j: nat)
    requires i <= j <= |s| && forall k | i <= k < j :: IsDigit(s[k])
    ensures FractionIn(s, i, j) == FractionValue(s[i..j])
    decreases j - i
  {
    if i < j {
      FractionInSlice(s, i + 1, j);
      assert s[i..j][1..] == s[i + 1..j];
    }
  }

  /** `str(n)` for a natural number: its shortest decimal rendering. */
  function NatToString(n: nat): (s: string)
    ensures |s| > 0 && AllDigits(s)
    ensures DigitsValue(s) == n
    ensures |s| > 1 ==> s[0] != '0'
    decreases n
  {
    if n < 10 then [DigitChar(n)]
    else
      var s := NatToString(n / 10) + [DigitChar(n % 10)];
      assert s[..|s| - 1] == NatToString(n / 10);
      s
  }

  /** Canonical digit strings are exactly the renderings of their values. */
  lemma {:induction false} NatToStringOfDigits(s: string)
    requires |s| > 0 && AllDigits(s) && (|s| > 1 ==> s[0] != '0')
    ensures NatToString(DigitsValue(s)) == s
    decreases |s|
  {
    var n := DigitsValue(s);
    if |s| == 1 {
      assert s[..0] == [];
    } else {
      var init := s[..|s| - 1];
      assert init[0] == s[0];
      NatToStringOfDigits(init);
      var m := DigitsValue(init);
      if m == 0 {
        assert init[0] != '0';
        DigitsValueLeading(init);
        assert false;
      }
      assert n / 10 == m && n % 10 == DigitValue(s[|s| - 1]);
      assert NatToString(n) == NatToString(m) + [DigitChar(n % 10)];
    }
  }

  /** A digit string whose first digit is not zero denotes a positive number. */
  lemma {:induction false} DigitsValueLeading(s: string)
    requires |s| > 0 && AllDigits(s) && s[0] != '0'
    ensures DigitsValue(s) > 0
    decreases |s|
  {
    if |s| > 1 {
      var init := s[..|s| - 1];
      assert init[0] == s[0];
      DigitsValueLeading(init);
    }
  }

  /** `str(i)` for an integer. */
  function IntToString(i: int): (s: string)
    ensures |s| > 0
  {
    if i < 0 then "-" + NatToString(-i) else NatToString(i)
  }

  /** `s.strip()`: `s` without leading and trailing whitespace. */
  function Strip(s: string): (r: string)
    ensures |r| <= |s|
    ensures |r| > 0 ==> !IsSpace(r[0]) && !IsSpace(r[|r| - 1])
    ensures (|s| == 0 || (!IsSpace(s[0]) && !IsSpace(s[|s| - 1]))) ==> r == s
    decreases |s|
  {
    if |s| > 0 && IsSpace(s[0]) then Strip(s[1..])
    else if |s| > 0 && IsSpace(s[|s| - 1]) then Strip(s[..|s| - 1])
    else s
  }

  /** An optional leading sign: whether it is `-`, and the text after it. */
  function SplitSign(t: string): (bool, string) {
    if |t| > 0 && (t[0] == '-' || t[0] == '+') then (t[0] == '-', t[1..]) else (false, t)
  }

  /** `int(s)` on a string, with `ValueError` as `None`: surrounding
      whitespace, an optional sign, then one or more digits. */
  function ParseInt(s: string): (r: Option<int>)
    ensures r.Some? <==> (var (_, body) := SplitSign(Strip(s)); |body| > 0 && AllDigits(body))
  {
    var (neg, body) := SplitSign(Strip(s));
    if |body| > 0 && AllDigits(body) then
      Some(if neg then -(DigitsValue(body) as int) else DigitsValue(body))
    else None
  }

  /** `int(str(i)) == i`. */
  lemma ParseIntOfString(i: int)
    ensures ParseInt(IntToString(i)) == Some(i)
  {
    var s := IntToString(i);
    var digits := NatToString(if i < 0 then -i else i);
    assert !IsSpace(s[0]) && !IsSpace(s[|s| - 1]);
    assert Strip(s) == s;
    if i < 0 {
      assert s[1..] == digits;
    }
  }

  /** The number a `float()` literal without exponent denotes: integer
      digits, optionally a point and fraction digits. */
  predicate DecimalSyntax(body: string) {
    var k := IndexOrEnd(body, '.');
    && AllDigits(body[..k])
    && (k < |body| ==> AllDigits(body[k + 1..]))
    && (|body[..k]| > 0 || (k < |body| && |body[k + 1..]| > 0))
  }

  /** Index of the first `c` in `s`, or `|s|` when there is none. */
  function IndexOrEnd(s: string, c: char): (k: nat)
    ensures k <= |s| && c !in s[..k]
    ensures k < |s| ==> s[k] == c
  {
    if c in s then IndexOfChar(s, c) else assert s[..|s|] == s; |s|
  }

  function DecimalValue(body: string): (r: real)
    requires DecimalSyntax(body)
    ensures r >= 0.0
  {
    var k := IndexOrEnd(body, '.');
    DigitsValue(body[..k]) as real + (if k < |body| then FractionValue(body[k + 1..]) else 0.0)
  }

  /** `float(s)` on a string, with `ValueError` as `None`, for the decimal
      notations: surrounding whitespace, an optional sign, digits with at
      most one point and at least one digit. */
  function ParseFloat(s: string): (r: Option<real>)
    ensures r.Some? <==> DecimalSyntax(SplitSign(Strip(s)).1)
  {
    var (neg, body) := SplitSign(Strip(s));
    if DecimalSyntax(body) then
      Some(if neg then -DecimalValue(body) else DecimalValue(body))
    else None
  }

  /** Reading back a rendered integer as a float gives the integer. */
  lemma ParseFloatOfNat(n: nat)
    ensures ParseFloat(NatToString(n)) == Some(n as real)
  {
    ParseFloatOfDigits(NatToString(n));
  }

  /** A run of digits is a decimal without a point. */
  lemma DigitsDecimal(d: string)
    requires |d| > 0 && AllDigits(d)
    ensures DecimalSyntax(d) && DecimalValue(d) == DigitsValue(d) as real
  {
    assert '.' !in d by {
      forall i | 0 <= i < |d| ensures d[i] != '.' { assert IsDigit(d[i]); }
    }
    assert d[..|d|] == d;
  }

  /** Text with no whitespace at either end is its own `strip()`. */
  lemma StripPlain(t: string)
    requires |t| > 0 && !IsSpace(t[0]) && !IsSpace(t[|t| - 1])
    ensures Strip(t) == t
  {
  }

  lemma MinusNotSpace()
    ensures !IsSpace('-')
  {
  }

  /** A minus sign before an unsigned, unpadded number negates it. */
  lemma ParseFloatNegated(d: string)
    requires |d| > 0 && !IsSpace(d[0]) && !IsSpace(d[|d| - 1]) && d[0] != '-' && d[0] != '+'
    ensures ParseFloat(d).Some? ==> ParseFloat("-" + d) == Some(-ParseFloat(d).value)
  {
    StripPlain(d);
    assert SplitSign(d) == (false, d);
    var m := "-" + d;
    assert m[0] == '-' && m[1..] == d && m[|m| - 1] == d[|d| - 1];
    MinusNotSpace();
    StripPlain(m);
    assert SplitSign(m) == (true, d);
  }

  /** `float()` of digits is their value. */
  lemma ParseFloatOfDigits(d: string)
    requires |d| > 0 && AllDigits(d)
    ensures ParseFloat(d) == Some(DigitsValue(d) as real)
    ensures !IsSpace(d[0]) && !IsSpace(d[|d| - 1]) && d[0] != '-' && d[0] != '+'
  {
    DigitsDecimal(d);
    DigitNotSpace(d[0]);
    DigitNotSpace(d[|d| - 1]);
    StripPlain(d);
    assert SplitSign(d) == (false, d);
  }

  /** Reading back a rendered integer as a float gives the integer. */
  lemma ParseFloatOfInt(i: int)
    ensures ParseFloat(IntToString(i)) == Some(i as real)
  {
    var d := NatToString(if i < 0 then -i else i);
    ParseFloatOfDigits(d);
    ParseFloatNegated(d);
  }

  /** Stripping keeps only characters of the text. */
  lemma {:induction false} StripChars(s: string)
    ensures forall k | 0 <= k < |Strip(s)| :: Strip(s)[k] in s
    decreases |s|
  {
    if |s| > 0 && IsSpace(s[0]) {
      StripChars(s[1..]);
      assert forall c | c in s[1..] :: c in s;
    } else if |s| > 0 && IsSpace(s[|s| - 1]) {
      StripChars(s[..|s| - 1]);
      assert forall c | c in s[..|s| - 1] :: c in s;
    }
  }

  /** Text without a digit is no integer. */
  lemma ParseIntNoDigits(s: string)
    ensures NoDigits(s) ==> ParseInt(s) == None
  {
    if NoDigits(s) {
      StripChars(s);
      var t := Strip(s);
      var body := SplitSign(t).1;
      if |body| > 0 {
        var k := if |t| > 0 && (t[0] == '-' || t[0] == '+') then 1 else 0;
        assert body[0] == t[k];
        assert t[k] in s;
        var j :| 0 <= j < |s| && s[j] == t[k];
        assert !IsDigit(body[0]);
      }
    }
  }
}

=== FILE: desktop_board.dfy ===
/** The desktop kernel board (`trello-board-manager-desktop.py`): every card
    in the Proposed and Updates lanes is titled `stack - package - (version)`
    and names a kernel image package of an Ubuntu stack. The package data
    the certification jobs publish for each pocket decides whether the card
    is stale (archived) or was promoted from -proposed to -updates (moved to
    the Updates lane). The published data and the board are inputs. */
module DesktopBoard {
  import opened Wrappers
  import opened Text
  import opened Json
  import opened CardTitle
  import SnapBoard

  /** `repository_promotion_map`: the pocket a lane's kernels are promoted to. */
  function NextRepo(lane: string): Option<string> {
    if lane == "proposed" then Some("updates") else None
  }

  /** `repositories`: the lanes `main` processes, by lower-cased name, and
      the pockets each card is checked against, in that order. */
  predicate Repository(lane: string) {
    lane == "proposed" || lane == "updates"
  }

  // ---- names derived from the stack ----

  /** The series a stack is built on: its text before the first `-`, where
      the OEM stacks stand for the series their images are based on. */
  function Codename(stack: string): (r: string)
  {
    var c := Split(stack, '-')[0];
    if c == "oem" then "bionic" else if c == "oem_focal" then "focal" else c
  }

  /** A stack named `series-...` is built on `series`, unless the series
      part is one of the OEM names. */
  lemma CodenameOf(series: string, rest: string)
    requires '-' !in series
    ensures Codename(series + "-" + rest) ==
      if series == "oem" then "bionic" else if series == "oem_focal" then "focal" else series
    ensures Codename(series) ==
      if series == "oem" then "bionic" else if series == "oem_focal" then "focal" else series
  {
    SplitFirst(series, '-', rest);
    assert series + "-" + rest == series + ['-'] + rest;
    assert Split(series, '-') == [series];
  }

  /** `codename_map`: the release number of a series. */
  function Release(codename: string): Option<string> {
    if codename == "xenial" then Some("16.04")
    else if codename == "bionic" then Some("18.04")
    else if codename == "cosmic" then Some("18.10")
    else if codename == "disco" then Some("19.04")
    else if codename == "focal" then Some("20.04")
    else if codename == "groovy" then Some("20.10")
    else if codename == "hirsute" then Some("21.04")
    else None
  }

  /** The `linux-oem` kernels of the OSP1 stacks live in the universe
      component, except on xenial; every other kernel lives in main. */
  predicate Universe(stack: string) {
    Contains(stack, "oem-osp1") && Codename(stack) != "xenial"
  }

  /** The name of the package-data artifact for one series, architecture
      and pocket. Only the name varies between fetches: the Jenkins host in
      front of it is the same for every card. */
  function ArtifactName(stack: string, arch: string, repo: string): string {
    Codename(stack) + (if Universe(stack) then "-universe-" else "-main-") + arch + "-" + repo + ".json"
  }

  // ---- the kernel version ----

  /** `\d+.\d+.\d+.\d+.\d+` anchored at `p`, with `k` pieces of `.\d+` still
      to match after the first `\d+`: the end of the first match in the
      order Python's engine tries them (each digit run as long as possible,
      then one shorter), or `None`. `.` is any character but a line break. */
  function Digits(s: string, p: nat, k: nat): (r: Option<nat>)
    requires p <= |s|
    ensures r.Some? ==> p < r.value <= |s|
    decreases k, |s| + 1
  {
    TryEnds(s, p, DigitRunEnd(s, p), k)
  }

  /** Trying `s[p..e]` as the digit run, then shorter runs. */
  function TryEnds(s: string, p: nat, e: nat, k: nat): (r: Option<nat>)
    requires p <= |s| && p <= e <= DigitRunEnd(s, p)
    ensures r.Some? ==> p < r.value <= |s|
    decreases k, e
  {
    if e == p then None
    else if k == 0 then Some(e)
    else if e < |s| && s[e] != '\n' && Digits(s, e + 1, k - 1).Some? then Digits(s, e + 1, k - 1)
    else TryEnds(s, p, e - 1, k)
  }

  /** `s[p..r]` matches `\d+` followed by `k` pieces of `.\d+`. */
  ghost predicate MatchesFrom(s: string, p: nat, k: nat, r: nat)
    decreases k
  {
    && p <= |s|
    && if k == 0 then p < r <= DigitRunEnd(s, p)
       else exists e: nat | p < e <= DigitRunEnd(s, p) && e < |s| && s[e] != '\n' ::
              MatchesFrom(s, e + 1, k - 1, r)
  }

  lemma {:induction false} DigitsSound(s: string, p: nat, k: nat)
    requires p <= |s|
    ensures Digits(s, p, k).Some? ==> MatchesFrom(s, p, k, Digits(s, p, k).value)
    decreases k, |s| + 1
  {
    TryEndsSound(s, p, DigitRunEnd(s, p), k);
  }

  lemma {:induction false} TryEndsSound(s: string, p: nat, e: nat, k: nat)
    requires p <= |s| && p <= e <= DigitRunEnd(s, p)
    ensures TryEnds(s, p, e, k).Some? ==> MatchesFrom(s, p, k, TryEnds(s, p, e, k).value)
    decreases k, e
  {
    if e > p && k > 0 {
      if e < |s| && s[e] != '\n' && Digits(s, e + 1, k - 1).Some? {
        DigitsSound(s, e + 1, k - 1);
        var r := Digits(s, e + 1, k - 1).value;
        assert MatchesFrom(s, e + 1, k - 1, r);
      } else {
        TryEndsSound(s, p, e - 1, k);
      }
    }
  }

  lemma {:induction false} DigitsComplete(s: string, p: nat, k: nat, r: nat)
    requires MatchesFrom(s, p, k, r)
    ensures Digits(s, p, k).Some?
    decreases k, |s| + 1
  {
    if k == 0 {
      TryEndsComplete(s, p, DigitRunEnd(s, p), k, r, r);
    } else {
      var e: nat :| p < e <= DigitRunEnd(s, p) && e < |s| && s[e] != '\n' && MatchesFrom(s, e + 1, k - 1, r);
      TryEndsComplete(s, p, DigitRunEnd(s, p), k, e, r);
    }
  }

  /** A match whose first run ends at `e0` is found by any try that starts
      at or after `e0`. */
  lemma {:induction false} TryEndsComplete(s: string, p: nat, e: nat, k: nat, e0: nat, r: nat)
    requires p <= |s| && p < e0 <= e <= DigitRunEnd(s, p)
    requires k == 0 ==> r == e0
    requires k > 0 ==> e0 < |s| && s[e0] != '\n' && MatchesFrom(s, e0 + 1, k - 1, r)
    ensures TryEnds(s, p, e, k).Some?
    decreases k, e
  {
    if k > 0 {
      if e == e0 {
        DigitsComplete(s, e0 + 1, k - 1, r);
      } else if !(e < |s| && s[e] != '\n' && Digits(s, e + 1, k - 1).Some?) {
        TryEndsComplete(s, p, e - 1, k, e0, r);
      }
    }
  }

  /** `re.match(r'\d+.\d+.\d+.\d+.\d+', v).group(0)`, or `None` when the
      pattern does not match (the script then fails on `None.group`). */
  function HweVersion(v: string): Option<string> {
    match Digits(v, 0, 4)
    case None => None
    case Some(r) => Some(v[..r])
  }

  /** The version read from an HWE entry is a prefix of it that the pattern
      matches, and one is read whenever some prefix matches. */
  lemma HweVersionMeaning(v: string)
    ensures HweVersion(v).Some? ==> exists r: nat | r <= |v| :: MatchesFrom(v, 0, 4, r) && HweVersion(v).value == v[..r]
    ensures (exists r: nat :: MatchesFrom(v, 0, 4, r)) ==> HweVersion(v).Some?
  {
    DigitsSound(v, 0, 4);
    if Digits(v, 0, 4).Some? {
      var r := Digits(v, 0, 4).value;
      assert r <= |v| by { MatchesBound(v, 0, 4, r); }
    }
    if exists r: nat :: MatchesFrom(v, 0, 4, r) {
      var r: nat :| MatchesFrom(v, 0, 4, r);
      DigitsComplete(v, 0, 4, r);
    }
  }

  lemma {:induction false} MatchesBound(s: string, p: nat, k: nat, r: nat)
    requires MatchesFrom(s, p, k, r)
    ensures p < r <= |s|
    decreases k
  {
    if k > 0 {
      var e: nat :| p < e <= DigitRunEnd(s, p) && e < |s| && s[e] != '\n' && MatchesFrom(s, e + 1, k - 1, r);
      MatchesBound(s, e + 1, k - 1, r);
    }
  }

  /** `svf[:svf.rfind('.')].replace('.', '-').replace('-', '_', 2)`: the
      ABI part of a full kernel version, `4.4.0.150.158` giving `4_4_0-150`.
      With no `.` at all, `rfind` gives -1 and the slice drops the last
      character. */
  function StackVersion(svf: string): string {
    var cut := LastIndexOf(svf, '.');
    var head := if cut == -1 then (if |svf| == 0 then "" else svf[..|svf| - 1]) else svf[..cut];
    ReplaceN(Replace(head, ".", "-"), "-", "_", 2)
  }

  /** For a full version `a.b.c.d.e` whose first four fields hold neither
      `.` nor `-`, the stack version is `a_b_c-d`. */
  lemma {:induction false} StackVersionOf(a: string, b: string, c: string, d: string, e: string)
    requires '.' !in a && '.' !in b && '.' !in c && '.' !in d && '.' !in e
    requires '-' !in a && '-' !in b && '-' !in c && '-' !in d
    ensures StackVersion(a + "." + b + "." + c + "." + d + "." + e) == a + "_" + b + "_" + c + "-" + d
  {
    var head := a + "." + b + "." + c + "." + d;
    var dashed := a + "-" + b + "-" + c + "-" + d;
    assert StackVersion(head + "." + e) == ReplaceN(Replace(head, ".", "-"), "-", "_", 2) by {
      LastDot(head, e);
    }
    assert Replace(head, ".", "-") == dashed by {
      ReplaceCharPointwise(head, '.', '-');
      DashedPointwise(a, b, c, d);
    }
    assert dashed == a + "-" + b + "-" + (c + "-" + d);
    UnderscoreFirstTwo(a, b, c + "-" + d);
  }

  /** The last `.` of `head.e`, when `e` has none, is the one after `head`. */
  lemma LastDot(head: string, e: string)
    requires '.' !in e
    ensures LastIndexOf(head + "." + e, '.') == |head|
    ensures (head + "." + e)[..|head|] == head
  {
    var svf := head + "." + e;
    assert svf[|head| + 1..] == e;
    LastIndexOfAt(svf, '.', |head|);
  }

  /** The first two dashes of `a-b-rest` become underscores. */
  lemma UnderscoreFirstTwo(a: string, b: string, rest: string)
    requires '-' !in a && '-' !in b
    ensures ReplaceN(a + "-" + b + "-" + rest, "-", "_", 2) == a + "_" + b + "_" + rest
  {
    var tail := b + "-" + rest;
    assert a + "-" + b + "-" + rest == a + ['-'] + tail;
    ReplaceNFirst(a, '-', tail, "_", 2);
    assert tail == b + ['-'] + rest;
    ReplaceNFirst(b, '-', rest, "_", 1);
    assert ReplaceN(rest, "-", "_", 0) == rest;
  }

  /** Replacing each `.` of `a.b.c.d` position-wise gives `a-b-c-d`. */
  lemma DashedPointwise(a: string, b: string, c: string, d: string)
    requires '.' !in a && '.' !in b && '.' !in c && '.' !in d
    ensures var head := a + "." + b + "." + c + "." + d;
      var dashed := a + "-" + b + "-" + c + "-" + d;
      |dashed| == |head| && forall i | 0 <= i < |head| :: dashed[i] == (if head[i] == '.' then '-' else head[i])
  {
  }

  /** The example of the script's comment. */
  lemma StackVersionExample()
    ensures StackVersion("4.4.0.150.158") == "4_4_0-150"
  {
    assert "4" + "." + "4" + "." + "0" + "." + "150" + "." + "158" == "4.4.0.150.158";
    assert "4" + "_" + "4" + "_" + "0" + "-" + "150" == "4_4_0-150";
    StackVersionOf("4", "4", "0", "150", "158");
  }

  /** The flavour of the kernel image: OSP1 stacks run `-oem-osp1`, other
      OEM stacks `-oem`, everything else `-generic`. */
  function Flavour(stack: string): string {
    if Contains(stack, "oem-osp1") then "-oem-osp1" else if Contains(stack, "oem") then "-oem" else "-generic"
  }

  /** The package whose version is the stack's full kernel version: the
      OEM kernel series named by the kernel version in the card title, or
      the generic kernel. */
  function MetaPackage(stack: string, cardName: string): string {
    if Contains(stack, "oem") && Contains(cardName, "5.6") then "linux-oem-20_04"
    else if Contains(stack, "oem") && Contains(cardName, "5.10") then "linux-oem-20_04b"
    else if Contains(stack, "oem") && Contains(cardName, "5.13") then "linux-oem-20_04c"
    else "linux-generic"
  }

  /** `v[key]` on decoded data; anything but a dict, or a missing key,
      raises. */
  function Get(v: Json, key: string): Option<Json> {
    if v.JObject? then Lookup(v.fields, key) else None
  }

  /** `svf`: the full kernel version of the stack in one pocket's package
      data. An HWE stack replaces it with the version of its
      `linux-generic-hwe-<release>` package, cut to five numeric fields;
      the generic entry is still read first, so its absence raises too. */
  function FullVersion(stack: string, cardName: string, pkg: Json): Option<string> {
    match Get(pkg, MetaPackage(stack, cardName))
    case None => None
    case Some(svf) =>
      if Contains(stack, "hwe") then
        match Release(Codename(stack))
        case None => None
        case Some(rel) =>
          match Get(pkg, "linux-generic-hwe-" + Replace(rel, ".", "_"))
          case Some(JStr(v)) => HweVersion(v)
          case _ => None
      else if svf.JStr? then Some(svf.s) else None
  }

  /** What one pocket's data says about a card's stack: the kernel image
      package it runs and that package's version there (a decoded value,
      compared with the title's text as it is). */
  datatype Kernel = Kernel(image: string, debVersion: Json)

  function KernelImage(stack: string, svf: string): string {
    "linux-image-" + StackVersion(svf) + Flavour(stack)
  }

  /** The kernel of the card's stack in one pocket, or `None` when reading
      it raises. */
  function KernelIn(stack: string, cardName: string, pkg: Json): Option<Kernel> {
    match FullVersion(stack, cardName, pkg)
    case None => None
    case Some(svf) =>
      var image := KernelImage(stack, svf);
      match Get(pkg, image)
      case None => None
      case Some(deb) => Some(Kernel(image, deb))
  }

  /** `config[stack]["arch"]`. Architectures are names such as `amd64`. */
  function Arch(config: Json, stack: string): Option<string> {
    match Get(config, stack)
    case Some(entry) =>
      (match Get(entry, "arch")
       case Some(JStr(a)) => Some(a)
       case _ => None)
    case None => None
  }

  // ---- the card ----

  /** What the loop over pockets knows about a card. */
  datatype Ctx = Ctx(lane: string, package: string, version: string, target: Option<nat>)

  /** One pocket: a failed read raises; the card's own pocket at another
      version archives it (and the loop goes on); the pocket it would be
      promoted to, carrying the card's image at the card's version, moves
      it to the first open Updates lane and ends the loop. */
  function Step(ctx: Ctx, repo: string, k: Option<Kernel>): SnapBoard.Scan {
    match k
    case None => SnapBoard.Scan([], SnapBoard.Raised)
    case Some(kernel) =>
      if repo == ctx.lane && kernel.debVersion != JStr(ctx.version) then SnapBoard.Scan([SnapBoard.Archive], SnapBoard.Running)
      else if NextRepo(ctx.lane) == Some(repo) && kernel.image == ctx.package
              && kernel.debVersion == JStr(ctx.version) && ctx.target.Some?
      then SnapBoard.Scan([SnapBoard.MoveTo(ctx.target.value)], SnapBoard.Moved)
      else SnapBoard.Scan([], SnapBoard.Running)
  }

  /** The kernel of a stack in one pocket. `artifacts` maps an artifact
      name to its decoded contents; a name missing from it is a failed
      request. */
  function Fetch(artifacts: map<string, Json>, stack: string, arch: string, cardName: string, repo: string): Option<Kernel> {
    var name := ArtifactName(stack, arch, repo);
    if name in artifacts then KernelIn(stack, cardName, artifacts[name]) else None
  }

  /** What `move_card` reads about a card before deciding: nothing when
      the title does not match; a failure when the architecture cannot be
      looked up; else the title's package and version and the kernel of
      the stack in each pocket (`None` where reading it raises). */
  datatype Reading =
    | Unmatched
    | NoArch
    | Read(package: string, version: string, kp: Option<Kernel>, ku: Option<Kernel>)

  function ReadCard(config: Json, cardName: string, artifacts: map<string, Json>): (r: Reading)
    ensures r.Unmatched? <==> ParseTitle(cardName).None?
    ensures r.Read? ==> ParseTitle(cardName).Some? && Arch(config, ParseTitle(cardName).value.snap).Some?
  {
    match ParseTitle(cardName)
    case None => Unmatched
    case Some(t) =>
      match Arch(config, t.snap)
      case None => NoArch
      case Some(arch) =>
        Read(t.version, t.revision, Fetch(artifacts, t.snap, arch, cardName, "proposed"),
             Fetch(artifacts, t.snap, arch, cardName, "updates"))
  }

  /** The loop over the pockets `proposed` and `updates`, in that order. */
  function Pockets(ctx: Ctx, kp: Option<Kernel>, ku: Option<Kernel>): SnapBoard.Scan {
    SnapBoard.Then(Step(ctx, "proposed", kp), Step(ctx, "updates", ku))
  }

  function Act(lane: string, reading: Reading, lanes: seq<SnapBoard.Lane>): SnapBoard.Scan {
    match reading
    case Unmatched => SnapBoard.Scan([], SnapBoard.Running)
    case NoArch => SnapBoard.Scan([], SnapBoard.Raised)
    case Read(package, version, kp, ku) =>
      Pockets(Ctx(lane, package, version, SnapBoard.OpenLane(lanes, "Updates", 0)), kp, ku)
  }

  /** `move_card(config, lane_name, card)` for a card named `stack -
      package - (version)`. */
  function MoveCard(config: Json, lane: string, cardName: string, artifacts: map<string, Json>, lanes: seq<SnapBoard.Lane>): SnapBoard.Scan {
    Act(lane, ReadCard(config, cardName, artifacts), lanes)
  }

  // ---- the decision in closed form ----

  /** The two pockets' kernels, read independently of the loop: archive
      when the lane's own pocket has another version; move when the card
      sits in Proposed, -updates has the card's image at the card's
      version and there is an Updates lane. The move is only tried on the
      second pocket, so it never cuts the loop short. */
  function Decide(ctx: Ctx, kp: Kernel, ku: Kernel): SnapBoard.Scan {
    var own := if ctx.lane == "proposed" then kp else ku;
    var archive := Repository(ctx.lane) && own.debVersion != JStr(ctx.version);
    var move := ctx.lane == "proposed" && ku.image == ctx.package && ku.debVersion == JStr(ctx.version) && ctx.target.Some?;
    SnapBoard.Scan((if archive then [SnapBoard.Archive] else []) + (if move then [SnapBoard.MoveTo(ctx.target.value)] else []),
         if move then SnapBoard.Moved else SnapBoard.Running)
  }

  /** The two-pocket loop is the closed-form decision when both reads
      succeed, raises after the first pocket's actions when the second
      fails, and raises at once when the first fails. */
  lemma PocketsDecide(ctx: Ctx, kp: Option<Kernel>, ku: Option<Kernel>)
    ensures var r := Pockets(ctx, kp, ku);
      && (kp.None? ==> r == SnapBoard.Scan([], SnapBoard.Raised))
      && (kp.Some? && ku.None? ==> r.stop == SnapBoard.Raised && r.actions == Step(ctx, "proposed", kp).actions)
      && (kp.Some? && ku.Some? ==> r == Decide(ctx, kp.value, ku.value))
  {
    if kp.Some? && ku.Some? {
      var r := Pockets(ctx, kp, ku);
      assert Step(ctx, "proposed", kp).stop == SnapBoard.Running;
      if ctx.lane == "proposed" {
        assert r.actions == Step(ctx, "proposed", kp).actions + Step(ctx, "updates", ku).actions;
      } else {
        assert Step(ctx, "proposed", kp) == SnapBoard.Scan([], SnapBoard.Running);
      }
    } else if kp.Some? {
      assert Step(ctx, "proposed", kp).stop == SnapBoard.Running;
      assert Step(ctx, "proposed", kp).actions + [] == Step(ctx, "proposed", kp).actions;
    }
  }

  /** The shape of any outcome: at most one archive, then at most one move
      to the lane `target` names, only out of the Proposed lane. */
  predicate Shaped(lane: string, target: Option<nat>, r: SnapBoard.Scan) {
    && |r.actions| <= 2
    && (forall k | 0 <= k < |r.actions| - 1 :: r.actions[k] == SnapBoard.Archive)
    && (r.stop == SnapBoard.Moved <==> |r.actions| > 0 && r.actions[|r.actions| - 1].MoveTo?)
    && (r.stop == SnapBoard.Moved ==>
          && lane == "proposed" && target.Some? && |r.actions| > 0
          && r.actions[|r.actions| - 1] == SnapBoard.MoveTo(target.value))
  }

  lemma ActShaped(lane: string, reading: Reading, lanes: seq<SnapBoard.Lane>)
    ensures Shaped(lane, SnapBoard.OpenLane(lanes, "Updates", 0), Act(lane, reading, lanes))
  {
    if reading.Read? {
      PocketsDecide(Ctx(lane, reading.package, reading.version, SnapBoard.OpenLane(lanes, "Updates", 0)), reading.kp, reading.ku);
    }
  }

  /** A card is archived at most once and moved at most once, the move
      coming last and going to the first open lane named Updates, and only
      out of the Proposed lane: a card in Updates is never moved. A card
      whose title does not match is left alone. */
  lemma MoveCardShape(config: Json, lane: string, cardName: string, artifacts: map<string, Json>, lanes: seq<SnapBoard.Lane>)
    ensures Shaped(lane, SnapBoard.OpenLane(lanes, "Updates", 0), MoveCard(config, lane, cardName, artifacts, lanes))
    ensures ParseTitle(cardName).None? ==> MoveCard(config, lane, cardName, artifacts, lanes) == SnapBoard.Scan([], SnapBoard.Running)
  {
    ActShaped(lane, ReadCard(config, cardName, artifacts), lanes);
  }

  /** Once the card is read, the outcome is the closed-form decision: it
      raises exactly when the architecture or a pocket's kernel cannot be
      read; otherwise the card is archived exactly when its own pocket has
      another version, and moved exactly when it sits in Proposed and
      -updates has its image at its version (with an Updates lane open). */
  lemma MoveCardDecides(config: Json, lane: string, cardName: string, artifacts: map<string, Json>, lanes: seq<SnapBoard.Lane>)
    requires Repository(lane)
    ensures var reading := ReadCard(config, cardName, artifacts);
      var r := MoveCard(config, lane, cardName, artifacts, lanes);
      && (r.stop == SnapBoard.Raised <==> reading.NoArch? || (reading.Read? && (reading.kp.None? || reading.ku.None?)))
      && (reading.Read? && reading.kp.Some? && reading.ku.Some? ==>
            && (SnapBoard.Archive in r.actions <==>
                  (if lane == "proposed" then reading.kp else reading.ku).value.debVersion != JStr(reading.version))
            && (r.stop == SnapBoard.Moved <==>
                  && lane == "proposed" && reading.ku.value.image == reading.package
                  && reading.ku.value.debVersion == JStr(reading.version) && SnapBoard.OpenLane(lanes, "Updates", 0).Some?))
  {
    ActDecides(lane, ReadCard(config, cardName, artifacts), lanes);
  }

  lemma ActDecides(lane: string, reading: Reading, lanes: seq<SnapBoard.Lane>)
    requires Repository(lane)
    ensures var r := Act(lane, reading, lanes);
      && (r.stop == SnapBoard.Raised <==> reading.NoArch? || (reading.Read? && (reading.kp.None? || reading.ku.None?)))
      && (reading.Read? && reading.kp.Some? && reading.ku.Some? ==>
            && (SnapBoard.Archive in r.actions <==>
                  (if lane == "proposed" then reading.kp else reading.ku).value.debVersion != JStr(reading.version))
            && (r.stop == SnapBoard.Moved <==>
                  && lane == "proposed" && reading.ku.value.image == reading.package
                  && reading.ku.value.debVersion == JStr(reading.version) && SnapBoard.OpenLane(lanes, "Updates", 0).Some?))
  {
    if reading.Read? {
      var ctx := Ctx(lane, reading.package, reading.version, SnapBoard.OpenLane(lanes, "Updates", 0));
      PocketsDecide(ctx, reading.kp, reading.ku);
      if reading.kp.Some? && reading.ku.Some? {
        var d := Decide(ctx, reading.kp.value, reading.ku.value);
        assert SnapBoard.Archive in d.actions <==> d.actions != [] && d.actions[0] == SnapBoard.Archive;
      }
    }
  }

  // ---- the board ----

  predicate Processed(laneName: string) {
    Repository(Lower(laneName))
  }

  /** `move_card` as a decision on a lower-cased lane name and a card
      title. */
  function Decider(config: Json, artifacts: map<string, Json>, lanes: seq<SnapBoard.Lane>): (string, string) -> SnapBoard.Scan {
    (lane: string, title: string) => MoveCard(config, lane, title, artifacts, lanes)
  }

  /** `main`: the Proposed and Updates lanes (in any case) are listed in
      board order, each when its turn comes, and every card listed gets
      `move_card`; the run is the one the snap board manager makes. */
  function ManageBoard(config: Json, lanes: seq<SnapBoard.Lane>, artifacts: map<string, Json>): seq<SnapBoard.Visit> {
    SnapBoard.RunBoard(lanes, Processed, Decider(config, artifacts, lanes))
  }

  /** Lanes other than Proposed and Updates (in any case) are never listed:
      none of their cards is decided, archived or moved. */
  lemma OtherLanesUntouched(config: Json, lanes: seq<SnapBoard.Lane>, artifacts: map<string, Json>, i: nat)
    requires i < |lanes| && Lower(lanes[i].name) !in {"proposed", "updates"}
    ensures forall p | 0 <= p < |ManageBoard(config, lanes, artifacts)| :: ManageBoard(config, lanes, artifacts)[p].lane != i
  {
    assert !Processed(lanes[i].name);
  }

  /** Every decision of a run is `move_card` on a card listed in a Proposed
      or Updates lane; only cards of a Proposed lane move, and only to an
      open lane named Updates. */
  lemma OnlyProposedMoves(config: Json, lanes: seq<SnapBoard.Lane>, artifacts: map<string, Json>, p: nat)
    requires p < |ManageBoard(config, lanes, artifacts)|
    ensures var v := ManageBoard(config, lanes, artifacts)[p];
      && v.lane < |lanes| && Lower(lanes[v.lane].name) in {"proposed", "updates"}
      && v.scan == MoveCard(config, Lower(lanes[v.lane].name), v.title, artifacts, lanes)
      && (v.scan.stop == SnapBoard.Moved ==>
            && Lower(lanes[v.lane].name) == "proposed"
            && exists k | 0 <= k < |lanes| :: lanes[k].open && lanes[k].name == "Updates"
                 && |v.scan.actions| > 0 && v.scan.actions[|v.scan.actions| - 1] == SnapBoard.MoveTo(k))
  {
    var v := ManageBoard(config, lanes, artifacts)[p];
    var lane := Lower(lanes[v.lane].name);
    assert Processed(lanes[v.lane].name);
    assert Shaped(lane, SnapBoard.OpenLane(lanes, "Updates", 0), v.scan) by {
      MoveCardShape(config, lane, v.title, artifacts, lanes);
    }
    if v.scan.stop == SnapBoard.Moved {
      var k := SnapBoard.OpenLane(lanes, "Updates", 0).value;
      assert lanes[k].open && lanes[k].name == "Updates";
    }
  }

  /** Every card a Proposed or Updates lane holds when the board is first
      listed is decided in that lane, the lane's cards in order. */
  lemma InitialCardsDecided(config: Json, lanes: seq<SnapBoard.Lane>, artifacts: map<string, Json>, i: nat)
    requires i < |lanes| && Processed(lanes[i].name)
    ensures exists p :: SnapBoard.DecidedBlock(ManageBoard(config, lanes, artifacts), p, i, lanes[i].name, lanes[i].cards,
                                               Decider(config, artifacts, lanes))
    ensures forall t :: Decider(config, artifacts, lanes)(Lower(lanes[i].name), t) == MoveCard(config, Lower(lanes[i].name), t, artifacts, lanes)
  {
    var decide := Decider(config, artifacts, lanes);
    var vs := ManageBoard(config, lanes, artifacts);
    assert vs == SnapBoard.RunFrom(lanes, Processed, decide, 0, SnapBoard.Listed(lanes));
    assert SnapBoard.Listed(lanes)[i] == lanes[i].cards;
    SnapBoard.ListedDecided(lanes, Processed, decide, 0, SnapBoard.Listed(lanes), i);
    var p :| SnapBoard.DecidedBlock(vs, p, i, lanes[i].name, SnapBoard.Listed(lanes)[i], decide);
    assert SnapBoard.DecidedBlock(vs, p, i, lanes[i].name, lanes[i].cards, decide);
  }

  /** A card `move_card` moves out of Proposed is left alone when it is
      decided in Updates: -updates already has its version, and only
      Proposed cards move. */
  lemma MovedRestsInUpdates(config: Json, cardName: string, artifacts: map<string, Json>, lanes: seq<SnapBoard.Lane>)
    requires MoveCard(config, "proposed", cardName, artifacts, lanes).stop == SnapBoard.Moved
    ensures MoveCard(config, "updates", cardName, artifacts, lanes) == SnapBoard.Scan([], SnapBoard.Running)
  {
    MoveCardDecides(config, "proposed", cardName, artifacts, lanes);
    MoveCardDecides(config, "updates", cardName, artifacts, lanes);
    MoveCardShape(config, "updates", cardName, artifacts, lanes);
    var r := MoveCard(config, "updates", cardName, artifacts, lanes);
  }

  /** A card moved out of a Proposed lane into an Updates lane further along
      the board is decided again there, later in the same run, and that
      second decision does nothing. */
  lemma {:induction false} MovedDecidedAgain(config: Json, lanes: seq<SnapBoard.Lane>, artifacts: map<string, Json>, p: nat)
    requires p < |ManageBoard(config, lanes, artifacts)|
    requires var v := ManageBoard(config, lanes, artifacts)[p];
      SnapBoard.MovedOpen(v.scan) && v.lane < v.scan.actions[0].lane
    ensures var vs := ManageBoard(config, lanes, artifacts);
      var k := vs[p].scan.actions[0].lane;
      && k < |lanes| && lanes[k].name == "Updates"
      && exists q | p < q < |vs| :: vs[q] == SnapBoard.Visit(k, vs[p].title, SnapBoard.Scan([], SnapBoard.Running))
  {
    var decide := Decider(config, artifacts, lanes);
    var vs := ManageBoard(config, lanes, artifacts);
    var v := vs[p];
    OnlyProposedMoves(config, lanes, artifacts, p);
    var k := v.scan.actions[0].lane;
    assert k < |lanes| && lanes[k].name == "Updates";
    UpdatesLower();
    SnapBoard.BoardMovedDecidedAgain(lanes, Processed, decide, p);
    MovedRestsInUpdates(config, v.title, artifacts, lanes);
    RestsLater(config, lanes, artifacts, vs, p, k, lanes[k].name, v.title);
  }

  /** The later decision of a card moved out of Proposed, in a lane named
      Updates, does nothing. */
  lemma RestsLater(config: Json, lanes: seq<SnapBoard.Lane>, artifacts: map<string, Json>, vs: seq<SnapBoard.Visit>,
                   p: int, k: nat, name: string, title: string)
    requires Lower(name) == "updates"
    requires MoveCard(config, "updates", title, artifacts, lanes) == SnapBoard.Scan([], SnapBoard.Running)
    requires SnapBoard.DecidedLater(vs, p, k, name, title, Decider(config, artifacts, lanes))
    ensures exists q | 0 <= q && p < q < |vs| :: vs[q] == SnapBoard.Visit(k, title, SnapBoard.Scan([], SnapBoard.Running))
  {
    var decide := Decider(config, artifacts, lanes);
    var q :| 0 <= q && p < q < |vs| && vs[q] == SnapBoard.Visit(k, title, decide("updates", title));
    DeciderMoves(config, artifacts, lanes, "updates", title);
  }

  lemma DeciderMoves(config: Json, artifacts: map<string, Json>, lanes: seq<SnapBoard.Lane>, lane: string, title: string)
    ensures Decider(config, artifacts, lanes)(lane, title) == MoveCard(config, lane, title, artifacts, lanes)
  {
  }

  lemma UpdatesLower()
    ensures Lower("Updates") == "updates"
  {
    assert Lower("Updates")[0] == 'u';
  }

  /** Conversely, every card decided in a lane was in that lane when the
      board was first listed, or an earlier decision of the same run moved
      it there without archiving it. */
  lemma {:induction false} DecisionsExplained(config: Json, lanes: seq<SnapBoard.Lane>, artifacts: map<string, Json>, p: nat)
    requires p < |ManageBoard(config, lanes, artifacts)|
    ensures var vs := ManageBoard(config, lanes, artifacts);
      || vs[p].title in lanes[vs[p].lane].cards
      || exists q | 0 <= q < p :: SnapBoard.Brought(vs[q], vs[p].lane, vs[p].title)
  {
    SnapBoard.BoardExplained(lanes, Processed, Decider(config, artifacts, lanes), p);
  }
}

=== FILE: desktop_updater.dfy ===
/** Reporting a kernel test run on the desktop kernel board
    (`trello-board-updater-desktop.py`): derive the kernel stack, the kernel
    image package and its version in -proposed from the job's arguments and
    the published package data, find or create the card
    `stack - image - (version)`, comment the run's summary, record the SUT's
    result in the `Testflinger` checklist, flag a crash, give a new card its
    `Sign-Off` checklist and note the version in `Revisions`. The card
    search, the package data, the board and the clock are inputs. */
module DesktopUpdater {
  import opened Wrappers
  import opened Text
  import opened Json
  import opened CardTitle
  import opened Checklists
  import SnapUpdater
  import DesktopBoard

  /** The job's command-line arguments (the Trello credentials and the
      file arguments aside). */
  datatype Args = Args(arch: string, sruType: string, series: string, name: string, kernel: string,
                       queue: string, cardOnly: bool)

  // ---- names derived from the arguments ----

  /** `kernel_stack`: the series, with `-hwe` when the job name's second
      `-` field is `hwe`; on bionic an OEM kernel names the OEM stack.
      `None` when the job name has no `-` (the index raises). This is the
      code as written; see `KernelStackFixed`. */
  function KernelStack(series: string, name: string, kernel: string): Option<string> {
    var parts := Split(name, '-');
    if |parts| < 2 then None
    else
      var stack := if parts[1] == "hwe" then series + "-hwe" else series;
      Some(OemStack(stack, kernel))
  }

  /** The bionic OEM rule, applied after the HWE rule. */
  function OemStack(stack: string, kernel: string): string {
    if stack == "bionic" && Contains(kernel, "oem") then
      (if Contains(kernel, "osp1") then "oem-osp1" else "oem")
    else stack
  }

  /** The stack the repository's own test of an argos HWE job expects:
      a series that already names the HWE stack does not get `-hwe` twice. */
  function KernelStackFixed(series: string, name: string, kernel: string): Option<string> {
    var parts := Split(name, '-');
    if |parts| < 2 then None
    else
      var stack := if parts[1] == "hwe" && !EndsWith(series, "-hwe") then series + "-hwe" else series;
      Some(OemStack(stack, kernel))
  }

  /** Splitting `first-second-rest` gives `first` and `second` first. */
  lemma SplitTwo(first: string, second: string, rest: string)
    requires '-' !in first && '-' !in second && (rest == "" || rest[0] == '-')
    ensures var parts := Split(first + "-" + second + rest, '-');
      |parts| >= 2 && parts[0] == first && parts[1] == second
  {
    if rest == "" {
      assert first + "-" + second + rest == first + ['-'] + second;
      SplitAround(first, '-', second);
    } else {
      assert first + "-" + second + rest == first + ['-'] + (second + ['-'] + rest[1..]);
      SplitFirst(first, '-', second + ['-'] + rest[1..]);
      SplitFirst(second, '-', rest[1..]);
    }
  }

  /** For a job named `first-second...`, the stack is the series with
      `-hwe` exactly when `second` is `hwe`, then the bionic OEM rule. */
  lemma KernelStackOf(series: string, first: string, second: string, rest: string, kernel: string)
    requires '-' !in first && '-' !in second && (rest == "" || rest[0] == '-')
    ensures KernelStack(series, first + "-" + second + rest, kernel)
         == Some(OemStack(if second == "hwe" then series + "-hwe" else series, kernel))
  {
    SplitTwo(first, second, rest);
  }

  /** A job name without `-` makes the script fail. */
  lemma KernelStackNeedsDash(series: string, name: string, kernel: string)
    ensures KernelStack(series, name, kernel).None? <==> '-' !in name
  {
    if '-' !in name {
      CountCharZero(name, '-');
    } else {
      var i :| 0 <= i < |name| && name[i] == '-';
      CountCharPositive(name, '-', i);
    }
  }

  lemma CountCharPositive(s: string, c: char, i: nat)
    requires i < |s| && s[i] == c
    ensures CountChar(s, c) >= 1
  {
    assert s == s[..i] + s[i..];
    CountCharConcat(s[..i], s[i..], c);
    assert s[i..][0] == c;
    CountCharZero(s[i..], c);
  }

  /** A series that already names the HWE stack, as in the repository's
      test of the argos job `xenial-hwe-server-201802-26098` on series
      `xenial-hwe`: the code as written appends `-hwe` a second time. */
  lemma HweTwice(series: string, first: string, rest: string, kernel: string)
    requires EndsWith(series, "-hwe") && '-' !in first && (rest == "" || rest[0] == '-')
    ensures KernelStack(series, first + "-hwe" + rest, kernel) == Some(series + "-hwe")
    ensures EndsWith(series + "-hwe", "-hwe-hwe")
  {
    assert first + "-hwe" + rest == first + "-" + "hwe" + rest;
    KernelStackOf(series, first, "hwe", rest, kernel);
    assert (series + "-hwe")[|series| + 4 - 8..] == series[|series| - 4..] + "-hwe";
  }

  /** The corrected rule names such a job's stack after the series alone,
      the stack the test expects. */
  lemma HweOnce(series: string, first: string, rest: string, kernel: string)
    requires EndsWith(series, "-hwe") && '-' !in first && (rest == "" || rest[0] == '-')
    ensures KernelStackFixed(series, first + "-hwe" + rest, kernel) == Some(series)
  {
    assert first + "-hwe" + rest == first + "-" + "hwe" + rest;
    SplitTwo(first, "hwe", rest);
    assert series != "bionic" by { assert "bionic"[2..] != "-hwe"; }
  }

  /** The corrected rule differs from the code only for a series that
      already ends in `-hwe`. */
  lemma KernelStackFixedAgrees(series: string, name: string, kernel: string)
    requires !EndsWith(series, "-hwe")
    ensures KernelStackFixed(series, name, kernel) == KernelStack(series, name, kernel)
  {
  }

  /** `dlv_short`: the first four `.` fields of the kernel meta package's
      version as `a_b_c-d`; `None` when there are fewer than four. */
  function DlvShort(v: string): Option<string> {
    var dlv := Split(v, '.');
    if |dlv| < 4 then None else Some(dlv[0] + "_" + dlv[1] + "_" + dlv[2] + "-" + dlv[3])
  }

  /** A version `a.b.c.d.e` gives `a_b_c-d`. */
  lemma DlvShortOf(a: string, b: string, c: string, d: string, e: string)
    requires '.' !in a && '.' !in b && '.' !in c && '.' !in d && '.' !in e
    ensures DlvShort(a + "." + b + "." + c + "." + d + "." + e) == Some(a + "_" + b + "_" + c + "-" + d)
  {
    var parts := [a, b, c, d, e];
    assert Join(parts, ".") == a + "." + b + "." + c + "." + d + "." + e by {
      assert Join([e], ".") == e;
      assert Join([d, e], ".") == d + "." + e by { assert [d, e][1..] == [e]; }
      assert Join([c, d, e], ".") == c + "." + (d + "." + e) by { assert [c, d, e][1..] == [d, e]; }
      assert Join([b, c, d, e], ".") == b + "." + (c + "." + (d + "." + e)) by { assert [b, c, d, e][1..] == [c, d, e]; }
      assert parts[1..] == [b, c, d, e];
    }
    SplitJoin(parts, '.');
  }

  /** On a five-field version whose fields hold no `-`, the updater's
      `dlv_short` and the board manager's stack version agree, so the image
      the updater names is the one the board manager derives. */
  lemma DlvShortAgrees(a: string, b: string, c: string, d: string, e: string)
    requires '.' !in a && '.' !in b && '.' !in c && '.' !in d && '.' !in e
    requires '-' !in a && '-' !in b && '-' !in c && '-' !in d
    ensures DlvShort(a + "." + b + "." + c + "." + d + "." + e)
         == Some(DesktopBoard.StackVersion(a + "." + b + "." + c + "." + d + "." + e))
  {
    DlvShortOf(a, b, c, d, e);
    DesktopBoard.StackVersionOf(a, b, c, d, e);
  }

  /** `kernel_suffix`: stock images and the OEM xenial images run the
      generic kernel, Raspberry Pi kernels `raspi2`, the others their
      stack's flavour. */
  function KernelSuffix(sruType: string, series: string, kernel: string, stack: string): string {
    if Contains(kernel, "raspi") then "raspi2"
    else if sruType == "stock" || sruType == "stock-hwe" then "generic"
    else if sruType == "oem" && Contains(series, "xenial") then "generic"
    else stack
  }

  function KernelImage(dlvShort: string, suffix: string): string {
    "linux-image-" + dlvShort + "-" + suffix
  }

  /** For the stacks the board manager knows, the updater's image name is
      the board manager's: stock runs of a non-OEM stack are `-generic`,
      OEM runs of the bionic OEM stacks are `-oem` or `-oem-osp1`. */
  lemma SuffixAgrees(sruType: string, series: string, kernel: string, stack: string)
    requires !Contains(kernel, "raspi")
    requires ((sruType == "stock" || sruType == "stock-hwe") && !Contains(stack, "oem"))
          || (sruType == "oem" && !Contains(series, "xenial") && (stack == "oem" || stack == "oem-osp1"))
    ensures "-" + KernelSuffix(sruType, series, kernel, stack) == DesktopBoard.Flavour(stack)
  {
    if sruType == "oem" {
      if stack == "oem" {
        assert OccursAt(stack, "oem", 0);
        NotContainsChar(stack, "oem-osp1", 3);
        assert "-" + stack == "-oem";
      } else {
        assert OccursAt(stack, "oem-osp1", 0);
        assert "-" + stack == "-oem-osp1";
      }
    } else {
      NotContainsExtended(stack, "oem", "-osp1");
      assert "oem" + "-osp1" == "oem-osp1";
    }
  }

  /** The package-data artifact of the job: universe for the OSP1 kernels
      outside xenial and for the Raspberry Pi kernels, main otherwise;
      always the -proposed pocket. */
  function ArtifactName(args: Args): string {
    var universe := (Contains(args.kernel, "oem-osp1") && args.series != "xenial") || Contains(args.kernel, "raspi");
    args.series + (if universe then "-universe-" else "-main-") + args.arch + "-proposed.json"
  }

  /** For a stock or HWE stack of a plain series, the updater reads the
      -proposed package data the board manager reads for the card's
      stack. */
  lemma {:induction false} ArtifactAgrees(args: Args, stack: string)
    requires '-' !in args.series && args.series != "oem" && args.series != "oem_focal"
    requires stack == args.series || stack == args.series + "-hwe"
    requires !Contains(stack, "oem-osp1") && !Contains(args.kernel, "oem-osp1") && !Contains(args.kernel, "raspi")
    ensures ArtifactName(args) == DesktopBoard.ArtifactName(stack, args.arch, "proposed")
  {
    assert DesktopBoard.Codename(stack) == args.series by {
      DesktopBoard.CodenameOf(args.series, "hwe");
      if stack != args.series {
        assert stack == args.series + "-" + "hwe";
      }
    }
    assert !DesktopBoard.Universe(stack);
    var main := args.series + "-main-" + args.arch;
    assert ArtifactName(args) == main + "-proposed.json";
    assert DesktopBoard.ArtifactName(stack, args.arch, "proposed") == main + "-" + "proposed" + ".json";
  }

  /** For a five-field version and a run the board manager knows the
      flavour of, the image the updater names is the one the board manager
      derives from the same version. */
  lemma ImageAgrees(a: string, b: string, c: string, d: string, e: string,
                    sruType: string, series: string, kernel: string, stack: string)
    requires '.' !in a && '.' !in b && '.' !in c && '.' !in d && '.' !in e
    requires '-' !in a && '-' !in b && '-' !in c && '-' !in d
    requires !Contains(kernel, "raspi")
    requires ((sruType == "stock" || sruType == "stock-hwe") && !Contains(stack, "oem"))
          || (sruType == "oem" && !Contains(series, "xenial") && (stack == "oem" || stack == "oem-osp1"))
    ensures var v := a + "." + b + "." + c + "." + d + "." + e;
      && DlvShort(v).Some?
      && KernelImage(DlvShort(v).value, KernelSuffix(sruType, series, kernel, stack)) == DesktopBoard.KernelImage(stack, v)
  {
    var v := a + "." + b + "." + c + "." + d + "." + e;
    var dlv := DesktopBoard.StackVersion(v);
    var suffix := KernelSuffix(sruType, series, kernel, stack);
    assert DlvShort(v) == Some(dlv) by { DlvShortAgrees(a, b, c, d, e); }
    assert "-" + suffix == DesktopBoard.Flavour(stack) by { SuffixAgrees(sruType, series, kernel, stack); }
    assert KernelImage(dlv, suffix) == "linux-image-" + dlv + ("-" + suffix);
  }

  /** `sut`: the last two `-` fields of the job name, marked `-oem` for
      the OEM xenial images; an argos queue names a DGX machine instead. */
  function Sut(name: string, sruType: string, queue: string, stack: string): Option<string> {
    var parts := Split(name, '-');
    if |parts| < 2 then None
    else
      var cid := parts[|parts| - 2] + "-" + parts[|parts| - 1];
      if Contains(queue, "argos") then Some(cid + (if Contains(name, "desktop") then "-dgx-station" else "-dgx-1"))
      else if (stack == "xenial" || stack == "xenial-hwe") && sruType == "oem" then Some(cid + "-oem")
      else Some(cid)
  }

  /** A job named `...-a-b` reports SUT `a-b`, with the suffixes above. */
  lemma SutOf(prefix: string, a: string, b: string, sruType: string, queue: string, stack: string)
    requires '-' !in a && '-' !in b
    ensures var name := prefix + "-" + a + "-" + b;
      var cid := a + "-" + b;
      Sut(name, sruType, queue, stack) == Some(
        if Contains(queue, "argos") then cid + (if Contains(name, "desktop") then "-dgx-station" else "-dgx-1")
        else if (stack == "xenial" || stack == "xenial-hwe") && sruType == "oem" then cid + "-oem"
        else cid)
  {
    var name := prefix + "-" + a + "-" + b;
    assert name == (prefix + "-" + a) + ['-'] + b;
    SplitLast(prefix + "-" + a, '-', b);
    assert prefix + "-" + a == prefix + ['-'] + a;
    SplitLast(prefix, '-', a);
  }

  /** The comment posted for the run. */
  function SummaryComment(name: string, kernel: string, image: string, debVersion: string,
                          jenkins: string, c3: string, summary: string): string {
    "**[TESTFLINGER] " + name + " " + kernel + " " + image + " (" + debVersion + ")**\n---\n\n"
    + "- Jenkins build details: " + jenkins + "\n"
    + "- Full results at: " + c3 + "\n\n```\n"
    + summary + "\n```\n"
  }

  // ---- the configuration ----

  /** `config.get(stack, {}).get('expected_tests', [])`: `None` when the
      configuration or the stack's entry is not a mapping (`.get` raises). */
  function Expected(config: Json, stack: string): Option<Json> {
    if !config.JObject? then None
    else
      var entry := Lookup(config.fields, stack).GetOr(JObject([]));
      if !entry.JObject? then None
      else Some(Lookup(entry.fields, "expected_tests").GetOr(JArray([])))
  }

  /** Iterating the expected tests for placeholders: every element must be
      a string (`item + ' (NO RESULTS)'`). */
  function Names(v: Json): Option<seq<string>> {
    match Iterate(v)
    case None => None
    case Some(xs) => if forall k | 0 <= k < |xs| :: xs[k].JStr? then Some(seq(|xs|, k requires 0 <= k < |xs| => xs[k].s)) else None
  }

  // ---- recording the run ----

  function SetItems(cls: seq<Checklist>, i: nat, items: seq<Item>): (r: seq<Checklist>)
    requires i < |cls|
    ensures |r| == |cls| && r[i].items == items
    ensures forall k | 0 <= k < |cls| :: r[k].name == cls[k].name
    ensures forall k | 0 <= k < |cls| && k != i :: r[k] == cls[k]
  {
    cls[i := cls[i].(items := items)]
  }

  /** The `Sign-Off` checklist of a new card. */
  const SignOffItems: seq<Item> :=
    [Item("Ready for Proposed", true), Item("Ready for Updates", false), Item("Can be Archived", false)]

  /** Some item of the list has this name. */
  predicate HasItem(items: seq<Item>, name: string) {
    exists k | 0 <= k < |items| :: items[k].name == name
  }

  /** The Testflinger entry: the item holding the entry's key takes the
      entry (checked when the summary is clean); with no such item, or a
      name without a key, the entry is appended unchecked. */
  function Record(items: seq<Item>, itemName: string, clean: bool): seq<Item> {
    match ChangeItem(items, itemName, clean, false)
    case Changed(changed) => changed
    case _ => items + [Item(itemName, false)]
  }

  /** A `Sign-Off` checklist appended when the card has none. */
  function SignOff(cls: seq<Checklist>): seq<Checklist> {
    if FindChecklist(cls, "Sign-Off").Some? then cls else cls + [Checklist("Sign-Off", SignOffItems)]
  }

  /** `<version> (<arch>)` added to `Revisions` (made if missing) when
      that checklist has no item of that name. */
  function Revise(cls: seq<Checklist>, rev: string): seq<Checklist> {
    var (c2, j) := FindOrCreate(cls, "Revisions", []);
    if HasItem(c2[j].items, rev) then c2 else SetItems(c2, j, c2[j].items + [Item(rev, false)])
  }

  lemma SignOffMeaning(cls: seq<Checklist>)
    ensures Extends(cls, SignOff(cls))
    ensures forall k | 0 <= k < |cls| :: SignOff(cls)[k] == cls[k]
    ensures FindChecklist(SignOff(cls), "Sign-Off").Some?
    ensures FindChecklist(cls, "Sign-Off").Some? ==> SignOff(cls) == cls
  {
    var after := SignOff(cls);
    if FindChecklist(cls, "Sign-Off").None? {
      FindChecklistFirst(cls, "Sign-Off");
      FindChecklistFirst(after, "Sign-Off");
      assert after[|cls|].name == "Sign-Off";
    }
  }

  /** After `Revise`, the `Revisions` checklist holds the revision; it
      gained it as its last item exactly when it lacked it; no other
      checklist changed. */
  lemma ReviseMeaning(cls: seq<Checklist>, rev: string)
    ensures var after := Revise(cls, rev);
      && Extends(cls, after)
      && FindChecklist(after, "Revisions").Some?
      && var j := FindChecklist(after, "Revisions").value;
      && HasItem(after[j].items, rev)
      && (forall k | 0 <= k < |cls| && k != j :: after[k] == cls[k])
      && (j < |cls| ==> after[j].items == cls[j].items + (if HasItem(cls[j].items, rev) then [] else [Item(rev, false)]))
      && (j >= |cls| ==> after[j].items == [Item(rev, false)])
  {
    var (c2, j) := FindOrCreate(cls, "Revisions", []);
    FindOrCreateKeeps(cls, "Revisions", []);
    FindChecklistFirst(cls, "Revisions");
    var after := Revise(cls, rev);
    assert after[j].items == c2[j].items + (if HasItem(c2[j].items, rev) then [] else [Item(rev, false)]);
    assert HasItem(after[j].items, rev) by {
      if !HasItem(c2[j].items, rev) {
        assert after[j].items[|c2[j].items|].name == rev;
      }
    }
    assert FindChecklist(after, "Revisions") == Some(j) by {
      FindChecklistFirst(after, "Revisions");
      assert forall k | 0 <= k < j :: after[k].name == c2[k].name;
    }
    if j < |cls| {
      assert c2 == cls;
    } else {
      assert c2[j].items == [];
    }
  }

  /** Noting a revision a second time changes nothing. */
  lemma ReviseIdempotent(cls: seq<Checklist>, rev: string)
    ensures Revise(Revise(cls, rev), rev) == Revise(cls, rev)
  {
    var once := Revise(cls, rev);
    ReviseMeaning(cls, rev);
    var j := FindChecklist(once, "Revisions").value;
    FindOrCreateIdempotentAt(once, j);
  }

  lemma FindOrCreateIdempotentAt(cls: seq<Checklist>, j: nat)
    requires FindChecklist(cls, "Revisions") == Some(j)
    ensures FindOrCreate(cls, "Revisions", []) == (cls, j)
  {
  }

  /** The card's checklists after the run is recorded in the Testflinger
      checklist at `i`. */
  function RecordRun(cls: seq<Checklist>, i: nat, itemName: string, clean: bool, rev: string): seq<Checklist>
    requires i < |cls|
  {
    Revise(SignOff(SetItems(cls, i, Record(cls[i].items, itemName, clean))), rev)
  }

  /** What recording does: the Testflinger checklist holds the entry
      (renamed into place or appended); the Revisions checklist holds the
      revision; a Sign-Off checklist exists; checklists other than those
      two are unchanged. */
  ghost predicate RunRecorded(before: seq<Checklist>, i: nat, after: seq<Checklist>, itemName: string, clean: bool, rev: string)
    requires i < |before|
  {
    && Extends(before, after)
    && after[i].items == Record(before[i].items, itemName, clean)
    && FindChecklist(after, "Sign-Off").Some?
    && FindChecklist(after, "Revisions").Some?
    && HasItem(after[FindChecklist(after, "Revisions").value].items, rev)
    && (forall k | 0 <= k < |before| && k != i && before[k].name != "Revisions" :: after[k] == before[k])
  }

  lemma {:induction false} RecordRunRecords(cls: seq<Checklist>, i: nat, itemName: string, clean: bool, rev: string)
    requires i < |cls| && cls[i].name == "Testflinger"
    ensures RunRecorded(cls, i, RecordRun(cls, i, itemName, clean, rev), itemName, clean, rev)
  {
    var a := SetItems(cls, i, Record(cls[i].items, itemName, clean));
    var b := SignOff(a);
    var c := Revise(b, rev);
    assert Extends(a, b) && FindChecklist(b, "Sign-Off").Some? && b[i] == a[i] by { SignOffMeaning(a); }
    ReviseMeaning(b, rev);
    assert FindChecklist(c, "Sign-Off").Some? by { FoundStaysFound(b, c, "Sign-Off"); }
    var j := FindChecklist(c, "Revisions").value;
    assert c[j].name == "Revisions" by { FindChecklistFirst(c, "Revisions"); }
    assert i != j by { assert c[i].name == "Testflinger"; }
    forall k | 0 <= k < |cls| && k != i && cls[k].name != "Revisions"
      ensures c[k] == cls[k]
    {
      assert k != j by { assert c[k].name == cls[k].name; }
    }
  }

  /** A SUT's entry replaces the SUT's `(NO RESULTS)` placeholder (or its
      previous entry): the first item starting with `<sut> ` takes the new
      entry. */
  lemma RecordFindsSut(items: seq<Item>, sut: string, rest: string, clean: bool, k: nat)
    requires |sut| == 0 || sut[0] != '['
    requires NoNewline(sut) && !Contains(sut, " (")
    requires k < |items| && StartsWith(items[k].name, sut + " ")
    ensures exists m | 0 <= m <= k :: Contains(items[m].name, sut + " ")
              && Record(items, sut + " (" + rest, clean) == items[m := Item(sut + " (" + rest, clean)]
  {
    var name := sut + " (" + rest;
    ItemNameKey(sut, rest, false);
    SutItemMatches(sut, rest, false, items[k].name);
    ChangeItemMeaning(items, name, clean, false);
    var r := ChangeItem(items, name, clean, false);
    assert r.Changed?;
    var m :| 0 <= m < |items| && Contains(items[m].name, sut + " ")
      && (forall j | 0 <= j < m :: !Contains(items[j].name, sut + " "))
      && r.items == items[m := Item(name, clean)];
    assert m <= k;
  }

  // ---- the run ----

  /** What the job derives before touching the board: the card's title
      fields and the expected tests of the stack. */
  datatype Plan = Plan(stack: string, image: string, debVersion: string, expected: Json)

  /** Derivation, or `None` when it raises: a job name without `-`, a
      missing artifact, a kernel package missing or not a string, a version
      of fewer than four fields, a missing image package, a configuration
      that is not a mapping. The image package's version must be a string
      here too; the script would pass any value through `str()`, but the
      card fields it fills are text, and manifests give versions as text. */
  function Derive(args: Args, artifacts: map<string, Json>, config: Json, asWritten: bool): Option<Plan> {
    var stackOpt := if asWritten then KernelStack(args.series, args.name, args.kernel)
                    else KernelStackFixed(args.series, args.name, args.kernel);
    if stackOpt.None? || ArtifactName(args) !in artifacts then None
    else
      var stack := stackOpt.value;
      var pkg := artifacts[ArtifactName(args)];
      match DesktopBoard.Get(pkg, args.kernel)
      case Some(JStr(v)) =>
        (match DlvShort(v)
         case None => None
         case Some(dlv) =>
           var image := KernelImage(dlv, KernelSuffix(args.sruType, args.series, args.kernel, stack));
           match DesktopBoard.Get(pkg, image)
           case Some(JStr(deb)) =>
             (match Expected(config, stack)
              case None => None
              case Some(expected) => Some(Plan(stack, image, deb, expected)))
           case _ => None)
      case _ => None
  }

  /** What a derivation needs and reads: the artifact exists, the job
      name has a `-`, the configuration is a mapping, the kernel meta
      package's version is a string of at least four `.` fields, and the
      card's version is the image package's version in that artifact. A
      job name without `-` or a missing artifact always raises. */
  lemma DeriveReads(args: Args, artifacts: map<string, Json>, config: Json, asWritten: bool)
    ensures var r := Derive(args, artifacts, config, asWritten);
      && ('-' !in args.name || ArtifactName(args) !in artifacts ==> r.None?)
      && (r.Some? ==>
            && ArtifactName(args) in artifacts && config.JObject?
            && var pkg := artifacts[ArtifactName(args)];
            && var meta := DesktopBoard.Get(pkg, args.kernel);
            && meta.Some? && meta.value.JStr? && |Split(meta.value.s, '.')| >= 4
            && StartsWith(r.value.image, "linux-image-" + DlvShort(meta.value.s).value + "-")
            && DesktopBoard.Get(pkg, r.value.image) == Some(JStr(r.value.debVersion)))
  {
    KernelStackNeedsDash(args.series, args.name, args.kernel);
    var r := Derive(args, artifacts, config, asWritten);
    if r.Some? {
      var pkg := artifacts[ArtifactName(args)];
      var v := DesktopBoard.Get(pkg, args.kernel).value.s;
      var stack := if asWritten then KernelStack(args.series, args.name, args.kernel).value
                   else KernelStackFixed(args.series, args.name, args.kernel).value;
      var suffix := KernelSuffix(args.sruType, args.series, args.kernel, stack);
      assert r.value.image == KernelImage(DlvShort(v).value, suffix);
      assert KernelImage(DlvShort(v).value, suffix)[..|"linux-image-" + DlvShort(v).value + "-"|]
          == "linux-image-" + DlvShort(v).value + "-";
    }
  }

  /** How the job ended: raised, gave up (`sys.exit(1)`: no card and no
      Proposed lane), or updated a card, created in the given open list
      with the given title when the search found none. */
  datatype Outcome = Raised | Exited | Updated(created: Option<(nat, string)>, card: SnapUpdater.Card)

  /** `run(args, board, c3_link, jenkins_link)`. `found` is the card the
      search returned, `openLists` the board's open list names, `time` the
      run's UTC timestamp and `summary` the summary file's text. */
  function Run(args: Args, artifacts: map<string, Json>, config: Json, found: Option<SnapUpdater.Card>,
               openLists: seq<string>, boardLabels: seq<string>, c3: string, jenkins: string,
               time: string, summary: string, asWritten: bool): Outcome
  {
    match Derive(args, artifacts, config, asWritten)
    case None => Raised
    case Some(plan) => Apply(plan, args, found, openLists, boardLabels, c3, jenkins, time, summary)
  }

  /** The board work once the names are known: the card to work on
      (the one found, or a new one in the first open Proposed list), then
      the work on it. */
  function Apply(plan: Plan, args: Args, found: Option<SnapUpdater.Card>, openLists: seq<string>,
                 boardLabels: seq<string>, c3: string, jenkins: string, time: string, summary: string): Outcome
  {
    var title := Head(plan.stack, plan.image, plan.debVersion);
    var start: Option<(Option<(nat, string)>, SnapUpdater.Card)> :=
      if found.Some? then Some((None, found.value))
      else match SnapUpdater.FirstNamed(openLists, "Proposed", 0)
        case None => None
        case Some(l) => Some((Some((l, title)), SnapUpdater.Card(title, [], [], [])));
    match start
    case None => Exited
    case Some((created, card)) =>
      match Work(plan, args, card, boardLabels, c3, jenkins, time, summary)
      case None => Raised
      case Some(updated) => Updated(created, updated)
  }

  /** The run's entry in the Testflinger checklist. */
  function Entry(args: Args, sut: string, time: string, jenkins: string, c3: string): string {
    EntryName(sut, if args.cardOnly then "In progress" else time, jenkins, c3)
  }

  /** The work on the card: the summary comment, the crash label, the
      Testflinger entry, Sign-Off and Revisions. `None` when it raises: a
      Testflinger checklist to create from expected tests that are not a
      list of names. */
  function Work(plan: Plan, args: Args, card: SnapUpdater.Card, boardLabels: seq<string>,
                c3: string, jenkins: string, time: string, summary: string): Option<SnapUpdater.Card>
  {
    var comments := if args.cardOnly then card.comments
      else card.comments + [SummaryComment(args.name, args.kernel, plan.image, plan.debVersion, jenkins, c3, summary)];
    var summaryData := if args.cardOnly then "" else summary;
    var names := if FindChecklist(card.checklists, "Testflinger").Some? then Some([]) else Names(plan.expected);
    match (names, Sut(args.name, args.sruType, args.queue, plan.stack))
    case (Some(expected), Some(sut)) =>
      var (cls, i) := FindOrCreate(card.checklists, "Testflinger", expected);
      var labels := if args.cardOnly then card.labels else SnapUpdater.CrashLabels(card.labels, boardLabels, c3);
      var checklists := RecordRun(cls, i, Entry(args, sut, time, jenkins, c3), NoNewFailsOrSkips(summaryData),
                                  plan.debVersion + " (" + args.arch + ")");
      Some(SnapUpdater.Card(card.name, checklists, labels, comments))
    case _ => None
  }

  /** A card the job creates sits in the first open Proposed list, and its
      title reads back, through the board manager's title grammar, as the
      stack, image and version it was made from (for a stack and image
      without whitespace and a version without `)` or line breaks). The
      job gives up exactly when the search found nothing and no open list
      is called Proposed. */
  lemma {:induction false} ApplyCreates(plan: Plan, args: Args, found: Option<SnapUpdater.Card>, openLists: seq<string>,
                     boardLabels: seq<string>, c3: string, jenkins: string, time: string, summary: string)
    requires NoSpace(plan.stack) && plan.image != "" && NoSpace(plan.image)
    requires NoNewline(plan.debVersion) && ')' !in plan.debVersion
    ensures var o := Apply(plan, args, found, openLists, boardLabels, c3, jenkins, time, summary);
      && (o.Exited? <==> found.None? && forall k | 0 <= k < |openLists| :: openLists[k] != "Proposed")
      && (o.Updated? ==> (o.created.Some? <==> found.None?))
      && (o.Updated? && found.Some? ==> o.card.name == found.value.name)
      && (o.Updated? && o.created.Some? ==>
            && o.created.value.0 < |openLists| && openLists[o.created.value.0] == "Proposed"
            && o.card.name == o.created.value.1
            && var t := ParseTitle(o.card.name);
            && t.Some? && t.value.snap == plan.stack && t.value.version == plan.image
            && t.value.revision == plan.debVersion)
  {
    var title := Head(plan.stack, plan.image, plan.debVersion);
    HeadParses(title, plan.stack, plan.image, plan.debVersion);
  }

  /** Recording an entry leaves an item of that name. */
  lemma RecordHas(items: seq<Item>, itemName: string, clean: bool)
    ensures HasItem(Record(items, itemName, clean), itemName)
  {
    ChangeItemMeaning(items, itemName, clean, false);
    match ChangeItem(items, itemName, clean, false)
    case Changed(changed) =>
      var m :| 0 <= m < |items| && changed == items[m := Item(itemName, clean)];
      assert changed[m].name == itemName;
    case _ =>
      assert Record(items, itemName, clean)[|items|].name == itemName;
  }

  /** The card's checklists after the work: the Testflinger checklist
      holds the run's entry, a Sign-Off checklist exists, the Revisions
      checklist holds `<version> (<arch>)`, and the checklists the card had
      keep their names. */
  lemma WorkRecords(plan: Plan, args: Args, card: SnapUpdater.Card, boardLabels: seq<string>,
                    c3: string, jenkins: string, time: string, summary: string)
    ensures var r := Work(plan, args, card, boardLabels, c3, jenkins, time, summary);
      r.Some? ==>
        var cls := r.value.checklists;
        && Extends(card.checklists, cls)
        && FindChecklist(cls, "Testflinger").Some?
        && HasItem(cls[FindChecklist(cls, "Testflinger").value].items,
                   Entry(args, Sut(args.name, args.sruType, args.queue, plan.stack).value, time, jenkins, c3))
        && FindChecklist(cls, "Sign-Off").Some?
        && FindChecklist(cls, "Revisions").Some?
        && HasItem(cls[FindChecklist(cls, "Revisions").value].items, plan.debVersion + " (" + args.arch + ")")
  {
    var r := Work(plan, args, card, boardLabels, c3, jenkins, time, summary);
    if r.Some? {
      var names := if FindChecklist(card.checklists, "Testflinger").Some? then Some([]) else Names(plan.expected);
      var sut := Sut(args.name, args.sruType, args.queue, plan.stack).value;
      var (cls, i) := FindOrCreate(card.checklists, "Testflinger", names.value);
      var itemName := Entry(args, sut, time, jenkins, c3);
      var clean := NoNewFailsOrSkips(if args.cardOnly then "" else summary);
      var rev := plan.debVersion + " (" + args.arch + ")";
      var after := RecordRun(cls, i, itemName, clean, rev);
      assert r.value.checklists == after;
      assert Extends(card.checklists, cls) by { FindOrCreateKeeps(card.checklists, "Testflinger", names.value); }
      RecordRunRecords(cls, i, itemName, clean, rev);
      assert FindChecklist(after, "Testflinger") == Some(i) by {
        FindOrCreateFinds(card.checklists, "Testflinger", names.value);
        FoundStaysFound(cls, after, "Testflinger");
      }
      RecordHas(cls[i].items, itemName, clean);
    }
  }

  /** The card's comments and labels after the work: a card-only run
      posts nothing and attaches nothing; any other run posts exactly the
      summary comment, and the crash label is attached (when the board has
      it) exactly when there is no C3 link. */
  lemma WorkNotes(plan: Plan, args: Args, card: SnapUpdater.Card, boardLabels: seq<string>,
                  c3: string, jenkins: string, time: string, summary: string)
    ensures var r := Work(plan, args, card, boardLabels, c3, jenkins, time, summary);
      r.Some? ==>
        && r.value.name == card.name
        && (args.cardOnly ==> r.value.comments == card.comments && r.value.labels == card.labels)
        && (!args.cardOnly ==>
              r.value.comments == card.comments + [SummaryComment(args.name, args.kernel, plan.image, plan.debVersion, jenkins, c3, summary)])
        && (SnapUpdater.CrashLabel in r.value.labels <==>
              SnapUpdater.CrashLabel in card.labels
              || (!args.cardOnly && c3 == "" && SnapUpdater.CrashLabel in boardLabels))
        && (forall l | l in card.labels :: l in r.value.labels)
  {
  }

  /** The run of the repository's code differs from the corrected one
      only where the series already ends in `-hwe`. */
  lemma RunAgrees(args: Args, artifacts: map<string, Json>, config: Json, found: Option<SnapUpdater.Card>,
                  openLists: seq<string>, boardLabels: seq<string>, c3: string, jenkins: string,
                  time: string, summary: string)
    requires !EndsWith(args.series, "-hwe")
    ensures Run(args, artifacts, config, found, openLists, boardLabels, c3, jenkins, time, summary, true)
         == Run(args, artifacts, config, found, openLists, boardLabels, c3, jenkins, time, summary, false)
  {
    KernelStackFixedAgrees(args.series, args.name, args.kernel);
    assert Derive(args, artifacts, config, true) == Derive(args, artifacts, config, false);
  }
}

=== FILE: harvest.dfy ===
// Bug-status statistics of a Launchpad project: per-day status counters,
// the cumulative timeline, the records pushed to the database and the
// bundles they are pushed in.

module HarvestStats {
  import opened Wrappers
  import opened Text

  /** The Launchpad bug statuses that are counted. */
  datatype Status =
    | FixCommitted | Invalid | WontFix | Confirmed | Triaged | Expired
    | InProgress | Incomplete | FixReleased | New | Opinion

  /** The statuses in the order the script lists them. */
  const AllStatuses: seq<Status> :=
    [FixCommitted, Invalid, WontFix, Confirmed, Triaged, Expired,
     InProgress, Incomplete, FixReleased, New, Opinion]

  lemma AllStatusesComplete(s: Status)
    ensures s in AllStatuses
  {
    match s
    case FixCommitted => assert AllStatuses[0] == s;
    case Invalid => assert AllStatuses[1] == s;
    case WontFix => assert AllStatuses[2] == s;
    case Confirmed => assert AllStatuses[3] == s;
    case Triaged => assert AllStatuses[4] == s;
    case Expired => assert AllStatuses[5] == s;
    case InProgress => assert AllStatuses[6] == s;
    case Incomplete => assert AllStatuses[7] == s;
    case FixReleased => assert AllStatuses[8] == s;
    case New => assert AllStatuses[9] == s;
    case Opinion => assert AllStatuses[10] == s;
  }

  /** The status as Launchpad names it. */
  function Name(s: Status): string {
    match s
    case FixCommitted => "Fix Committed"
    case Invalid => "Invalid"
    case WontFix => "Won't Fix"
    case Confirmed => "Confirmed"
    case Triaged => "Triaged"
    case Expired => "Expired"
    case InProgress => "In Progress"
    case Incomplete => "Incomplete"
    case FixReleased => "Fix Released"
    case New => "New"
    case Opinion => "Opinion"
  }

  /** The status as the database measurement names it. */
  function InfluxName(s: Status): string {
    match s
    case FixCommitted => "fixcommitted"
    case Invalid => "invalid"
    case WontFix => "wontfix"
    case Confirmed => "confirmed"
    case Triaged => "triaged"
    case Expired => "expired"
    case InProgress => "inprogress"
    case Incomplete => "incomplete"
    case FixReleased => "fixreleased"
    case New => "new"
    case Opinion => "opinion"
  }

  /** The first of `AllStatuses[i..]` that `f` names `name`. */
  function FindNamed(f: Status -> string, name: string, i: nat): (r: Option<Status>)
    requires i <= |AllStatuses|
    ensures r.Some? ==> f(r.value) == name
    ensures r.None? ==> forall k | i <= k < |AllStatuses| :: f(AllStatuses[k]) != name
    decreases |AllStatuses| - i
  {
    if i == |AllStatuses| then None
    else if f(AllStatuses[i]) == name then Some(AllStatuses[i])
    else FindNamed(f, name, i + 1)
  }

  /** The status a Launchpad status name stands for; a name outside the
      counted statuses is a missing key of every counter. */
  function StatusNamed(name: string): (r: Option<Status>)
    ensures r.Some? ==> Name(r.value) == name
    ensures r.None? ==> forall s: Status :: Name(s) != name
  {
    var r := FindNamed(Name, name, 0);
    if r.None? then
      assert forall s: Status :: Name(s) != name by {
        forall s: Status ensures Name(s) != name {
          AllStatusesComplete(s);
        }
      }
      r
    else r
  }

  /** Distinct statuses have distinct Launchpad names. */
  lemma NameInjective(a: Status, b: Status)
    requires Name(a) == Name(b)
    ensures a == b
  {
    var n := Name(a);
    assert |n| > 0;
    match a
    case FixCommitted => assert n[4] == 'C';
    case FixReleased => assert n[4] == 'R';
    case InProgress => assert n[2] == ' ';
    case Incomplete => assert n[2] == 'c';
    case Invalid => assert n[2] == 'v';
    case _ => assert n[0] == Name(a)[0];
  }

  /** Reading back a status name gives the status. */
  lemma StatusNamedName(s: Status)
    ensures StatusNamed(Name(s)) == Some(s)
  {
    var r := StatusNamed(Name(s));
    AllStatusesComplete(s);
    NameInjective(r.value, s);
  }

  /** Distinct statuses go to distinct measurements: no two statuses share
      a series in the database. */
  lemma InfluxNameInjective(a: Status, b: Status)
    requires InfluxName(a) == InfluxName(b)
    ensures a == b
  {
    var n := InfluxName(a);
    assert |n| > 0;
    match a
    case FixCommitted => assert n[3] == 'c';
    case FixReleased => assert n[3] == 'r';
    case InProgress => assert n[2] == 'p';
    case Incomplete => assert n[2] == 'c';
    case Invalid => assert n[2] == 'v';
    case _ => assert n[0] == InfluxName(a)[0];
  }

  // ---------------------------------------------------------------------
  // Counters

  /** Bug counts by status. */
  type Counter = map<Status, int>

  /** A counter holding every status. */
  predicate Full(c: Counter) {
    forall s: Status :: s in c
  }

  function Zeros(): (c: Counter)
    ensures Full(c) && forall s :: c[s] == 0
  {
    var c := map s | s in AllStatuses :: 0;
    assert Full(c) by {
      forall s: Status ensures s in c {
        AllStatusesComplete(s);
      }
    }
    c
  }

  /** The number of bugs a full counter counts. */
  function Total(c: Counter): int
    requires Full(c)
  {
    c[FixCommitted] + c[Invalid] + c[WontFix] + c[Confirmed] + c[Triaged] + c[Expired]
    + c[InProgress] + c[Incomplete] + c[FixReleased] + c[New] + c[Opinion]
  }

  /** Moving `delta` onto one status moves the total by `delta`. */
  lemma TotalBump(c: Counter, s: Status, delta: int)
    requires Full(c)
    ensures Full(c[s := c[s] + delta]) && Total(c[s := c[s] + delta]) == Total(c) + delta
  {
  }

  // ---------------------------------------------------------------------
  // Times and days

  /** Seconds in a day. */
  const DaySeconds: int := 86400

  /** The (UTC) day of a time in seconds since the epoch. */
  function Day(t: int): int {
    t / DaySeconds
  }

  /** The time stamp, in nanoseconds, of the start of a day. */
  function DayStamp(d: int): (ns: int)
    ensures ns % 1_000_000_000 == 0
  {
    d * DaySeconds * 1_000_000_000
  }

  lemma DayStampMonotone(d: int, e: int)
    requires d < e
    ensures DayStamp(d) < DayStamp(e)
  {
  }

  // ---------------------------------------------------------------------
  // Processing one bug

  /** An entry of a bug's activity log. */
  datatype Activity = Activity(whatChanged: string, oldValue: string, newValue: string, changed: int)

  /** A bug task as returned by the search; times are seconds since the epoch. */
  datatype Bug = Bug(
    created: int, confirmed: Option<int>, triaged: Option<int>,
    fixCommitted: Option<int>, fixReleased: Option<int>,
    status: string, id: int, tags: seq<string>, activity: seq<Activity>)

  /** What an activity entry that changes the project's status says. */
  function StatusChange(proj: string): string {
    proj + ": status"
  }

  predicate IsStatusChange(proj: string, a: Activity) {
    a.whatChanged == StatusChange(proj)
  }

  /** Status changes by day; a day not present has no changes yet. */
  type Changes = map<int, Counter>

  predicate WellFormed(ch: Changes) {
    forall d | d in ch :: Full(ch[d])
  }

  function On(ch: Changes, d: int): (c: Counter)
    requires WellFormed(ch)
    ensures Full(c)
  {
    if d in ch then ch[d] else Zeros()
  }

  /** `changes[d][name] += delta`; a name that is not a counted status is a
      missing key. */
  function Bump(ch: Changes, d: int, name: string, delta: int): (r: Option<Changes>)
    requires WellFormed(ch)
    ensures r.Some? <==> StatusNamed(name).Some?
    ensures r.Some? ==> WellFormed(r.value)
  {
    match StatusNamed(name)
    case None => None
    case Some(s) =>
      var c := On(ch, d);
      Some(ch[d := c[s := c[s] + delta]])
  }

  /** The in-window status changes of `acts[i..]`, one old status down and
      one new status up on the day of each change. */
  function ApplyChanges(proj: string, since: int, until: int, ch: Changes, acts: seq<Activity>, i: nat): (r: Option<Changes>)
    requires WellFormed(ch) && i <= |acts|
    ensures r.Some? ==> WellFormed(r.value)
    decreases |acts| - i
  {
    if i == |acts| then Some(ch)
    else
      var a := acts[i];
      if !IsStatusChange(proj, a) || a.changed < since || a.changed > until then
        ApplyChanges(proj, since, until, ch, acts, i + 1)
      else
        match Bump(ch, Day(a.changed), a.oldValue, -1)
        case None => None
        case Some(ch1) =>
          match Bump(ch1, Day(a.changed), a.newValue, 1)
          case None => None
          case Some(ch2) => ApplyChanges(proj, since, until, ch2, acts, i + 1)
  }

  /** The position of the first status change in `acts[i..]`, if any. */
  function FirstStatusChange(proj: string, acts: seq<Activity>, i: nat): (r: Option<nat>)
    requires i <= |acts|
    ensures r.Some? ==> i <= r.value < |acts| && IsStatusChange(proj, acts[r.value])
    ensures r.Some? ==> forall k | i <= k < r.value :: !IsStatusChange(proj, acts[k])
    ensures r.None? ==> forall k | i <= k < |acts| :: !IsStatusChange(proj, acts[k])
    decreases |acts| - i
  {
    if i == |acts| then None
    else if IsStatusChange(proj, acts[i]) then Some(i)
    else FirstStatusChange(proj, acts, i + 1)
  }

  /** The status the bug was filed with: the old value of its first status
      change, whenever that happened, else the status it has now. */
  function BornStatus(proj: string, bug: Bug): string {
    match FirstStatusChange(proj, bug.activity, 0)
    case Some(k) => bug.activity[k].oldValue
    case None => bug.status
  }

  /** A time-to-fix measurement. */
  datatype FixRecord = FixRecord(hours: int, time: int, project: string, id: int, tags: string)

  /** When the bug counts as confirmed: confirmed, else triaged, else created. */
  function ConfirmedAt(bug: Bug): int {
    bug.confirmed.GetOr(bug.triaged.GetOr(bug.created))
  }

  /** The whole hours from confirmation to `at`, rounded down (also when
      `at` comes first), stamped with the day of `at`. */
  function TimeToFix(proj: string, bug: Bug, at: int): (r: FixRecord)
    ensures r.hours * 3600 <= at - ConfirmedAt(bug) < r.hours * 3600 + 3600
    ensures r.time == DayStamp(Day(at)) && r.project == proj && r.id == bug.id
  {
    FixRecord((at - ConfirmedAt(bug)) / 3600, DayStamp(Day(at)), proj, bug.id, Join(bug.tags, " "))
  }

  /** What harvesting accumulates. */
  datatype Tallies = Tallies(changes: Changes, tillFixed: seq<FixRecord>, tillReleased: seq<FixRecord>)

  function FixRecords(proj: string, bug: Bug, at: Option<int>): (r: seq<FixRecord>)
    ensures |r| <= 1 && (|r| == 1 <==> at.Some?)
  {
    if at.Some? then [TimeToFix(proj, bug, at.value)] else []
  }

  /** `_process_bug`: the bug's status changes inside [since, until], its
      time-to-fix measurements, and +1 for the status it was born with on
      the day it was created. `None` is the missing-key error. */
  function ProcessBug(proj: string, since: int, until: int, ts: Tallies, bug: Bug): (r: Option<Tallies>)
    requires WellFormed(ts.changes)
    ensures r.Some? ==> WellFormed(r.value.changes)
    ensures r.Some? ==> r.value.tillFixed == ts.tillFixed + FixRecords(proj, bug, bug.fixCommitted)
    ensures r.Some? ==> r.value.tillReleased == ts.tillReleased + FixRecords(proj, bug, bug.fixReleased)
  {
    match ApplyChanges(proj, since, until, ts.changes, bug.activity, 0)
    case None => None
    case Some(ch) =>
      match Bump(ch, Day(bug.created), BornStatus(proj, bug), 1)
      case None => None
      case Some(ch2) =>
        Some(Tallies(ch2, ts.tillFixed + FixRecords(proj, bug, bug.fixCommitted),
                     ts.tillReleased + FixRecords(proj, bug, bug.fixReleased)))
  }

  /** An in-window status change whose old or new value is not counted. */
  predicate BadChange(proj: string, since: int, until: int, a: Activity) {
    IsStatusChange(proj, a) && since <= a.changed <= until &&
    (StatusNamed(a.oldValue).None? || StatusNamed(a.newValue).None?)
  }

  /** A bump moves the total of its own day only. */
  lemma BumpTotals(ch: Changes, day: int, name: string, delta: int)
    requires WellFormed(ch) && Bump(ch, day, name, delta).Some?
    ensures forall d :: Total(On(Bump(ch, day, name, delta).value, d)) == Total(On(ch, d)) + (if d == day then delta else 0)
  {
    var s := StatusNamed(name).value;
    var r := Bump(ch, day, name, delta).value;
    forall d ensures Total(On(r, d)) == Total(On(ch, d)) + (if d == day then delta else 0) {
      if d == day {
        var c := On(ch, day);
        assert On(r, d) == c[s := c[s] + delta];
        TotalBump(c, s, delta);
      } else {
        assert On(r, d) == On(ch, d);
      }
    }
  }

  /** Applying the changes fails exactly on an in-window change to or from
      a status that is not counted. */
  lemma {:induction false} ApplyChangesFails(proj: string, since: int, until: int, ch: Changes, acts: seq<Activity>, i: nat)
    requires WellFormed(ch) && i <= |acts|
    ensures ApplyChanges(proj, since, until, ch, acts, i).None? <==>
      exists k | i <= k < |acts| :: BadChange(proj, since, until, acts[k])
    decreases |acts| - i
  {
    if i < |acts| {
      BadStep(proj, since, until, acts, i);
      var a := acts[i];
      var r := ApplyChanges(proj, since, until, ch, acts, i);
      if !IsStatusChange(proj, a) || a.changed < since || a.changed > until {
        assert r == ApplyChanges(proj, since, until, ch, acts, i + 1);
        assert !BadChange(proj, since, until, a);
        ApplyChangesFails(proj, since, until, ch, acts, i + 1);
      } else {
        var day := Day(a.changed);
        var b1 := Bump(ch, day, a.oldValue, -1);
        if b1.None? {
          assert r.None? && BadChange(proj, since, until, a);
        } else {
          var b2 := Bump(b1.value, day, a.newValue, 1);
          if b2.None? {
            assert r.None? && BadChange(proj, since, until, a);
          } else {
            assert r == ApplyChanges(proj, since, until, b2.value, acts, i + 1);
            assert !BadChange(proj, since, until, a);
            ApplyChangesFails(proj, since, until, b2.value, acts, i + 1);
          }
        }
      }
    }
  }

  /** A bad change from `i` on is `acts[i]` or one from `i + 1` on. */
  lemma BadStep(proj: string, since: int, until: int, acts: seq<Activity>, i: nat)
    requires i < |acts|
    ensures (exists k | i <= k < |acts| :: BadChange(proj, since, until, acts[k])) <==>
      BadChange(proj, since, until, acts[i]) || exists k | i + 1 <= k < |acts| :: BadChange(proj, since, until, acts[k])
  {
    if exists k | i <= k < |acts| :: BadChange(proj, since, until, acts[k]) {
      var k :| i <= k < |acts| && BadChange(proj, since, until, acts[k]);
      if k > i {
        assert i + 1 <= k;
      }
    }
  }

  /** Two change tables that agree on every day's total. */
  ghost predicate SameTotals(a: Changes, b: Changes)
    requires WellFormed(a) && WellFormed(b)
  {
    forall d :: Total(On(a, d)) == Total(On(b, d))
  }

  /** One status down and one up on the same day: a bug moved. */
  lemma MoveTotals(ch: Changes, day: int, oldName: string, newName: string)
    requires WellFormed(ch) && Bump(ch, day, oldName, -1).Some?
    requires Bump(Bump(ch, day, oldName, -1).value, day, newName, 1).Some?
    ensures SameTotals(Bump(Bump(ch, day, oldName, -1).value, day, newName, 1).value, ch)
  {
    BumpTotals(ch, day, oldName, -1);
    BumpTotals(Bump(ch, day, oldName, -1).value, day, newName, 1);
  }

  /** Every in-window status change leaves each day's total unchanged. */
  lemma {:induction false} ApplyChangesTotals(proj: string, since: int, until: int, ch: Changes, acts: seq<Activity>, i: nat)
    requires WellFormed(ch) && i <= |acts|
    ensures ApplyChanges(proj, since, until, ch, acts, i).Some? ==>
      SameTotals(ApplyChanges(proj, since, until, ch, acts, i).value, ch)
    decreases |acts| - i
  {
    if i < |acts| {
      var a := acts[i];
      if !IsStatusChange(proj, a) || a.changed < since || a.changed > until {
        ApplyChangesTotals(proj, since, until, ch, acts, i + 1);
      } else {
        var day := Day(a.changed);
        var b1 := Bump(ch, day, a.oldValue, -1);
        if b1.Some? {
          var b2 := Bump(b1.value, day, a.newValue, 1);
          if b2.Some? {
            ApplyChangesTotals(proj, since, until, b2.value, acts, i + 1);
            MoveTotals(ch, day, a.oldValue, a.newValue);
          }
        }
      }
    }
  }

  /** Processing a bug fails exactly on a missing key, and otherwise adds
      exactly one bug, on the day it was created: every change moves a bug
      between statuses and the bug's birth adds it. */
  lemma ProcessBugTotals(proj: string, since: int, until: int, ts: Tallies, bug: Bug)
    requires WellFormed(ts.changes)
    ensures ProcessBug(proj, since, until, ts, bug).None? <==>
      StatusNamed(BornStatus(proj, bug)).None? ||
      exists k | 0 <= k < |bug.activity| :: BadChange(proj, since, until, bug.activity[k])
    ensures ProcessBug(proj, since, until, ts, bug).Some? ==>
      forall d :: Total(On(ProcessBug(proj, since, until, ts, bug).value.changes, d)) ==
        Total(On(ts.changes, d)) + (if d == Day(bug.created) then 1 else 0)
  {
    ApplyChangesFails(proj, since, until, ts.changes, bug.activity, 0);
    ApplyChangesTotals(proj, since, until, ts.changes, bug.activity, 0);
    var a := ApplyChanges(proj, since, until, ts.changes, bug.activity, 0);
    if a.Some? && Bump(a.value, Day(bug.created), BornStatus(proj, bug), 1).Some? {
      BumpTotals(a.value, Day(bug.created), BornStatus(proj, bug), 1);
    }
  }

  /** Status changes outside [since, until] leave the counters alone: all
      that is left is the bug's birth, whose status is still read from its
      first status change. */
  lemma {:induction false} OutsideWindowIgnored(proj: string, since: int, until: int, ch: Changes, acts: seq<Activity>, i: nat)
    requires WellFormed(ch) && i <= |acts|
    requires forall k | i <= k < |acts| :: IsStatusChange(proj, acts[k]) ==> acts[k].changed < since || acts[k].changed > until
    ensures ApplyChanges(proj, since, until, ch, acts, i) == Some(ch)
    decreases |acts| - i
  {
    if i < |acts| {
      OutsideWindowIgnored(proj, since, until, ch, acts, i + 1);
    }
  }

  lemma BirthOnly(proj: string, since: int, until: int, ts: Tallies, bug: Bug)
    requires WellFormed(ts.changes)
    requires forall k | 0 <= k < |bug.activity| ::
      IsStatusChange(proj, bug.activity[k]) ==> bug.activity[k].changed < since || bug.activity[k].changed > until
    requires StatusNamed(BornStatus(proj, bug)).Some?
    ensures ProcessBug(proj, since, until, ts, bug).Some?
    ensures ProcessBug(proj, since, until, ts, bug).value.changes ==
      var s := StatusNamed(BornStatus(proj, bug)).value;
      var c := On(ts.changes, Day(bug.created));
      ts.changes[Day(bug.created) := c[s := c[s] + 1]]
  {
    assert ApplyChanges(proj, since, until, ts.changes, bug.activity, 0) == Some(ts.changes) by {
      OutsideWindowIgnored(proj, since, until, ts.changes, bug.activity, 0);
    }
    var s := StatusNamed(BornStatus(proj, bug)).value;
    var c := On(ts.changes, Day(bug.created));
    var b := Bump(ts.changes, Day(bug.created), BornStatus(proj, bug), 1);
    assert b == Some(ts.changes[Day(bug.created) := c[s := c[s] + 1]]);
  }

  // ---------------------------------------------------------------------
  // The timeline

  /** Status counts at the end of each day. */
  type Timeline = map<int, Counter>

  /** The sum of one status's changes over the days `lo` to `hi`. */
  function Accrued(ch: Changes, lo: int, hi: int, s: Status): int
    requires WellFormed(ch)
    decreases hi - lo
  {
    if lo > hi then 0 else On(ch, lo)[s] + Accrued(ch, lo + 1, hi, s)
  }

  /** One day of `generate_timeline`: the previous counts plus the day's
      changes, key by key. */
  function Step(prev: Counter, day: Counter): (c: Counter)
    requires Full(day)
    ensures c.Keys == prev.Keys
  {
    map s | s in prev :: prev[s] + day[s]
  }

  /** The loop of `generate_timeline` from day `d` to the day before `today`. */
  function TimelineFrom(t: Timeline, ch: Changes, prev: Counter, d: int, today: int): Timeline
    requires WellFormed(ch)
    decreases today - d
  {
    if d >= today then t
    else
      var c := Step(prev, On(ch, d));
      TimelineFrom(t[d := c], ch, c, d + 1, today)
  }

  /** Each day in [lo, hi) of `r` holds the counts of `base` plus
      everything that changed from `lo` to that day. */
  ghost predicate Accumulated(r: Timeline, ch: Changes, base: Counter, lo: int, hi: int)
    requires WellFormed(ch)
  {
    forall e | lo <= e < hi :: e in r && r[e].Keys == base.Keys &&
      (forall s | s in base :: r[e][s] == base[s] + Accrued(ch, lo, e, s))
  }

  /** `r` agrees with `t` outside [lo, hi). */
  ghost predicate Untouched(r: Timeline, t: Timeline, lo: int, hi: int) {
    forall e | e < lo || hi <= e :: (e in r <==> e in t) && (e in t ==> r[e] == t[e])
  }

  /** Each day from `d` on holds the counts it started from plus everything
      that changed since; the other days are left alone. */
  lemma {:induction false} TimelineFromEntries(t: Timeline, ch: Changes, prev: Counter, d: int, today: int)
    requires WellFormed(ch)
    ensures Accumulated(TimelineFrom(t, ch, prev, d, today), ch, prev, d, today)
    ensures Untouched(TimelineFrom(t, ch, prev, d, today), t, d, today)
    decreases today - d
  {
    if d < today {
      var c := Step(prev, On(ch, d));
      TimelineFromEntries(t[d := c], ch, c, d + 1, today);
      var r := TimelineFrom(t, ch, prev, d, today);
      assert r == TimelineFrom(t[d := c], ch, c, d + 1, today);
      forall e | d <= e < today
        ensures e in r && r[e].Keys == prev.Keys
        ensures forall s | s in prev :: r[e][s] == prev[s] + Accrued(ch, d, e, s)
      {
        if e == d {
          assert r[e] == c;
          forall s | s in prev ensures r[e][s] == prev[s] + Accrued(ch, d, e, s) {
            assert Accrued(ch, d + 1, e, s) == 0;
          }
        } else {
          assert e in r && r[e].Keys == c.Keys;
        }
      }
    }
  }

  /** The counts the timeline continues from: those of the day before
      `since`, or zeros. */
  function Base(t: Timeline, since: int): Counter {
    if since - 1 in t then t[since - 1] else Zeros()
  }

  /** `generate_timeline`; a base that lacks a status is a missing key as
      soon as one day is to be computed. */
  function GenerateTimeline(t: Timeline, ch: Changes, since: int, today: int): (r: Option<Timeline>)
    requires WellFormed(ch)
    ensures r.None? <==> since < today && !Full(Base(t, since))
  {
    var base := Base(t, since);
    if since < today && !Full(base) then None
    else Some(TimelineFrom(t, ch, base, since, today))
  }

  /** The timeline holds, for each day from `since` to yesterday, the base
      counts plus all changes from `since` to that day; nothing else moves. */
  lemma GenerateTimelineEntries(t: Timeline, ch: Changes, since: int, today: int)
    requires WellFormed(ch) && GenerateTimeline(t, ch, since, today).Some?
    ensures var r := GenerateTimeline(t, ch, since, today).value;
      Accumulated(r, ch, Base(t, since), since, today) && Untouched(r, t, since, today)
  {
    TimelineFromEntries(t, ch, Base(t, since), since, today);
  }

  /** Consecutive days differ by exactly the later day's changes. */
  lemma TimelineSteps(t: Timeline, ch: Changes, since: int, today: int, d: int, s: Status)
    requires WellFormed(ch) && GenerateTimeline(t, ch, since, today).Some?
    requires since < d < today
    ensures var r := GenerateTimeline(t, ch, since, today).value;
      d in r && d - 1 in r && s in r[d] && s in r[d - 1] && r[d][s] == r[d - 1][s] + On(ch, d)[s]
  {
    GenerateTimelineEntries(t, ch, since, today);
    AccruedLast(ch, since, d, s);
  }

  lemma {:induction false} AccruedLast(ch: Changes, lo: int, hi: int, s: Status)
    requires WellFormed(ch) && lo <= hi
    ensures Accrued(ch, lo, hi, s) == Accrued(ch, lo, hi - 1, s) + On(ch, hi)[s]
    decreases hi - lo
  {
    if lo < hi {
      AccruedLast(ch, lo + 1, hi, s);
    }
  }

  // ---------------------------------------------------------------------
  // Harvesting

  datatype Harvest =
    | UpToDate
    | Crashed
    | Harvested(tallies: Tallies, timeline: Timeline)

  /** The start of the next harvest: one second after the stored date. */
  function Since(lastDate: int): int {
    lastDate + 1
  }

  /** The last second of yesterday. */
  function Until(today: int): int {
    today * DaySeconds - 1
  }

  function ProcessBugs(proj: string, since: int, until: int, ts: Tallies, bugs: seq<Bug>): (r: Option<Tallies>)
    requires WellFormed(ts.changes)
    ensures r.Some? ==> WellFormed(r.value.changes)
    decreases |bugs|
  {
    if |bugs| == 0 then Some(ts)
    else
      match ProcessBug(proj, since, until, ts, bugs[0])
      case None => None
      case Some(ts1) => ProcessBugs(proj, since, until, ts1, bugs[1..])
  }

  /** A harvest run: the stored stats of `lastDate`, the bugs the search
      returns, and today's day number. Nothing is searched for when the
      stats already reach yesterday. */
  function RunHarvest(proj: string, lastDate: int, lastStats: Counter, today: int, bugs: seq<Bug>): (r: Harvest)
    ensures r.UpToDate? <==> Since(lastDate) > Until(today)
  {
    var since := Since(lastDate);
    var until := Until(today);
    if since > until then UpToDate
    else
      var t := map[Day(lastDate) := lastStats];
      var ts := Tallies(map[], [], []);
      match ProcessBugs(proj, since, until, ts, bugs)
      case None => Crashed
      case Some(ts1) =>
        match GenerateTimeline(t, ts1.changes, Day(since), today)
        case None => Crashed
        case Some(tl) => Harvested(ts1, tl)
  }

  /** The run stops early exactly when the stored date is the last second
      of yesterday or later. */
  lemma UpToDateIff(proj: string, lastDate: int, lastStats: Counter, today: int, bugs: seq<Bug>)
    ensures RunHarvest(proj, lastDate, lastStats, today, bugs).UpToDate? <==> lastDate >= Until(today)
  {
  }

  /** A finished run has yesterday's counts, which are stored as the next
      run's starting point; and when the stored date was the last second of
      a day, the first new day continues from the stored counts. */
  lemma HarvestedCoversYesterday(proj: string, lastDate: int, lastStats: Counter, today: int, bugs: seq<Bug>)
    requires RunHarvest(proj, lastDate, lastStats, today, bugs).Harvested?
    ensures today - 1 in RunHarvest(proj, lastDate, lastStats, today, bugs).timeline
    ensures Day(Since(lastDate)) == Day(lastDate) + 1 ==>
      var r := RunHarvest(proj, lastDate, lastStats, today, bugs);
      Full(lastStats) && Day(Since(lastDate)) in r.timeline && Full(r.timeline[Day(Since(lastDate))]) &&
      forall s :: r.timeline[Day(Since(lastDate))][s] == lastStats[s] + On(r.tallies.changes, Day(Since(lastDate)))[s]
  {
    var r := RunHarvest(proj, lastDate, lastStats, today, bugs);
    var since := Since(lastDate);
    var t := map[Day(lastDate) := lastStats];
    assert Day(since) <= Day(Until(today)) == today - 1;
    GenerateTimelineEntries(t, r.tallies.changes, Day(since), today);
    if Day(since) == Day(lastDate) + 1 {
      forall s ensures Accrued(r.tallies.changes, Day(since), Day(since), s) == On(r.tallies.changes, Day(since))[s] {
        assert Accrued(r.tallies.changes, Day(since) + 1, Day(since), s) == 0;
      }
    }
  }

  // ---------------------------------------------------------------------
  // Records

  /** Python's ordering of strings: code point by code point, a proper
      prefix first. */
  predicate StrLess(a: string, b: string)
    decreases |a|
  {
    |b| > 0 && (|a| == 0 || a[0] < b[0] || (a[0] == b[0] && StrLess(a[1..], b[1..])))
  }

  lemma {:induction false} StrLessTrans(a: string, b: string, c: string)
    requires StrLess(a, b) && StrLess(b, c)
    ensures StrLess(a, c)
    decreases |a|
  {
    if |a| > 0 && a[0] == b[0] && b[0] == c[0] {
      StrLessTrans(a[1..], b[1..], c[1..]);
    }
  }

  lemma {:induction false} StrLessAsymmetric(a: string, b: string)
    requires StrLess(a, b)
    ensures !StrLess(b, a)
    decreases |a|
  {
    if |a| > 0 && a[0] == b[0] {
      StrLessAsymmetric(a[1..], b[1..]);
    }
  }

  /** The statuses in the order `sorted` puts their Launchpad names. */
  const SortedStatuses: seq<Status> :=
    [Confirmed, Expired, FixCommitted, FixReleased, InProgress, Incomplete,
     Invalid, New, Opinion, Triaged, WontFix]

  /** The position of a status in `SortedStatuses`. */
  function Rank(s: Status): (r: nat)
    ensures r < |SortedStatuses| && SortedStatuses[r] == s
  {
    match s
    case Confirmed => 0
    case Expired => 1
    case FixCommitted => 2
    case FixReleased => 3
    case InProgress => 4
    case Incomplete => 5
    case Invalid => 6
    case New => 7
    case Opinion => 8
    case Triaged => 9
    case WontFix => 10
  }

  lemma RankAt(i: nat)
    requires i < |SortedStatuses|
    ensures Rank(SortedStatuses[i]) == i
  {
  }

  /** Strings that agree up to position `n` and differ there. */
  lemma {:induction false} StrLessAt(a: string, b: string, n: nat)
    requires n < |a| && n < |b| && a[..n] == b[..n] && a[n] < b[n]
    ensures StrLess(a, b)
    decreases n
  {
    if n > 0 {
      assert a[0] == a[..n][0];
      assert a[1..][..n - 1] == a[..n][1..] && b[1..][..n - 1] == b[..n][1..];
      StrLessAt(a[1..], b[1..], n - 1);
    }
  }

  lemma SortedStatusesAdjacent(i: nat)
    requires i + 1 < |SortedStatuses|
    ensures StrLess(Name(SortedStatuses[i]), Name(SortedStatuses[i + 1]))
  {
    var a := Name(SortedStatuses[i]);
    var b := Name(SortedStatuses[i + 1]);
    var n := if i == 2 then 4 else if i == 4 then 2 else if i == 5 then 2 else 0;
    if i == 0 {
      assert a == "Confirmed" && b == "Expired";
    } else if i == 1 {
      assert a == "Expired" && b == "Fix Committed";
    } else if i == 2 {
      assert a == "Fix Committed" && b == "Fix Released";
    } else if i == 3 {
      assert a == "Fix Released" && b == "In Progress";
    } else if i == 4 {
      assert a == "In Progress" && b == "Incomplete";
    } else if i == 5 {
      assert a == "Incomplete" && b == "Invalid";
    } else if i == 6 {
      assert a == "Invalid" && b == "New";
    } else if i == 7 {
      assert a == "New" && b == "Opinion";
    } else if i == 8 {
      assert a == "Opinion" && b == "Triaged";
    } else {
      assert a == "Triaged" && b == "Won't Fix";
    }
    StrLessAt(a, b, n);
  }

  lemma {:induction false} SortedStatusesOrdered(i: nat, j: nat)
    requires i < j < |SortedStatuses|
    ensures StrLess(Name(SortedStatuses[i]), Name(SortedStatuses[j]))
    decreases j - i
  {
    SortedStatusesAdjacent(i);
    if i + 1 < j {
      SortedStatusesOrdered(i + 1, j);
      StrLessTrans(Name(SortedStatuses[i]), Name(SortedStatuses[i + 1]), Name(SortedStatuses[j]));
    }
  }

  /** Ranks order statuses exactly as `sorted` orders their names. */
  lemma RankIsNameOrder(a: Status, b: Status)
    ensures Rank(a) < Rank(b) <==> StrLess(Name(a), Name(b))
  {
    if Rank(a) < Rank(b) {
      SortedStatusesOrdered(Rank(a), Rank(b));
    } else if Rank(b) < Rank(a) {
      SortedStatusesOrdered(Rank(b), Rank(a));
      StrLessAsymmetric(Name(b), Name(a));
    } else if StrLess(Name(a), Name(a)) {
      StrLessAsymmetric(Name(a), Name(a));
    }
  }

  /** The least of a non-empty set of days. */
  lemma {:induction false} LeastOf(ks: set<int>) returns (m: int)
    requires ks != {}
    ensures m in ks && forall k | k in ks :: m <= k
    decreases |ks|
  {
    if forall y :: y !in ks {
      assert false;
    }
    var x :| x in ks;
    if ks == {x} {
      m := x;
    } else {
      var rest := ks - {x};
      assert rest != {} by {
        assert forall k | k in ks :: k in rest || k == x;
      }
      var y := LeastOf(rest);
      m := if x < y then x else y;
      assert forall k | k in ks :: k in rest || k == x;
    }
  }

  function Least(ks: set<int>): (m: int)
    requires ks != {}
    ensures m in ks && forall k | k in ks :: m <= k
  {
    assert exists m :: m in ks && forall k | k in ks :: m <= k by {
      var w := LeastOf(ks);
    }
    var m :| m in ks && forall k | k in ks :: m <= k; m
  }

  /** `sorted` of a set of days. */
  function SortedDays(ks: set<int>): (r: seq<int>)
    ensures forall i | 0 <= i < |r| :: r[i] in ks
    ensures forall k | k in ks :: k in r
    ensures forall i, j | 0 <= i < j < |r| :: r[i] < r[j]
    decreases |ks|
  {
    if ks == {} then []
    else
      var m := Least(ks);
      var rest := SortedDays(ks - {m});
      assert forall i | 0 <= i < |rest| :: m < rest[i];
      [m] + rest
  }

  /** A record of `generate_records`; its `status` field is written as
      `InfluxName(status)`. */
  datatype Record = Record(time: int, status: Status, count: int)

  /** The order of the records: by day, then by status name. */
  predicate Before(a: Record, b: Record) {
    a.time < b.time || (a.time == b.time && Rank(a.status) < Rank(b.status))
  }

  predicate Ordered(rs: seq<Record>) {
    forall k, l | 0 <= k < l < |rs| :: Before(rs[k], rs[l])
  }

  /** The records of day `d` for the statuses of `SortedStatuses[i..]` that
      its counter holds. */
  function DayRecords(d: int, c: Counter, i: nat): (r: seq<Record>)
    requires i <= |SortedStatuses|
    ensures |r| <= |SortedStatuses| - i
    decreases |SortedStatuses| - i
  {
    if i == |SortedStatuses| then []
    else
      var rest := DayRecords(d, c, i + 1);
      var s := SortedStatuses[i];
      if s in c then [Record(DayStamp(d), s, c[s])] + rest else rest
  }

  /** Two ordered runs, every record of the first before every record of
      the second, make an ordered run. */
  lemma OrderedConcat(a: seq<Record>, b: seq<Record>)
    requires Ordered(a) && Ordered(b)
    requires forall k, l | 0 <= k < |a| && 0 <= l < |b| :: Before(a[k], b[l])
    ensures Ordered(a + b)
  {
    var ab := a + b;
    forall k, l | 0 <= k < l < |ab| ensures Before(ab[k], ab[l]) {
      if l < |a| {
        assert Before(a[k], a[l]);
      } else if k < |a| {
        assert Before(a[k], b[l - |a|]);
      } else {
        assert Before(b[k - |a|], b[l - |a|]);
      }
    }
  }

  /** A day's records are ordered by status name, and each reports the
      count of one status of `SortedStatuses[i..]` that the counter holds. */
  lemma {:induction false} DayRecordsShape(d: int, c: Counter, i: nat)
    requires i <= |SortedStatuses|
    ensures Ordered(DayRecords(d, c, i))
    ensures forall k | 0 <= k < |DayRecords(d, c, i)| ::
      var r := DayRecords(d, c, i)[k];
      r.time == DayStamp(d) && r.status in c && r.count == c[r.status] && i <= Rank(r.status)
    decreases |SortedStatuses| - i
  {
    if i < |SortedStatuses| {
      var rest := DayRecords(d, c, i + 1);
      DayRecordsShape(d, c, i + 1);
      var s := SortedStatuses[i];
      RankAt(i);
      if s in c {
        var head := [Record(DayStamp(d), s, c[s])];
        OrderedConcat(head, rest);
        assert DayRecords(d, c, i) == head + rest;
        forall k | 1 <= k < |head + rest| ensures (head + rest)[k] == rest[k - 1] {
        }
      }
    }
  }

  /** Every status the counter holds, from `SortedStatuses[i]` on, has its record. */
  lemma {:induction false} DayRecordsComplete(d: int, c: Counter, i: nat, s: Status) returns (k: nat)
    requires i <= Rank(s) && s in c
    ensures k < |DayRecords(d, c, i)| && DayRecords(d, c, i)[k] == Record(DayStamp(d), s, c[s])
    decreases |SortedStatuses| - i
  {
    var rest := DayRecords(d, c, i + 1);
    if SortedStatuses[i] == s {
      k := 0;
    } else {
      RankAt(i);
      var k1 := DayRecordsComplete(d, c, i + 1, s);
      if SortedStatuses[i] in c {
        assert DayRecords(d, c, i) == [Record(DayStamp(d), SortedStatuses[i], c[SortedStatuses[i]])] + rest;
        k := k1 + 1;
      } else {
        k := k1;
      }
    }
  }

  /** The records of the days `days`, one day after the other. */
  function RecordsOf(t: Timeline, days: seq<int>): (r: seq<Record>)
    requires forall j | 0 <= j < |days| :: days[j] in t
    decreases |days|
  {
    if |days| == 0 then []
    else DayRecords(days[0], t[days[0]], 0) + RecordsOf(t, days[1..])
  }

  /** The records of ascending days are ordered, and none is older than
      the first day. */
  lemma {:induction false} RecordsOfOrdered(t: Timeline, days: seq<int>)
    requires forall j | 0 <= j < |days| :: days[j] in t
    requires forall i, j | 0 <= i < j < |days| :: days[i] < days[j]
    ensures Ordered(RecordsOf(t, days))
    ensures |days| > 0 ==> forall k | 0 <= k < |RecordsOf(t, days)| :: DayStamp(days[0]) <= RecordsOf(t, days)[k].time
    decreases |days|
  {
    if |days| > 0 {
      var head := DayRecords(days[0], t[days[0]], 0);
      var rest := RecordsOf(t, days[1..]);
      DayRecordsShape(days[0], t[days[0]], 0);
      RecordsOfOrdered(t, days[1..]);
      if |days| > 1 {
        assert days[0] < days[1];
        assert forall l | 0 <= l < |rest| :: DayStamp(days[0]) < rest[l].time;
      }
      OrderedConcat(head, rest);
      assert RecordsOf(t, days) == head + rest;
      forall k | |head| <= k < |head + rest| ensures (head + rest)[k] == rest[k - |head|] {
      }
    }
  }

  /** `generate_records`: a record per day and status of the timeline,
      ordered by day and then by status name. */
  function GenerateRecords(t: Timeline): (r: seq<Record>)
    ensures Ordered(r)
  {
    RecordsOfOrdered(t, SortedDays(t.Keys));
    RecordsOf(t, SortedDays(t.Keys))
  }

  lemma {:induction false} RecordsOfSource(t: Timeline, days: seq<int>, k: nat) returns (j: nat)
    requires forall j | 0 <= j < |days| :: days[j] in t
    requires forall i, j | 0 <= i < j < |days| :: days[i] < days[j]
    requires k < |RecordsOf(t, days)|
    ensures j < |days| && RecordsOf(t, days)[k].time == DayStamp(days[j])
    ensures RecordsOf(t, days)[k].status in t[days[j]]
    ensures RecordsOf(t, days)[k].count == t[days[j]][RecordsOf(t, days)[k].status]
    decreases |days|
  {
    var head := DayRecords(days[0], t[days[0]], 0);
    assert RecordsOf(t, days) == head + RecordsOf(t, days[1..]);
    if k < |head| {
      DayRecordsShape(days[0], t[days[0]], 0);
      assert RecordsOf(t, days)[k] == head[k];
      j := 0;
    } else {
      var j1 := RecordsOfSource(t, days[1..], k - |head|);
      j := j1 + 1;
    }
  }

  lemma {:induction false} RecordsOfComplete(t: Timeline, days: seq<int>, j: nat, s: Status) returns (k: nat)
    requires forall j | 0 <= j < |days| :: days[j] in t
    requires forall i, j | 0 <= i < j < |days| :: days[i] < days[j]
    requires j < |days| && s in t[days[j]]
    ensures k < |RecordsOf(t, days)| && RecordsOf(t, days)[k] == Record(DayStamp(days[j]), s, t[days[j]][s])
    decreases |days|
  {
    var head := DayRecords(days[0], t[days[0]], 0);
    if j == 0 {
      k := DayRecordsComplete(days[0], t[days[0]], 0, s);
    } else {
      var k1 := RecordsOfComplete(t, days[1..], j - 1, s);
      k := |head| + k1;
    }
  }

  /** Every record reports the count of one status on one day of the timeline. */
  lemma RecordSource(t: Timeline, k: nat) returns (d: int)
    requires k < |GenerateRecords(t)|
    ensures d in t && GenerateRecords(t)[k].time == DayStamp(d)
    ensures GenerateRecords(t)[k].status in t[d]
    ensures GenerateRecords(t)[k].count == t[d][GenerateRecords(t)[k].status]
  {
    var days := SortedDays(t.Keys);
    var j := RecordsOfSource(t, days, k);
    d := days[j];
  }

  /** Every day and status of the timeline has its record. */
  lemma RecordFor(t: Timeline, d: int, s: Status) returns (k: nat)
    requires d in t && s in t[d]
    ensures k < |GenerateRecords(t)| && GenerateRecords(t)[k] == Record(DayStamp(d), s, t[d][s])
  {
    var days := SortedDays(t.Keys);
    var j :| 0 <= j < |days| && days[j] == d;
    k := RecordsOfComplete(t, days, j, s);
  }

  // ---------------------------------------------------------------------
  // Pushing in bundles

  /** Python's `m[:n]`. */
  function Take<T>(m: seq<T>, n: nat): (r: seq<T>)
    ensures |r| == if |m| <= n then |m| else n
    ensures r <= m
  {
    if |m| <= n then m else m[..n]
  }

  /** Python's `m[n:]`. */
  function Drop<T>(m: seq<T>, n: nat): (r: seq<T>)
    ensures |r| == if |m| <= n then 0 else |m| - n
    ensures Take(m, n) + r == m
  {
    if |m| <= n then [] else m[n..]
  }

  /** The most points pushed at once. */
  const BundleSize: nat := 1000

  function Flatten<T>(chunks: seq<seq<T>>): seq<T> {
    if |chunks| == 0 then [] else chunks[0] + Flatten(chunks[1..])
  }

  /** The bundles of `push_to_bork` as written: each takes up to 1000
      points, but only 100 are dropped before the next. */
  function BundlesAsWritten<T>(m: seq<T>): (r: seq<seq<T>>)
    ensures |r| == (|m| + 99) / 100
    ensures forall k | 0 <= k < |r| :: 0 < |r[k]| <= BundleSize
    decreases |m|
  {
    if |m| == 0 then [] else [Take(m, BundleSize)] + BundlesAsWritten(Drop(m, 100))
  }

  /** Bundle `k` as written starts at point `100 * k`. */
  lemma {:induction false} BundleAsWrittenAt<T>(m: seq<T>, k: nat)
    requires k < |BundlesAsWritten(m)|
    ensures 100 * k < |m| && BundlesAsWritten(m)[k] == Take(m[100 * k..], BundleSize)
    decreases k
  {
    if k > 0 {
      var rest := Drop(m, 100);
      BundleAsWrittenAt(rest, k - 1);
      assert rest[100 * (k - 1)..] == m[100 * k..];
    }
  }

  /** As written, every point is still pushed: point `i` is in bundle `i / 100`. */
  lemma BundlesAsWrittenSendAll<T>(m: seq<T>, i: nat)
    requires i < |m|
    ensures i / 100 < |BundlesAsWritten(m)| && i % 100 < |BundlesAsWritten(m)[i / 100]|
    ensures BundlesAsWritten(m)[i / 100][i % 100] == m[i]
  {
    var k := i / 100;
    BundleAsWrittenAt(m, k);
    assert m[100 * k..][i % 100] == m[i];
  }

  /** As written, point `i` is pushed in every bundle that starts at most
      999 points before it: up to ten times. */
  lemma BundlesAsWrittenRepeat<T>(m: seq<T>, i: nat, k: nat)
    requires i < |m| && 100 * k <= i < 100 * k + BundleSize
    ensures k < |BundlesAsWritten(m)| && i - 100 * k < |BundlesAsWritten(m)[k]|
    ensures BundlesAsWritten(m)[k][i - 100 * k] == m[i]
  {
    assert k < (|m| + 99) / 100;
    BundleAsWrittenAt(m, k);
    assert m[100 * k..][i - 100 * k] == m[i];
  }

  /** As written, bundles overlap: with more than 100 points the 101st
      point is pushed in both the first and the second bundle. */
  lemma BundlesAsWrittenOverlap<T>(m: seq<T>)
    requires |m| > 100
    ensures |BundlesAsWritten(m)| >= 2
    ensures |BundlesAsWritten(m)[0]| > 100 && BundlesAsWritten(m)[0][100] == m[100]
    ensures BundlesAsWritten(m)[1][0] == m[100]
  {
    BundleAsWrittenAt(m, 1);
  }

  /** The bundles as intended: 1000 points at a time, each point exactly once. */
  function Bundles<T>(m: seq<T>): (r: seq<seq<T>>)
    ensures |r| == (|m| + BundleSize - 1) / BundleSize
    ensures forall k | 0 <= k < |r| :: 0 < |r[k]| <= BundleSize
    ensures Flatten(r) == m
    decreases |m|
  {
    if |m| == 0 then []
    else
      var r := [Take(m, BundleSize)] + Bundles(Drop(m, BundleSize));
      assert r[1..] == Bundles(Drop(m, BundleSize));
      r
  }
}

=== FILE: image_updater.dfy ===
/** Reporting a Testflinger run of an image on the image board
    (`trello-board-updater-image-testing.py`): the card `image - version`
    is reused when it exists; otherwise the image's card for an older
    version is archived and a new card is made in the `Images` list (made
    too if missing). The run's summary is commented on the card and the
    device's entry recorded, with its result, in the `Testflinger`
    checklist. The board's open cards and lists, the clock and the Jenkins
    environment are inputs. */
module ImageUpdater {
  import opened Wrappers
  import opened Text
  import opened Checklists
  import SnapUpdater

  /** `re.match(re.escape(prefix), name)`: the first open card whose title
      starts with `prefix`, searching from `i`. */
  function FirstStarting(cards: seq<SnapUpdater.Card>, prefix: string, i: nat): (r: Option<nat>)
    requires i <= |cards|
    ensures r.Some? ==> i <= r.value < |cards|
    decreases |cards| - i
  {
    if i == |cards| then None
    else if StartsWith(cards[i].name, prefix) then Some(i)
    else FirstStarting(cards, prefix, i + 1)
  }

  lemma {:induction false} FirstStartingFirst(cards: seq<SnapUpdater.Card>, prefix: string, i: nat)
    requires i <= |cards|
    ensures var r := FirstStarting(cards, prefix, i);
      && (r.Some? ==> StartsWith(cards[r.value].name, prefix)
                      && forall j | i <= j < r.value :: !StartsWith(cards[j].name, prefix))
      && (r.None? ==> forall j | i <= j < |cards| :: !StartsWith(cards[j].name, prefix))
    decreases |cards| - i
  {
    if i < |cards| && !StartsWith(cards[i].name, prefix) {
      FirstStartingFirst(cards, prefix, i + 1);
    }
  }

  /** The title of an image's card. */
  function Title(image: string, version: string): string {
    image + " - " + version
  }

  /** The comment posted for the run. */
  function SummaryComment(name: string, image: string, version: string, jenkins: string, c3: string,
                          summary: string): string {
    "**[TESTFLINGER] " + name + " " + image + " " + version + "**\n---\n\n"
    + "- Jenkins build details: " + jenkins + "\n"
    + "- Full results at: " + c3 + "\n\n```\n"
    + summary + "\n```\n"
  }

  /** Where the run was recorded: on the open card at `index`, or on a new
      card after archiving the open card at `archived` (if any), in the
      open list at `list` or, when there is no `Images` list, in a new one. */
  datatype Placement = Reused(index: nat) | Created(archived: Option<nat>, list: Option<nat>)

  datatype Report = Report(placement: Placement, card: SnapUpdater.Card)

  /** The device's entry: the first item holding the device's key (with
      the greedy key of this script) takes the entry and the result; with
      no such item the entry is appended with the result. */
  function Record(items: seq<Item>, entry: string, passed: bool): seq<Item> {
    match ChangeItem(items, entry, passed, true)
    case Changed(changed) => changed
    case _ => items + [Item(entry, passed)]
  }

  /** The card before the run: the exact card, or a new one. */
  function Place(cards: seq<SnapUpdater.Card>, openLists: seq<string>, image: string, version: string)
    : (SnapUpdater.Card, Placement)
  {
    match FirstStarting(cards, Title(image, version), 0)
    case Some(i) => (cards[i], Reused(i))
    case None =>
      (SnapUpdater.Card(Title(image, version), [], [], []),
       Created(FirstStarting(cards, image + " - ", 0), SnapUpdater.FirstNamed(openLists, "Images", 0)))
  }

  /** `main` after argument parsing: `cards` are the board's open cards in
      board order, `openLists` its open lists' names, `time` the run's UTC
      timestamp, `summary` the summary file's text. */
  function Update(cards: seq<SnapUpdater.Card>, openLists: seq<string>, name: string, image: string,
                  version: string, c3: string, jenkins: string, time: string, summary: string): Report
  {
    var (card, placement) := Place(cards, openLists, image, version);
    Report(placement, Work(card, name, image, version, c3, jenkins, time, summary))
  }

  /** The work on the card: the comment, then the entry. */
  function Work(card: SnapUpdater.Card, name: string, image: string, version: string, c3: string,
                jenkins: string, time: string, summary: string): SnapUpdater.Card
  {
    var (cls, i) := FindOrCreate(card.checklists, "Testflinger", []);
    var passed := NoNewFailsOrSkips(summary);
    var items := Record(cls[i].items, EntryName(name, time, jenkins, c3), passed);
    SnapUpdater.Card(card.name, cls[i := cls[i].(items := items)], card.labels,
                     card.comments + [SummaryComment(name, image, version, jenkins, c3, summary)])
  }

  /** The card chosen: the first open card titled `image - version...` is
      reused exactly when there is one; otherwise a card titled
      `image - version` is made, the first open card of the image
      (`image - ...`) is archived when there is one, and the first open
      `Images` list takes the card, a new list when there is none. */
  lemma PlaceChooses(cards: seq<SnapUpdater.Card>, openLists: seq<string>, image: string, version: string)
    ensures var (card, p) := Place(cards, openLists, image, version);
      && (p.Reused? <==> exists k | 0 <= k < |cards| :: StartsWith(cards[k].name, Title(image, version)))
      && (p.Reused? ==>
            && p.index < |cards| && card == cards[p.index]
            && forall j | 0 <= j < p.index :: !StartsWith(cards[j].name, Title(image, version)))
      && (p.Created? ==>
            && card.name == Title(image, version) && card.checklists == [] && card.comments == []
            && (p.archived.Some? ==>
                  && p.archived.value < |cards|
                  && StartsWith(cards[p.archived.value].name, image + " - ")
                  && forall j | 0 <= j < p.archived.value :: !StartsWith(cards[j].name, image + " - "))
            && (p.archived.None? ==> forall j | 0 <= j < |cards| :: !StartsWith(cards[j].name, image + " - "))
            && (p.list.Some? ==> p.list.value < |openLists| && openLists[p.list.value] == "Images")
            && (p.list.None? ==> forall j | 0 <= j < |openLists| :: openLists[j] != "Images"))
  {
    FirstStartingFirst(cards, Title(image, version), 0);
    FirstStartingFirst(cards, image + " - ", 0);
  }

  /** A card archived for an older version is the image's card but not
      one for this version. */
  lemma ArchivedIsOther(cards: seq<SnapUpdater.Card>, openLists: seq<string>, image: string, version: string)
    ensures var (_, p) := Place(cards, openLists, image, version);
      p.Created? && p.archived.Some? ==>
        && StartsWith(cards[p.archived.value].name, image + " - ")
        && !StartsWith(cards[p.archived.value].name, Title(image, version))
  {
    FirstStartingFirst(cards, Title(image, version), 0);
    FirstStartingFirst(cards, image + " - ", 0);
  }

  /** Running again finds the card made by an earlier run: once a card
      titled `image - version` is open, the next run reuses an open card
      and archives nothing. */
  lemma RerunReuses(cards: seq<SnapUpdater.Card>, openLists: seq<string>, image: string, version: string, k: nat)
    requires k < |cards| && cards[k].name == Title(image, version)
    ensures Place(cards, openLists, image, version).1.Reused?
    ensures Place(cards, openLists, image, version).1.index <= k
  {
    FirstStartingFirst(cards, Title(image, version), 0);
    assert StartsWith(cards[k].name, Title(image, version));
  }

  /** Recording leaves the entry in the list with the run's result, and
      changes at most one item: the device's earlier entry, or none when
      the entry is appended. */
  lemma RecordMeaning(items: seq<Item>, entry: string, passed: bool)
    ensures var r := Record(items, entry, passed);
      && (exists m | 0 <= m < |r| :: r[m] == Item(entry, passed))
      && |items| <= |r| <= |items| + 1
      && (|r| == |items| ==> exists m | 0 <= m < |items| :: r[m] == Item(entry, passed) && r == items[m := Item(entry, passed)])
      && (|r| == |items| + 1 ==> r == items + [Item(entry, passed)])
  {
    ChangeItemMeaning(items, entry, passed, true);
    var r := Record(items, entry, passed);
    match ChangeItem(items, entry, passed, true)
    case Changed(changed) =>
      var m :| 0 <= m < |items| && changed == items[m := Item(entry, passed)];
      assert r[m] == Item(entry, passed);
    case _ =>
      assert r[|items|] == Item(entry, passed);
  }

  /** A device's earlier entry (or placeholder) is replaced, not
      duplicated: when an item starts with `<device> ` and the rest of the
      entry holds no ` (`, the first item holding the key takes the entry. */
  lemma RecordReplaces(items: seq<Item>, device: string, stamp: string, jenkins: string, c3: string,
                       passed: bool, k: nat)
    requires |device| == 0 || device[0] != '['
    requires NoNewline(device) && !Contains(device, " (")
    requires !Contains(EntryRest(stamp, jenkins, c3), " (")
    requires k < |items| && StartsWith(items[k].name, device + " ")
    ensures var entry := EntryName(device, stamp, jenkins, c3);
      exists m | 0 <= m <= k :: Contains(items[m].name, device + " ")
        && Record(items, entry, passed) == items[m := Item(entry, passed)]
  {
    var rest := EntryRest(stamp, jenkins, c3);
    var entry := EntryName(device, stamp, jenkins, c3);
    ItemNameKey(device, rest, true);
    SutItemMatches(device, rest, true, items[k].name);
    ChangeItemMeaning(items, entry, passed, true);
    var r := ChangeItem(items, entry, passed, true);
    assert r.Changed?;
    var m :| 0 <= m < |items| && Contains(items[m].name, device + " ")
      && (forall j | 0 <= j < m :: !Contains(items[j].name, device + " "))
      && r.items == items[m := Item(entry, passed)];
    assert m <= k;
  }

  /** What the work does to the card: the title and labels stay, the
      summary comment is appended, the checklists the card had keep their
      names, and the Testflinger checklist holds the run's entry with its
      result (passed exactly when the summary reports no new failures or
      skips and all tests passed). */
  lemma WorkRecords(card: SnapUpdater.Card, name: string, image: string, version: string, c3: string,
                    jenkins: string, time: string, summary: string)
    ensures var r := Work(card, name, image, version, c3, jenkins, time, summary);
      && r.name == card.name && r.labels == card.labels
      && r.comments == card.comments + [SummaryComment(name, image, version, jenkins, c3, summary)]
      && Extends(card.checklists, r.checklists)
      && FindChecklist(r.checklists, "Testflinger").Some?
      && var t := r.checklists[FindChecklist(r.checklists, "Testflinger").value];
      && exists m | 0 <= m < |t.items| :: t.items[m] == Item(EntryName(name, time, jenkins, c3), NoNewFailsOrSkips(summary))
  {
    var (cls, i) := FindOrCreate(card.checklists, "Testflinger", []);
    FindOrCreateKeeps(card.checklists, "Testflinger", []);
    var passed := NoNewFailsOrSkips(summary);
    var entry := EntryName(name, time, jenkins, c3);
    var items := Record(cls[i].items, entry, passed);
    var after := cls[i := cls[i].(items := items)];
    assert FindChecklist(after, "Testflinger") == Some(i) by {
      FindOrCreateFinds(card.checklists, "Testflinger", []);
      FoundStaysFound(cls, after, "Testflinger");
    }
    assert Work(card, name, image, version, c3, jenkins, time, summary).checklists == after;
    RecordMeaning(cls[i].items, entry, passed);
    assert after[i].items == items;
  }
}

=== FILE: influx.dfy ===
/** What the two InfluxDB data-point validators report. */
module DataPoints {
  import opened Json

  /** The Python types a field may be required to have. */
  datatype Kind = Str | Dict | Int

  /** One entry of a validator's list of problems. */
  datatype PointError = NotADict(point: Json) | FieldMissing(name: string) | WrongType(name: string)

  /** `isinstance(v, kind)`: `bool` is a subclass of `int`. */
  predicate IsInstance(v: Json, kind: Kind) {
    match kind
    case Str => v.JStr?
    case Dict => v.JObject?
    case Int => v.JInt? || v.JBool?
  }

  /** `type(v) == kind`: no subclasses. */
  predicate HasType(v: Json, kind: Kind) {
    match kind
    case Str => v.JStr?
    case Dict => v.JObject?
    case Int => v.JInt?
  }

  predicate Fits(v: Json, kind: Kind, exact: bool) {
    if exact then HasType(v, kind) else IsInstance(v, kind)
  }

  /** The test of one field against its list of types. */
  predicate FitsAny(v: Json, kinds: seq<Kind>, exact: bool) {
    |kinds| > 0 && (Fits(v, kinds[0], exact) || FitsAny(v, kinds[1..], exact))
  }

  lemma FitsOne(v: Json, a: Kind, exact: bool)
    ensures FitsAny(v, [a], exact) <==> Fits(v, a, exact)
  {
    assert [a][1..] == [];
  }

  lemma FitsTwo(v: Json, a: Kind, b: Kind, exact: bool)
    ensures FitsAny(v, [a, b], exact) <==> Fits(v, a, exact) || Fits(v, b, exact)
  {
    assert [a, b][1..] == [b];
    FitsOne(v, b, exact);
  }

  /** Every point's problems, in order. */
  function AllErrors(validate: Json -> seq<PointError>, points: seq<Json>): (errs: seq<PointError>)
    ensures errs == [] <==> forall i | 0 <= i < |points| :: validate(points[i]) == []
  {
    if |points| == 0 then []
    else
      var rest := AllErrors(validate, points[1..]);
      assert forall i | 1 <= i < |points| :: points[i] == points[1..][i - 1];
      validate(points[0]) + rest
  }

  /** A problem is among four lists exactly when it is in one of them. */
  lemma InFour(a: seq<PointError>, b: seq<PointError>, c: seq<PointError>, d: seq<PointError>, e: PointError)
    ensures e in a + b + c + d <==> e in a || e in b || e in c || e in d
    ensures a + b + c + d == [] <==> a == [] && b == [] && c == [] && d == []
  {
    assert |a + b + c + d| == |a| + |b| + |c| + |d|;
  }

  /** The problem, if any, with a field the point must have. */
  function Mandatory(fields: seq<(string, Json)>, name: string, kinds: seq<Kind>, exact: bool): (errs: seq<PointError>)
    ensures |errs| <= 1
    ensures errs == [] <==> Lookup(fields, name).Some? && FitsAny(Lookup(fields, name).value, kinds, exact)
    ensures errs == [FieldMissing(name)] <==> name !in Keys(fields)
    ensures forall e | e in errs :: !e.NotADict? && e.name == name
  {
    match Lookup(fields, name)
    case None => [FieldMissing(name)]
    case Some(v) => if FitsAny(v, kinds, exact) then [] else [WrongType(name)]
  }

  /** The problem, if any, with a field the point may leave out. */
  function Optional(fields: seq<(string, Json)>, name: string, kinds: seq<Kind>, exact: bool): (errs: seq<PointError>)
    ensures |errs| <= 1
    ensures errs == [] <==> Lookup(fields, name).None? || FitsAny(Lookup(fields, name).value, kinds, exact)
    ensures errs != [] ==> errs == [WrongType(name)]
    ensures forall e | e in errs :: !e.NotADict? && e.name == name
  {
    match Lookup(fields, name)
    case None => []
    case Some(v) => if FitsAny(v, kinds, exact) then [] else [WrongType(name)]
  }
}

/** `kpi-tools/influx_push.py`: pushing a JSON file of points to InfluxDB
    after validating them with `isinstance`. */
module InfluxPush {
  import opened Wrappers
  import opened Json
  import opened Text
  import opened Decimal
  import opened DataPoints

  /** `validate_point(data_point)`: `measurement` and `fields` are required,
      `tags` and `time` optional; types are checked with `isinstance`. */
  function ValidatePoint(p: Json): (errs: seq<PointError>)
    ensures !p.JObject? ==> errs == [NotADict(p)]
    ensures |errs| <= 4
  {
    match p
    case JObject(fs) =>
      Mandatory(fs, "measurement", [Str], false) + Mandatory(fs, "fields", [Dict], false)
      + Optional(fs, "tags", [Dict], false) + Optional(fs, "time", [Int, Str], false)
    case _ => [NotADict(p)]
  }

  /** A point the InfluxDB client accepts, field by field. */
  predicate PointOk(p: Json) {
    && p.JObject?
    && Lookup(p.fields, "measurement").Some? && Lookup(p.fields, "measurement").value.JStr?
    && Lookup(p.fields, "fields").Some? && Lookup(p.fields, "fields").value.JObject?
    && (Lookup(p.fields, "tags").None? || Lookup(p.fields, "tags").value.JObject?)
    && (Lookup(p.fields, "time").None? || Lookup(p.fields, "time").value.JInt?
        || Lookup(p.fields, "time").value.JBool? || Lookup(p.fields, "time").value.JStr?)
  }

  /** The list is empty exactly for a valid point; a required field is
      reported missing exactly when it is absent, an optional one never. */
  lemma ValidatePointMeaning(p: Json, name: string)
    ensures ValidatePoint(p) == [] <==> PointOk(p)
    ensures p.JObject? ==>
      (FieldMissing(name) in ValidatePoint(p) <==> name in ["measurement", "fields"] && name !in Keys(p.fields))
  {
    if p.JObject? {
      var fs := p.fields;
      var m := Mandatory(fs, "measurement", [Str], false);
      var f := Mandatory(fs, "fields", [Dict], false);
      var t := Optional(fs, "tags", [Dict], false);
      var tm := Optional(fs, "time", [Int, Str], false);
      assert ValidatePoint(p) == m + f + t + tm;
      InFour(m, f, t, tm, FieldMissing(name));
      FitsOne(Lookup(fs, "measurement").GetOr(JNull), Str, false);
      FitsOne(Lookup(fs, "fields").GetOr(JNull), Dict, false);
      FitsOne(Lookup(fs, "tags").GetOr(JNull), Dict, false);
      FitsTwo(Lookup(fs, "time").GetOr(JNull), Int, Str, false);
    }
  }

  /** A boolean `time` passes: `bool` is an `int` to `isinstance`. */
  lemma BoolTimeAccepted(fs: seq<(string, Json)>, b: bool)
    requires Lookup(fs, "time") == Some(JBool(b))
    ensures WrongType("time") !in ValidatePoint(JObject(fs))
  {
    FitsTwo(JBool(b), Int, Str, false);
    var m := Mandatory(fs, "measurement", [Str], false);
    var f := Mandatory(fs, "fields", [Dict], false);
    var t := Optional(fs, "tags", [Dict], false);
    var tm := Optional(fs, "time", [Int, Str], false);
    assert ValidatePoint(JObject(fs)) == m + f + t + tm;
    InFour(m, f, t, tm, WrongType("time"));
  }

  /** `host[:port]` from `--host`: the port is `int` of the second
      colon-separated field, 8086 without a colon. */
  function HostPort(arg: string): (r: Option<(string, int)>)
  {
    var split := Split(arg, ':');
    var port := if |split| == 1 then Some(8086) else ParseInt(split[1]);
    if port.None? then None else Some((split[0], port.value))
  }

  lemma HostWithoutPort(arg: string)
    requires ':' !in arg
    ensures HostPort(arg) == Some((arg, 8086))
  {
  }

  lemma HostWithPort(host: string, port: string)
    requires ':' !in host && ':' !in port
    ensures HostPort(host + ":" + port).Some? <==> ParseInt(port).Some?
    ensures HostPort(host + ":" + port).Some? ==> HostPort(host + ":" + port).value == (host, ParseInt(port).value)
  {
    assert host + ":" + port == host + [':'] + port;
    SplitAround(host, ':', port);
  }

  /** A decode failure or the points' problems. */
  datatype Problem = JsonDecodeError | PointProblem(e: PointError)

  datatype PushOutcome =
    | BadPort                                          // `int(split[1])` raised
    | Abort(problems: seq<Problem>)                    // SystemExit with the joined problems
    | Write(host: string, port: int, points: seq<Json>)

  function AsProblems(errs: seq<PointError>): (ps: seq<Problem>)
    ensures |ps| == |errs|
    ensures forall i | 0 <= i < |errs| :: ps[i] == PointProblem(errs[i])
  {
    seq(|errs|, i requires 0 <= i < |errs| => PointProblem(errs[i]))
  }

  /** `main()` once the arguments are parsed and the file is read; `data` is
      `None` when the file is not JSON. */
  function Push(hostArg: string, data: Option<Json>): (o: PushOutcome)
    ensures o.Write? ==> data.Some? && forall i | 0 <= i < |o.points| :: ValidatePoint(o.points[i]) == []
    ensures o.Abort? ==> |o.problems| > 0
  {
    match HostPort(hostArg)
    case None => BadPort
    case Some((host, port)) =>
      match data
      case None => Abort([JsonDecodeError])
      case Some(d) =>
        var points := if d.JArray? then d.items else [d];
        var errs := AllErrors(ValidatePoint, points);
        if errs != [] then Abort(AsProblems(errs)) else Write(host, port, points)
  }

  /** A single object is pushed as a one-element list. */
  lemma SingleObjectListified(hostArg: string, d: Json)
    requires !d.JArray?
    ensures Push(hostArg, Some(d)) == Push(hostArg, Some(JArray([d])))
  {
  }

  /** The points are written exactly when all of them are valid; any
      problem aborts before writing. */
  lemma PushWritesIffValid(hostArg: string, items: seq<Json>)
    requires HostPort(hostArg).Some?
    ensures Push(hostArg, Some(JArray(items))).Write? <==> forall i | 0 <= i < |items| :: PointOk(items[i])
  {
    forall i | 0 <= i < |items|
      ensures ValidatePoint(items[i]) == [] <==> PointOk(items[i])
    {
      ValidatePointMeaning(items[i], "");
    }
  }
}

/** `db-bridge/db-bridge-app/influx.py`: the HTTP bridge that validates
    points with exact types and writes them to InfluxDB. */
module DbBridge {
  import opened Wrappers
  import opened Json
  import opened DataPoints

  /** `validate_point(data_point)`: all four fields required, types checked
      with `type(...) in`. */
  function ValidatePoint(p: Json): (errs: seq<PointError>)
    ensures !p.JObject? ==> errs == [NotADict(p)]
    ensures |errs| <= 4
  {
    match p
    case JObject(fs) =>
      Mandatory(fs, "measurement", [Str], true) + Mandatory(fs, "tags", [Dict], true)
      + Mandatory(fs, "time", [Int, Str], true) + Mandatory(fs, "fields", [Dict], true)
    case _ => [NotADict(p)]
  }

  predicate PointOk(p: Json) {
    && p.JObject?
    && Lookup(p.fields, "measurement").Some? && Lookup(p.fields, "measurement").value.JStr?
    && Lookup(p.fields, "tags").Some? && Lookup(p.fields, "tags").value.JObject?
    && Lookup(p.fields, "time").Some? && (Lookup(p.fields, "time").value.JInt? || Lookup(p.fields, "time").value.JStr?)
    && Lookup(p.fields, "fields").Some? && Lookup(p.fields, "fields").value.JObject?
  }

  /** The list is empty exactly for a valid point, and a field is reported
      missing exactly when it is absent. */
  lemma ValidatePointMeaning(p: Json, name: string)
    ensures ValidatePoint(p) == [] <==> PointOk(p)
    ensures p.JObject? ==>
      (FieldMissing(name) in ValidatePoint(p) <==> name in ["measurement", "tags", "time", "fields"] && name !in Keys(p.fields))
  {
    if p.JObject? {
      var fs := p.fields;
      var a := Mandatory(fs, "measurement", [Str], true);
      var b := Mandatory(fs, "tags", [Dict], true);
      var c := Mandatory(fs, "time", [Int, Str], true);
      var d := Mandatory(fs, "fields", [Dict], true);
      assert ValidatePoint(p) == a + b + c + d;
      InFour(a, b, c, d, FieldMissing(name));
      FitsOne(Lookup(fs, "measurement").GetOr(JNull), Str, true);
      FitsOne(Lookup(fs, "tags").GetOr(JNull), Dict, true);
      FitsTwo(Lookup(fs, "time").GetOr(JNull), Int, Str, true);
      FitsOne(Lookup(fs, "fields").GetOr(JNull), Dict, true);
    }
  }

  /** A boolean `time` is rejected: its type is `bool`, not `int`. */
  lemma BoolTimeRejected(fs: seq<(string, Json)>, b: bool)
    requires Lookup(fs, "time") == Some(JBool(b))
    ensures WrongType("time") in ValidatePoint(JObject(fs))
  {
    FitsTwo(JBool(b), Int, Str, true);
    var w := Mandatory(fs, "measurement", [Str], true);
    var x := Mandatory(fs, "tags", [Dict], true);
    var y := Mandatory(fs, "time", [Int, Str], true);
    var z := Mandatory(fs, "fields", [Dict], true);
    assert y == [WrongType("time")];
    assert ValidatePoint(JObject(fs)) == w + x + y + z;
    InFour(w, x, y, z, WrongType("time"));
  }

  /** The request body: bytes that are not UTF-8 (the `UnicodeDecodeError`
      is not caught), text that is not valid JSON, or the decoded value. */
  datatype Body = NotUtf8 | Undecodable | Decoded(payload: Json)

  /** What `write_points` did: raised, or returned a value. */
  datatype WriteResult = WriteRaised | WriteReturned(v: Json)

  datatype Reason = NotJson | DecodeError | NoDatabase | BadPoints(errors: seq<PointError>) | WriteFailed | Ok | Uncaught

  /** The handler's reply; an exception the handler does not catch becomes
      the framework's 500. */
  datatype Reply = Reply(status: int, reason: Reason)

  /** `payload['measurements']` as an iterable of points: `None` when the
      key is missing or the value is not iterable. */
  function Points(fields: seq<(string, Json)>): (r: Option<seq<Json>>)
    ensures Lookup(fields, "measurements").None? ==> r.None?
  {
    match Lookup(fields, "measurements")
    case None => None
    case Some(ms) => Iterate(ms)
  }

  /** The `/influx` POST handler with the database write as an input. */
  function Handle(contentType: Option<string>, body: Body, write: WriteResult): (r: Reply)
    ensures r.status in {200, 400, 500}
    ensures contentType != Some("application/json") ==> r == Reply(400, NotJson)
  {
    if contentType != Some("application/json") then Reply(400, NotJson)
    else match body
      case NotUtf8 => Reply(500, Uncaught)
      case Undecodable => Reply(400, DecodeError)
      case Decoded(payload) =>
        if !payload.JObject? then Reply(500, Uncaught)
        else if "database" !in Keys(payload.fields) then Reply(400, NoDatabase)
        else match Points(payload.fields)
          case None => Reply(500, Uncaught)
          case Some(points) => WritePoints(points, write)
  }

  /** Validating the points, then writing them. */
  function WritePoints(points: seq<Json>, write: WriteResult): (r: Reply)
    ensures r.status in {200, 400}
  {
    var errs := AllErrors(ValidatePoint, points);
    if errs != [] then Reply(400, BadPoints(errs))
    else match write
      case WriteRaised => Reply(400, WriteFailed)
      case WriteReturned(v) => if Truthy(v) then Reply(200, Ok) else Reply(400, WriteFailed)
  }

  /** Points are written exactly when each is valid, and the reply is a
      success exactly when the write then returns a truthy value. */
  lemma WritePointsOkIff(points: seq<Json>, write: WriteResult)
    ensures WritePoints(points, write).status == 200 <==>
      (forall p | p in points :: PointOk(p)) && write.WriteReturned? && Truthy(write.v)
    ensures (exists p | p in points :: !PointOk(p)) ==>
      WritePoints(points, write) == Reply(400, BadPoints(AllErrors(ValidatePoint, points)))
  {
    forall i | 0 <= i < |points|
      ensures ValidatePoint(points[i]) == [] <==> PointOk(points[i])
    {
      ValidatePointMeaning(points[i], "time");
    }
  }

  /** The request succeeds exactly when it is JSON naming a database, every
      point is valid and the write returns a truthy value. */
  lemma HandleOkIff(contentType: Option<string>, body: Body, write: WriteResult)
    ensures Handle(contentType, body, write).status == 200 <==>
      && contentType == Some("application/json")
      && body.Decoded? && body.payload.JObject?
      && "database" in Keys(body.payload.fields)
      && Points(body.payload.fields).Some?
      && (forall p | p in Points(body.payload.fields).value :: PointOk(p))
      && write.WriteReturned? && Truthy(write.v)
  {
    if contentType == Some("application/json") && body.Decoded? && body.payload.JObject?
      && "database" in Keys(body.payload.fields) && Points(body.payload.fields).Some?
    {
      WritePointsOkIff(Points(body.payload.fields).value, write);
    }
  }

  /** Only the JSON decoder's own error is answered as a decode error; bytes
      that are not UTF-8 escape the handler and get the framework's 500. */
  lemma BodyErrors(contentType: Option<string>, body: Body, write: WriteResult)
    ensures Handle(contentType, body, write).reason == DecodeError <==>
      contentType == Some("application/json") && body == Undecodable
    ensures contentType == Some("application/json") && body == NotUtf8 ==>
      Handle(contentType, body, write) == Reply(500, Uncaught)
  {
  }

  /** An invalid point answers 400 whatever the database would have done:
      nothing is written. */
  lemma InvalidPointNoWrite(fields: seq<(string, Json)>, w1: WriteResult, w2: WriteResult)
    requires "database" in Keys(fields) && Points(fields).Some?
    requires exists p | p in Points(fields).value :: !PointOk(p)
    ensures Handle(Some("application/json"), Decoded(JObject(fields)), w1).status == 400
    ensures Handle(Some("application/json"), Decoded(JObject(fields)), w1)
         == Handle(Some("application/json"), Decoded(JObject(fields)), w2)
  {
    WritePointsOkIff(Points(fields).value, w1);
    WritePointsOkIff(Points(fields).value, w2);
  }

  /** An empty list of points is valid and is written. */
  lemma EmptyListWritten(db: Json)
    ensures Handle(Some("application/json"), Decoded(JObject([("database", db), ("measurements", JArray([]))])),
                   WriteReturned(JBool(true))) == Reply(200, Ok)
  {
    var fs := [("database", db), ("measurements", JArray([]))];
    assert Keys(fs)[0] == "database";
    assert Lookup(fs, "measurements") == Some(JArray([]));
  }
}

=== FILE: json.dfy ===
/** Decoded JSON values as the scripts see them after `json.loads`: objects
    are Python dicts, kept here as their (distinct) keys in insertion order. */
module Json {
  import opened Wrappers

  datatype Json =
    | JNull
    | JBool(b: bool)
    | JInt(i: int)
    | JFloat(r: real)
    | JStr(s: string)
    | JArray(items: seq<Json>)
    | JObject(fields: seq<(string, Json)>)

  function Keys(fields: seq<(string, Json)>): (ks: seq<string>)
    ensures |ks| == |fields|
    ensures forall i | 0 <= i < |fields| :: ks[i] == fields[i].0
  {
    seq(|fields|, i requires 0 <= i < |fields| => fields[i].0)
  }

  /** `d.get(key)` on a dict. */
  function Lookup(fields: seq<(string, Json)>, key: string): (r: Option<Json>)
    ensures r.None? <==> key !in Keys(fields)
    ensures r.Some? ==> exists i | 0 <= i < |fields| :: fields[i] == (key, r.value)
  {
    if |fields| == 0 then None
    else if fields[0].0 == key then Some(fields[0].1)
    else
      var r := Lookup(fields[1..], key);
      assert Keys(fields) == [fields[0].0] + Keys(fields[1..]);
      r
  }

  /** `bool(v)`: Python truthiness of a decoded value. */
  predicate Truthy(v: Json) {
    match v
    case JNull => false
    case JBool(b) => b
    case JInt(i) => i != 0
    case JFloat(r) => r != 0.0
    case JStr(s) => |s| > 0
    case JArray(items) => |items| > 0
    case JObject(fields) => |fields| > 0
  }

  /** `for x in v`: a list gives its items, a dict its keys
      and a string its characters; anything else is not iterable. */
  function Iterate(v: Json): (r: Option<seq<Json>>)
    ensures v.JArray? ==> r == Some(v.items)
    ensures v.JInt? || v.JFloat? || v.JBool? || v.JNull? ==> r.None?
  {
    match v
    case JArray(items) => Some(items)
    case JObject(fields) => Some(seq(|fields|, i requires 0 <= i < |fields| => JStr(fields[i].0)))
    case JStr(s) => Some(seq(|s|, i requires 0 <= i < |s| => JStr([s[i]])))
    case _ => None
  }
}

=== FILE: kpis.dfy ===
/** `kpi-tools/ce_proj_kpis.py`: reading Customer Engineering projects from
    the rows of a sheet and aggregating their KPIs per line of business.
    The sheet is an input; Python floats are exact reals and
    `statistics.mean` the exact mean. */
module ProjectKpis {
  import opened Wrappers
  import opened Text
  import opened Decimal

  // ---- cell parsers ----

  /** `optional_int(string)`: `int()` with `ValueError` as `None`. */
  function OptionalInt(s: string): (r: Option<int>)
    ensures NoDigits(s) ==> r == None
  {
    ParseIntNoDigits(s);
    ParseInt(s)
  }

  /** Rendered integers read back as themselves. */
  lemma OptionalIntOfString(i: int)
    ensures OptionalInt(IntToString(i)) == Some(i)
  {
    ParseIntOfString(i);
  }

  /** `optional_percent(string)`: a number followed by `%`, divided by 100;
      `None` without the `%`, for the empty cell (the `IndexError`) and for
      text that is no number. */
  function OptionalPercent(s: string): (r: Option<real>)
    ensures r.Some? ==> |s| > 0 && s[|s| - 1] == '%' && ParseFloat(s[..|s| - 1]) == Some(100.0 * r.value)
  {
    if |s| == 0 || s[|s| - 1] != '%' then None
    else match ParseFloat(s[..|s| - 1])
      case None => None
      case Some(v) => Some(v / 100.0)
  }

  /** `n%` reads as the fraction n/100, for negative `n` too. */
  lemma OptionalPercentOfInt(i: int)
    ensures OptionalPercent(IntToString(i) + "%") == Some(i as real / 100.0)
  {
    var s := IntToString(i) + "%";
    assert s[..|s| - 1] == IntToString(i);
    ParseFloatOfInt(i);
  }

  /** The characters `currency` keeps. */
  const CurrencyChars: set<char> := {'0', '1', '2', '3', '4', '5', '6', '7', '8', '9', '-', '.'}

  /** The loop of `currency` that keeps only `0123456789-.`, in order. */
  function KeepCurrencyChars(s: string): (r: string)
    ensures |r| <= |s|
    ensures forall k | 0 <= k < |r| :: r[k] in CurrencyChars
    decreases |s|
  {
    if |s| == 0 then ""
    else if s[0] in CurrencyChars then [s[0]] + KeepCurrencyChars(s[1..])
    else KeepCurrencyChars(s[1..])
  }

  /** Filtering a concatenation filters each part. */
  lemma {:induction false} KeepConcat(a: string, b: string)
    ensures KeepCurrencyChars(a + b) == KeepCurrencyChars(a) + KeepCurrencyChars(b)
    decreases |a|
  {
    if |a| > 0 {
      KeepConcat(a[1..], b);
      assert (a + b)[1..] == a[1..] + b;
    } else {
      assert a + b == b;
    }
  }

  /** Text made of kept characters passes unchanged. */
  lemma {:induction false} KeepAll(s: string)
    requires forall k | 0 <= k < |s| :: s[k] in CurrencyChars
    ensures KeepCurrencyChars(s) == s
    decreases |s|
  {
    if |s| > 0 {
      KeepAll(s[1..]);
      assert s == [s[0]] + s[1..];
    }
  }

  /** Text without kept characters vanishes. */
  lemma {:induction false} KeepNone(s: string)
    requires forall k | 0 <= k < |s| :: s[k] !in CurrencyChars
    ensures KeepCurrencyChars(s) == ""
    decreases |s|
  {
    if |s| > 0 {
      KeepNone(s[1..]);
    }
  }

  /** `currency(string)`: `float()` of the kept characters, `None` when they
      are no number. */
  function Currency(s: string): (r: Option<real>)
    ensures r.Some? <==> ParseFloat(KeepCurrencyChars(s)).Some?
  {
    ParseFloat(KeepCurrencyChars(s))
  }

  lemma DigitsKept(d: string)
    requires AllDigits(d)
    ensures forall k | 0 <= k < |d| :: d[k] in CurrencyChars
  {
    forall k | 0 <= k < |d| ensures d[k] in CurrencyChars {
      assert IsDigit(d[k]);
    }
  }

  /** A currency sign or code before an amount is ignored: `$42`, `USD200`,
      `$-100`. */
  lemma CurrencyOfAmount(prefix: string, i: int)
    requires forall k | 0 <= k < |prefix| :: prefix[k] !in CurrencyChars
    ensures Currency(prefix + IntToString(i)) == Some(i as real)
  {
    var t := IntToString(i);
    KeepConcat(prefix, t);
    KeepNone(prefix);
    AmountKept(i);
    KeepAll(t);
    assert KeepCurrencyChars(prefix + t) == t;
    ParseFloatOfInt(i);
  }

  /** A rendered integer is made of kept characters. */
  lemma AmountKept(i: int)
    ensures forall k | 0 <= k < |IntToString(i)| :: IntToString(i)[k] in CurrencyChars
  {
    var d := NatToString(if i < 0 then -i else i);
    DigitsKept(d);
    if i < 0 {
      var t := IntToString(i);
      assert t == "-" + d;
      forall k | 0 <= k < |t| ensures t[k] in CurrencyChars {
        if k > 0 { assert t[k] == d[k - 1]; }
      }
    }
  }

  /** Thousands separators are dropped: `$10,000` is ten thousand. */
  lemma CurrencyThousands(prefix: string, a: string, sep: char, b: string)
    requires forall k | 0 <= k < |prefix| :: prefix[k] !in CurrencyChars
    requires sep !in CurrencyChars
    requires |a| > 0 && AllDigits(a) && AllDigits(b)
    ensures Currency(prefix + a + [sep] + b) == Some(DigitsValue(a + b) as real)
  {
    var ab := a + b;
    assert KeepCurrencyChars(prefix + a + [sep] + b) == ab by {
      DigitsKept(a);
      DigitsKept(b);
      KeepConcat(prefix + a + [sep], b);
      KeepConcat(prefix + a, [sep]);
      KeepConcat(prefix, a);
      KeepNone(prefix);
      KeepNone([sep]);
      KeepAll(a);
      KeepAll(b);
    }
    assert |ab| > 0 && AllDigits(ab);
    ParseFloatOfDigits(ab);
  }

  /** A `-` anywhere but first among the kept characters makes the cell no
      number: `$-10-10`. */
  lemma CurrencyInnerMinus(s: string, k: nat)
    requires 0 < k < |KeepCurrencyChars(s)| && KeepCurrencyChars(s)[k] == '-'
    ensures Currency(s) == None
  {
    var f := KeepCurrencyChars(s);
    KeptNotSpace(f[0]);
    KeptNotSpace(f[|f| - 1]);
    StripPlain(f);
    var body := SplitSign(f).1;
    var m := if f[0] == '-' || f[0] == '+' then k - 1 else k;
    assert body[m] == '-';
    MinusNotDecimal(body, m);
  }

  lemma KeptNotSpace(c: char)
    requires c in CurrencyChars
    ensures !IsSpace(c)
  {
  }

  /** A decimal has no `-` after its sign. */
  lemma MinusNotDecimal(body: string, m: nat)
    requires m < |body| && body[m] == '-'
    ensures !DecimalSyntax(body)
  {
    var dot := IndexOrEnd(body, '.');
    if m < dot {
      assert !IsDigit(body[..dot][m]);
    } else {
      assert !IsDigit(body[dot + 1..][m - dot - 1]);
    }
  }

  // ---- projects ----

  /** A sheet row read through the `FIELDS` table. */
  datatype Project = Project(
    budgetVariance: Option<real>,
    lob: string,
    nps: Option<int>,
    roi: Option<real>,
    scopeCreep: Option<int>,
    status: string,
    timeToMarket: Option<int>,
    plannedEffort: Option<int>,
    actualEffort: Option<int>,
    deliveryRevenue: Option<real>,
    deliveryCost: Option<real>)

  /** The columns `FIELDS` reads, counted from 0. */
  const FieldColumns: set<nat> := {9, 2, 13, 16, 12, 1, 6, 7, 8, 14, 15}

  /** The highest column `FIELDS` reads (Q, the ROI). */
  const LastColumn := 16

  /** `Project.from_row(row)`: each field is its factory applied to its
      column; `None` stands for the `IndexError` of a row too short for
      the last column. */
  function FromRow(row: seq<string>): (r: Option<Project>)
    ensures r.Some? <==> |row| > LastColumn
    ensures r.Some? ==>
      && r.value.budgetVariance == OptionalPercent(row[9])
      && r.value.lob == row[2]
      && r.value.nps == OptionalInt(row[13])
      && r.value.roi == OptionalPercent(row[16])
      && r.value.scopeCreep == OptionalInt(row[12])
      && r.value.status == row[1]
      && r.value.timeToMarket == OptionalInt(row[6])
      && r.value.plannedEffort == OptionalInt(row[7])
      && r.value.actualEffort == OptionalInt(row[8])
      && r.value.deliveryRevenue == Currency(row[14])
      && r.value.deliveryCost == Currency(row[15])
  {
    if |row| <= LastColumn then None
    else Some(Project(
      OptionalPercent(row[9]), row[2], OptionalInt(row[13]), OptionalPercent(row[16]),
      OptionalInt(row[12]), row[1], OptionalInt(row[6]), OptionalInt(row[7]),
      OptionalInt(row[8]), Currency(row[14]), Currency(row[15])))
  }

  /** `LastColumn` is the highest column of `FIELDS`, so a row raises
      `IndexError` exactly when it stops before it. */
  lemma LastColumnOfFields()
    ensures forall c | c in FieldColumns :: c <= LastColumn
    ensures LastColumn in FieldColumns
  {
  }

  /** Only the columns of `FIELDS` matter: rows that agree on them make
      the same project. */
  lemma FromRowReadsFields(a: seq<string>, b: seq<string>)
    requires |a| > LastColumn && |b| > LastColumn
    requires forall c | c in FieldColumns :: a[c] == b[c]
    ensures FromRow(a) == FromRow(b)
  {
    assert a[9] == b[9] && a[2] == b[2] && a[13] == b[13] && a[16] == b[16];
    assert a[12] == b[12] && a[1] == b[1] && a[6] == b[6] && a[7] == b[7];
    assert a[8] == b[8] && a[14] == b[14] && a[15] == b[15];
  }

  const ValidStatuses: seq<string> := ["in-progress", "delivered", "excluded"]

  /** A row `get_projects` keeps: a valid status in column B (compared
      lower-cased) and every column `FIELDS` reads. */
  predicate Kept(row: seq<string>) {
    |row| >= 2 && Lower(row[1]) in ValidStatuses && |row| > LastColumn
  }

  /** `get_projects`: the projects of the kept rows in sheet order; rows
      that are too short, have another status or fail to parse are
      skipped. */
  function GetProjects(rows: seq<seq<string>>): (ps: seq<Project>)
    ensures |ps| <= |rows|
    ensures forall k | 0 <= k < |ps| :: Lower(ps[k].status) in ValidStatuses
    decreases |rows|
  {
    if |rows| == 0 then []
    else
      var row := rows[0];
      var rest := GetProjects(rows[1..]);
      if |row| < 2 then rest
      else if Lower(row[1]) in ValidStatuses then
        match FromRow(row)
        case Some(p) => [p] + rest
        case None => rest
      else rest
  }

  /** The projects are those of the kept rows, in order. */
  lemma {:induction false} GetProjectsKept(rows: seq<seq<string>>)
    ensures GetProjects(rows) == KeptProjects(rows)
    decreases |rows|
  {
    if |rows| > 0 {
      GetProjectsKept(rows[1..]);
    }
  }

  /** The reference reading of the sheet: one project per kept row. */
  function KeptProjects(rows: seq<seq<string>>): (ps: seq<Project>)
    decreases |rows|
  {
    if |rows| == 0 then []
    else if Kept(rows[0]) then [FromRow(rows[0]).value] + KeptProjects(rows[1..])
    else KeptProjects(rows[1..])
  }

  /** The sheet may be read in parts. */
  lemma GetProjectsConcat(a: seq<seq<string>>, b: seq<seq<string>>)
    ensures GetProjects(a + b) == GetProjects(a) + GetProjects(b)
  {
    GetProjectsKept(a + b);
    GetProjectsKept(a);
    GetProjectsKept(b);
    KeptProjectsConcat(a, b);
  }

  lemma {:induction false} KeptProjectsConcat(a: seq<seq<string>>, b: seq<seq<string>>)
    ensures KeptProjects(a + b) == KeptProjects(a) + KeptProjects(b)
    decreases |a|
  {
    if |a| > 0 {
      KeptProjectsConcat(a[1..], b);
      assert (a + b)[1..] == a[1..] + b;
      assert (a + b)[0] == a[0];
    } else {
      assert a + b == b;
    }
  }

  // ---- line-of-business KPIs ----

  /** The effort and money totals of one line of business. */
  datatype Totals = Totals(planned: int, actual: int, cost: real, revenue: real)

  /** The summing loop of `main`: planned effort counts only beside an
      actual effort, revenue only beside a cost. */
  function LobTotals(ps: seq<Project>, lob: string): (t: Totals)
    decreases |ps|
  {
    if |ps| == 0 then Totals(0, 0, 0.0, 0.0)
    else
      var t := LobTotals(ps[..|ps| - 1], lob);
      var p := ps[|ps| - 1];
      if Lower(p.lob) != lob then t
      else
        var t1 := if p.actualEffort.Some? then
          t.(actual := t.actual + p.actualEffort.value,
             planned := t.planned + p.plannedEffort.GetOr(0))
        else t;
        if p.deliveryCost.Some? then
          t1.(cost := t1.cost + p.deliveryCost.value, revenue := t1.revenue + p.deliveryRevenue.GetOr(0.0))
        else t1
  }

  /** A project of another line of business, or one without actual effort
      and cost, changes no total. */
  lemma LobTotalsIgnores(ps: seq<Project>, p: Project, lob: string)
    requires Lower(p.lob) != lob || (p.actualEffort.None? && p.deliveryCost.None?)
    ensures LobTotals(ps + [p], lob) == LobTotals(ps, lob)
  {
    assert (ps + [p])[..|ps|] == ps;
  }

  /** A planned effort without an actual one is not summed. */
  lemma PlannedNeedsActual(ps: seq<Project>, p: Project, lob: string)
    requires Lower(p.lob) == lob && p.actualEffort.None?
    ensures LobTotals(ps + [p], lob).planned == LobTotals(ps, lob).planned
    ensures LobTotals(ps + [p], lob).actual == LobTotals(ps, lob).actual
  {
    assert (ps + [p])[..|ps|] == ps;
  }

  /** The averaged metrics. */
  datatype Metric = ScopeCreep | Nps | TimeToMarket

  function MetricOf(p: Project, m: Metric): Option<int> {
    match m
    case ScopeCreep => p.scopeCreep
    case Nps => p.nps
    case TimeToMarket => p.timeToMarket
  }

  function MetricName(m: Metric): string {
    match m
    case ScopeCreep => "scope_creep"
    case Nps => "nps"
    case TimeToMarket => "time_to_market"
  }

  /** The project counts toward a line's averaged metric. */
  predicate Averaged(p: Project, lob: string, m: Metric) {
    MetricOf(p, m).Some? && Lower(p.status) != "excluded" && Lower(p.lob) == lob
  }

  /** Some project of the line counts toward the metric. */
  predicate AnyAveraged(ps: seq<Project>, lob: string, m: Metric)
    decreases |ps|
  {
    |ps| > 0 && (Averaged(ps[0], lob, m) || AnyAveraged(ps[1..], lob, m))
  }

  /** `AnyAveraged` is the search for one averaged project. */
  lemma {:induction false} AnyAveragedExists(ps: seq<Project>, lob: string, m: Metric)
    ensures AnyAveraged(ps, lob, m) <==> exists k | 0 <= k < |ps| :: Averaged(ps[k], lob, m)
    decreases |ps|
  {
    if |ps| > 0 {
      AnyAveragedExists(ps[1..], lob, m);
      if exists k | 0 <= k < |ps| :: Averaged(ps[k], lob, m) {
        var k :| 0 <= k < |ps| && Averaged(ps[k], lob, m);
        if k > 0 {
          assert ps[1..][k - 1] == ps[k];
        }
      }
      if exists k | 0 <= k < |ps[1..]| :: Averaged(ps[1..][k], lob, m) {
        var k :| 0 <= k < |ps[1..]| && Averaged(ps[1..][k], lob, m);
        assert ps[1..][k] == ps[k + 1];
      }
    }
  }

  /** The values a metric is averaged over, in project order. */
  function MetricValues(ps: seq<Project>, lob: string, m: Metric): (vs: seq<int>)
    ensures |vs| <= |ps|
    ensures |vs| == 0 <==> !AnyAveraged(ps, lob, m)
    decreases |ps|
  {
    if |ps| == 0 then []
    else
      var rest := MetricValues(ps[1..], lob, m);
      assert forall k | 1 <= k < |ps| :: ps[k] == ps[1..][k - 1];
      if Averaged(ps[0], lob, m) then [MetricOf(ps[0], m).value] + rest else rest
  }

  function Sum(vs: seq<int>): int
    decreases |vs|
  {
    if |vs| == 0 then 0 else vs[0] + Sum(vs[1..])
  }

  /** `statistics.mean`, exactly. */
  function Mean(vs: seq<int>): real
    requires |vs| > 0
  {
    Sum(vs) as real / |vs| as real
  }

  /** How many of a line's projects have exactly this status (the
      `Counter` lookup is case-sensitive). */
  function StatusCount(ps: seq<Project>, lob: string, status: string): (n: nat)
    ensures n <= |ps|
    decreases |ps|
  {
    if |ps| == 0 then 0
    else (if Lower(ps[0].lob) == lob && ps[0].status == status then 1 else 0) + StatusCount(ps[1..], lob, status)
  }

  /** The KPIs of one line of business; `None` where `main` sets no key. */
  datatype LobKpis = LobKpis(
    budgetVariance: Option<real>, roi: Option<real>,
    scopeCreep: Option<real>, nps: Option<real>, timeToMarket: Option<real>,
    active: nat, delivered: nat)

  /** The mean of a metric over a line's projects, if any value remains. */
  function MeanOf(ps: seq<Project>, lob: string, m: Metric): (r: Option<real>)
    ensures r.Some? <==> AnyAveraged(ps, lob, m)
  {
    var vs := MetricValues(ps, lob, m);
    if |vs| > 0 then Some(Mean(vs)) else None
  }

  /** The LOB budget variance: total actual over total planned effort,
      set only when both are nonzero. */
  function Variance(t: Totals): (r: Option<real>)
    ensures r.Some? <==> t.actual != 0 && t.planned != 0
    ensures r.Some? ==> r.value * t.planned as real == (t.actual - t.planned) as real
  {
    if t.actual != 0 && t.planned != 0 then Some((t.actual - t.planned) as real / t.planned as real) else None
  }

  /** The LOB return on investment: revenue over cost, set only when both
      totals are nonzero. */
  function Roi(t: Totals): (r: Option<real>)
    ensures r.Some? <==> t.cost != 0.0 && t.revenue != 0.0
    ensures r.Some? ==> r.value * t.cost == t.revenue - t.cost
  {
    if t.cost != 0.0 && t.revenue != 0.0 then Some((t.revenue - t.cost) / t.cost) else None
  }

  /** What `main` computes for one line of business. */
  function ForLob(ps: seq<Project>, lob: string): LobKpis {
    var t := LobTotals(ps, lob);
    LobKpis(Variance(t), Roi(t),
      MeanOf(ps, lob, ScopeCreep), MeanOf(ps, lob, Nps), MeanOf(ps, lob, TimeToMarket),
      StatusCount(ps, lob, "In-progress"), StatusCount(ps, lob, "Delivered"))
  }

  /** `Counter([p.status for p in projects if p.lob.lower() == lob])`
      grows by one for each project of the line with the status. */
  lemma {:induction false} StatusCountAppend(ps: seq<Project>, p: Project, lob: string, status: string)
    ensures StatusCount(ps + [p], lob, status)
         == StatusCount(ps, lob, status) + (if Lower(p.lob) == lob && p.status == status then 1 else 0)
    decreases |ps|
  {
    if |ps| > 0 {
      StatusCountAppend(ps[1..], p, lob, status);
      assert (ps + [p])[1..] == ps[1..] + [p];
    } else {
      assert ([] + [p])[1..] == [];
    }
  }

  /** The list comprehension of `main`: a project's value is appended when
      it has the metric, is not excluded and belongs to the line. */
  lemma {:induction false} MetricValuesAppend(ps: seq<Project>, p: Project, lob: string, m: Metric)
    ensures MetricValues(ps + [p], lob, m)
         == MetricValues(ps, lob, m) + (if Averaged(p, lob, m) then [MetricOf(p, m).value] else [])
    decreases |ps|
  {
    if |ps| > 0 {
      MetricValuesAppend(ps[1..], p, lob, m);
      assert (ps + [p])[1..] == ps[1..] + [p];
    } else {
      assert ([] + [p])[1..] == [];
    }
  }

  lemma {:induction false} SumAppend(vs: seq<int>, v: int)
    ensures Sum(vs + [v]) == Sum(vs) + v
    decreases |vs|
  {
    if |vs| > 0 {
      SumAppend(vs[1..], v);
      assert (vs + [v])[1..] == vs[1..] + [v];
    } else {
      assert ([] + [v])[1..] == [];
    }
  }

  /** `statistics.mean`: the average times the number of values is their
      sum. */
  lemma MeanOfExact(ps: seq<Project>, lob: string, m: Metric)
    ensures var vs := MetricValues(ps, lob, m);
      MeanOf(ps, lob, m).Some? ==> MeanOf(ps, lob, m).value * |vs| as real == Sum(vs) as real
  {
    var vs := MetricValues(ps, lob, m);
    if MeanOf(ps, lob, m).Some? {
      assert |vs| > 0 && MeanOf(ps, lob, m) == Some(Mean(vs));
      MeanProduct(vs);
    }
  }

  lemma MeanProduct(vs: seq<int>)
    requires |vs| > 0
    ensures Mean(vs) * |vs| as real == Sum(vs) as real
  {
  }

  /** A project that enters the average makes it the mean of the old
      values and its own. */
  lemma {:induction false} MeanOfAppend(ps: seq<Project>, p: Project, lob: string, m: Metric)
    requires Averaged(p, lob, m)
    ensures var vs := MetricValues(ps, lob, m);
      MeanOf(ps + [p], lob, m) == Some((Sum(vs) + MetricOf(p, m).value) as real / (|vs| + 1) as real)
  {
    MetricValuesAppend(ps, p, lob, m);
    MeanOfOneMore(ps + [p], lob, m, MetricValues(ps, lob, m), MetricOf(p, m).value);
  }

  /** Values `vs` and one more value `v` have the mean `(Sum(vs) + v) / (|vs| + 1)`. */
  lemma {:induction false} MeanOfOneMore(ps: seq<Project>, lob: string, m: Metric, vs: seq<int>, v: int)
    requires MetricValues(ps, lob, m) == vs + [v]
    ensures MeanOf(ps, lob, m) == Some((Sum(vs) + v) as real / (|vs| + 1) as real)
  {
    SumAppend(vs, v);
  }

  lemma {:induction false} SumWithin(vs: seq<int>, lo: int, hi: int)
    requires forall k | 0 <= k < |vs| :: lo <= vs[k] <= hi
    ensures |vs| * lo <= Sum(vs) <= |vs| * hi
    decreases |vs|
  {
    if |vs| > 0 {
      SumWithin(vs[1..], lo, hi);
      assert vs[0] == vs[0];
    }
  }

  /** Bounds on the metrics of the averaged projects bound the values. */
  predicate MetricsWithin(ps: seq<Project>, lob: string, m: Metric, lo: int, hi: int) {
    forall k | 0 <= k < |ps| :: Averaged(ps[k], lob, m) ==> lo <= MetricOf(ps[k], m).value <= hi
  }

  lemma {:induction false} MetricValuesWithin(ps: seq<Project>, lob: string, m: Metric, lo: int, hi: int)
    requires MetricsWithin(ps, lob, m, lo, hi)
    ensures forall k | 0 <= k < |MetricValues(ps, lob, m)| :: lo <= MetricValues(ps, lob, m)[k] <= hi
    decreases |ps|
  {
    if |ps| > 0 {
      assert forall k | 0 <= k < |ps[1..]| :: ps[1..][k] == ps[k + 1];
      MetricValuesWithin(ps[1..], lob, m, lo, hi);
    }
  }

  lemma RealProduct(a: int, b: int)
    ensures (a * b) as real == a as real * b as real
  {
  }

  /** A quotient of integers lies within the bounds its terms do. */
  lemma QuotientWithin(r: real, n: int, s: int, lo: int, hi: int)
    requires n > 0 && r * n as real == s as real && n * lo <= s <= n * hi
    ensures lo as real <= r <= hi as real
  {
    RealProduct(n, lo);
    RealProduct(n, hi);
  }

  /** The average lies between the least and the greatest value any
      averaged project of the line has. */
  lemma MeanWithin(ps: seq<Project>, lob: string, m: Metric, lo: int, hi: int)
    requires MetricsWithin(ps, lob, m, lo, hi)
    ensures MeanOf(ps, lob, m).Some? ==> lo as real <= MeanOf(ps, lob, m).value <= hi as real
  {
    var vs := MetricValues(ps, lob, m);
    if MeanOf(ps, lob, m).Some? {
      assert |vs| > 0 && MeanOf(ps, lob, m) == Some(Mean(vs));
      MetricValuesWithin(ps, lob, m, lo, hi);
      MeanOfValuesWithin(vs, lo, hi);
    }
  }

  lemma MeanOfValuesWithin(vs: seq<int>, lo: int, hi: int)
    requires |vs| > 0 && forall k | 0 <= k < |vs| :: lo <= vs[k] <= hi
    ensures lo as real <= Mean(vs) <= hi as real
  {
    SumWithin(vs, lo, hi);
    MeanProduct(vs);
    QuotientWithin(Mean(vs), |vs|, Sum(vs), lo, hi);
  }

  /** An excluded project never enters an average. */
  lemma {:induction false} ExcludedNotAveraged(ps: seq<Project>, p: Project, lob: string, m: Metric)
    requires Lower(p.status) == "excluded"
    ensures MetricValues(ps + [p], lob, m) == MetricValues(ps, lob, m)
    decreases |ps|
  {
    if |ps| > 0 {
      ExcludedNotAveraged(ps[1..], p, lob, m);
      assert (ps + [p])[1..] == ps[1..] + [p];
    } else {
      assert !Averaged(p, lob, m);
      assert ([] + [p])[1..] == [];
    }
  }

  /** Status counts are case-sensitive: an `IN-PROGRESS` project is read
      (its status is valid lower-cased) but not counted as active. */
  lemma {:induction false} ActiveIsCaseSensitive(ps: seq<Project>, p: Project, lob: string)
    requires p.status != "In-progress"
    ensures StatusCount(ps + [p], lob, "In-progress") == StatusCount(ps, lob, "In-progress")
    decreases |ps|
  {
    if |ps| > 0 {
      ActiveIsCaseSensitive(ps[1..], p, lob);
      assert (ps + [p])[1..] == ps[1..] + [p];
    } else {
      assert ([] + [p])[1..] == [];
    }
  }

  // ---- the dict `main` posts ----

  /** The `kpis[...] = ...` assignments of the first loop for one line, in
      program order. */
  function AverageEntries(lob: string, r: LobKpis): seq<(string, real)> {
    Entry("avg_" + lob + "_budget_variance", r.budgetVariance)
    + Entry("avg_" + lob + "_roi", r.roi)
    + Entry("avg_" + lob + "_scope_creep", r.scopeCreep)
    + Entry("avg_" + lob + "_nps", r.nps)
    + Entry("avg_" + lob + "_time_to_market", r.timeToMarket)
  }

  function Entry(key: string, v: Option<real>): seq<(string, real)> {
    if v.Some? then [(key, v.value)] else []
  }

  const ActiveSuffix := "_active_projects"
  const DeliveredSuffix := "_delivered_projects"

  /** The assignments of both loops of `main`, over the lines of business in
      the order the set of them is iterated. */
  function Assignments(ps: seq<Project>, lobs: seq<string>): seq<(string, real)> {
    AllAverages(ps, lobs) + AllCounts(ps, lobs)
  }

  function AllAverages(ps: seq<Project>, lobs: seq<string>): seq<(string, real)>
    decreases |lobs|
  {
    if |lobs| == 0 then [] else AverageEntries(lobs[0], ForLob(ps, lobs[0])) + AllAverages(ps, lobs[1..])
  }

  function AllCounts(ps: seq<Project>, lobs: seq<string>): (es: seq<(string, real)>)
    ensures |es| == 2 * |lobs|
    decreases |lobs|
  {
    if |lobs| == 0 then []
    else
      [(lobs[0] + ActiveSuffix, StatusCount(ps, lobs[0], "In-progress") as real),
       (lobs[0] + DeliveredSuffix, StatusCount(ps, lobs[0], "Delivered") as real)]
      + AllCounts(ps, lobs[1..])
  }

  /** The two count entries of the `i`-th line of business. */
  lemma {:induction false} CountEntries(ps: seq<Project>, lobs: seq<string>, i: nat)
    requires i < |lobs|
    ensures AllCounts(ps, lobs)[2 * i] == (lobs[i] + ActiveSuffix, StatusCount(ps, lobs[i], "In-progress") as real)
    ensures AllCounts(ps, lobs)[2 * i + 1] == (lobs[i] + DeliveredSuffix, StatusCount(ps, lobs[i], "Delivered") as real)
    decreases i
  {
    if i > 0 {
      CountEntries(ps, lobs[1..], i - 1);
    }
  }

  /** A dict built by assignments in order: the last one of a key wins. */
  function ToDict(es: seq<(string, real)>): map<string, real>
    decreases |es|
  {
    if |es| == 0 then map[] else ToDict(es[..|es| - 1])[es[|es| - 1].0 := es[|es| - 1].1]
  }

  lemma {:induction false} ToDictLast(es: seq<(string, real)>, i: nat)
    requires i < |es| && forall j | i < j < |es| :: es[j].0 != es[i].0
    ensures es[i].0 in ToDict(es) && ToDict(es)[es[i].0] == es[i].1
    decreases |es|
  {
    if i < |es| - 1 {
      ToDictLast(es[..|es| - 1], i);
    }
  }

  /** No line's active key is another line's key. */
  lemma CountKeysDiffer(a: string, b: string)
    ensures a + ActiveSuffix != b + DeliveredSuffix
    ensures a != b ==> a + ActiveSuffix != b + ActiveSuffix
  {
    if |a + ActiveSuffix| == |b + DeliveredSuffix| {
      var n := |a + ActiveSuffix|;
      assert (a + ActiveSuffix)[n - 10] == 'e';
      assert (b + DeliveredSuffix)[n - 10] == 'd';
    }
    if a != b && |a| == |b| {
      var k :| 0 <= k < |a| && a[k] != b[k];
      assert (a + ActiveSuffix)[k] == a[k] && (b + ActiveSuffix)[k] == b[k];
    }
  }

  /** For distinct lines of business, the posted dict holds each line's
      active-project count under `<lob>_active_projects`. */
  lemma ActiveCountPosted(ps: seq<Project>, lobs: seq<string>, i: nat)
    requires i < |lobs| && forall j, k | 0 <= j < k < |lobs| :: lobs[j] != lobs[k]
    ensures var d := ToDict(Assignments(ps, lobs));
      lobs[i] + ActiveSuffix in d && d[lobs[i] + ActiveSuffix] == StatusCount(ps, lobs[i], "In-progress") as real
  {
    var avg := AllAverages(ps, lobs);
    var cnt := AllCounts(ps, lobs);
    var es := avg + cnt;
    var at := |avg| + 2 * i;
    CountEntries(ps, lobs, i);
    assert es[at] == cnt[2 * i];
    forall j | at < j < |es|
      ensures es[j].0 != es[at].0
    {
      LaterCountKey(ps, lobs, i, j - |avg|);
      assert es[j] == cnt[j - |avg|];
    }
    ToDictLast(es, at);
  }

  /** No count entry after a line's active entry has its key. */
  lemma LaterCountKey(ps: seq<Project>, lobs: seq<string>, i: nat, q: nat)
    requires 2 * i < q < 2 * |lobs| && forall j, k | 0 <= j < k < |lobs| :: lobs[j] != lobs[k]
    ensures AllCounts(ps, lobs)[q].0 != lobs[i] + ActiveSuffix
  {
    var l := q / 2;
    if q == 2 * l {
      CountEntries(ps, lobs, l);
      CountKeysDiffer(lobs[l], lobs[i]);
    } else {
      assert q == 2 * l + 1;
      CountEntries(ps, lobs, l);
      CountKeysDiffer(lobs[i], lobs[l]);
    }
  }
}

=== FILE: legacy_snappy.dfy ===
/** The older, single-purpose version of the timing extractor: three
    decimal tokens pulled out of the boot summary by one greedy pattern, only
    the snap install and remove jobs tracked, no core revision in the tags. */
module LegacySnappyTiming {
  import opened Wrappers
  import opened Text
  import opened Decimal
  import opened Json
  import SnappyTiming

  /** Job-id suffixes whose Checkbox `duration` is the measurement. */
  const MeasuredJobs: seq<string> := ["snap-install", "snap-remove"]

  const BootupJobId: string := "info/systemd-analyze"

  // ---------------------------------------------------------------------
  // The pattern  .*\s(\d+\.\d+)s.*\s(\d+\.\d+)s.*\s(\d+\.\d+)s  under
  // re.match.  A token `\s\d+\.\d+s` is fixed by where it starts: each
  // `\d+` is followed by a non-digit (`.` or `s`) and so takes the whole
  // digit run.  The three `.*` cannot cross a newline.  Greedy `.*` tries
  // the longest stretch first, so the match the engine reports is the
  // lexicographically greatest triple of token starts that fits.
  // ---------------------------------------------------------------------

  /** Where the token `\s\d+\.\d+s` starting at `i` ends, if one does. */
  function TokenEnd(s: string, i: nat): (r: Option<nat>)
    ensures r.Some? ==> i + 5 <= r.value <= |s| && IsSpace(s[i])
  {
    if i + 1 < |s| && IsSpace(s[i]) && IsDigit(s[i + 1]) then
      var e := DigitRunEnd(s, i + 1);
      if e + 1 < |s| && s[e] == '.' && IsDigit(s[e + 1]) then
        var f := DigitRunEnd(s, e + 1);
        if f < |s| && s[f] == 's' then Some(f + 1) else None
      else None
    else None
  }

  /** `float()` of the token's two digit groups. */
  function TokenValue(s: string, i: nat): (v: real)
    requires TokenEnd(s, i).Some?
    ensures v >= 0.0
  {
    var e := DigitRunEnd(s, i + 1);
    var f := DigitRunEnd(s, e + 1);
    NumberIn(s, i + 1, e) as real + FractionIn(s, e + 1, f)
  }

  /** `.` repeated over `s[a..b]`: no newline there. */
  predicate Reach(s: string, a: nat, b: nat) {
    a <= b <= |s| && forall k | a <= k < b :: s[k] != '\n'
  }

  /** The end of the line that `a` is on: the first newline from `a`, or the
      end of the text. */
  function LineEnd(s: string, a: nat): (b: nat)
    requires a <= |s|
    ensures Reach(s, a, b)
    ensures b < |s| ==> s[b] == '\n'
    decreases |s| - a
  {
    if a < |s| && s[a] != '\n' then LineEnd(s, a + 1) else a
  }

  /** `ends[i]` is where the token starting at `i` ends, if one does. */
  predicate EndTable(s: string, ends: seq<Option<nat>>) {
    |ends| == |s| + 1 && forall i | 0 <= i < |ends| :: ends[i].Some? ==> i < ends[i].value <= |s|
  }

  /** The token ends of every position of `s`. */
  function Ends(s: string): (ends: seq<Option<nat>>)
    ensures EndTable(s, ends)
    ensures forall i | 0 <= i <= |s| :: ends[i] == TokenEnd(s, i)
  {
    seq(|s| + 1, i requires 0 <= i <= |s| => TokenEnd(s, i))
  }

  /** Token starts `ps`, each reached from where the previous token ended
      (from `from` for the first) without crossing a newline. */
  predicate ValidChain(s: string, ends: seq<Option<nat>>, from: nat, ps: seq<nat>)
    requires EndTable(s, ends)
    decreases |ps|
  {
    |ps| == 0 ||
    (Reach(s, from, ps[0]) && ends[ps[0]].Some? && ValidChain(s, ends, ends[ps[0]].value, ps[1..]))
  }

  /** `qs` comes no later than `ps` in the order the engine tries. */
  predicate LexLe(qs: seq<nat>, ps: seq<nat>)
    requires |qs| == |ps|
  {
    |qs| == 0 || qs[0] < ps[0] || (qs[0] == ps[0] && LexLe(qs[1..], ps[1..]))
  }

  /** The engine's choice of `n` token starts from `from`. */
  function Chain(s: string, ends: seq<Option<nat>>, from: nat, n: nat): (r: Option<seq<nat>>)
    requires EndTable(s, ends) && from <= |s|
    ensures r.Some? ==> |r.value| == n && ValidChain(s, ends, from, r.value)
    decreases n, |s| + 1
  {
    if n == 0 then Some([]) else Scan(s, ends, from, LineEnd(s, from), n)
  }

  /** Backtracking `.*` from its longest stretch: token starts tried from
      `i` down to `from`. */
  function Scan(s: string, ends: seq<Option<nat>>, from: nat, i: nat, n: nat): (r: Option<seq<nat>>)
    requires EndTable(s, ends) && n >= 1 && from <= i && Reach(s, from, i)
    ensures r.Some? ==> |r.value| == n && ValidChain(s, ends, from, r.value) && r.value[0] <= i
    decreases n, i
  {
    var rest := if ends[i].Some? then Chain(s, ends, ends[i].value, n - 1) else None;
    if rest.Some? then
      var ps := [i] + rest.value;
      assert ps[1..] == rest.value;
      Some(ps)
    else if i == from then None
    else Scan(s, ends, from, i - 1, n)
  }

  /** The tokens of a chain. */
  lemma {:induction false} ChainTokens(s: string, ends: seq<Option<nat>>, from: nat, ps: seq<nat>)
    requires EndTable(s, ends) && ValidChain(s, ends, from, ps)
    ensures forall k | 0 <= k < |ps| :: ps[k] <= |s| && ends[ps[k]].Some?
    decreases |ps|
  {
    if |ps| > 0 {
      ChainTokens(s, ends, ends[ps[0]].value, ps[1..]);
      assert forall k | 1 <= k < |ps| :: ps[k] == ps[1..][k - 1];
    }
  }

  /** The match of the pattern: the three token starts, if any. */
  function Match(text: string): (r: Option<seq<nat>>)
    ensures r.Some? ==> |r.value| == 3 && forall k | 0 <= k < 3 :: TokenEnd(text, r.value[k]).Some?
  {
    var ends := Ends(text);
    var r := Chain(text, ends, 0, 3);
    if r.Some? then ChainTokens(text, ends, 0, r.value); r else r
  }

  /** `parse_sysd_analyze(text)` of the older script. */
  function ParseLegacy(text: string): Option<(real, real, real)> {
    match Match(text)
    case None => None
    case Some(ps) => Some((TokenValue(text, ps[0]), TokenValue(text, ps[1]), TokenValue(text, ps[2])))
  }

  /** Every chain that fits is found, and none the engine would try first
      is passed over. */
  lemma {:induction false} ChainComplete(s: string, ends: seq<Option<nat>>, from: nat, qs: seq<nat>) returns (ps: seq<nat>)
    requires EndTable(s, ends) && from <= |s| && ValidChain(s, ends, from, qs)
    ensures |ps| == |qs| && Chain(s, ends, from, |qs|) == Some(ps)
    ensures LexLe(qs, ps)
    decreases |qs|, |s| + 1
  {
    if |qs| == 0 {
      ps := [];
    } else {
      assert qs[0] <= LineEnd(s, from);
      ps := ScanComplete(s, ends, from, LineEnd(s, from), qs);
    }
  }

  lemma {:induction false} ScanComplete(s: string, ends: seq<Option<nat>>, from: nat, i: nat, qs: seq<nat>) returns (ps: seq<nat>)
    requires EndTable(s, ends) && |qs| >= 1 && from <= i && Reach(s, from, i)
    requires ValidChain(s, ends, from, qs) && qs[0] <= i
    ensures |ps| == |qs| && Scan(s, ends, from, i, |qs|) == Some(ps)
    ensures LexLe(qs, ps)
    decreases |qs|, i
  {
    var n := |qs|;
    if i == qs[0] {
      var rest := ChainComplete(s, ends, ends[i].value, qs[1..]);
      ps := [i] + rest;
      assert ps[1..] == rest;
    } else if ends[i].Some? && Chain(s, ends, ends[i].value, n - 1).Some? {
      var rest := Chain(s, ends, ends[i].value, n - 1).value;
      ps := [i] + rest;
      assert ps[1..] == rest;
    } else {
      ps := ScanComplete(s, ends, from, i - 1, qs);
    }
  }

  /** The pattern matches exactly when three tokens fit, and then it reports
      the greatest fitting triple of token starts. */
  lemma ParseLegacyChoice(text: string)
    ensures ParseLegacy(text).Some? <==> exists qs :: |qs| == 3 && ValidChain(text, Ends(text), 0, qs)
    ensures forall qs | |qs| == 3 && ValidChain(text, Ends(text), 0, qs) ::
      Match(text).Some? && LexLe(qs, Match(text).value)
  {
    var ends := Ends(text);
    forall qs | |qs| == 3 && ValidChain(text, ends, 0, qs)
      ensures Match(text).Some? && LexLe(qs, Match(text).value)
    {
      var ps := ChainComplete(text, ends, 0, qs);
    }
    if Match(text).Some? {
      assert |Match(text).value| == 3 && ValidChain(text, ends, 0, Match(text).value);
    }
  }

  /** On text without a newline the third value comes from the last token:
      the greedy `.*` skips every earlier one. */
  lemma LastTokenWins(text: string)
    requires NoNewline(text) && Match(text).Some?
    ensures forall j | Match(text).value[2] < j :: TokenEnd(text, j).None?
  {
    var ends := Ends(text);
    var ps := Match(text).value;
    forall j | ps[2] < j
      ensures TokenEnd(text, j).None?
    {
      if TokenEnd(text, j).Some? {
        LaterToken(text, ends, ps, j);
        var found := ChainComplete(text, ends, 0, [ps[0], ps[1], j]);
        assert false;
      }
    }
  }

  /** Replacing the third token start by a later token start gives a chain
      that fits too, and one the engine tries first. */
  lemma LaterToken(text: string, ends: seq<Option<nat>>, ps: seq<nat>, j: nat)
    requires EndTable(text, ends) && NoNewline(text) && |ps| == 3 && ValidChain(text, ends, 0, ps)
    requires ps[2] < j <= |text| && ends[j].Some?
    ensures ValidChain(text, ends, 0, [ps[0], ps[1], j])
    ensures !LexLe([ps[0], ps[1], j], ps)
  {
    var e1 := ends[ps[0]].value;
    var e2 := ends[ps[1]].value;
    assert ValidChain(text, ends, e1, ps[1..]);
    assert ps[1..][1..] == [ps[2]];
    assert ValidChain(text, ends, e2, [ps[2]]);
    var qs := [ps[0], ps[1], j];
    assert qs[1..] == [ps[1], j] && qs[1..][1..] == [j];
    assert ValidChain(text, ends, ends[j].value, []);
    assert ValidChain(text, ends, e2, [j]);
    assert ValidChain(text, ends, e1, [ps[1], j]);
    assert !LexLe(qs[1..][1..], ps[1..][1..]);
    assert !LexLe(qs[1..], ps[1..]);
  }

  /** Whole seconds (`9s`) are not a token: the decimal point is required. */
  lemma WholeSecondsNoToken(s: string, i: nat, ds: string)
    requires SnappyTiming.DigitString(ds) && i <= |s| && LiteralAt(s, i, " " + ds + "s")
    ensures TokenEnd(s, i).None?
  {
    SnappyTiming.NumberAt(s, i, ds, "s");
  }

  // ---------------------------------------------------------------------
  // Measurement extraction.
  // ---------------------------------------------------------------------

  /** The state the one-argument `InfluxQueryWriter.__init__` sets up. */
  datatype Writer = Writer(project: string, time: int, hwId: string, osKind: string, results: seq<SnappyTiming.JobResult>)

  datatype Tags = Tags(projectName: string, jobName: string, hwId: string, osKind: string)

  datatype Point = Point(tags: Tags, time: int, elapsed: Json)

  /** `InfluxQueryWriter(submission)` with the clock reading `now`. */
  function NewWriter(sub: SnappyTiming.Submission, now: real): (w: Writer)
    ensures w.time == SnappyTiming.TruncateToInt(now * 1000000000.0)
    ensures w.project == SnappyTiming.DQuote(sub.title.GetOr("unknown"))
    ensures w.hwId == "\"unknown\""
    ensures w.osKind == SnappyTiming.DQuote(sub.distributionDescription.GetOr("unknown"))
    ensures w.results == sub.results
  {
    Writer(
      SnappyTiming.DQuote(sub.title.GetOr("unknown")),
      SnappyTiming.TruncateToInt(now * 1000000000.0),
      SnappyTiming.DQuote("unknown"),
      SnappyTiming.DQuote(sub.distributionDescription.GetOr("unknown")),
      sub.results)
  }

  function PointFor(w: Writer, job: string, elapsed: Json): Point {
    Point(Tags(w.project, SnappyTiming.DQuote(job), w.hwId, w.osKind), w.time, elapsed)
  }

  /** What the generator yields, and whether it stopped with an exception. */
  datatype Yield = Yield(points: seq<Point>, raised: bool)

  /** The writer's view of a point: its own tags and timestamp. */
  predicate OfWriter(w: Writer, p: Point) {
    p.time == w.time && p.tags.projectName == w.project && p.tags.hwId == w.hwId && p.tags.osKind == w.osKind
  }

  /** The points for the tracked jobs among `jobs` that `id` ends with. */
  function DurationPoints(w: Writer, id: string, duration: Option<Json>, jobs: seq<string>): (ps: seq<Point>)
    ensures forall p | p in ps :: OfWriter(w, p)
    ensures forall p | p in ps :: duration.Some? && Truthy(duration.value) && p.elapsed == duration.value
    ensures forall p | p in ps :: exists j | 0 <= j < |jobs| :: EndsWith(id, jobs[j]) && p.tags.jobName == SnappyTiming.DQuote(jobs[j])
  {
    if |jobs| == 0 then []
    else
      var here := if EndsWith(id, jobs[0]) && duration.Some? && Truthy(duration.value)
        then [PointFor(w, jobs[0], duration.value)] else [];
      var rest := DurationPoints(w, id, duration, jobs[1..]);
      assert forall j | 1 <= j < |jobs| :: jobs[j] == jobs[1..][j - 1];
      here + rest
  }

  /** The points of one result; a missing `id` or `io_log` raises. */
  function ResultPoints(w: Writer, r: SnappyTiming.JobResult): (y: Yield)
    ensures forall p | p in y.points :: OfWriter(w, p)
  {
    match r.id
    case None => Yield([], true)
    case Some(id) =>
      var timed := DurationPoints(w, id, r.duration, MeasuredJobs);
      if !EndsWith(id, BootupJobId) then Yield(timed, false)
      else match r.ioLog
        case None => Yield(timed, true)
        case Some(log) =>
          match ParseLegacy(log)
          case None => Yield(timed, false)
          case Some((_, _, total)) => Yield(timed + [PointFor(w, BootupJobId, JFloat(total))], false)
  }

  /** `extract_measurements()` over the given results, in order. */
  function ExtractFrom(w: Writer, results: seq<SnappyTiming.JobResult>): (y: Yield)
    ensures forall p | p in y.points :: OfWriter(w, p)
  {
    if |results| == 0 then Yield([], false)
    else
      var first := ResultPoints(w, results[0]);
      if first.raised then first
      else
        var rest := ExtractFrom(w, results[1..]);
        Yield(first.points + rest.points, rest.raised)
  }

  function Extract(w: Writer): Yield {
    ExtractFrom(w, w.results)
  }

  /** All points of one writer carry the single timestamp read from the
      clock at construction, the hardware id `"unknown"` and the quoted
      title and OS description (each `unknown` when absent). */
  lemma SharedTags(sub: SnappyTiming.Submission, now: real)
    ensures forall p | p in Extract(NewWriter(sub, now)).points ::
      && p.time == SnappyTiming.TruncateToInt(now * 1000000000.0)
      && p.tags.projectName == SnappyTiming.DQuote(sub.title.GetOr("unknown"))
      && p.tags.hwId == "\"unknown\""
      && p.tags.osKind == SnappyTiming.DQuote(sub.distributionDescription.GetOr("unknown"))
  {
  }

  /** The job names a point can carry. */
  predicate ExtractedJob(name: string) {
    name == SnappyTiming.DQuote(MeasuredJobs[0]) || name == SnappyTiming.DQuote(MeasuredJobs[1])
    || name == SnappyTiming.DQuote(BootupJobId)
  }

  /** Only the snap install and remove jobs and the boot job give points. */
  lemma {:induction false} ExtractedJobs(w: Writer, results: seq<SnappyTiming.JobResult>)
    ensures forall p | p in ExtractFrom(w, results).points :: ExtractedJob(p.tags.jobName)
    decreases |results|
  {
    if |results| > 0 {
      ExtractedJobs(w, results[1..]);
      ResultJobs(w, results[0]);
    }
  }

  lemma ResultJobs(w: Writer, r: SnappyTiming.JobResult)
    ensures forall p | p in ResultPoints(w, r).points :: ExtractedJob(p.tags.jobName)
  {
    if r.id.Some? {
      var timed := DurationPoints(w, r.id.value, r.duration, MeasuredJobs);
      forall p | p in timed
        ensures ExtractedJob(p.tags.jobName)
      {
        var j :| 0 <= j < |MeasuredJobs| && EndsWith(r.id.value, MeasuredJobs[j])
          && p.tags.jobName == SnappyTiming.DQuote(MeasuredJobs[j]);
      }
    }
  }

  /** A submission is scanned through `results` only: the resource results
      never reach the writer. */
  lemma ResourceResultsIgnored(sub: SnappyTiming.Submission, extra: seq<SnappyTiming.JobResult>, now: real)
    ensures Extract(NewWriter(sub.(resourceResults := extra), now)) == Extract(NewWriter(sub, now))
  {
  }

  /** A result for a tracked job with a truthy duration gives exactly one
      point, carrying that duration. */
  lemma TrackedJobPoint(w: Writer, prefix: string, k: nat, duration: Json)
    requires k < |MeasuredJobs| && Truthy(duration)
    ensures ResultPoints(w, SnappyTiming.JobResult(Some(prefix + MeasuredJobs[k]), Some(duration), None))
         == Yield([PointFor(w, MeasuredJobs[k], duration)], false)
  {
    var id := prefix + MeasuredJobs[k];
    var m := MeasuredJobs;
    assert id[|id| - |m[k]|..] == m[k];
    NotBothSuffixes(id, m[0], m[1], 0);
    NotBothSuffixes(id, m[0], BootupJobId, 0);
    NotBothSuffixes(id, m[1], BootupJobId, 1);
    DurationPointsOne(w, id, duration, m, k);
  }

  /** When exactly one of `jobs` is a suffix of the id and the duration is
      truthy, the jobs loop yields exactly one point. */
  lemma {:induction false} DurationPointsOne(w: Writer, id: string, duration: Json, jobs: seq<string>, k: nat)
    requires k < |jobs| && EndsWith(id, jobs[k]) && Truthy(duration)
    requires forall j | 0 <= j < |jobs| && j != k :: !EndsWith(id, jobs[j])
    ensures DurationPoints(w, id, Some(duration), jobs) == [PointFor(w, jobs[k], duration)]
    decreases |jobs|
  {
    if k == 0 {
      NoSuffixNoPoint(w, id, Some(duration), jobs[1..]);
    } else {
      DurationPointsOne(w, id, duration, jobs[1..], k - 1);
    }
  }

  /** A duration that is missing or falsy, or an id with none of the
      suffixes, gives no duration point. */
  lemma {:induction false} NoSuffixNoPoint(w: Writer, id: string, duration: Option<Json>, jobs: seq<string>)
    requires (forall j | 0 <= j < |jobs| :: !EndsWith(id, jobs[j])) || duration.None? || !Truthy(duration.value)
    ensures DurationPoints(w, id, duration, jobs) == []
    decreases |jobs|
  {
    if |jobs| > 0 {
      NoSuffixNoPoint(w, id, duration, jobs[1..]);
    }
  }

  /** The boot job gives the third value when the summary parses and
      nothing when it does not. */
  lemma BootupPoint(w: Writer, prefix: string, log: string)
    ensures var y := ResultPoints(w, SnappyTiming.JobResult(Some(prefix + BootupJobId), None, Some(log)));
      && !y.raised
      && (ParseLegacy(log).Some? ==> y.points == [PointFor(w, BootupJobId, JFloat(ParseLegacy(log).value.2))])
      && (ParseLegacy(log).None? ==> y.points == [])
  {
    var id := prefix + BootupJobId;
    assert id[|id| - |BootupJobId|..] == BootupJobId;
    NoSuffixNoPoint(w, id, None, MeasuredJobs);
  }

  /** One line-protocol insert of the older template. */
  function SqlInsert(p: Point, show: Json -> string): string {
    "INSERT snap_timing,project_name=" + p.tags.projectName
    + ",job_name=" + p.tags.jobName
    + ",hw_id=" + p.tags.hwId
    + ",os_kind=" + p.tags.osKind
    + " elapsed=" + show(p.elapsed)
    + " " + IntToString(p.time)
  }

  /** `generate_sql_inserts()`: one template line per point, in order. */
  function SqlInserts(w: Writer, show: Json -> string): (lines: seq<string>)
    ensures |lines| == |Extract(w).points|
    ensures forall i | 0 <= i < |lines| :: lines[i] == SqlInsert(Extract(w).points[i], show)
  {
    var ps := Extract(w).points;
    seq(|ps|, i requires 0 <= i < |ps| => SqlInsert(ps[i], show))
  }

  /** Line `i` is the older template (no core revision) filled with the
      writer's shared tags and timestamp and with point `i`'s job and
      elapsed value. */
  lemma SqlInsertsTemplate(w: Writer, show: Json -> string)
    ensures |SqlInserts(w, show)| == |Extract(w).points|
    ensures var ps := Extract(w).points;
      forall i | 0 <= i < |ps| :: SqlInserts(w, show)[i] ==
        "INSERT snap_timing,project_name=" + w.project + ",job_name=" + ps[i].tags.jobName
        + ",hw_id=" + w.hwId + ",os_kind=" + w.osKind
        + " elapsed=" + show(ps[i].elapsed) + " " + IntToString(w.time)
  {
    var ps := Extract(w).points;
    forall i | 0 <= i < |ps|
      ensures OfWriter(w, ps[i])
    {
      assert ps[i] in ps;
    }
  }

  /** Every line carries the writer's one timestamp at its end. */
  lemma SqlInsertsEndWithTime(w: Writer, show: Json -> string)
    ensures forall line | line in SqlInserts(w, show) :: EndsWith(line, " " + IntToString(w.time))
  {
    var ps := Extract(w).points;
    var lines := SqlInserts(w, show);
    forall i | 0 <= i < |lines|
      ensures EndsWith(lines[i], " " + IntToString(w.time))
    {
      assert ps[i] in ps;
      SqlInsertEndsWithTime(ps[i], show);
    }
  }

  /** An insert ends with its point's timestamp. */
  lemma SqlInsertEndsWithTime(p: Point, show: Json -> string)
    ensures EndsWith(SqlInsert(p, show), " " + IntToString(p.time))
  {
    var line := SqlInsert(p, show);
    var tail := " " + IntToString(p.time);
    assert line == line[..|line| - |tail|] + tail;
  }
}

=== FILE: odm_sync.dfy ===
/** Keeping the bugs of the ODM Launchpad projects in step with the
    umbrella project (`odm-sync/sync_odm_bugs.py`): a bug is vetted
    (`verify_bug`), paired with its umbrella copy or filed there
    (`build_bug_db`), and each pair exchanges comments and metadata
    (`sync_all`, `_sync_meta`). The owners of platforms come from the
    tracking spreadsheet (`OwnersSpreadsheet.owners`). Launchpad and the
    spreadsheet are inputs: bugs as values, writes as the values returned. */
module OdmSync {
  import opened Wrappers
  import opened Text
  import Decimal

  // ---- configuration (`odm_sync_config.py`) ----

  const OdmProjects: seq<string> := ["civet-cat", "flying-fox", "pygmy-possum", "white-whale"]
  const UmbrellaProject := "somerville"

  /** The title prefix of an umbrella copy; `build_bug_db` writes the same
      text literally. */
  const Prefix := "[ODM bug] "

  /** Names in the spreadsheet's owner column to Launchpad user names. */
  const LpNames: map<string, string> :=
    map["Cyrus" := "cyruslien", "Fourdollars" := "fourdollars", "Leon" := "lihow731",
        "Kai-Heng" := "kaihengfeng"]

  /** The first line of every comment the tool itself posts. */
  const Header := "[Automated ODM-sync-tool comment]\n"

  // ---- `url_to_bug_ref` ----

  /** The pattern `https://bugs.launchpad.net/bugs/` of `url_to_bug_ref`,
      whose unescaped dots match any character but a newline. */
  const BugUrl := "https://bugs.launchpad.net/bugs/"

  predicate PatternChar(p: char, c: char) {
    if p == '.' then c != '\n' else c == p
  }

  /** The pattern text `u` matches `s` from `e` on. */
  predicate PatternAt(s: string, e: nat, u: string)
    decreases |u|
  {
    |u| == 0 || (e < |s| && PatternChar(u[0], s[e]) && PatternAt(s, e + 1, u[1..]))
  }

  /** A URL matching the pattern `pat` and followed by at least one digit
      starts at `i`. */
  predicate UrlAt(s: string, pat: string, i: nat) {
    PatternAt(s, i, pat) && i + |pat| < |s| && IsDigit(s[i + |pat|])
  }

  /** The number that the greedy `(\d+)` captures after the URL at `i`. */
  function RefAt(s: string, pat: string, i: nat): nat
    requires UrlAt(s, pat, i)
  {
    Decimal.NumberIn(s, i + |pat|, DigitRunEnd(s, i + |pat|))
  }

  /** `re.compile(pat + r'(\d+)').search(s)` from position `i` on, read as
      the number captured. */
  function UrlFrom(s: string, pat: string, i: nat): Option<nat>
    requires i <= |s|
    decreases |s| - i
  {
    if i == |s| then None
    else if UrlAt(s, pat, i) then Some(RefAt(s, pat, i))
    else UrlFrom(s, pat, i + 1)
  }

  /** `url_to_bug_ref`: the number of the leftmost bug URL, `None` when the
      text holds none. */
  function UrlToBugRef(text: string): Option<nat> {
    UrlFrom(text, BugUrl, 0)
  }

  lemma {:induction false} UrlFromFinds(s: string, pat: string, i: nat)
    requires i <= |s|
    ensures var r := UrlFrom(s, pat, i);
      && (r.None? <==> forall p | i <= p < |s| :: !UrlAt(s, pat, p))
      && (r.Some? ==> exists p | i <= p < |s| :: UrlAt(s, pat, p) && r.value == RefAt(s, pat, p)
                        && forall q | i <= q < p :: !UrlAt(s, pat, q))
    decreases |s| - i
  {
    if i < |s| && !UrlAt(s, pat, i) {
      UrlFromFinds(s, pat, i + 1);
      var r := UrlFrom(s, pat, i + 1);
      if r.Some? {
        var p :| i + 1 <= p < |s| && UrlAt(s, pat, p) && r.value == RefAt(s, pat, p)
          && forall q | i + 1 <= q < p :: !UrlAt(s, pat, q);
        assert forall q | i <= q < p :: !UrlAt(s, pat, q);
      }
    }
  }

  /** The result names the leftmost bug URL followed by digits, and is
      `None` exactly when there is no such URL. */
  lemma UrlToBugRefFinds(s: string)
    ensures var r := UrlToBugRef(s);
      && (r.None? <==> forall p | 0 <= p < |s| :: !UrlAt(s, BugUrl, p))
      && (r.Some? ==> exists p | 0 <= p < |s| :: UrlAt(s, BugUrl, p) && r.value == RefAt(s, BugUrl, p)
                        && forall q | 0 <= q < p :: !UrlAt(s, BugUrl, q))
  {
    UrlFromFinds(s, BugUrl, 0);
  }

  lemma {:induction false} UrlFromAt(s: string, pat: string, i: nat, p: nat)
    requires i <= p < |s| && UrlAt(s, pat, p) && forall q | i <= q < p :: !UrlAt(s, pat, q)
    ensures UrlFrom(s, pat, i) == Some(RefAt(s, pat, p))
    decreases p - i
  {
    if i < p {
      UrlFromAt(s, pat, i + 1, p);
    }
  }

  /** The literal text matches the pattern wherever it occurs. */
  lemma {:induction false} LiteralMatches(s: string, e: nat, u: string)
    requires LiteralAt(s, e, u)
    ensures PatternAt(s, e, u)
    decreases |u|
  {
    if |u| > 0 {
      LiteralMatches(s, e + 1, u[1..]);
    }
  }

  lemma {:induction false} PatternRoundTrip(before: string, pat: string, n: nat, after: string)
    requires |pat| > 0
    requires forall q | 0 <= q < |before| :: !UrlAt(before + pat + Decimal.NatToString(n) + after, pat, q)
    requires after == [] || !IsDigit(after[0])
    ensures UrlFrom(before + pat + Decimal.NatToString(n) + after, pat, 0) == Some(n)
  {
    var digits := Decimal.NatToString(n);
    var s := before + pat + digits + after;
    var a := |before| + |pat|;
    var b := a + |digits|;
    assert s[|before|..a] == pat;
    assert s[a..b] == digits;
    LiteralAtSlice(s, |before|, pat);
    LiteralMatches(s, |before|, pat);
    assert s[a] == digits[0];
    assert UrlAt(s, pat, |before|);
    forall k | a <= k < b
      ensures IsDigit(s[k])
    {
      assert s[k] == digits[k - a];
    }
    if b < |s| {
      assert s[b] == after[0];
    }
    DigitRunEndUnique(s, a, b);
    Decimal.NumberInSlice(s, a, b);
    UrlFromAt(s, pat, 0, |before|);
  }

  /** The bug's URL written into a text is read back: when no bug URL
      starts before it and no digit follows it, `url_to_bug_ref` returns
      the bug's number. */
  lemma UrlRoundTrip(before: string, n: nat, after: string)
    requires forall q | 0 <= q < |before| :: !UrlAt(before + BugUrl + Decimal.NatToString(n) + after, BugUrl, q)
    requires after == [] || !IsDigit(after[0])
    ensures UrlToBugRef(before + BugUrl + Decimal.NatToString(n) + after) == Some(n)
  {
    PatternRoundTrip(before, BugUrl, n, after);
  }

  /** No `h` directly followed by `t`: no bug URL can start in such text. */
  predicate NoHt(s: string) {
    forall p | 0 <= p < |s| - 1 :: s[p] == 'h' ==> s[p + 1] != 't'
  }

  /** A text without `ht` followed by anything starting with `h` holds no
      bug URL starting inside that text. */
  lemma NoHtNoUrl(before: string, rest: string)
    requires NoHt(before) && |rest| > 0 && rest[0] == 'h'
    ensures forall q | 0 <= q < |before| :: !UrlAt(before + rest, BugUrl, q)
  {
    var s := before + rest;
    forall q | 0 <= q < |before|
      ensures !UrlAt(s, BugUrl, q)
    {
      if q + 1 < |before| {
        assert s[q] == before[q] && s[q + 1] == before[q + 1];
      } else {
        assert s[q + 1] == rest[0];
      }
      assert BugUrl[0] == 'h' && BugUrl[1] == 't' && BugUrl[1..][0] == 't';
      assert s[q] != 'h' || s[q + 1] != 't';
    }
  }

  /** With no `ht` before it and no digit after it, the bug URL is read
      back. */
  lemma UrlRoundTripPlain(before: string, n: nat, after: string)
    requires NoHt(before)
    requires after == [] || !IsDigit(after[0])
    ensures UrlToBugRef(before + BugUrl + Decimal.NatToString(n) + after) == Some(n)
  {
    var rest := BugUrl + Decimal.NatToString(n) + after;
    NoHtNoUrl(before, rest);
    assert before + rest == before + BugUrl + Decimal.NatToString(n) + after;
    UrlRoundTrip(before, n, after);
  }

  // ---- the QMetry tag ----

  const QTag := "[QMetry#"

  /** `[QMetry#<digits>]` starts at `i`. */
  predicate QMetryAt(s: string, i: nat) {
    OccursAt(s, QTag, i)
    && var e := DigitRunEnd(s, i + |QTag|);
    e > i + |QTag| && e < |s| && s[e] == ']'
  }

  predicate QMetryFrom(s: string, i: nat)
    requires i <= |s|
    decreases |s| - i
  {
    i < |s| && s[i] != '\n' && (QMetryAt(s, i) || QMetryFrom(s, i + 1))
  }

  /** `QMETRY_RE.match(s)` for `.*\[QMetry#(\d+)\]`: the leading `.*` does
      not cross a newline, so the tag must start on the first line. */
  predicate QMetry(s: string) {
    QMetryFrom(s, 0)
  }

  lemma {:induction false} QMetryFromMeaning(s: string, i: nat)
    requires i <= |s|
    ensures QMetryFrom(s, i) <==>
      exists p | i <= p < |s| :: QMetryAt(s, p) && forall k | i <= k <= p :: s[k] != '\n'
    decreases |s| - i
  {
    if i < |s| {
      QMetryFromMeaning(s, i + 1);
      if QMetryFrom(s, i) && !QMetryAt(s, i) {
        var p :| i + 1 <= p < |s| && QMetryAt(s, p) && forall k | i + 1 <= k <= p :: s[k] != '\n';
        assert forall k | i <= k <= p :: s[k] != '\n';
      }
      if !QMetryFrom(s, i) {
        forall p | i <= p < |s| && QMetryAt(s, p)
          ensures exists k | i <= k <= p :: s[k] == '\n'
        {
          if s[i] != '\n' {
            assert p != i;
          }
        }
      }
    }
  }

  /** The tag counts when it starts before the first newline. */
  lemma QMetryMeaning(s: string)
    ensures QMetry(s) <==> exists p | 0 <= p < |s| :: QMetryAt(s, p) && forall k | 0 <= k <= p :: s[k] != '\n'
  {
    QMetryFromMeaning(s, 0);
  }

  lemma {:induction false} DigitRunEndExtended(s: string, t: string, j: nat)
    requires j <= |s| && t != [] && !IsDigit(t[0])
    ensures DigitRunEnd(s + t, j) == DigitRunEnd(s, j)
    decreases |s| - j
  {
    if j < |s| && IsDigit(s[j]) {
      assert (s + t)[j] == s[j];
      DigitRunEndExtended(s, t, j + 1);
    } else {
      assert (s + t)[j] == if j < |s| then s[j] else t[0];
    }
  }

  lemma QMetryAtFirstLine(line: string, rest: string, i: nat)
    requires NoNewline(line) && i < |line|
    ensures QMetryAt(line + "\n" + rest, i) == QMetryAt(line, i)
  {
    var s := line + "\n" + rest;
    assert s == line + ("\n" + rest);
    if i + |QTag| <= |line| {
      assert s[i..i + |QTag|] == line[i..i + |QTag|];
      if OccursAt(line, QTag, i) {
        DigitRunEndExtended(line, "\n" + rest, i + |QTag|);
        var e := DigitRunEnd(line, i + |QTag|);
        assert e < |line| ==> s[e] == line[e];
        assert e == |line| ==> s[e] == '\n';
      }
    } else {
      assert !OccursAt(line, QTag, i);
      if i + |QTag| <= |s| {
        var d := |line| - i;
        assert s[i..i + |QTag|][d] == s[|line|] == '\n';
        assert QTag[d] != '\n';
      }
    }
  }

  lemma {:induction false} QMetryFromFirstLine(line: string, rest: string, i: nat)
    requires NoNewline(line) && i <= |line|
    ensures QMetryFrom(line + "\n" + rest, i) == QMetryFrom(line, i)
    decreases |line| - i
  {
    var s := line + "\n" + rest;
    if i < |line| {
      assert s[i] == line[i];
      QMetryAtFirstLine(line, rest, i);
      QMetryFromFirstLine(line, rest, i + 1);
    } else {
      assert s[i] == '\n';
    }
  }

  /** Only the first line of a text decides whether it carries the tag. */
  lemma QMetryFirstLine(line: string, rest: string)
    requires NoNewline(line)
    ensures QMetry(line + "\n" + rest) == QMetry(line)
  {
    QMetryFromFirstLine(line, rest, 0);
  }

  // ---- bugs ----

  /** The fields of a bug's first task that `_sync_meta` copies. */
  datatype Task = Task(assignee: string, status: string, milestone: string, importance: string)

  /** Which of a bug's tasks the project search returned: its first task,
      or a later one with its own status. */
  datatype Hit = FirstTask | OtherTask(status: string)

  /** A Launchpad bug as the tool reads it: `messages` are the contents of
      its messages, the first being the description; `updated` is
      `date_last_updated` on any fixed time scale; `task` is its first task
      (`bug_tasks[0]`), which filing and `_sync_meta` read, and `hit` the
      task `searchTasks` returned, whose status `verify_bug` reads. */
  datatype Bug = Bug(id: nat, title: string, description: string, tags: seq<string>,
                     messages: seq<string>, updated: int, task: Task, hit: Hit, webLink: string)

  /** The status of the task the search returned. */
  function SearchedStatus(bug: Bug): string {
    if bug.hit.FirstTask? then bug.task.status else bug.hit.status
  }

  // ---- `verify_bug` ----

  const WorkedOn: seq<string> := ["Confirmed", "Triaged", "In Progress"]

  const MandatoryItems: seq<string> :=
    ["expected result", "actual result", "sku", "bios version", "image/manifest", "cpu", "gpu",
     "reproduce steps"]

  const StaleNote := "No activity for more than 14 days"
  const NoPlatformNote := "Bug report isn't tagged with a platform tag"

  /** The items of `items` that a case-insensitive search does not find in
      `text`, in their order; the items are lower-case literals. */
  function Missing(items: seq<string>, text: string): seq<string>
    decreases |items|
  {
    if |items| == 0 then []
    else (if Contains(Lower(text), items[0]) then [] else [items[0]]) + Missing(items[1..], text)
  }

  function MissingNote(missing: seq<string>): string {
    "Marking as Incomplete because of missing information: " + Join(missing, ", ")
  }

  /** The first of the bug's tags that names a platform of the owners map. */
  function PlatformTag(tags: seq<string>, owners: map<string, string>, i: nat): (r: Option<string>)
    requires i <= |tags|
    decreases |tags| - i
  {
    if i == |tags| then None
    else if tags[i] in owners then Some(tags[i])
    else PlatformTag(tags, owners, i + 1)
  }

  /** What vetting did: `result` is the value returned (`None` for the early
      bare `return`), `comments` the comments posted, `statuses` the
      statuses saved in order, `platform` the entry made in the platform
      map. */
  datatype Verdict = Verdict(result: Option<bool>, comments: seq<string>, statuses: seq<string>,
                             platform: Option<string>)

  function Headed(notes: seq<string>): (r: seq<string>) {
    seq(|notes|, i requires 0 <= i < |notes| => Header + notes[i])
  }

  /** The verdict on a bug that got past the early return: `stale` when it
      is idle and not being worked on, `platform` its platform tag, and
      `missing` the mandatory items its description lacks. */
  function Judge(stale: bool, platform: Option<string>, missing: seq<string>): Verdict {
    var notes := (if stale then [StaleNote] else [])
      + (if platform.None? then [NoPlatformNote] else [])
      + (if missing != [] then [MissingNote(missing)] else []);
    var statuses := (if stale then ["Invalid"] else [])
      + (if platform.None? then ["Incomplete"] else [])
      + (if missing != [] then ["Incomplete"] else []);
    Verdict(Some(notes == []), Headed(notes), statuses, platform)
  }

  /** `SyncTool.verify_bug`: `age` is the number of whole days since the
      bug was last updated, `owners` the platform owners map; the statuses
      of the verdict are saved on the task the search returned. */
  function VerifyBug(bug: Bug, age: int, owners: map<string, string>): Verdict {
    if !QMetry(bug.title) && !QMetry(bug.description) && "checkbox" !in bug.tags then
      Verdict(None, [], ["Incomplete"], None)
    else
      Judge(SearchedStatus(bug) !in WorkedOn && age > 14, PlatformTag(bug.tags, owners, 0),
            Missing(MandatoryItems, bug.description))
  }

  /** An item is missing exactly when the lower-cased text does not
      contain it, and missing items keep the order of the list. */
  lemma {:induction false} MissingMeaning(items: seq<string>, text: string)
    ensures forall x :: x in Missing(items, text) <==> x in items && !Contains(Lower(text), x)
    ensures Missing(items, text) == [] <==> forall k | 0 <= k < |items| :: Contains(Lower(text), items[k])
    decreases |items|
  {
    if |items| > 0 {
      MissingMeaning(items[1..], text);
      assert items == [items[0]] + items[1..];
      if Missing(items, text) == [] {
        forall k | 0 <= k < |items|
          ensures Contains(Lower(text), items[k])
        {
          if k > 0 {
            assert items[k] == items[1..][k - 1];
          }
        }
      }
    }
  }

  lemma {:induction false} MissingConcat(a: seq<string>, b: seq<string>, text: string)
    ensures Missing(a + b, text) == Missing(a, text) + Missing(b, text)
    decreases |a|
  {
    if |a| > 0 {
      assert (a + b)[1..] == a[1..] + b;
      MissingConcat(a[1..], b, text);
    } else {
      assert a + b == b;
    }
  }

  lemma {:induction false} PlatformTagFirst(tags: seq<string>, owners: map<string, string>, i: nat)
    requires i <= |tags|
    ensures var r := PlatformTag(tags, owners, i);
      && (r.None? <==> forall k | i <= k < |tags| :: tags[k] !in owners)
      && (r.Some? ==> exists k | i <= k < |tags| :: tags[k] == r.value && r.value in owners
                        && forall j | i <= j < k :: tags[j] !in owners)
    decreases |tags| - i
  {
    if i < |tags| && tags[i] !in owners {
      PlatformTagFirst(tags, owners, i + 1);
      var r := PlatformTag(tags, owners, i + 1);
      if r.Some? {
        var k :| i + 1 <= k < |tags| && tags[k] == r.value && r.value in owners
          && forall j | i + 1 <= j < k :: tags[j] !in owners;
        assert forall j | i <= j < k :: tags[j] !in owners;
      }
    }
  }

  /** A bug passes exactly when it has a QMetry tag (title, or first line
      of the description) or the `checkbox` tag, is being worked on or was
      updated within 14 days, carries a platform tag, and its description
      names every mandatory item. The bare early return happens exactly
      when both the QMetry tag and `checkbox` are missing. */
  lemma {:induction false} VerifyPasses(bug: Bug, age: int, owners: map<string, string>)
    ensures var v := VerifyBug(bug, age, owners);
      && (v.result.None? <==> !QMetry(bug.title) && !QMetry(bug.description) && "checkbox" !in bug.tags)
      && (v.result == Some(true) <==>
            && (QMetry(bug.title) || QMetry(bug.description) || "checkbox" in bug.tags)
            && (SearchedStatus(bug) in WorkedOn || age <= 14)
            && (exists k | 0 <= k < |bug.tags| :: bug.tags[k] in owners)
            && forall k | 0 <= k < |MandatoryItems| :: Contains(Lower(bug.description), MandatoryItems[k]))
  {
    PlatformTagFirst(bug.tags, owners, 0);
    MissingMeaning(MandatoryItems, bug.description);
  }

  /** A verdict passes only with no fault; a failing one leaves the bug
      Incomplete, or Invalid when staleness is the only fault, and says why
      in comments that all start with the tool's header. */
  lemma {:induction false} JudgeMeaning(stale: bool, platform: Option<string>, missing: seq<string>)
    ensures var v := Judge(stale, platform, missing);
      && (v.result == Some(true) <==> !stale && platform.Some? && missing == [])
      && (v.result == Some(true) ==> v.comments == [] && v.statuses == [])
      && (forall k | 0 <= k < |v.comments| :: StartsWith(v.comments[k], Header))
      && (v.result == Some(false) ==>
            && |v.comments| > 0 && |v.statuses| > 0
            && (v.statuses[|v.statuses| - 1] == "Invalid" <==> platform.Some? && missing == [])
            && (v.statuses[|v.statuses| - 1] != "Invalid" ==> v.statuses[|v.statuses| - 1] == "Incomplete"))
  {
    var v := Judge(stale, platform, missing);
    forall k | 0 <= k < |v.comments|
      ensures StartsWith(v.comments[k], Header)
    {
      assert v.comments[k][..|Header|] == Header;
    }
  }

  /** The platform recorded is the first of the bug's tags that the owners
      map knows. */
  lemma VerifyPlatform(bug: Bug, age: int, owners: map<string, string>)
    ensures var v := VerifyBug(bug, age, owners);
      v.platform.Some? ==>
        && v.platform.value in owners
        && exists k | 0 <= k < |bug.tags| :: bug.tags[k] == v.platform.value
             && forall j | 0 <= j < k :: bug.tags[j] !in owners
  {
    PlatformTagFirst(bug.tags, owners, 0);
  }

  /** Vetting judges activity by the status of the task the search
      returned: when that is not the first task, the first task's fields
      do not change the verdict, and a stale bug fails whatever the first
      task's status. */
  lemma VerifyReadsSearchedTask(bug: Bug, first: Task, age: int, owners: map<string, string>)
    requires bug.hit.OtherTask?
    ensures VerifyBug(bug.(task := first), age, owners) == VerifyBug(bug, age, owners)
    ensures age > 14 && bug.hit.status !in WorkedOn ==> VerifyBug(bug, age, owners).result != Some(true)
  {
  }

  // ---- `build_bug_db` ----

  /** An umbrella bug as the pairing scan sees it: its number, the title it
      is stored under and the contents of its messages. */
  datatype Umbrella = Umbrella(id: nat, title: string, messages: seq<string>)

  /** A vetted bug of the ODM project `project`. */
  datatype OdmBug = OdmBug(project: string, bug: Bug)

  /** A bug Launchpad creates on request: its number and web link. */
  datatype NewBug = NewBug(id: nat, webLink: string)

  /** A request to file a bug: the task's assignee is set only when one is
      given. */
  datatype Filing = Filing(project: string, title: string, description: string, tags: seq<string>,
                           status: string, assignee: Option<string>)

  /** A comment posted on the bug numbered `bug`. */
  datatype Note = Note(bug: nat, text: string)

  /** The state `build_bug_db` works on: the umbrella bugs in the order of
      their map, the cross-reference map, and the filings and comments so
      far. */
  datatype Db = Db(umbrella: seq<Umbrella>, xref: map<nat, nat>, filed: seq<Filing>, notes: seq<Note>)

  /** `file_bug`: the status is always set, the assignee only when it is
      not empty. */
  function FileBug(project: string, title: string, description: string, status: string, tags: seq<string>,
                   assignee: string): Filing {
    Filing(project, title, description, tags, status, if assignee != "" then Some(assignee) else None)
  }

  /** The bug an umbrella bug copies: the number in its first comment when
      that comment is the tool's. */
  function Ref(u: Umbrella): Option<nat> {
    if |u.messages| >= 2 && StartsWith(u.messages[1], Header) then UrlToBugRef(u.messages[1]) else None
  }

  /** The first umbrella bug from `i` on that copies bug `id`. */
  function Paired(umbrella: seq<Umbrella>, id: nat, i: nat): (r: Option<nat>)
    requires i <= |umbrella|
    ensures r.Some? ==> i <= r.value < |umbrella|
    decreases |umbrella| - i
  {
    if i == |umbrella| then None
    else if Ref(umbrella[i]) == Some(id) then Some(i)
    else Paired(umbrella, id, i + 1)
  }

  function TitleIndex(umbrella: seq<Umbrella>, title: string, i: nat): (r: Option<nat>)
    requires i <= |umbrella|
    ensures r.Some? ==> i <= r.value < |umbrella| && umbrella[r.value].title == title
    decreases |umbrella| - i
  {
    if i == |umbrella| then None
    else if umbrella[i].title == title then Some(i)
    else TitleIndex(umbrella, title, i + 1)
  }

  /** `add_bug_to_db` on the umbrella map: a bug stored under a title
      already present takes that entry's place; otherwise it is appended. */
  function Put(umbrella: seq<Umbrella>, u: Umbrella): seq<Umbrella> {
    match TitleIndex(umbrella, u.title, 0)
    case Some(i) => umbrella[i := u]
    case None => umbrella + [u]
  }

  function FiledFrom(project: string, link: string): string {
    "Bug filed from " + project + " see " + link + " for details"
  }

  function FiledIn(link: string): string {
    "Bug filed in " + UmbrellaProject + ". See " + link + " for details"
  }

  /** The first comment of the umbrella copy filed for `b`. */
  function FiledComment(b: OdmBug): string {
    Header + FiledFrom(b.project, b.bug.webLink)
  }

  /** Two texts without `ht`, joined where no `h` meets a `t`, have no
      `ht`. */
  lemma NoHtJoin(x: string, y: string)
    requires NoHt(x) && NoHt(y)
    requires |x| > 0 && |y| > 0 ==> x[|x| - 1] != 'h' || y[0] != 't'
    ensures NoHt(x + y)
  {
    var s := x + y;
    forall p | 0 <= p < |s| - 1 && s[p] == 'h'
      ensures s[p + 1] != 't'
    {
      if p + 1 < |x| {
        assert s[p] == x[p] && s[p + 1] == x[p + 1];
      } else if p + 1 > |x| {
        assert s[p] == y[p - |x|] && s[p + 1] == y[p - |x| + 1];
      } else {
        assert s[p] == x[|x| - 1] && s[p + 1] == y[0];
      }
    }
  }

  /** The text of the filed comment that precedes the ODM bug's link. */
  function FiledLead(project: string): string {
    Header + "Bug filed from " + project + " see "
  }

  /** The lead of the filed comment has no `ht` when the project name has
      none: the fixed parts hold no `h` at all. */
  lemma FiledLeadNoHt(project: string)
    requires NoHt(project)
    ensures NoHt(FiledLead(project))
  {
    var h := Header + "Bug filed from ";
    assert 'h' !in h;
    NoHtJoin(h, project);
    NoHtJoin(h + project, " see ");
    assert FiledLead(project) == h + project + " see ";
  }

  /** None of the configured ODM project names holds `ht`. */
  lemma ProjectsNoHt(project: string)
    requires project in OdmProjects
    ensures NoHt(project)
  {
  }

  /** The filed comment of a bug whose web link is its bug URL names that
      bug: an umbrella bug whose first comment is that comment refers back
      to the ODM bug it was filed for. */
  lemma FiledCopyRefers(b: OdmBug, u: Umbrella)
    requires b.bug.webLink == BugUrl + Decimal.NatToString(b.bug.id)
    requires NoHt(b.project)
    requires |u.messages| >= 2 && u.messages[1] == FiledComment(b)
    ensures UrlToBugRef(FiledComment(b)) == Some(b.bug.id)
    ensures Ref(u) == Some(b.bug.id)
  {
    var lead := FiledLead(b.project);
    var after := " for details";
    FiledLeadNoHt(b.project);
    assert FiledComment(b) == lead + BugUrl + Decimal.NatToString(b.bug.id) + after;
    UrlRoundTripPlain(lead, b.bug.id, after);
    assert StartsWith(FiledComment(b), Header) by {
      assert FiledComment(b)[..|Header|] == Header;
    }
  }

  /** Every platform in the platform map has an owner: `verify_bug` only
      records tags that are keys of the owners map. */
  predicate Owned(platforms: map<nat, string>, owners: map<string, string>) {
    forall id | id in platforms :: platforms[id] in owners
  }

  /** The owner of a bug's platform, `''` for a bug with no platform. */
  function Owner(id: nat, platforms: map<nat, string>, owners: map<string, string>): string
    requires Owned(platforms, owners)
  {
    if id in platforms then owners[platforms[id]] else ""
  }

  /** One ODM bug of `build_bug_db`: paired with the first umbrella bug
      that copies it, or copied into a new umbrella bug `created`. */
  function Step(db: Db, b: OdmBug, created: NewBug, platforms: map<nat, string>,
                owners: map<string, string>): (r: Db)
    requires Owned(platforms, owners)
    ensures |r.filed| <= |db.filed| + 1
  {
    match Paired(db.umbrella, b.bug.id, 0)
    case Some(j) =>
      var u := db.umbrella[j].id;
      db.(xref := db.xref[b.bug.id := u][u := b.bug.id])
    case None =>
      var title := Prefix + b.bug.title;
      var filing := FileBug(UmbrellaProject, title, b.bug.description, b.bug.task.status,
                            b.bug.tags + [b.project], Owner(b.bug.id, platforms, owners));
      Db(Put(db.umbrella, Umbrella(created.id, title, [b.bug.description, FiledComment(b)])),
         db.xref[b.bug.id := created.id][created.id := b.bug.id],
         db.filed + [filing],
         db.notes + [Note(created.id, FiledComment(b)), Note(b.bug.id, Header + FiledIn(created.webLink))])
  }

  function BuildFrom(odm: seq<OdmBug>, k: nat, db: Db, newBugs: seq<NewBug>, platforms: map<nat, string>,
                     owners: map<string, string>): Db
    requires k <= |odm| && |db.filed| + (|odm| - k) <= |newBugs|
    requires Owned(platforms, owners)
    decreases |odm| - k
  {
    if k == |odm| then db
    else BuildFrom(odm, k + 1, Step(db, odm[k], newBugs[|db.filed|], platforms, owners), newBugs, platforms, owners)
  }

  /** `SyncTool.build_bug_db`: `odm` are the vetted ODM bugs in the order
      of the bug map, `umbrella` the umbrella bugs, and `newBugs` the bugs
      Launchpad creates, in the order they are filed. */
  function Build(odm: seq<OdmBug>, umbrella: seq<Umbrella>, newBugs: seq<NewBug>, platforms: map<nat, string>,
                 owners: map<string, string>): Db
    requires |odm| <= |newBugs| && Owned(platforms, owners)
  {
    BuildFrom(odm, 0, Db(umbrella, map[], [], []), newBugs, platforms, owners)
  }

  lemma {:induction false} PairedFirst(umbrella: seq<Umbrella>, id: nat, i: nat)
    requires i <= |umbrella|
    ensures var r := Paired(umbrella, id, i);
      && (r.None? <==> forall j | i <= j < |umbrella| :: Ref(umbrella[j]) != Some(id))
      && (r.Some? ==> i <= r.value < |umbrella| && Ref(umbrella[r.value]) == Some(id)
                        && forall j | i <= j < r.value :: Ref(umbrella[j]) != Some(id))
    decreases |umbrella| - i
  {
    if i < |umbrella| && Ref(umbrella[i]) != Some(id) {
      PairedFirst(umbrella, id, i + 1);
    }
  }

  /** An ODM bug is paired with the first umbrella bug whose tool comment
      names it; with none it is filed in the umbrella project as
      `[ODM bug] <title>` with its description, its first task's status and
      its tags plus its project, assigned to its platform's owner, and both
      bugs are told. */
  lemma StepPairsOrFiles(db: Db, b: OdmBug, created: NewBug, platforms: map<nat, string>,
                         owners: map<string, string>)
    requires Owned(platforms, owners)
    ensures var r := Step(db, b, created, platforms, owners);
      && b.bug.id in r.xref
      && var partner := r.xref[b.bug.id];
      && partner in r.xref && r.xref[partner] == b.bug.id
      && ((exists j | 0 <= j < |db.umbrella| :: db.umbrella[j].id == partner && Ref(db.umbrella[j]) == Some(b.bug.id))
          <==> r.filed == db.filed)
      && (r.filed != db.filed ==>
            && partner == created.id
            && (forall j | 0 <= j < |db.umbrella| :: Ref(db.umbrella[j]) != Some(b.bug.id))
            && r.filed == db.filed + [FileBug(UmbrellaProject, Prefix + b.bug.title, b.bug.description,
                                              b.bug.task.status, b.bug.tags + [b.project],
                                              Owner(b.bug.id, platforms, owners))]
            && r.notes == db.notes + [Note(created.id, FiledComment(b)), Note(b.bug.id, Header + FiledIn(created.webLink))])
  {
    PairedFirst(db.umbrella, b.bug.id, 0);
  }

  // ---- the cross-reference map is symmetric ----

  /** Each key is mapped to a key that is mapped back to it. */
  predicate Symmetric(x: map<nat, nat>) {
    forall a | a in x :: x[a] in x && x[x[a]] == a
  }

  lemma SymmetricInsert(x: map<nat, nat>, a: nat, b: nat)
    requires Symmetric(x) && a !in x && b !in x && a != b
    ensures Symmetric(x[a := b][b := a])
  {
  }

  /** Assumed of the input: ODM bugs, umbrella bugs and newly filed bugs
      have different numbers. A bug with tasks on both an ODM project and
      the umbrella project would break it. */
  predicate DistinctIds(odm: seq<OdmBug>, umbrella: seq<Umbrella>, newBugs: seq<NewBug>) {
    && (forall j, k | 0 <= j < k < |odm| :: odm[j].bug.id != odm[k].bug.id)
    && (forall j, k | 0 <= j < k < |umbrella| :: umbrella[j].id != umbrella[k].id)
    && (forall j, k | 0 <= j < k < |newBugs| :: newBugs[j].id != newBugs[k].id)
    && (forall j, k | 0 <= j < |odm| && 0 <= k < |umbrella| :: odm[j].bug.id != umbrella[k].id)
    && (forall j, k | 0 <= j < |odm| && 0 <= k < |newBugs| :: odm[j].bug.id != newBugs[k].id)
    && (forall j, k | 0 <= j < |umbrella| && 0 <= k < |newBugs| :: umbrella[j].id != newBugs[k].id)
  }

  /** The comment that opens an umbrella copy names no other ODM bug.
      `WebLinked` bugs have this: see `OwnLinksOfWebLinks`. */
  predicate OwnLinks(odm: seq<OdmBug>) {
    forall j, k | 0 <= j < |odm| && 0 <= k < |odm| && j != k ::
      UrlToBugRef(FiledComment(odm[k])) != Some(odm[j].bug.id)
  }

  /** Each ODM bug's web link is its bug URL (the form Launchpad gives a
      bug's `web_link`), and its project name holds no `ht`, as none of
      the configured names does. */
  predicate WebLinked(odm: seq<OdmBug>) {
    forall k | 0 <= k < |odm| ::
      odm[k].bug.webLink == BugUrl + Decimal.NatToString(odm[k].bug.id) && NoHt(odm[k].project)
  }

  /** For bugs with different numbers and their bug URLs as web links, the
      comment that opens each copy names its own bug and no other. */
  lemma OwnLinksOfWebLinks(odm: seq<OdmBug>)
    requires WebLinked(odm)
    requires forall j, k | 0 <= j < k < |odm| :: odm[j].bug.id != odm[k].bug.id
    ensures OwnLinks(odm)
  {
    forall j, k | 0 <= j < |odm| && 0 <= k < |odm| && j != k
      ensures UrlToBugRef(FiledComment(odm[k])) != Some(odm[j].bug.id)
    {
      var u := Umbrella(0, "", ["", FiledComment(odm[k])]);
      FiledCopyRefers(odm[k], u);
    }
  }

  /** `id` is an umbrella bug's or one of the first `n` new bugs' number. */
  ghost predicate Known(umbrella0: seq<Umbrella>, newBugs: seq<NewBug>, n: nat, id: nat) {
    || (exists j | 0 <= j < |umbrella0| :: umbrella0[j].id == id)
    || (exists m | 0 <= m < n && m < |newBugs| :: newBugs[m].id == id)
  }

  /** What holds after the first `k` ODM bugs: the map is symmetric and
      holds them; its other keys and the umbrella bugs are known umbrella
      numbers, all different; and no umbrella bug in the map copies an ODM
      bug still to come. */
  ghost predicate BuildInv(odm: seq<OdmBug>, k: nat, db: Db, umbrella0: seq<Umbrella>, newBugs: seq<NewBug>) {
    && k <= |odm| && |db.filed| <= |newBugs|
    && Symmetric(db.xref)
    && (forall j | 0 <= j < k :: odm[j].bug.id in db.xref)
    && (forall a | a in db.xref ::
          (exists j | 0 <= j < k :: odm[j].bug.id == a) || Known(umbrella0, newBugs, |db.filed|, a))
    && (forall i | 0 <= i < |db.umbrella| :: Known(umbrella0, newBugs, |db.filed|, db.umbrella[i].id))
    && (forall i, j | 0 <= i < j < |db.umbrella| :: db.umbrella[i].id != db.umbrella[j].id)
    && (forall i, j | 0 <= i < |db.umbrella| && k <= j < |odm| ::
          db.umbrella[i].id in db.xref ==> Ref(db.umbrella[i]) != Some(odm[j].bug.id))
  }

  lemma OdmNotKnown(odm: seq<OdmBug>, umbrella0: seq<Umbrella>, newBugs: seq<NewBug>, n: nat, k: nat)
    requires DistinctIds(odm, umbrella0, newBugs) && k < |odm|
    ensures !Known(umbrella0, newBugs, n, odm[k].bug.id)
  {
  }

  lemma NewNotKnown(odm: seq<OdmBug>, umbrella0: seq<Umbrella>, newBugs: seq<NewBug>, n: nat)
    requires DistinctIds(odm, umbrella0, newBugs) && n < |newBugs|
    ensures !Known(umbrella0, newBugs, n, newBugs[n].id)
  {
  }

  lemma {:induction false} TitleIndexNone(us: seq<Umbrella>, title: string, i: nat)
    requires i <= |us| && TitleIndex(us, title, i).None?
    ensures forall j | i <= j < |us| :: us[j].title != title
    decreases |us| - i
  {
    if i < |us| {
      TitleIndexNone(us, title, i + 1);
    }
  }

  /** Storing a bug keeps the other entries, except one with the same
      title, and keeps the numbers different when the new one is new. */
  lemma PutKeeps(us: seq<Umbrella>, v: Umbrella)
    requires forall i, j | 0 <= i < j < |us| :: us[i].id != us[j].id
    requires forall i | 0 <= i < |us| :: us[i].id != v.id
    ensures var r := Put(us, v);
      && (exists i | 0 <= i < |r| :: r[i] == v)
      && (forall i | 0 <= i < |r| :: r[i] == v || r[i] in us)
      && (forall i, j | 0 <= i < j < |r| :: r[i].id != r[j].id)
  {
    match TitleIndex(us, v.title, 0)
    case Some(t) =>
      var r := us[t := v];
      assert Put(us, v) == r;
      assert r[t] == v;
      assert forall i | 0 <= i < |r| && i != t :: r[i] == us[i];
    case None =>
      TitleIndexNone(us, v.title, 0);
      var r := us + [v];
      assert Put(us, v) == r;
      assert r[|us|] == v;
  }

  lemma PairKeeps(odm: seq<OdmBug>, k: nat, db: Db, umbrella0: seq<Umbrella>, newBugs: seq<NewBug>,
                  platforms: map<nat, string>, owners: map<string, string>)
    requires DistinctIds(odm, umbrella0, newBugs) && BuildInv(odm, k, db, umbrella0, newBugs)
    requires k < |odm| && |db.filed| < |newBugs| && Owned(platforms, owners)
    requires Paired(db.umbrella, odm[k].bug.id, 0).Some?
    ensures BuildInv(odm, k + 1, Step(db, odm[k], newBugs[|db.filed|], platforms, owners), umbrella0, newBugs)
  {
    var a := odm[k].bug.id;
    var j := Paired(db.umbrella, a, 0).value;
    var u := db.umbrella[j];
    PairedFirst(db.umbrella, a, 0);
    FreshNumbers(odm, k, db, umbrella0, newBugs);
    assert u.id !in db.xref;
    SymmetricInsert(db.xref, a, u.id);
    var r := Step(db, odm[k], newBugs[|db.filed|], platforms, owners);
    assert r == db.(xref := db.xref[a := u.id][u.id := a]);
    PairKeys(odm, k, db.xref, umbrella0, newBugs, |db.filed|, u.id);
    PairRefs(odm, k, db.umbrella, j, db.xref);
  }

  /** The keys after pairing: the ODM bugs so far and known numbers. */
  lemma PairKeys(odm: seq<OdmBug>, k: nat, xref: map<nat, nat>, umbrella0: seq<Umbrella>,
                 newBugs: seq<NewBug>, n: nat, u: nat)
    requires k < |odm| && Known(umbrella0, newBugs, n, u)
    requires forall a | a in xref :: (exists j | 0 <= j < k :: odm[j].bug.id == a) || Known(umbrella0, newBugs, n, a)
    ensures var x := xref[odm[k].bug.id := u][u := odm[k].bug.id];
      forall a | a in x :: (exists j | 0 <= j < k + 1 :: odm[j].bug.id == a) || Known(umbrella0, newBugs, n, a)
  {
  }

  /** The umbrella bug just paired copies the ODM bug at hand, not one
      still to come. */
  lemma PairRefs(odm: seq<OdmBug>, k: nat, us: seq<Umbrella>, j: nat, xref: map<nat, nat>)
    requires k < |odm| && j < |us| && Ref(us[j]) == Some(odm[k].bug.id)
    requires forall j, m | 0 <= j < m < |odm| :: odm[j].bug.id != odm[m].bug.id
    requires forall i, m | 0 <= i < m < |us| :: us[i].id != us[m].id
    requires forall i | 0 <= i < |us| :: us[i].id != odm[k].bug.id
    requires forall i, m | 0 <= i < |us| && k <= m < |odm| :: us[i].id in xref ==> Ref(us[i]) != Some(odm[m].bug.id)
    ensures var x := xref[odm[k].bug.id := us[j].id][us[j].id := odm[k].bug.id];
      forall i, m | 0 <= i < |us| && k + 1 <= m < |odm| :: us[i].id in x ==> Ref(us[i]) != Some(odm[m].bug.id)
  {
    var a := odm[k].bug.id;
    forall i, m | 0 <= i < |us| && k + 1 <= m < |odm| && us[i].id in xref[a := us[j].id][us[j].id := a]
      ensures Ref(us[i]) != Some(odm[m].bug.id)
    {
      assert odm[m].bug.id != a;
      if us[i].id == us[j].id {
        assert i == j;
      }
    }
  }

  /** Neither the ODM bug at hand nor the next new bug is in the map yet,
      and no umbrella entry has either number. */
  lemma FreshNumbers(odm: seq<OdmBug>, k: nat, db: Db, umbrella0: seq<Umbrella>, newBugs: seq<NewBug>)
    requires DistinctIds(odm, umbrella0, newBugs) && BuildInv(odm, k, db, umbrella0, newBugs)
    requires k < |odm| && |db.filed| < |newBugs|
    ensures var a := odm[k].bug.id;
      var c := newBugs[|db.filed|].id;
      && a !in db.xref && c !in db.xref && a != c
      && forall i | 0 <= i < |db.umbrella| :: db.umbrella[i].id != a && db.umbrella[i].id != c
  {
    var a := odm[k].bug.id;
    var n := |db.filed|;
    OdmNotKnown(odm, umbrella0, newBugs, n, k);
    NewNotKnown(odm, umbrella0, newBugs, n);
    forall key | key in db.xref
      ensures key != a && key != newBugs[n].id
    {
      if exists i | 0 <= i < k :: odm[i].bug.id == key {
        var i :| 0 <= i < k && odm[i].bug.id == key;
        assert odm[i].bug.id != odm[k].bug.id;
        assert odm[i].bug.id != newBugs[n].id;
      }
    }
    forall i | 0 <= i < |db.umbrella|
      ensures db.umbrella[i].id != a && db.umbrella[i].id != newBugs[n].id
    {
      assert Known(umbrella0, newBugs, n, db.umbrella[i].id);
    }
  }

  /** Every entry after storing the new bug is one of the first `n + 1`
      known numbers. */
  lemma FileKnown(before: seq<Umbrella>, after: seq<Umbrella>, v: Umbrella, umbrella0: seq<Umbrella>,
                  newBugs: seq<NewBug>, n: nat)
    requires n < |newBugs| && v.id == newBugs[n].id
    requires forall i | 0 <= i < |before| :: Known(umbrella0, newBugs, n, before[i].id)
    requires forall i | 0 <= i < |after| :: after[i] == v || after[i] in before
    ensures forall i | 0 <= i < |after| :: Known(umbrella0, newBugs, n + 1, after[i].id)
  {
    forall i | 0 <= i < |after|
      ensures Known(umbrella0, newBugs, n + 1, after[i].id)
    {
      if after[i] != v {
        var i0 :| 0 <= i0 < |before| && before[i0] == after[i];
        assert Known(umbrella0, newBugs, n, before[i0].id);
      }
    }
  }

  /** The new umbrella copy refers at most to its own ODM bug, so no entry
      of the map copies an ODM bug still to come. */
  lemma FileRefs(odm: seq<OdmBug>, k: nat, before: seq<Umbrella>, after: seq<Umbrella>, v: Umbrella,
                 xref: map<nat, nat>, c: nat)
    requires k < |odm| && OwnLinks(odm)
    requires v.id == c && v.messages == [odm[k].bug.description, FiledComment(odm[k])]
    requires forall i | 0 <= i < |after| :: after[i] == v || after[i] in before
    requires forall i | 0 <= i < |before| :: before[i].id != odm[k].bug.id && before[i].id != c
    requires forall i, m | 0 <= i < |before| && k <= m < |odm| ::
      before[i].id in xref ==> Ref(before[i]) != Some(odm[m].bug.id)
    ensures forall i, m | 0 <= i < |after| && k + 1 <= m < |odm| ::
      after[i].id in xref[odm[k].bug.id := c][c := odm[k].bug.id] ==> Ref(after[i]) != Some(odm[m].bug.id)
  {
    var a := odm[k].bug.id;
    forall i, m | 0 <= i < |after| && k + 1 <= m < |odm| && after[i].id in xref[a := c][c := a]
      ensures Ref(after[i]) != Some(odm[m].bug.id)
    {
      if after[i] == v {
        assert UrlToBugRef(FiledComment(odm[k])) != Some(odm[m].bug.id);
      } else {
        var i0 :| 0 <= i0 < |before| && before[i0] == after[i];
        assert before[i0].id in xref;
      }
    }
  }

  lemma FileKeeps(odm: seq<OdmBug>, k: nat, db: Db, umbrella0: seq<Umbrella>, newBugs: seq<NewBug>,
                  platforms: map<nat, string>, owners: map<string, string>)
    requires DistinctIds(odm, umbrella0, newBugs) && OwnLinks(odm) && BuildInv(odm, k, db, umbrella0, newBugs)
    requires k < |odm| && |db.filed| < |newBugs| && Owned(platforms, owners)
    requires Paired(db.umbrella, odm[k].bug.id, 0).None?
    ensures BuildInv(odm, k + 1, Step(db, odm[k], newBugs[|db.filed|], platforms, owners), umbrella0, newBugs)
  {
    var a := odm[k].bug.id;
    var n := |db.filed|;
    var c := newBugs[n];
    FreshNumbers(odm, k, db, umbrella0, newBugs);
    SymmetricInsert(db.xref, a, c.id);
    var v := Umbrella(c.id, Prefix + odm[k].bug.title, [odm[k].bug.description, FiledComment(odm[k])]);
    PutKeeps(db.umbrella, v);
    var r := Step(db, odm[k], newBugs[n], platforms, owners);
    assert r.umbrella == Put(db.umbrella, v);
    assert r.xref == db.xref[a := c.id][c.id := a];
    assert |r.filed| == n + 1;
    FileKnown(db.umbrella, r.umbrella, v, umbrella0, newBugs, n);
    FileRefs(odm, k, db.umbrella, r.umbrella, v, db.xref, c.id);
    FileKeys(odm, k, db.xref, umbrella0, newBugs, n);
  }

  /** The keys after filing: the ODM bugs so far and known numbers. */
  lemma FileKeys(odm: seq<OdmBug>, k: nat, xref: map<nat, nat>, umbrella0: seq<Umbrella>,
                 newBugs: seq<NewBug>, n: nat)
    requires k < |odm| && n < |newBugs|
    requires forall a | a in xref :: (exists j | 0 <= j < k :: odm[j].bug.id == a) || Known(umbrella0, newBugs, n, a)
    ensures var x := xref[odm[k].bug.id := newBugs[n].id][newBugs[n].id := odm[k].bug.id];
      forall a | a in x :: (exists j | 0 <= j < k + 1 :: odm[j].bug.id == a) || Known(umbrella0, newBugs, n + 1, a)
  {
    assert Known(umbrella0, newBugs, n + 1, newBugs[n].id);
    forall id | Known(umbrella0, newBugs, n, id)
      ensures Known(umbrella0, newBugs, n + 1, id)
    {
    }
  }

  lemma {:induction false} BuildFromKeeps(odm: seq<OdmBug>, k: nat, db: Db, umbrella0: seq<Umbrella>,
                                          newBugs: seq<NewBug>, platforms: map<nat, string>,
                                          owners: map<string, string>)
    requires DistinctIds(odm, umbrella0, newBugs) && OwnLinks(odm) && BuildInv(odm, k, db, umbrella0, newBugs)
    requires |db.filed| + (|odm| - k) <= |newBugs| && Owned(platforms, owners)
    ensures var r := BuildFrom(odm, k, db, newBugs, platforms, owners);
      Symmetric(r.xref) && forall j | 0 <= j < |odm| :: odm[j].bug.id in r.xref
    decreases |odm| - k
  {
    if k < |odm| {
      var next := Step(db, odm[k], newBugs[|db.filed|], platforms, owners);
      if Paired(db.umbrella, odm[k].bug.id, 0).Some? {
        PairKeeps(odm, k, db, umbrella0, newBugs, platforms, owners);
      } else {
        FileKeeps(odm, k, db, umbrella0, newBugs, platforms, owners);
      }
      BuildFromKeeps(odm, k + 1, next, umbrella0, newBugs, platforms, owners);
    }
  }

  /** After `build_bug_db` every ODM bug has a partner in the cross-reference
      map, so the lookup of `sync_all` finds it, and the map is symmetric:
      each partner maps back to the bug it pairs with. */
  lemma BuildCrossRefs(odm: seq<OdmBug>, umbrella: seq<Umbrella>, newBugs: seq<NewBug>,
                       platforms: map<nat, string>, owners: map<string, string>)
    requires |odm| <= |newBugs| && Owned(platforms, owners)
    requires DistinctIds(odm, umbrella, newBugs) && OwnLinks(odm)
    ensures var r := Build(odm, umbrella, newBugs, platforms, owners);
      && Symmetric(r.xref)
      && forall j | 0 <= j < |odm| :: odm[j].bug.id in r.xref
  {
    var db := Db(umbrella, map[], [], []);
    forall i | 0 <= i < |umbrella|
      ensures Known(umbrella, newBugs, 0, umbrella[i].id)
    {
    }
    assert BuildInv(odm, 0, db, umbrella, newBugs);
    BuildFromKeeps(odm, 0, db, umbrella, newBugs, platforms, owners);
  }

  // ---- a second build files nothing ----

  /** Every ODM bug at a position from `lo` to before `hi` has an umbrella
      bug that refers to it. */
  predicate Covered(odm: seq<OdmBug>, lo: nat, hi: nat, us: seq<Umbrella>) {
    forall j | lo <= j < hi && j < |odm| :: exists i | 0 <= i < |us| :: Ref(us[i]) == Some(odm[j].bug.id)
  }

  /** An umbrella bug titled as the copy of an ODM bug is that bug's copy. */
  predicate TitlesMeanCopies(odm: seq<OdmBug>, us: seq<Umbrella>) {
    forall i, m | 0 <= i < |us| && 0 <= m < |odm| ::
      us[i].title == Prefix + odm[m].bug.title ==> Ref(us[i]) == Some(odm[m].bug.id)
  }

  /** ODM bugs with different positions have different titles. */
  predicate DistinctTitles(odm: seq<OdmBug>) {
    forall j, k | 0 <= j < k < |odm| :: odm[j].bug.title != odm[k].bug.title
  }

  /** When every remaining ODM bug already has its copy, the build pairs
      them all: the umbrella bugs, the filings and the comments stay as
      they are. */
  lemma {:induction false} BuildFromPairsAll(odm: seq<OdmBug>, k: nat, db: Db, newBugs: seq<NewBug>,
                                             platforms: map<nat, string>, owners: map<string, string>)
    requires k <= |odm| && |db.filed| + (|odm| - k) <= |newBugs| && Owned(platforms, owners)
    requires Covered(odm, k, |odm|, db.umbrella)
    ensures var r := BuildFrom(odm, k, db, newBugs, platforms, owners);
      r.umbrella == db.umbrella && r.filed == db.filed && r.notes == db.notes
    decreases |odm| - k
  {
    if k < |odm| {
      var i :| 0 <= i < |db.umbrella| && Ref(db.umbrella[i]) == Some(odm[k].bug.id);
      PairedFirst(db.umbrella, odm[k].bug.id, 0);
      var next := Step(db, odm[k], newBugs[|db.filed|], platforms, owners);
      assert next.umbrella == db.umbrella && next.filed == db.filed && next.notes == db.notes;
      BuildFromPairsAll(odm, k + 1, next, newBugs, platforms, owners);
    }
  }

  /** One step keeps every copy found so far, adds one for the bug at hand,
      and keeps copy titles meaningful: the new copy is appended, since an
      entry with its title would already have paired the bug. */
  lemma {:induction false} StepCovers(odm: seq<OdmBug>, k: nat, db: Db, created: NewBug,
                   platforms: map<nat, string>, owners: map<string, string>)
    requires k < |odm| && Owned(platforms, owners)
    requires WebLinked(odm) && DistinctTitles(odm)
    requires TitlesMeanCopies(odm, db.umbrella)
    requires Covered(odm, 0, k, db.umbrella)
    ensures var r := Step(db, odm[k], created, platforms, owners);
      && TitlesMeanCopies(odm, r.umbrella)
      && Covered(odm, 0, k + 1, r.umbrella)
  {
    var b := odm[k];
    PairedFirst(db.umbrella, b.bug.id, 0);
    if Paired(db.umbrella, b.bug.id, 0).None? {
      var v := Umbrella(created.id, Prefix + b.bug.title, [b.bug.description, FiledComment(b)]);
      FiledCopyRefers(b, v);
      match TitleIndex(db.umbrella, v.title, 0)
      case Some(t) =>
        assert false;
      case None =>
        var us := db.umbrella + [v];
        assert Put(db.umbrella, v) == us;
        assert us[|db.umbrella|] == v;
        forall i, m | 0 <= i < |us| && 0 <= m < |odm| && us[i].title == Prefix + odm[m].bug.title
          ensures Ref(us[i]) == Some(odm[m].bug.id)
        {
          if i == |db.umbrella| {
            assert odm[m].bug.title == odm[k].bug.title by {
              assert (Prefix + odm[m].bug.title)[|Prefix|..] == odm[m].bug.title;
              assert (Prefix + odm[k].bug.title)[|Prefix|..] == odm[k].bug.title;
            }
            assert m == k;
          } else {
            assert us[i] == db.umbrella[i];
          }
        }
        forall j | 0 <= j < k + 1 && j < |odm|
          ensures exists i | 0 <= i < |us| :: Ref(us[i]) == Some(odm[j].bug.id)
        {
          if j < k {
            var i :| 0 <= i < |db.umbrella| && Ref(db.umbrella[i]) == Some(odm[j].bug.id);
            assert us[i] == db.umbrella[i];
          } else {
            assert Ref(us[|db.umbrella|]) == Some(odm[j].bug.id);
          }
        }
    }
  }

  lemma {:induction false} BuildFromCovers(odm: seq<OdmBug>, k: nat, db: Db, newBugs: seq<NewBug>,
                                           platforms: map<nat, string>, owners: map<string, string>)
    requires k <= |odm| && |db.filed| + (|odm| - k) <= |newBugs| && Owned(platforms, owners)
    requires WebLinked(odm) && DistinctTitles(odm)
    requires TitlesMeanCopies(odm, db.umbrella)
    requires Covered(odm, 0, k, db.umbrella)
    ensures Covered(odm, 0, |odm|, BuildFrom(odm, k, db, newBugs, platforms, owners).umbrella)
    decreases |odm| - k
  {
    if k < |odm| {
      StepCovers(odm, k, db, newBugs[|db.filed|], platforms, owners);
      BuildFromCovers(odm, k + 1, Step(db, odm[k], newBugs[|db.filed|], platforms, owners), newBugs, platforms, owners);
    }
  }

  /** `build_bug_db` run twice: the second run, over the umbrella bugs the
      first one leaves, finds a copy of every ODM bug, so it files nothing
      and posts no comment. It needs the bugs' web links to be their bug
      URLs, different titles for different ODM bugs, and no umbrella bug
      titled as a copy that is not one. */
  lemma RebuildFilesNothing(odm: seq<OdmBug>, umbrella: seq<Umbrella>, newBugs: seq<NewBug>, later: seq<NewBug>,
                            platforms: map<nat, string>, owners: map<string, string>)
    requires |odm| <= |newBugs| && |odm| <= |later| && Owned(platforms, owners)
    requires WebLinked(odm) && DistinctTitles(odm)
    requires TitlesMeanCopies(odm, umbrella)
    ensures var first := Build(odm, umbrella, newBugs, platforms, owners);
      var second := Build(odm, first.umbrella, later, platforms, owners);
      && second.filed == []
      && second.notes == []
      && second.umbrella == first.umbrella
  {
    var first := Build(odm, umbrella, newBugs, platforms, owners);
    BuildFromCovers(odm, 0, Db(umbrella, map[], [], []), newBugs, platforms, owners);
    BuildFromPairsAll(odm, 0, Db(first.umbrella, map[], [], []), later, platforms, owners);
  }

  /** With bug URLs as web links, `BuildCrossRefs` needs only different
      bug numbers: the copies' comments then link their own bugs. */
  lemma BuildCrossRefsLinked(odm: seq<OdmBug>, umbrella: seq<Umbrella>, newBugs: seq<NewBug>,
                             platforms: map<nat, string>, owners: map<string, string>)
    requires |odm| <= |newBugs| && Owned(platforms, owners)
    requires DistinctIds(odm, umbrella, newBugs) && WebLinked(odm)
    ensures var r := Build(odm, umbrella, newBugs, platforms, owners);
      && Symmetric(r.xref)
      && forall j | 0 <= j < |odm| :: odm[j].bug.id in r.xref
  {
    OwnLinksOfWebLinks(odm);
    BuildCrossRefs(odm, umbrella, newBugs, platforms, owners);
  }

  // ---- `sync_all`: comments ----

  /** The messages after the first (the description). */
  function Comments(messages: seq<string>): seq<string> {
    if |messages| == 0 then [] else messages[1..]
  }

  /** The comments of `cs` that `other` lacks, in order, leaving out the
      tool's own comments when `skipOwn` holds. */
  function Absent(cs: seq<string>, other: seq<string>, skipOwn: bool): seq<string>
    decreases |cs|
  {
    if |cs| == 0 then []
    else (if cs[0] !in other && !(skipOwn && StartsWith(cs[0], Header)) then [cs[0]] else [])
         + Absent(cs[1..], other, skipOwn)
  }

  /** The comments of bug `from` to be posted on bug `to`. */
  function Copies(from: seq<string>, to: seq<string>, skipOwn: bool): seq<string> {
    Absent(Comments(from), Comments(to), skipOwn)
  }

  lemma {:induction false} AbsentMeaning(cs: seq<string>, other: seq<string>, skipOwn: bool)
    ensures forall c :: c in Absent(cs, other, skipOwn) <==>
      c in cs && c !in other && !(skipOwn && StartsWith(c, Header))
    decreases |cs|
  {
    if |cs| > 0 {
      AbsentMeaning(cs[1..], other, skipOwn);
      assert cs == [cs[0]] + cs[1..];
    }
  }

  lemma {:induction false} AbsentNone(cs: seq<string>, other: seq<string>, skipOwn: bool)
    requires forall c | c in cs :: c in other || (skipOwn && StartsWith(c, Header))
    ensures Absent(cs, other, skipOwn) == []
    decreases |cs|
  {
    if |cs| > 0 {
      assert cs[0] in cs;
      assert forall c | c in cs[1..] :: c in cs;
      AbsentNone(cs[1..], other, skipOwn);
    }
  }

  /** Both directions of the exchange: the two bugs' messages afterwards. */
  function Exchange(a: seq<string>, b: seq<string>, skipOwn: bool): (seq<string>, seq<string>) {
    (a + Copies(b, a, skipOwn), b + Copies(a, b, skipOwn))
  }

  /** After the exchange each bug holds every comment of the other except
      the tool's own (when those are skipped), and a second exchange copies
      nothing. */
  lemma ExchangeSettles(a: seq<string>, b: seq<string>, skipOwn: bool)
    requires |a| > 0 && |b| > 0
    ensures var (a2, b2) := Exchange(a, b, skipOwn);
      && (forall c | c in Comments(a) && !(skipOwn && StartsWith(c, Header)) :: c in Comments(b2))
      && (forall c | c in Comments(b) && !(skipOwn && StartsWith(c, Header)) :: c in Comments(a2))
      && Copies(a2, b2, skipOwn) == [] && Copies(b2, a2, skipOwn) == []
  {
    var (a2, b2) := Exchange(a, b, skipOwn);
    var toA := Copies(b, a, skipOwn);
    var toB := Copies(a, b, skipOwn);
    assert Comments(a2) == Comments(a) + toA;
    assert Comments(b2) == Comments(b) + toB;
    AbsentMeaning(Comments(b), Comments(a), skipOwn);
    AbsentMeaning(Comments(a), Comments(b), skipOwn);
    AbsentMeaning(Comments(a2), Comments(b2), skipOwn);
    AbsentMeaning(Comments(b2), Comments(a2), skipOwn);
    AbsentNone(Comments(a2), Comments(b2), skipOwn);
    AbsentNone(Comments(b2), Comments(a2), skipOwn);
  }

  // ---- `_sync_meta` ----

  /** The outcome of `_sync_meta(bug1, bug2)`: both bugs afterwards and
      whether the bug and its task were saved. */
  datatype MetaSync = MetaSync(bug1: Bug, bug2: Bug, saved: bool, taskSaved: bool)

  /** The destination after copying from `src`: its title is replaced when
      the titles differ once the prefix is split off, by the source's
      title without the prefix when the source had it and with the prefix
      otherwise; description, tags and task fields are the source's. */
  function CopyMeta(src: Bug, dest: Bug, prefix: string): (r: (Bug, bool, bool))
    requires |prefix| > 0
  {
    var title := AfterFirst(src.title, prefix);
    var retitle := title != AfterFirst(dest.title, prefix);
    var newTitle :=
      if !retitle then dest.title
      else if StartsWith(src.title, prefix) then title
      else prefix + title;
    (dest.(title := newTitle, description := src.description, tags := src.tags, task := src.task),
     retitle || src.description != dest.description || src.tags != dest.tags,
     src.task != dest.task)
  }

  /** `SyncTool._sync_meta`: the bug updated later is the source; on a tie
      the second one is. */
  function SyncMeta(bug1: Bug, bug2: Bug, prefix: string): MetaSync
    requires |prefix| > 0
  {
    if bug1.updated > bug2.updated then
      var (dest, saved, taskSaved) := CopyMeta(bug1, bug2, prefix);
      MetaSync(bug1, dest, saved, taskSaved)
    else
      var (dest, saved, taskSaved) := CopyMeta(bug2, bug1, prefix);
      MetaSync(dest, bug2, saved, taskSaved)
  }

  lemma AfterFirstAbsent(s: string, p: string)
    requires |p| > 0 && !Contains(s, p)
    ensures AfterFirst(s, p) == s
  {
  }

  /** The source keeps everything; the destination takes the source's
      description, tags and the four fields of its first task (which is
      also the searched task when the search returned the first one), and
      its title, compared
      without the prefix, becomes the source's; a changed title carries the
      prefix exactly when the source's does not. The bug is saved exactly
      when its title, description or tags differed, the task exactly when
      one of its fields did. */
  lemma SyncMetaCopies(bug1: Bug, bug2: Bug, prefix: string)
    requires |prefix| > 0
    ensures var r := SyncMeta(bug1, bug2, prefix);
      var fromFirst := bug1.updated > bug2.updated;
      var src := if fromFirst then bug1 else bug2;
      var dest := if fromFirst then bug2 else bug1;
      var after := if fromFirst then r.bug2 else r.bug1;
      && (if fromFirst then r.bug1 == bug1 else r.bug2 == bug2)
      && after.id == dest.id && after.messages == dest.messages && after.updated == dest.updated
      && after.hit == dest.hit && after.webLink == dest.webLink
      && SearchedStatus(after) == (if dest.hit.FirstTask? then src.task.status else SearchedStatus(dest))
      && after.description == src.description && after.tags == src.tags
      && after.task.assignee == src.task.assignee && after.task.status == src.task.status
      && after.task.milestone == src.task.milestone && after.task.importance == src.task.importance
      && (!Contains(AfterFirst(src.title, prefix), prefix) ==>
            AfterFirst(after.title, prefix) == AfterFirst(src.title, prefix))
      && (after.title != dest.title ==>
            (StartsWith(after.title, prefix) <==> !StartsWith(src.title, prefix))
            || Contains(AfterFirst(src.title, prefix), prefix))
      && (r.saved <==> AfterFirst(src.title, prefix) != AfterFirst(dest.title, prefix)
                       || src.description != dest.description || src.tags != dest.tags)
      && (r.taskSaved <==> src.task.assignee != dest.task.assignee || src.task.status != dest.task.status
                           || src.task.milestone != dest.task.milestone
                           || src.task.importance != dest.task.importance)
  {
    var fromFirst := bug1.updated > bug2.updated;
    var src := if fromFirst then bug1 else bug2;
    var t := AfterFirst(src.title, prefix);
    AfterFirstPrefix(prefix, t);
    assert (prefix + t)[..|prefix|] == prefix;
    if !Contains(t, prefix) {
      AfterFirstAbsent(t, prefix);
    }
  }

  /** Syncing again, whatever the bugs' timestamps have become, changes
      and saves nothing, provided the source's title holds the prefix at
      most once. */
  lemma SyncMetaSettles(bug1: Bug, bug2: Bug, prefix: string, t1: int, t2: int)
    requires |prefix| > 0
    requires !Contains(AfterFirst((if bug1.updated > bug2.updated then bug1 else bug2).title, prefix), prefix)
    ensures var r := SyncMeta(bug1, bug2, prefix);
      var again := SyncMeta(r.bug1.(updated := t1), r.bug2.(updated := t2), prefix);
      && !again.saved && !again.taskSaved
      && again.bug1 == r.bug1.(updated := t1) && again.bug2 == r.bug2.(updated := t2)
  {
    SyncMetaCopies(bug1, bug2, prefix);
    var r := SyncMeta(bug1, bug2, prefix);
    var b1 := r.bug1.(updated := t1);
    var b2 := r.bug2.(updated := t2);
    assert AfterFirst(b1.title, prefix) == AfterFirst(b2.title, prefix);
    assert b1.task == b2.task;
    SyncMetaCopies(b1, b2, prefix);
  }

  // ---- `sync_all` ----

  /** One pair of `sync_all`: the comments are exchanged, skipping the
      tool's own, then the metadata is synced with the ODM bug first. */
  function SyncPair(odm: Bug, umb: Bug): MetaSync {
    var (odmMessages, umbMessages) := Exchange(odm.messages, umb.messages, true);
    SyncMeta(odm.(messages := odmMessages), umb.(messages := umbMessages), Prefix)
  }

  /** A synced pair is settled: syncing it again, whatever its timestamps
      have become, posts no comment and saves nothing, as long as neither
      title holds the prefix twice. */
  lemma SyncPairSettles(odm: Bug, umb: Bug, t1: int, t2: int)
    requires |odm.messages| > 0 && |umb.messages| > 0
    requires !Contains(AfterFirst(odm.title, Prefix), Prefix) && !Contains(AfterFirst(umb.title, Prefix), Prefix)
    ensures var r := SyncPair(odm, umb);
      var b1 := r.bug1.(updated := t1);
      var b2 := r.bug2.(updated := t2);
      && Copies(b1.messages, b2.messages, true) == [] && Copies(b2.messages, b1.messages, true) == []
      && SyncPair(b1, b2) == MetaSync(b1, b2, false, false)
  {
    var (odmMessages, umbMessages) := Exchange(odm.messages, umb.messages, true);
    var o := odm.(messages := odmMessages);
    var u := umb.(messages := umbMessages);
    ExchangeSettles(odm.messages, umb.messages, true);
    SyncMetaCopies(o, u, Prefix);
    var r := SyncMeta(o, u, Prefix);
    assert r.bug1.messages == odmMessages && r.bug2.messages == umbMessages;
    var b1 := r.bug1.(updated := t1);
    var b2 := r.bug2.(updated := t2);
    assert Copies(b1.messages, b2.messages, true) == [] && Copies(b2.messages, b1.messages, true) == [];
    assert b1.messages + [] == b1.messages && b2.messages + [] == b2.messages;
    assert Exchange(b1.messages, b2.messages, true) == (b1.messages, b2.messages);
    assert b1.(messages := b1.messages) == b1 && b2.(messages := b2.messages) == b2;
    SyncMetaSettles(o, u, Prefix, t1, t2);
  }

  /** How far `sync_all` got: the partners looked up, in order, and
      whether a lookup failed. */
  datatype SyncRun = SyncRun(partners: seq<Bug>, raised: bool)

  function SyncFrom(odm: seq<Bug>, xref: map<nat, nat>, lp: map<nat, Bug>, i: nat): SyncRun
    requires i <= |odm|
    decreases |odm| - i
  {
    if i == |odm| then SyncRun([], false)
    else if odm[i].id !in xref || xref[odm[i].id] !in lp then SyncRun([], true)
    else
      var rest := SyncFrom(odm, xref, lp, i + 1);
      SyncRun([lp[xref[odm[i].id]]] + rest.partners, rest.raised)
  }

  /** `SyncTool.sync_all`: each ODM bug's partner is looked up in the
      cross-reference map and then on Launchpad (`lp`), and the pair is
      synced (`Synced`); a missing entry raises. */
  function SyncAll(odm: seq<Bug>, xref: map<nat, nat>, lp: map<nat, Bug>): SyncRun {
    SyncFrom(odm, xref, lp, 0)
  }

  /** The pairs `sync_all` synced before it finished or raised. */
  function Synced(odm: seq<Bug>, run: SyncRun): seq<MetaSync>
    requires |run.partners| <= |odm|
  {
    seq(|run.partners|, k requires 0 <= k < |run.partners| => SyncPair(odm[k], run.partners[k]))
  }

  /** A bug whose partner can be looked up. */
  predicate Linked(b: Bug, xref: map<nat, nat>, lp: map<nat, Bug>) {
    b.id in xref && xref[b.id] in lp
  }

  lemma {:induction false} SyncFromPairs(odm: seq<Bug>, xref: map<nat, nat>, lp: map<nat, Bug>, i: nat)
    requires i <= |odm|
    ensures var r := SyncFrom(odm, xref, lp, i);
      && i + |r.partners| <= |odm|
      && (forall k | i <= k < i + |r.partners| :: Linked(odm[k], xref, lp) && r.partners[k - i] == lp[xref[odm[k].id]])
      && (r.raised <==> exists k | i <= k < |odm| :: !Linked(odm[k], xref, lp))
      && (!r.raised ==> |r.partners| == |odm| - i)
      && (r.raised ==> !Linked(odm[i + |r.partners|], xref, lp))
    decreases |odm| - i
  {
    if i < |odm| && Linked(odm[i], xref, lp) {
      SyncFromPairs(odm, xref, lp, i + 1);
    }
  }

  /** `sync_all` syncs the ODM bugs with their partners in order, up to the
      first one without a partner to look up, where it raises; it raises
      exactly when there is such a bug. */
  lemma SyncAllPairs(odm: seq<Bug>, xref: map<nat, nat>, lp: map<nat, Bug>)
    ensures var r := SyncAll(odm, xref, lp);
      && |r.partners| <= |odm|
      && (forall k | 0 <= k < |r.partners| :: Linked(odm[k], xref, lp) && r.partners[k] == lp[xref[odm[k].id]])
      && (r.raised <==> exists k | 0 <= k < |odm| :: !Linked(odm[k], xref, lp))
      && (!r.raised ==> |r.partners| == |odm|)
      && (r.raised ==> !Linked(odm[|r.partners|], xref, lp))
  {
    SyncFromPairs(odm, xref, lp, 0);
  }

  // ---- `OwnersSpreadsheet.owners` ----

  /** A spreadsheet column without its two header rows. */
  function FromThirdRow(column: seq<string>): seq<string> {
    if |column| <= 2 then [] else column[2..]
  }

  /** `zip(column_j, column_ar)` over the columns without their headers:
      row `k` pairs the cells of spreadsheet row `k + 2`. */
  function Rows(platformColumn: seq<string>, ownerColumn: seq<string>): (rows: seq<(string, string)>)
    ensures forall k | 0 <= k < |rows| :: k + 2 < |platformColumn| && k + 2 < |ownerColumn|
              && rows[k] == (platformColumn[k + 2], ownerColumn[k + 2])
    ensures |platformColumn| > |rows| + 2 ==> |ownerColumn| <= |rows| + 2
  {
    var a := FromThirdRow(platformColumn);
    var b := FromThirdRow(ownerColumn);
    var n := if |a| < |b| then |a| else |b|;
    seq(n, k requires 0 <= k < n => (a[k], b[k]))
  }

  /** A row that makes an entry: it has an owner, the owner has a
      Launchpad name, and it names a platform. */
  predicate Usable(row: (string, string), lpNames: map<string, string>) {
    row.1 != "" && row.1 in lpNames && lpNames[row.1] != "" && row.0 != ""
  }

  /** The entries the first `n` rows make, a later row overriding an
      earlier one for the same platform. */
  function OwnersUpTo(rows: seq<(string, string)>, lpNames: map<string, string>, n: nat): map<string, string>
    requires n <= |rows|
  {
    if n == 0 then map[]
    else
      var m := OwnersUpTo(rows, lpNames, n - 1);
      if Usable(rows[n - 1], lpNames) then m[rows[n - 1].0 := lpNames[rows[n - 1].1]] else m
  }

  /** `OwnersSpreadsheet.owners`: platform (column J) to the Launchpad name
      of its owner (column AR), read with `lpNames`. */
  function Owners(platformColumn: seq<string>, ownerColumn: seq<string>, lpNames: map<string, string>)
    : map<string, string>
  {
    var rows := Rows(platformColumn, ownerColumn);
    OwnersUpTo(rows, lpNames, |rows|)
  }

  /** The last of the first `n` rows that is usable and names `p`. */
  function LastRow(rows: seq<(string, string)>, lpNames: map<string, string>, p: string, n: nat): Option<nat>
    requires n <= |rows|
  {
    if n == 0 then None
    else if Usable(rows[n - 1], lpNames) && rows[n - 1].0 == p then Some(n - 1)
    else LastRow(rows, lpNames, p, n - 1)
  }

  lemma {:induction false} LastRowIsLast(rows: seq<(string, string)>, lpNames: map<string, string>, p: string, n: nat)
    requires n <= |rows|
    ensures var r := LastRow(rows, lpNames, p, n);
      && (r.None? <==> forall k | 0 <= k < n :: !(Usable(rows[k], lpNames) && rows[k].0 == p))
      && (r.Some? ==> r.value < n && Usable(rows[r.value], lpNames) && rows[r.value].0 == p
                      && forall j | r.value < j < n :: !(Usable(rows[j], lpNames) && rows[j].0 == p))
  {
    if n > 0 && !(Usable(rows[n - 1], lpNames) && rows[n - 1].0 == p) {
      LastRowIsLast(rows, lpNames, p, n - 1);
    }
  }

  lemma {:induction false} OwnersUpToLast(rows: seq<(string, string)>, lpNames: map<string, string>, p: string, n: nat)
    requires n <= |rows|
    ensures var r := LastRow(rows, lpNames, p, n);
      && (p in OwnersUpTo(rows, lpNames, n) <==> r.Some?)
      && (r.Some? ==> r.value < |rows| && rows[r.value].1 in lpNames
                      && OwnersUpTo(rows, lpNames, n)[p] == lpNames[rows[r.value].1])
  {
    if n > 0 {
      OwnersUpToLast(rows, lpNames, p, n - 1);
    }
  }

  /** A platform has an owner exactly when a usable row (one with an owner
      that has a Launchpad name, and a platform) names it, and the owner is
      the one of the last such row. */
  lemma OwnersMeaning(platformColumn: seq<string>, ownerColumn: seq<string>, lpNames: map<string, string>,
                      p: string)
    ensures var rows := Rows(platformColumn, ownerColumn);
      var m := Owners(platformColumn, ownerColumn, lpNames);
      && (p in m <==> exists k | 0 <= k < |rows| :: Usable(rows[k], lpNames) && rows[k].0 == p)
      && (p in m ==> exists k | 0 <= k < |rows| ::
            && Usable(rows[k], lpNames) && rows[k].0 == p && m[p] == lpNames[rows[k].1]
            && forall j | k < j < |rows| :: !(Usable(rows[j], lpNames) && rows[j].0 == p))
  {
    var rows := Rows(platformColumn, ownerColumn);
    LastRowIsLast(rows, lpNames, p, |rows|);
    OwnersUpToLast(rows, lpNames, p, |rows|);
  }
}

=== FILE: odm_sync_legacy.dfy ===
/** The first ODM bug-sync tool (`sync-odm-bugs.py`). Verified bugs of the
    ODM projects are copied into the umbrella project as
    `[ODM bug] <title>` unless an umbrella bug's title already contains
    theirs; then comments are copied both ways between each ODM bug and the
    umbrella bug titled exactly `[ODM bug] <title>`. The bug database is
    given as values: the ODM bugs in database order and the umbrella
    project's title table. Launchpad's state is the messages of each bug by
    number; the bugs Launchpad creates are an input. */
module OdmSyncLegacy {
  import opened Wrappers
  import opened Text
  import OdmSync

  // ---- `verify_bug` ----

  const NoQMetryNote := "Missing QMetry info in the title"
  const NoCheckboxNote := "Bug report isn't tagged with 'checkbox'"

  /** What `verify_bug` did: its answer, the comments it posted (no header
      here) and the statuses it saved, in order. */
  datatype Check = Check(passed: bool, comments: seq<string>, statuses: seq<string>)

  /** `verify_bug` on the facts it looks at. The staleness complaint
      replaces the QMetry one; a missing `checkbox` tag is a second one. */
  function Judge(qmetry: bool, stale: bool, checkbox: bool): Check {
    var c := if stale then OdmSync.StaleNote else if !qmetry then NoQMetryNote else "";
    var first := if c != "" then Check(false, [c], ["Invalid"]) else Check(true, [], []);
    if !checkbox then Check(false, first.comments + [NoCheckboxNote], first.statuses + ["Invalid"])
    else first
  }

  /** `SyncTool.verify_bug`: `age` is the whole days since the bug was
      last updated (`timedelta.days`). A bug passes exactly when its title
      carries a QMetry tag, it is at most 14 days old and it is tagged
      `checkbox`; every complaint is posted and sets the bug Invalid. */
  function VerifyBug(title: string, tags: seq<string>, age: int): (r: Check)
    ensures r.passed <==> OdmSync.QMetry(title) && age <= 14 && "checkbox" in tags
    ensures r.passed <==> r.comments == []
    ensures |r.statuses| == |r.comments|
    ensures forall k | 0 <= k < |r.statuses| :: r.statuses[k] == "Invalid"
    ensures |r.comments| == (if age > 14 || !OdmSync.QMetry(title) then 1 else 0)
                            + (if "checkbox" in tags then 0 else 1)
    ensures age > 14 ==> r.comments[0] == OdmSync.StaleNote
    ensures age <= 14 && !OdmSync.QMetry(title) ==> r.comments[0] == NoQMetryNote
    ensures "checkbox" !in tags ==> r.comments[|r.comments| - 1] == NoCheckboxNote
  {
    Judge(OdmSync.QMetry(title), age > 14, "checkbox" in tags)
  }

  // ---- the umbrella table ----

  /** An entry of `bug_db['somerville']`: a title and the bug's number,
      which is all the tool reads of an umbrella bug. */
  datatype Entry = Entry(title: string, id: nat)

  /** The position of the entry titled `key`, searching from `i`. */
  function Find(us: seq<Entry>, key: string, i: nat): (r: Option<nat>)
    requires i <= |us|
    ensures r.Some? ==> i <= r.value < |us| && us[r.value].title == key
    decreases |us| - i
  {
    if i == |us| then None
    else if us[i].title == key then Some(i)
    else Find(us, key, i + 1)
  }

  predicate HasKey(us: seq<Entry>, key: string) {
    exists j | 0 <= j < |us| :: us[j].title == key
  }

  /** `bug_db[...][title] = bug`: a title already there keeps its place
      and takes the new bug; a new title is appended. */
  function Add(us: seq<Entry>, e: Entry): seq<Entry> {
    match Find(us, e.title, 0)
    case Some(j) => us[j := e]
    case None => us + [e]
  }

  lemma {:induction false} FindMeaning(us: seq<Entry>, key: string, i: nat)
    requires i <= |us|
    ensures Find(us, key, i).None? <==> forall j | i <= j < |us| :: us[j].title != key
    decreases |us| - i
  {
    if i < |us| && us[i].title != key {
      FindMeaning(us, key, i + 1);
    }
  }

  /** Adding keeps every title and adds the new one. */
  lemma AddKeeps(us: seq<Entry>, e: Entry)
    ensures HasKey(Add(us, e), e.title)
    ensures forall key | HasKey(us, key) :: HasKey(Add(us, e), key)
  {
    var r := Add(us, e);
    match Find(us, e.title, 0)
    case Some(j) =>
      assert r[j].title == e.title;
      forall key | HasKey(us, key)
        ensures HasKey(r, key)
      {
        var k :| 0 <= k < |us| && us[k].title == key;
        assert r[k].title == key;
      }
    case None =>
      assert r[|us|].title == e.title;
      forall key | HasKey(us, key)
        ensures HasKey(r, key)
      {
        var k :| 0 <= k < |us| && us[k].title == key;
        assert r[k].title == key;
      }
  }

  // ---- `sync` ----

  /** The run's state: the umbrella table, every bug's messages by number,
      the umbrella bugs filed so far, and whether a lookup raised. */
  datatype State = State(umbrella: seq<Entry>, msgs: map<nat, seq<string>>, filings: seq<OdmSync.Filing>,
                         raised: bool)

  /** A bug's messages, the first being its description. */
  function Messages(msgs: map<nat, seq<string>>, id: nat): seq<string> {
    if id in msgs then msgs[id] else []
  }

  /** `add_comment`: a new message at the end of the bug's messages. */
  function Post(msgs: map<nat, seq<string>>, id: nat, text: string): (r: map<nat, seq<string>>)
    ensures Messages(r, id) == Messages(msgs, id) + [text]
    ensures forall other | other != id :: Messages(r, other) == Messages(msgs, other)
  {
    msgs[id := Messages(msgs, id) + [text]]
  }

  /** Some umbrella title contains `title` as a substring
      (`bug_title in umb_bug_title`). */
  predicate Covered(umbrella: seq<Entry>, title: string) {
    exists j | 0 <= j < |umbrella| :: Contains(umbrella[j].title, title)
  }

  /** The comment left on the ODM bug once its umbrella bug is filed. */
  function FiledNote(link: string): string {
    "Bug filed in " + OdmSync.UmbrellaProject + ". See " + link + " for details"
  }

  /** One ODM bug in `sync`: nothing when it is covered; otherwise
      `owners[proj]` raises for a project without an owner, and else the
      umbrella bug is filed (Launchpad gives it number and link `created`,
      its description as first message) and the ODM bug is told where.
      `register` says whether the new bug enters the umbrella table, which
      the script as written never does. */
  function Step(t: State, b: OdmSync.OdmBug, created: OdmSync.NewBug, owners: map<string, string>,
                register: bool): (r: State)
    ensures |r.filings| <= |t.filings| + 1
  {
    if Covered(t.umbrella, b.bug.title) then t
    else if b.project !in owners then t.(raised := true)
    else
      var title := OdmSync.Prefix + b.bug.title;
      var f := OdmSync.FileBug(OdmSync.UmbrellaProject, title, b.bug.description, b.bug.task.status,
                               b.bug.tags + [b.project], owners[b.project]);
      var msgs := Post(t.msgs[created.id := [b.bug.description]], b.bug.id, FiledNote(created.webLink));
      t.(umbrella := if register then Add(t.umbrella, Entry(title, created.id)) else t.umbrella,
         msgs := msgs, filings := t.filings + [f])
  }

  /** `SyncTool.sync` from the `i`-th ODM bug on; the next filing gets the
      next bug of `created`. */
  function SyncFrom(odm: seq<OdmSync.OdmBug>, i: nat, t: State, created: seq<OdmSync.NewBug>,
                    owners: map<string, string>, register: bool): State
    requires i <= |odm| && |t.filings| + (|odm| - i) <= |created|
    decreases |odm| - i
  {
    if i == |odm| || t.raised then t
    else SyncFrom(odm, i + 1, Step(t, odm[i], created[|t.filings|], owners, register), created, owners, register)
  }

  /** What one ODM bug does in `sync`: it is filed exactly when no
      umbrella title contains its title and its project has an owner, and
      the run raises when its project has none. A filing is
      `[ODM bug] <title>` with the ODM bug's description and status, its
      tags plus the project, and the owner as assignee when not empty; the
      new bug holds the description, the ODM bug gets the note, and no
      other bug's messages change. */
  lemma StepFiles(t: State, b: OdmSync.OdmBug, created: OdmSync.NewBug, owners: map<string, string>,
                  register: bool)
    ensures var r := Step(t, b, created, owners, register);
      && (|r.filings| == |t.filings| + 1 <==> !Covered(t.umbrella, b.bug.title) && b.project in owners)
      && (r.raised <==> t.raised || (!Covered(t.umbrella, b.bug.title) && b.project !in owners))
      && (|r.filings| == |t.filings| ==> r.umbrella == t.umbrella && r.msgs == t.msgs)
      && (|r.filings| == |t.filings| + 1 ==>
            && r.filings[..|t.filings|] == t.filings
            && var f := r.filings[|t.filings|];
            && f.project == OdmSync.UmbrellaProject
            && f.title == OdmSync.Prefix + b.bug.title
            && f.description == b.bug.description && f.status == b.bug.task.status
            && f.tags == b.bug.tags + [b.project]
            && (f.assignee.Some? <==> owners[b.project] != "")
            && (f.assignee.Some? ==> f.assignee.value == owners[b.project])
            && Messages(r.msgs, b.bug.id)[|Messages(r.msgs, b.bug.id)| - 1] == FiledNote(created.webLink)
            && (created.id != b.bug.id ==>
                  && Messages(r.msgs, created.id) == [b.bug.description]
                  && Messages(r.msgs, b.bug.id) == Messages(t.msgs, b.bug.id) + [FiledNote(created.webLink)])
            && (forall id | id != b.bug.id && id != created.id :: Messages(r.msgs, id) == Messages(t.msgs, id))
            && (!register ==> r.umbrella == t.umbrella)
            && (register ==> HasKey(r.umbrella, f.title)))
  {
    var r := Step(t, b, created, owners, register);
    if !Covered(t.umbrella, b.bug.title) && b.project in owners && register {
      AddKeeps(t.umbrella, Entry(OdmSync.Prefix + b.bug.title, created.id));
    }
  }

  /** As written, `sync` never changes the umbrella table. */
  lemma {:induction false} SyncFromUnchanged(odm: seq<OdmSync.OdmBug>, i: nat, t: State, created: seq<OdmSync.NewBug>,
                                             owners: map<string, string>)
    requires i <= |odm| && |t.filings| + (|odm| - i) <= |created|
    ensures SyncFrom(odm, i, t, created, owners, false).umbrella == t.umbrella
    decreases |odm| - i
  {
    if i < |odm| && !t.raised {
      SyncFromUnchanged(odm, i + 1, Step(t, odm[i], created[|t.filings|], owners, false), created, owners);
    }
  }

  /** As written, `sync` raises exactly when some ODM bug needs filing
      (no umbrella title contains its title) and its project has no
      owner. */
  lemma {:induction false} SyncFromRaises(odm: seq<OdmSync.OdmBug>, i: nat, t: State, created: seq<OdmSync.NewBug>,
                                          owners: map<string, string>)
    requires i <= |odm| && |t.filings| + (|odm| - i) <= |created|
    requires !t.raised
    ensures SyncFrom(odm, i, t, created, owners, false).raised <==>
      exists k | i <= k < |odm| :: !Covered(t.umbrella, odm[k].bug.title) && odm[k].project !in owners
    decreases |odm| - i
  {
    if i < |odm| {
      var s := Step(t, odm[i], created[|t.filings|], owners, false);
      if !s.raised {
        assert s.umbrella == t.umbrella;
        SyncFromRaises(odm, i + 1, s, created, owners);
      }
    }
  }

  /** With registration, `sync` keeps every umbrella title and every bug
      it files enters the table under the filed title. */
  lemma {:induction false} SyncFromRegisters(odm: seq<OdmSync.OdmBug>, i: nat, t: State, created: seq<OdmSync.NewBug>,
                                             owners: map<string, string>)
    requires i <= |odm| && |t.filings| + (|odm| - i) <= |created|
    requires forall m | 0 <= m < |t.filings| :: HasKey(t.umbrella, t.filings[m].title)
    ensures var r := SyncFrom(odm, i, t, created, owners, true);
      && (forall key | HasKey(t.umbrella, key) :: HasKey(r.umbrella, key))
      && (forall m | 0 <= m < |r.filings| :: HasKey(r.umbrella, r.filings[m].title))
    decreases |odm| - i
  {
    if i < |odm| && !t.raised {
      var s := Step(t, odm[i], created[|t.filings|], owners, true);
      StepKeeps(t, odm[i], created[|t.filings|], owners);
      SyncFromRegisters(odm, i + 1, s, created, owners);
      assert SyncFrom(odm, i, t, created, owners, true) == SyncFrom(odm, i + 1, s, created, owners, true);
    }
  }

  lemma StepKeeps(t: State, b: OdmSync.OdmBug, created: OdmSync.NewBug, owners: map<string, string>)
    requires forall m | 0 <= m < |t.filings| :: HasKey(t.umbrella, t.filings[m].title)
    ensures var s := Step(t, b, created, owners, true);
      && (forall key | HasKey(t.umbrella, key) :: HasKey(s.umbrella, key))
      && (forall m | 0 <= m < |s.filings| :: HasKey(s.umbrella, s.filings[m].title))
  {
    var s := Step(t, b, created, owners, true);
    if !Covered(t.umbrella, b.bug.title) && b.project in owners {
      AddKeeps(t.umbrella, Entry(OdmSync.Prefix + b.bug.title, created.id));
      assert s.filings[|t.filings|].title == OdmSync.Prefix + b.bug.title;
    }
  }

  // ---- `sync_comments` ----

  /** Comments between the ODM bug `a` and the umbrella bug `u`: each side
      gets the other's comments it lacks, both lists read before posting,
      with no comment left out. */
  function CommentStep(msgs: map<nat, seq<string>>, a: nat, u: nat): map<nat, seq<string>> {
    var (a2, u2) := OdmSync.Exchange(Messages(msgs, a), Messages(msgs, u), false);
    msgs[u := u2][a := a2]
  }

  /** The umbrella title an ODM bug is looked up by. */
  function Key(b: OdmSync.OdmBug): string {
    OdmSync.Prefix + b.bug.title
  }

  /** One ODM bug in `sync_comments`: the umbrella bug is looked up by
      `[ODM bug] ` plus the ODM title, and a missing one raises (`None`). */
  function CommentOne(us: seq<Entry>, msgs: map<nat, seq<string>>, b: OdmSync.OdmBug)
    : (r: Option<map<nat, seq<string>>>)
    ensures r.None? <==> !HasKey(us, Key(b))
  {
    FindMeaning(us, Key(b), 0);
    match Find(us, Key(b), 0)
    case None => None
    case Some(j) => Some(CommentStep(msgs, b.bug.id, us[j].id))
  }

  /** `SyncTool.sync_comments` from the `i`-th ODM bug on, over the
      umbrella table `us`: the messages afterwards, or `None` when a
      lookup raised. */
  function CommentsFrom(odm: seq<OdmSync.OdmBug>, i: nat, us: seq<Entry>, msgs: map<nat, seq<string>>)
    : Option<map<nat, seq<string>>>
    requires i <= |odm|
    decreases |odm| - i
  {
    if i == |odm| then Some(msgs)
    else match CommentOne(us, msgs, odm[i])
      case None => None
      case Some(m) => CommentsFrom(odm, i + 1, us, m)
  }

  /** One side of the exchange: the messages kept, followed by the other
      side's comments this side lacked. */
  lemma CopiesAppended(ma: seq<string>, mu: seq<string>)
    requires |ma| > 0
    ensures var to := OdmSync.Copies(mu, ma, false);
      && (ma + to)[..|ma|] == ma && (ma + to)[|ma|..] == to
      && OdmSync.Comments(ma + to) == OdmSync.Comments(ma) + to
      && (forall c :: c in to <==> c in OdmSync.Comments(mu) && c !in OdmSync.Comments(ma))
  {
    var to := OdmSync.Copies(mu, ma, false);
    OdmSync.AbsentMeaning(OdmSync.Comments(mu), OdmSync.Comments(ma), false);
    assert (ma + to)[1..] == ma[1..] + to;
  }

  /** After the exchange (with no comment skipped) both message lists hold
      the same comments; each side keeps its messages and gets exactly the
      other side's comments it lacked. */
  lemma ExchangeEqualizes(ma: seq<string>, mu: seq<string>)
    requires |ma| > 0 && |mu| > 0
    ensures var (a2, u2) := OdmSync.Exchange(ma, mu, false);
      && (forall c :: c in OdmSync.Comments(a2) <==> c in OdmSync.Comments(u2))
      && |ma| <= |a2| && a2[..|ma|] == ma
      && |mu| <= |u2| && u2[..|mu|] == mu
      && (forall c :: c in u2[|mu|..] <==> c in OdmSync.Comments(ma) && c !in OdmSync.Comments(mu))
      && (forall c :: c in a2[|ma|..] <==> c in OdmSync.Comments(mu) && c !in OdmSync.Comments(ma))
  {
    var toA := OdmSync.Copies(mu, ma, false);
    var toU := OdmSync.Copies(ma, mu, false);
    assert OdmSync.Exchange(ma, mu, false) == (ma + toA, mu + toU);
    CopiesAppended(ma, mu);
    CopiesAppended(mu, ma);
  }

  /** One ODM bug's comment sync: afterwards it and its umbrella bug hold
      the same comments, each keeps its messages and gets exactly the
      other's comments it lacked; no other bug changes. */
  lemma CommentStepSettles(msgs: map<nat, seq<string>>, a: nat, u: nat)
    requires a != u && |Messages(msgs, a)| > 0 && |Messages(msgs, u)| > 0
    ensures var m := CommentStep(msgs, a, u);
      && (forall c :: c in OdmSync.Comments(Messages(m, a)) <==> c in OdmSync.Comments(Messages(m, u)))
      && |Messages(msgs, u)| <= |Messages(m, u)| && Messages(m, u)[..|Messages(msgs, u)|] == Messages(msgs, u)
      && |Messages(msgs, a)| <= |Messages(m, a)| && Messages(m, a)[..|Messages(msgs, a)|] == Messages(msgs, a)
      && (forall c :: c in Messages(m, u)[|Messages(msgs, u)|..] <==>
            c in OdmSync.Comments(Messages(msgs, a)) && c !in OdmSync.Comments(Messages(msgs, u)))
      && (forall c :: c in Messages(m, a)[|Messages(msgs, a)|..] <==>
            c in OdmSync.Comments(Messages(msgs, u)) && c !in OdmSync.Comments(Messages(msgs, a)))
      && (forall id | id != a && id != u :: Messages(m, id) == Messages(msgs, id))
  {
    var (a2, u2) := OdmSync.Exchange(Messages(msgs, a), Messages(msgs, u), false);
    ExchangeEqualizes(Messages(msgs, a), Messages(msgs, u));
    var m := CommentStep(msgs, a, u);
    assert Messages(m, a) == a2 && Messages(m, u) == u2;
  }

  /** `sync_comments` raises exactly when some ODM bug has no umbrella bug
      titled `[ODM bug] <title>`. */
  lemma {:induction false} CommentsFromRaises(odm: seq<OdmSync.OdmBug>, i: nat, us: seq<Entry>,
                                              msgs: map<nat, seq<string>>)
    requires i <= |odm|
    ensures CommentsFrom(odm, i, us, msgs).None? <==> exists k | i <= k < |odm| :: !HasKey(us, Key(odm[k]))
    decreases |odm| - i
  {
    if i < |odm| {
      match CommentOne(us, msgs, odm[i])
      case None =>
      case Some(m) => CommentsFromRaises(odm, i + 1, us, m);
    }
  }

  // ---- `main` after the searches ----

  /** `sync` then `sync_comments` over the verified ODM bugs `odm` (in
      database order) and the umbrella table; `msgs` is Launchpad's
      messages; `register` says whether filed bugs enter the table. */
  function Run(odm: seq<OdmSync.OdmBug>, umbrella: seq<Entry>, msgs: map<nat, seq<string>>,
               created: seq<OdmSync.NewBug>, owners: map<string, string>, register: bool): State
    requires |odm| <= |created|
  {
    var s := SyncFrom(odm, 0, State(umbrella, msgs, [], false), created, owners, register);
    if s.raised then s
    else match CommentsFrom(odm, 0, s.umbrella, s.msgs)
      case None => s.(raised := true)
      case Some(m) => s.(msgs := m)
  }

  /** The script as written: a filed umbrella bug never enters the table. */
  function MainAsWritten(odm: seq<OdmSync.OdmBug>, umbrella: seq<Entry>, msgs: map<nat, seq<string>>,
                         created: seq<OdmSync.NewBug>, owners: map<string, string>): State
    requires |odm| <= |created|
  {
    Run(odm, umbrella, msgs, created, owners, false)
  }

  /** The evidently intended run: each filed umbrella bug is added to the
      table (`add_bug_to_db`) under its title. */
  function Main(odm: seq<OdmSync.OdmBug>, umbrella: seq<Entry>, msgs: map<nat, seq<string>>,
                created: seq<OdmSync.NewBug>, owners: map<string, string>): State
    requires |odm| <= |created|
  {
    Run(odm, umbrella, msgs, created, owners, true)
  }

  lemma PrefixedContains(p: string, t: string)
    ensures Contains(p + t, t)
  {
    assert OccursAt(p + t, t, |p|);
  }

  /** A title no umbrella title contains is not in the table prefixed
      either, since `[ODM bug] <title>` contains `<title>`. */
  lemma UncoveredUnkeyed(umbrella: seq<Entry>, title: string)
    requires !Covered(umbrella, title)
    ensures !HasKey(umbrella, OdmSync.Prefix + title)
  {
    PrefixedContains(OdmSync.Prefix, title);
    forall j | 0 <= j < |umbrella|
      ensures umbrella[j].title != OdmSync.Prefix + title
    {
      assert !Contains(umbrella[j].title, title);
    }
  }

  /** As written, any verified ODM bug that no umbrella title contains
      makes the run raise: either `sync` lacks its project's owner, or it
      files the umbrella bug without recording it and `sync_comments` then
      fails to find `[ODM bug] <title>`. */
  lemma MainAsWrittenRaises(odm: seq<OdmSync.OdmBug>, umbrella: seq<Entry>, msgs: map<nat, seq<string>>,
                            created: seq<OdmSync.NewBug>, owners: map<string, string>, k: nat)
    requires |odm| <= |created|
    requires k < |odm| && !Covered(umbrella, odm[k].bug.title)
    ensures MainAsWritten(odm, umbrella, msgs, created, owners).raised
  {
    var t0 := State(umbrella, msgs, [], false);
    var s := SyncFrom(odm, 0, t0, created, owners, false);
    if !s.raised {
      SyncFromUnchanged(odm, 0, t0, created, owners);
      UncoveredUnkeyed(umbrella, odm[k].bug.title);
      CommentsFromRaises(odm, 0, s.umbrella, s.msgs);
    }
  }

  /** With registration, a run whose `sync` does not raise reaches every
      ODM bug's umbrella bug when each ODM bug's prefixed title was either
      in the table already or filed in this run. */
  lemma MainFindsFiled(odm: seq<OdmSync.OdmBug>, umbrella: seq<Entry>, msgs: map<nat, seq<string>>,
                       created: seq<OdmSync.NewBug>, owners: map<string, string>)
    requires |odm| <= |created|
    requires var s := SyncFrom(odm, 0, State(umbrella, msgs, [], false), created, owners, true);
      && !s.raised
      && forall k | 0 <= k < |odm| ::
           HasKey(umbrella, Key(odm[k]))
           || exists m | 0 <= m < |s.filings| :: s.filings[m].title == Key(odm[k])
    ensures !Main(odm, umbrella, msgs, created, owners).raised
  {
    var t0 := State(umbrella, msgs, [], false);
    var s := SyncFrom(odm, 0, t0, created, owners, true);
    SyncFromRegisters(odm, 0, t0, created, owners);
    forall k | 0 <= k < |odm|
      ensures HasKey(s.umbrella, Key(odm[k]))
    {
      if !HasKey(umbrella, Key(odm[k])) {
        var m :| 0 <= m < |s.filings| && s.filings[m].title == Key(odm[k]);
        assert HasKey(s.umbrella, s.filings[m].title);
      }
    }
    CommentsFromRaises(odm, 0, s.umbrella, s.msgs);
  }

  /** The smallest case: one verified ODM bug whose project has an owner
      and whose title no umbrella title contains. The script as written
      raises; the intended run files the umbrella bug and syncs its
      comments. */
  lemma OneNewBug(b: OdmSync.OdmBug, umbrella: seq<Entry>, msgs: map<nat, seq<string>>,
                  created: OdmSync.NewBug, owners: map<string, string>)
    requires b.project in owners && !Covered(umbrella, b.bug.title)
    ensures MainAsWritten([b], umbrella, msgs, [created], owners).raised
    ensures !Main([b], umbrella, msgs, [created], owners).raised
  {
    MainAsWrittenRaises([b], umbrella, msgs, [created], owners, 0);
    var t0 := State(umbrella, msgs, [], false);
    var s1 := Step(t0, b, created, owners, true);
    StepFiles(t0, b, created, owners, true);
    assert SyncFrom([b], 0, t0, [created], owners, true) == SyncFrom([b], 1, s1, [created], owners, true);
    assert s1.filings[0].title == OdmSync.Prefix + b.bug.title;
    MainFindsFiled([b], umbrella, msgs, [created], owners);
  }
}

=== FILE: ppa.dfy ===
/** `add_private_ppa.py`: installing a private PPA as a credentials file and
    a sources-list file named after the PPA, never replacing existing files.
    The file system is a map from path to contents; running `apt-key` and
    `lsb_release` are inputs. */
module PrivatePpa {
  import opened Wrappers
  import opened Text
  import opened Decimal

  /** The characters `slugify_name` replaces with a dash, in the order it
      replaces them. */
  const UnsafeOrder: seq<char> := ['/', '\\', ':', '*', '?', '"', '<', '>', '|', ' ']

  const Unsafe: set<char> := {'/', '\\', ':', '*', '?', '"', '<', '>', '|', ' '}

  /** One `str.replace(c, '-')` per character of `cs`, in order. */
  function ReplaceEach(s: string, cs: seq<char>): (r: string)
    ensures |r| == |s|
    ensures forall i | 0 <= i < |s| :: r[i] == if s[i] in cs then '-' else s[i]
    decreases |cs|
  {
    if |cs| == 0 then s
    else
      var s1 := Replace(s, [cs[0]], "-");
      ReplaceCharPointwise(s, cs[0], '-');
      assert cs == [cs[0]] + cs[1..];
      ReplaceEach(s1, cs[1..])
  }

  /** `slugify_name(name)`: ten `str.replace` calls, one per unsafe character. */
  function Slugify(name: string): (r: string)
    ensures |r| == |name|
    ensures forall i | 0 <= i < |name| :: r[i] == if name[i] in Unsafe then '-' else name[i]
  {
    ReplaceEach(name, UnsafeOrder)
  }

  /** A slug holds no unsafe character, and slugifying it again changes
      nothing. */
  lemma SlugifyIdempotent(name: string)
    ensures forall i | 0 <= i < |Slugify(name)| :: Slugify(name)[i] !in Unsafe
    ensures Slugify(Slugify(name)) == Slugify(name)
  {
    var r := Slugify(name);
    forall i | 0 <= i < |r| ensures r[i] !in Unsafe {
      if name[i] in Unsafe {
        DashSafe();
      }
    }
    SlugifySafe(r);
  }

  lemma DashSafe()
    ensures '-' !in Unsafe
  {
  }

  /** A name without unsafe characters is its own slug. */
  lemma SlugifySafe(name: string)
    requires forall i | 0 <= i < |name| :: name[i] !in Unsafe
    ensures Slugify(name) == name
  {
  }

  // ---- `urlparse(url).path`, as Python 3.12 computes it, for the parts the
  // installer depends on ----

  /** A C0 control character or a space: what `urlsplit` strips from the
      front of a URL. */
  predicate Blank(c: char) {
    c <= ' '
  }

  /** Tab, carriage return and line feed: what `urlsplit` removes wherever
      they occur. */
  predicate Removed(c: char) {
    c == '\t' || c == '\r' || c == '\n'
  }

  /** `s.lstrip(...)` of the C0 controls and the space. */
  function StripBlanks(s: string): (r: string)
    ensures |r| <= |s| && r == s[|s| - |r|..]
    ensures forall k | 0 <= k < |s| - |r| :: Blank(s[k])
    ensures r == [] || !Blank(r[0])
  {
    if |s| > 0 && Blank(s[0]) then StripBlanks(s[1..]) else s
  }

  /** The characters of `s` that are not `Removed`, in order. */
  function DropRemoved(s: string): (r: string)
    ensures forall k | 0 <= k < |r| :: !Removed(r[k])
    ensures (forall k | 0 <= k < |s| :: !Removed(s[k])) ==> r == s
  {
    if |s| == 0 then []
    else if Removed(s[0]) then DropRemoved(s[1..])
    else [s[0]] + DropRemoved(s[1..])
  }

  /** Dropping characters piece by piece is dropping them from the whole. */
  lemma {:induction false} DropRemovedConcat(a: string, b: string)
    ensures DropRemoved(a + b) == DropRemoved(a) + DropRemoved(b)
    decreases |a|
  {
    if |a| > 0 {
      assert (a + b)[1..] == a[1..] + b;
      DropRemovedConcat(a[1..], b);
    } else {
      assert a + b == b;
    }
  }

  /** The text `urlsplit` goes on to parse: the leading C0 controls and
      spaces stripped, then every tab, carriage return and line feed
      removed. */
  function Clean(url: string): (r: string)
    ensures r == [] <==> StripBlanks(url) == []
    ensures r != [] ==> r[0] == StripBlanks(url)[0]
    ensures forall k | 0 <= k < |r| :: !Removed(r[k])
    ensures (url == [] || !Blank(url[0])) && (forall k | 0 <= k < |url| :: !Removed(url[k])) ==> r == url
  {
    DropRemoved(StripBlanks(url))
  }

  /** Dropping characters adds none. */
  lemma {:induction false} DropRemovedAbsent(s: string, c: char)
    requires c !in s
    ensures c !in DropRemoved(s)
    decreases |s|
  {
    if |s| > 0 {
      assert c !in s[1..] by { assert forall k | 0 <= k < |s| - 1 :: s[1..][k] == s[k + 1]; }
      DropRemovedAbsent(s[1..], c);
    }
  }

  /** Cleaning adds no character. */
  lemma CleanAbsent(url: string, c: char)
    requires c !in url
    ensures c !in Clean(url)
  {
    var t := StripBlanks(url);
    assert c !in t by { assert forall k | 0 <= k < |t| :: t[k] == url[|url| - |t| + k]; }
    DropRemovedAbsent(t, c);
  }

  /** Cleaning a clean URL changes nothing. */
  lemma CleanIdempotent(url: string)
    ensures Clean(Clean(url)) == Clean(url)
  {
  }

  /** Blanks in front of a URL are ignored. */
  lemma {:induction false} CleanSkipsLeadingBlanks(pad: string, url: string)
    requires forall k | 0 <= k < |pad| :: Blank(pad[k])
    ensures Clean(pad + url) == Clean(url)
    decreases |pad|
  {
    if |pad| > 0 {
      assert (pad + url)[1..] == pad[1..] + url;
      CleanSkipsLeadingBlanks(pad[1..], url);
    } else {
      assert pad + url == url;
    }
  }

  /** A tab, carriage return or line feed after the first character is
      ignored. */
  lemma CleanSkipsRemoved(a: string, c: char, b: string)
    requires |a| > 0 && !Blank(a[0]) && Removed(c)
    ensures Clean(a + [c] + b) == Clean(a + b)
  {
    var cb := [c] + b;
    assert a + [c] + b == a + cb;
    assert (a + cb)[0] == a[0] && (a + b)[0] == a[0];
    assert StripBlanks(a + cb) == a + cb;
    assert StripBlanks(a + b) == a + b;
    DropRemovedConcat(a, cb);
    DropRemovedConcat(a, b);
    assert cb[0] == c && cb[1..] == b;
    assert DropRemoved(cb) == DropRemoved(b);
  }

  predicate SchemeChar(c: char) {
    ('a' <= c <= 'z') || ('A' <= c <= 'Z') || ('0' <= c <= '9') || c in {'+', '-', '.'}
  }

  predicate ValidScheme(s: string) {
    |s| > 0 && (('a' <= s[0] <= 'z') || ('A' <= s[0] <= 'Z')) && forall i | 0 <= i < |s| :: SchemeChar(s[i])
  }

  /** The schemes whose last path segment may carry `;params`. */
  const UsesParams: set<string> := {"", "ftp", "hdl", "prospero", "http", "imap", "https", "shttp",
                                    "rtsp", "rtsps", "rtspu", "sip", "sips", "mms", "sftp", "tel"}

  /** The scheme (lower-cased) and the rest: a scheme is the text before the
      first `:` when it is a letter followed by scheme characters. */
  function SplitScheme(url: string): (r: (string, string))
    ensures ':' !in url ==> r == ("", url)
  {
    if ':' !in url then ("", url)
    else
      var i := IndexOfChar(url, ':');
      if i > 0 && ValidScheme(url[..i]) then (Lower(url[..i]), url[i + 1..]) else ("", url)
  }

  /** Where the network location starting at `i` ends: the first `/`, `?`
      or `#` from `i`, else the end. */
  function NetlocEnd(s: string, i: nat): (j: nat)
    requires i <= |s|
    ensures i <= j <= |s|
    ensures j < |s| ==> s[j] in {'/', '?', '#'}
    ensures forall k | i <= k < j :: s[k] !in {'/', '?', '#'}
    decreases |s| - i
  {
    if i == |s| || s[i] in {'/', '?', '#'} then i else NetlocEnd(s, i + 1)
  }

  /** A network location with a `[` but no `]`, or the reverse, makes
      `urlsplit` raise `ValueError`. */
  predicate Balanced(netloc: string) {
    ('[' in netloc) == (']' in netloc)
  }

  /** The text before the first `c`, all of it when there is none. */
  function Before(s: string, c: char): (r: string)
    ensures r <= s && c !in r
    ensures c !in s ==> r == s
  {
    if c in s then s[..IndexOfChar(s, c)] else s
  }

  /** The index of the first `c` at or after `i`, if any. */
  function IndexOfCharFrom(s: string, c: char, i: nat): (r: Option<nat>)
    requires i <= |s|
    ensures r.Some? ==> i <= r.value < |s| && s[r.value] == c
    ensures r.None? <==> forall k | i <= k < |s| :: s[k] != c
    decreases |s| - i
  {
    if i == |s| then None else if s[i] == c then Some(i) else IndexOfCharFrom(s, c, i + 1)
  }

  /** The index of the last `c`, if any. */
  function LastIndexOfChar(s: string, c: char): (r: Option<nat>)
    ensures r.Some? ==> r.value < |s| && s[r.value] == c
    ensures r.None? <==> c !in s
    decreases |s|
  {
    if |s| == 0 then None
    else if s[|s| - 1] == c then Some(|s| - 1)
    else
      var r := LastIndexOfChar(s[..|s| - 1], c);
      assert s == s[..|s| - 1] + [s[|s| - 1]];
      r
  }

  /** The path without the `;params` of its last segment. */
  function WithoutParams(path: string): (r: string)
    ensures r <= path
    ensures ';' !in path ==> r == path
  {
    if ';' !in path then path
    else match LastIndexOfChar(path, '/')
      case Some(slash) =>
        (match IndexOfCharFrom(path, ';', slash)
         case Some(k) => path[..k]
         case None => path)
      case None => path[..IndexOfChar(path, ';')]
  }

  /** The path of what follows the scheme: the network location after a
      leading `//` goes, and so do the fragment, the query and, for schemes
      that use them, the parameters; `None` stands for the `ValueError` of
      an unbalanced network location. */
  function PathOf(scheme: string, rest: string): (r: Option<string>)
    ensures r.None? <==> StartsWith(rest, "//") && !Balanced(rest[2..NetlocEnd(rest, 2)])
    ensures !StartsWith(rest, "//") ==> r.Some? && r.value <= rest
  {
    if StartsWith(rest, "//") && !Balanced(rest[2..NetlocEnd(rest, 2)]) then None
    else
      var afterNetloc := if StartsWith(rest, "//") then rest[NetlocEnd(rest, 2)..] else rest;
      Some(Params(scheme, Before(Before(afterNetloc, '#'), '?')))
  }

  function Params(scheme: string, path: string): (r: string)
    ensures r <= path
    ensures ';' !in path ==> r == path
  {
    if scheme in UsesParams then WithoutParams(path) else path
  }

  /** `urlparse(url).path`, or `None` when `urlparse` raises. */
  function UrlPath(url: string): Option<string> {
    var (scheme, rest) := SplitScheme(Clean(url));
    PathOf(scheme, rest)
  }

  /** `extract_ppa_name(url)`: the path without its leading `/`; `None`
      stands for the `ValueError` raised by `urlparse` or when the path does
      not start with `/`. */
  function ExtractPpaName(url: string): (r: Option<string>)
    ensures r.Some? <==> UrlPath(url).Some? && StartsWith(UrlPath(url).value, "/")
    ensures r.Some? ==> "/" + r.value == UrlPath(url).value
  {
    match UrlPath(url)
    case None => None
    case Some(path) => DropSlash(path)
  }

  /** A path without its leading `/`, or `None` when it has none. */
  function DropSlash(path: string): (r: Option<string>)
    ensures r.Some? <==> StartsWith(path, "/")
    ensures r.Some? ==> "/" + r.value == path
  {
    if StartsWith(path, "/") then
      assert path == path[..1] + path[1..];
      Some(path[1..])
    else None
  }

  /** `NetlocEnd` stops at the first delimiter. */
  lemma {:induction false} NetlocEndAt(s: string, i: nat, j: nat)
    requires i <= j <= |s|
    requires forall k | i <= k < j :: s[k] !in {'/', '?', '#'}
    requires j == |s| || s[j] in {'/', '?', '#'}
    ensures NetlocEnd(s, i) == j
    decreases j - i
  {
    if i < j {
      NetlocEndAt(s, i + 1, j);
    }
  }

  /** The rest of a URL after a valid scheme and its colon. */
  lemma SchemeOf(scheme: string, rest: string)
    requires ValidScheme(scheme)
    ensures SplitScheme(scheme + ":" + rest) == (Lower(scheme), rest)
  {
    var url := scheme + ":" + rest;
    assert ':' !in scheme by {
      forall i | 0 <= i < |scheme| ensures scheme[i] != ':' { assert SchemeChar(scheme[i]); }
    }
    assert url[..|scheme|] == scheme;
    IndexOfCharAt(url, ':', |scheme|);
    assert url[|scheme| + 1..] == rest;
  }

  /** The name of a URL is the name of its cleaned text: blanks in front
      and tabs or line breaks inside change nothing. */
  lemma NameOfCleaned(url: string)
    ensures ExtractPpaName(url) == ExtractPpaName(Clean(url))
  {
    CleanIdempotent(url);
    assert UrlPath(Clean(url)) == UrlPath(url);
  }

  /** A network location without brackets. */
  predicate PlainHost(host: string) {
    forall k | 0 <= k < |host| :: host[k] !in {'/', '?', '#', '[', ']'}
  }

  /** After `//host`, the path is what follows the host, up to a query or
      fragment. */
  lemma PathAfterHost(scheme: string, host: string, path: string)
    requires PlainHost(host)
    requires path == [] || path[0] == '/'
    requires '?' !in path && '#' !in path && ';' !in path
    ensures PathOf(scheme, "//" + host + path) == Some(path)
  {
    var rest := "//" + host + path;
    NetlocEndAt(rest, 2, 2 + |host|);
    assert rest[2 + |host|..] == path;
    assert rest[2..2 + |host|] == host;
    assert rest[..2] == "//";
  }

  /** A network location with only one of `[` and `]` makes `urlparse`
      raise, whatever follows. */
  lemma UnbalancedHostRaises(scheme: string, host: string, path: string)
    requires forall k | 0 <= k < |host| :: host[k] !in {'/', '?', '#'}
    requires !Balanced(host)
    requires path == [] || path[0] in {'/', '?', '#'}
    ensures PathOf(scheme, "//" + host + path) == None
  {
    var rest := "//" + host + path;
    NetlocEndAt(rest, 2, 2 + |host|);
    assert rest[2..2 + |host|] == host;
    assert rest[..2] == "//";
  }

  /** Text with neither blanks in front nor tabs or line breaks is its own
      cleaned text. */
  lemma CleanOfClear(url: string)
    requires url == [] || !Blank(url[0])
    requires forall k | 0 <= k < |url| :: !Removed(url[k])
    ensures Clean(url) == url
  {
  }

  /** A URL made of a scheme, `://`, a host and a path holds no tab or line
      break when the host and the path hold none. */
  lemma ClearUrl(scheme: string, host: string, path: string)
    requires ValidScheme(scheme)
    requires forall k | 0 <= k < |host| :: !Removed(host[k])
    requires forall k | 0 <= k < |path| :: !Removed(path[k])
    ensures Clean(scheme + "://" + host + path) == scheme + "://" + host + path
  {
    var url := scheme + "://" + host + path;
    forall k | 0 <= k < |url| ensures !Removed(url[k]) {
      if k < |scheme| { assert url[k] == scheme[k]; assert SchemeChar(scheme[k]); }
      else if k < |scheme| + 3 { }
      else if k < |scheme| + 3 + |host| { assert url[k] == host[k - |scheme| - 3]; }
      else { assert url[k] == path[k - |scheme| - 3 - |host|]; }
    }
    CleanOfClear(url);
  }

  /** The path of a URL is the path of the rest its cleaned text splits
      into. */
  lemma UrlPathOfSplit(url: string, scheme: string, rest: string)
    requires SplitScheme(Clean(url)) == (scheme, rest)
    ensures UrlPath(url) == PathOf(scheme, rest)
  {
  }

  /** A URL whose path is `/name` has the name `name`. */
  lemma NameOfPath(url: string, name: string)
    requires UrlPath(url) == Some("/" + name)
    ensures ExtractPpaName(url) == Some(name)
  {
    assert ("/" + name)[1..] == name;
  }

  /** A PPA address `scheme://host/name` gives back `name`, when the host
      has no `/`, `?`, `#` or brackets, the name no `?`, `#` or `;`, and
      neither a tab or line break. */
  lemma PpaNameOfUrl(scheme: string, host: string, name: string)
    requires ValidScheme(scheme) && PlainHost(host)
    requires '?' !in name && '#' !in name && ';' !in name
    requires forall k | 0 <= k < |host| :: !Removed(host[k])
    requires forall k | 0 <= k < |name| :: !Removed(name[k])
    ensures ExtractPpaName(scheme + "://" + host + "/" + name) == Some(name)
  {
    var url := scheme + "://" + host + "/" + name;
    var rest := "//" + host + ("/" + name);
    assert url == scheme + ":" + rest;
    assert scheme + "://" + host + ("/" + name) == url;
    ClearUrl(scheme, host, "/" + name);
    SchemeOf(scheme, rest);
    PathAfterHost(Lower(scheme), host, "/" + name);
    UrlPathOfSplit(url, Lower(scheme), rest);
    NameOfPath(url, name);
  }

  /** A bare `scheme://host` has an empty path, so it is not a PPA address. */
  lemma BareHostRejected(scheme: string, host: string)
    requires ValidScheme(scheme) && PlainHost(host)
    requires forall k | 0 <= k < |host| :: !Removed(host[k])
    ensures ExtractPpaName(scheme + "://" + host) == None
  {
    var rest := "//" + host + "";
    assert scheme + "://" + host == scheme + ":" + rest;
    assert scheme + "://" + host + "" == scheme + "://" + host;
    ClearUrl(scheme, host, "");
    SchemeOf(scheme, rest);
    PathAfterHost(Lower(scheme), host, "");
  }

  /** `scheme://host/...` with only one of `[` and `]` in the host is not a
      PPA address: `urlparse` raises. */
  lemma UnbalancedHostRejected(scheme: string, host: string, path: string)
    requires ValidScheme(scheme)
    requires forall k | 0 <= k < |host| :: host[k] !in {'/', '?', '#'} && !Removed(host[k])
    requires !Balanced(host)
    requires path == [] || path[0] in {'/', '?', '#'}
    requires forall k | 0 <= k < |path| :: !Removed(path[k])
    ensures ExtractPpaName(scheme + "://" + host + path) == None
  {
    var rest := "//" + host + path;
    assert scheme + "://" + host + path == scheme + ":" + rest;
    ClearUrl(scheme, host, path);
    SchemeOf(scheme, rest);
    UnbalancedHostRaises(Lower(scheme), host, path);
  }

  /** Text with no colon is not a PPA address when its first character
      after the leading blanks is not `/`. */
  lemma NoSchemeRejected(url: string)
    requires ':' !in url
    requires StripBlanks(url) == [] || StripBlanks(url)[0] != '/'
    ensures ExtractPpaName(url) == None
  {
    var c := Clean(url);
    CleanAbsent(url, ':');
    assert SplitScheme(c) == ("", c);
    NoSlashNoPath(c);
  }

  /** A rest that does not start with `/` has a path that does not. */
  lemma NoSlashNoPath(rest: string)
    requires rest == [] || rest[0] != '/'
    ensures PathOf("", rest).Some? && !StartsWith(PathOf("", rest).value, "/")
  {
    assert !StartsWith(rest, "//");
    var path := PathOf("", rest).value;
    assert path <= rest;
  }

  /** Text with no colon, no `?`, `#` or `;`, whose first character after
      the leading blanks is a single `/`, is a path: its name is the cleaned
      text after that `/`. */
  lemma PathOnlyAccepted(url: string)
    requires ':' !in url && '?' !in url && '#' !in url && ';' !in url
    requires StartsWith(Clean(url), "/") && !StartsWith(Clean(url), "//")
    ensures ExtractPpaName(url) == Some(Clean(url)[1..])
  {
    var c := Clean(url);
    CleanAbsent(url, ':');
    CleanAbsent(url, '?');
    CleanAbsent(url, '#');
    CleanAbsent(url, ';');
  }

  /** C0 controls and spaces in front of a URL change nothing. */
  lemma LeadingBlanksIgnored(pad: string, url: string)
    requires forall k | 0 <= k < |pad| :: Blank(pad[k])
    ensures ExtractPpaName(pad + url) == ExtractPpaName(url)
  {
    CleanSkipsLeadingBlanks(pad, url);
    assert UrlPath(pad + url) == UrlPath(url);
  }

  /** A tab, carriage return or line feed after the first character changes
      nothing. */
  lemma RemovedIgnored(a: string, c: char, b: string)
    requires |a| > 0 && !Blank(a[0]) && Removed(c)
    ensures ExtractPpaName(a + [c] + b) == ExtractPpaName(a + b)
  {
    CleanSkipsRemoved(a, c, b);
    assert UrlPath(a + [c] + b) == UrlPath(a + b);
  }

  /** A path behind a tab, `\t/name`, gives back `name`. */
  lemma LeadingTabIgnored(name: string)
    requires ':' !in name && '?' !in name && '#' !in name && ';' !in name
    requires forall k | 0 <= k < |name| :: !Removed(name[k])
    requires name == [] || name[0] != '/'
    ensures ExtractPpaName("\t" + ("/" + name)) == Some(name)
  {
    var url := "/" + name;
    PathNameOf(name);
    LeadingBlanksIgnored("\t", url);
  }

  /** A path `/name` gives back `name`. */
  lemma PathNameOf(name: string)
    requires ':' !in name && '?' !in name && '#' !in name && ';' !in name
    requires forall k | 0 <= k < |name| :: !Removed(name[k])
    requires name == [] || name[0] != '/'
    ensures ExtractPpaName("/" + name) == Some(name)
  {
    var url := "/" + name;
    SlashNameClear(name);
    PlainPathKept(url);
    NameOfPath(url, name);
  }

  /** `/name` is its own cleaned text, with no colon, `?`, `#` or `;`. */
  lemma SlashNameClear(name: string)
    requires ':' !in name && '?' !in name && '#' !in name && ';' !in name
    requires forall k | 0 <= k < |name| :: !Removed(name[k])
    requires name == [] || name[0] != '/'
    ensures var url := "/" + name;
      && ':' !in url && '?' !in url && '#' !in url && ';' !in url
      && Clean(url) == url && !StartsWith(url, "//")
  {
    var url := "/" + name;
    NotAfterSlash(name, ':');
    NotAfterSlash(name, '?');
    NotAfterSlash(name, '#');
    NotAfterSlash(name, ';');
    SlashNameKept(name);
    CleanOfClear(url);
  }

  /** A character other than `/` that is not in `name` is not in `/name`. */
  lemma NotAfterSlash(name: string, c: char)
    requires c != '/' && c !in name
    ensures c !in "/" + name
  {
    var url := "/" + name;
    forall k | 0 <= k < |url| ensures url[k] != c {
      if k > 0 { assert url[k] == name[k - 1]; }
    }
  }

  /** `/name` holds no tab or line break when `name` holds none. */
  lemma SlashNameKept(name: string)
    requires forall k | 0 <= k < |name| :: !Removed(name[k])
    ensures forall k | 0 <= k < |"/" + name| :: !Removed(("/" + name)[k])
  {
    var url := "/" + name;
    forall k | 0 <= k < |url| ensures !Removed(url[k]) {
      if k > 0 { assert url[k] == name[k - 1]; }
    }
  }

  /** A clean text with no colon, `?`, `#` or `;` that does not start with
      `//` is its own path. */
  lemma PlainPathKept(url: string)
    requires ':' !in url && '?' !in url && '#' !in url && ';' !in url
    requires Clean(url) == url && !StartsWith(url, "//")
    ensures UrlPath(url) == Some(url)
  {
    assert SplitScheme(url) == ("", url);
    UrlPathOfSplit(url, "", url);
  }

  /** A tab inside the name is dropped: `https://host/na\tme` gives back
      `name`. */
  lemma {:induction false} InnerTabRemoved(scheme: string, host: string, front: string, back: string)
    requires ValidScheme(scheme) && PlainHost(host)
    requires forall k | 0 <= k < |host| :: !Removed(host[k])
    requires '?' !in front + back && '#' !in front + back && ';' !in front + back
    requires forall k | 0 <= k < |front + back| :: !Removed((front + back)[k])
    ensures ExtractPpaName(scheme + "://" + host + "/" + front + "\t" + back) == Some(front + back)
  {
    var p := scheme + "://" + host + "/";
    var a := p + front;
    assert a[0] == scheme[0];
    CleanSkipsRemoved(a, '\t', back);
    assert a + back == p + (front + back);
    PpaNameOfUrl(scheme, host, front + back);
    SameCleanSameName(a + "\t" + back, p + (front + back));
  }

  /** Two texts with the same cleaned text have the same name. */
  lemma SameCleanSameName(x: string, y: string)
    requires Clean(x) == Clean(y)
    ensures ExtractPpaName(x) == ExtractPpaName(y)
  {
    assert UrlPath(x) == UrlPath(y);
  }

  /** A tab in front: `\t/name` gives back `name`. */
  lemma LeadingTabExample(url: string)
    requires url == "\t/name"
    ensures ExtractPpaName(url) == Some("name")
  {
    var name := "name";
    PlainName(name);
    TabName(url, name);
    LeadingTabIgnored(name);
  }

  /** `name` holds no colon, `?`, `#`, `;`, tab or line break, and does not
      start with `/`. */
  lemma PlainName(name: string)
    requires name == "name"
    ensures ':' !in name && '?' !in name && '#' !in name && ';' !in name
    ensures forall k | 0 <= k < |name| :: !Removed(name[k])
    ensures name == [] || name[0] != '/'
  {
  }

  /** `\t/name` is a tab, a slash and `name`. */
  lemma TabName(url: string, name: string)
    requires url == "\t/name" && name == "name"
    ensures url == "\t" + ("/" + name)
  {
  }

  /** An unclosed bracket: `https://[host/name` is no PPA address. */
  lemma UnclosedBracketExample()
    ensures ExtractPpaName("https://[host/name") == None
  {
    assert "https" + "://" + "[host" + "/name" == "https://[host/name";
    UnbalancedHostRejected("https", "[host", "/name");
  }

  // ---- the files the installer writes ----

  const AuthDir := "/etc/apt/auth.conf.d/"
  const SourcesDir := "/etc/apt/sources.list.d/"

  /** The name of the credentials file of a PPA slug. */
  function AuthName(slug: string): string {
    "ppa-" + slug + ".conf"
  }

  /** The credentials file of a PPA slug. */
  function AuthFile(slug: string): string {
    AuthDir + AuthName(slug)
  }

  /** The name of the sources-list file of a PPA slug. */
  function SourcesName(slug: string): string {
    slug + ".list"
  }

  /** The sources-list file of a PPA slug. */
  function SourcesFile(slug: string): string {
    SourcesDir + SourcesName(slug)
  }

  /** Both files of a PPA are direct children of their directories: the
      slug cannot add a `/`. */
  lemma FilesAreDirectChildren(name: string)
    ensures var slug := Slugify(name);
      && AuthFile(slug) == AuthDir + AuthName(slug) && '/' !in AuthName(slug)
      && SourcesFile(slug) == SourcesDir + SourcesName(slug) && '/' !in SourcesName(slug)
  {
    var slug := Slugify(name);
    assert '/' !in slug by { SlugHasNoSlash(name); }
    AffixesHaveNoSlash();
    NoSlashConcat("ppa-", slug, ".conf");
    NoSlashPair(slug, ".list");
  }

  lemma AffixesHaveNoSlash()
    ensures '/' !in "ppa-" && '/' !in ".conf" && '/' !in ".list"
  {
  }

  /** Every `/` of the name is replaced in its slug. */
  lemma SlugHasNoSlash(name: string)
    ensures '/' !in Slugify(name)
  {
    var slug := Slugify(name);
    assert '/' in Unsafe;
    forall i | 0 <= i < |slug| ensures slug[i] != '/' {
      if name[i] in Unsafe { DashSafe(); }
    }
  }

  /** Text of two parts holds no `/` when neither part does. */
  lemma NoSlashPair(a: string, b: string)
    requires '/' !in a && '/' !in b
    ensures '/' !in a + b
  {
    var t := a + b;
    forall i | 0 <= i < |t| ensures t[i] != '/' {
      if i < |a| { assert t[i] == a[i]; } else { assert t[i] == b[i - |a|]; }
    }
  }

  /** Text of three parts holds no `/` when no part does. */
  lemma NoSlashConcat(a: string, b: string, c: string)
    requires '/' !in a && '/' !in b && '/' !in c
    ensures '/' !in a + b + c
  {
    var t := a + b + c;
    forall i | 0 <= i < |t| ensures t[i] != '/' {
      if i < |a| { assert t[i] == a[i]; }
      else if i < |a| + |b| { assert t[i] == b[i - |a|]; }
      else { assert t[i] == c[i - |a| - |b|]; }
    }
  }

  /** The lines of the credentials file: an empty one, then `machine`,
      `login` and `password`, then the empty rest after the last newline. */
  function AuthLines(ppa: string, login: string, password: string): seq<string> {
    ["", "machine " + ppa, "login " + login, "password " + password, ""]
  }

  function AuthContents(ppa: string, login: string, password: string): string {
    Join(AuthLines(ppa, login, password), "\n")
  }

  /** The lines of the sources list: a `deb` and a `deb-src` entry for the
      release. */
  function SourcesLines(ppa: string, codename: string): seq<string> {
    ["", "deb " + ppa + " " + codename + " main", "deb-src " + ppa + " " + codename + " main", ""]
  }

  function SourcesContents(ppa: string, codename: string): string {
    Join(SourcesLines(ppa, codename), "\n")
  }

  /** Read back line by line, the credentials file holds exactly the three
      settings, when none of the values spans lines. */
  lemma AuthContentsLines(ppa: string, login: string, password: string)
    requires '\n' !in ppa && '\n' !in login && '\n' !in password
    ensures Split(AuthContents(ppa, login, password), '\n') == AuthLines(ppa, login, password)
  {
    var lines := AuthLines(ppa, login, password);
    assert forall i | 0 <= i < |lines| :: '\n' !in lines[i];
    SplitJoin(lines, '\n');
  }

  /** Read back line by line, the sources list holds the two entries. */
  lemma SourcesContentsLines(ppa: string, codename: string)
    requires '\n' !in ppa && '\n' !in codename
    ensures Split(SourcesContents(ppa, codename), '\n') == SourcesLines(ppa, codename)
  {
    var lines := SourcesLines(ppa, codename);
    assert forall i | 0 <= i < |lines| :: '\n' !in lines[i];
    SplitJoin(lines, '\n');
  }

  /** The file system: contents by path. */
  type Files = map<string, string>

  /** Writing a file only when nothing is at its path. */
  function CreateIfAbsent(fs: Files, path: string, contents: string): (r: Files)
    ensures path in r
    ensures path in fs ==> r == fs
    ensures path !in fs ==> r[path] == contents
    ensures forall q | q != path :: (q in r <==> q in fs) && (q in fs ==> r[q] == fs[q])
  {
    if path in fs then fs else fs[path := contents]
  }

  /** How a run ends: the URL is no PPA address, `apt-key` fails after the
      credentials are written, `lsb_release` fails after the key is added,
      or both files are in place. */
  datatype Outcome = NotPpa | KeyFailed(files: Files) | CodenameFailed(files: Files) | Installed(files: Files)

  /** `main()`: credentials file, then the key, then the sources list;
      `keyAdded` is whether `apt-key` succeeded and `lsbOutput` what
      `lsb_release --codename --short` printed, `None` when it could not be
      run or failed. */
  function Install(fs: Files, ppa: string, login: string, password: string, keyAdded: bool, lsbOutput: Option<string>): (o: Outcome)
  {
    match ExtractPpaName(ppa)
    case None => NotPpa
    case Some(name) =>
      var slug := Slugify(name);
      var withAuth := CreateIfAbsent(fs, AuthFile(slug), AuthContents(ppa, login, password));
      if !keyAdded then KeyFailed(withAuth)
      else if lsbOutput.None? then CodenameFailed(withAuth)
      else Installed(CreateIfAbsent(withAuth, SourcesFile(slug), SourcesContents(ppa, Strip(lsbOutput.value))))
  }

  /** The two files of one PPA are different paths. */
  lemma AuthIsNotSources(slug: string)
    ensures AuthFile(slug) != SourcesFile(slug)
  {
    assert AuthFile(slug)[9] == 'a' && SourcesFile(slug)[9] == 's';
  }

  /** An installation never changes a file that was there before, and ends
      as the first failing step says: a non-PPA URL writes nothing, a failed
      `apt-key` or `lsb_release` leaves only the credentials file added, and
      a full run adds at most the two files, with the contents of the run
      where they were absent. */
  lemma InstallNeverOverwrites(fs: Files, ppa: string, login: string, password: string, keyAdded: bool, lsbOutput: Option<string>)
    ensures var o := Install(fs, ppa, login, password, keyAdded, lsbOutput);
      && (o.NotPpa? <==> ExtractPpaName(ppa).None?)
      && (o.KeyFailed? <==> ExtractPpaName(ppa).Some? && !keyAdded)
      && (o.CodenameFailed? <==> ExtractPpaName(ppa).Some? && keyAdded && lsbOutput.None?)
      && (!o.NotPpa? ==>
            var slug := Slugify(ExtractPpaName(ppa).value);
            && (forall q | q in fs :: q in o.files && o.files[q] == fs[q])
            && AuthFile(slug) in o.files
            && (AuthFile(slug) !in fs ==> o.files[AuthFile(slug)] == AuthContents(ppa, login, password))
            && (forall q | q in o.files && q !in fs :: q == AuthFile(slug) || (o.Installed? && q == SourcesFile(slug))))
      && (o.Installed? ==>
            var slug := Slugify(ExtractPpaName(ppa).value);
            && SourcesFile(slug) in o.files
            && (SourcesFile(slug) !in fs ==> o.files[SourcesFile(slug)] == SourcesContents(ppa, Strip(lsbOutput.value))))
  {
    match ExtractPpaName(ppa)
    case None =>
    case Some(name) =>
      var slug := Slugify(name);
      var withAuth := CreateIfAbsent(fs, AuthFile(slug), AuthContents(ppa, login, password));
      CreateKeeps(fs, AuthFile(slug), AuthContents(ppa, login, password));
      if keyAdded && lsbOutput.Some? {
        AuthIsNotSources(slug);
        CreateKeeps(withAuth, SourcesFile(slug), SourcesContents(ppa, Strip(lsbOutput.value)));
      }
  }

  /** Creating a file keeps the files there before and adds at most that
      one. */
  lemma CreateKeeps(fs: Files, path: string, contents: string)
    ensures var r := CreateIfAbsent(fs, path, contents);
      && (forall q | q in fs :: q in r && r[q] == fs[q])
      && (forall q | q in r && q !in fs :: q == path)
  {
  }

  /** Running the installer twice leaves the files as the first run did. */
  lemma InstallIdempotent(fs: Files, ppa: string, login: string, password: string, lsbOutput: string)
    requires Install(fs, ppa, login, password, true, Some(lsbOutput)).Installed?
    ensures var once := Install(fs, ppa, login, password, true, Some(lsbOutput)).files;
      Install(once, ppa, login, password, true, Some(lsbOutput)) == Installed(once)
  {
  }
}

=== FILE: snap_availability.dfy ===
// Polling the snap store until every snap of a name x architecture matrix
// is published with the wanted version.

module SnapAvailability {
  import opened Wrappers
  import opened Json

  /** One concrete snap. Equality, and so the hash the availability map
      relies on, compares all four fields. */
  datatype SnapSpec = SnapSpec(name: string, version: string, channel: string, arch: string)

  // ---------------------------------------------------------------------
  // is_snap_found

  /** A store result describes the snap: same name and same revision version. */
  predicate Describes(spec: SnapSpec, result: Json) {
    result.JObject? &&
    Lookup(result.fields, "name") == Some(JStr(spec.name)) &&
    match Lookup(result.fields, "revision")
    case Some(JObject(rev)) => Lookup(rev, "version") == Some(JStr(spec.version))
    case _ => false
  }

  /** A result `matches_spec` can inspect without a missing key or a value
      that cannot be subscripted. */
  predicate Inspectable(spec: SnapSpec, result: Json) {
    result.JObject? && Lookup(result.fields, "name").Some? &&
    (Lookup(result.fields, "name") == Some(JStr(spec.name)) ==>
      match Lookup(result.fields, "revision")
      case Some(JObject(rev)) => Lookup(rev, "version").Some?
      case _ => false)
  }

  /** `matches_spec(result)`; `None` is the KeyError or TypeError it raises. */
  function MatchesSpec(spec: SnapSpec, result: Json): (r: Option<bool>)
    ensures r.Some? <==> Inspectable(spec, result)
    ensures r == Some(true) <==> Describes(spec, result)
  {
    if !result.JObject? then None
    else
      match Lookup(result.fields, "name")
      case None => None
      case Some(n) =>
        if n != JStr(spec.name) then Some(false)
        else
          match Lookup(result.fields, "revision")
          case None => None
          case Some(rev) =>
            if !rev.JObject? then None
            else
              match Lookup(rev.fields, "version")
              case None => None
              case Some(v) => Some(v == JStr(spec.version))
  }

  /** `any(matches_spec(result) for result in results[i..])`, stopping at
      the first match. */
  function AnyMatch(spec: SnapSpec, results: seq<Json>, i: nat): (r: Option<bool>)
    requires i <= |results|
    decreases |results| - i
  {
    if i == |results| then Some(false)
    else
      match MatchesSpec(spec, results[i])
      case None => None
      case Some(true) => Some(true)
      case Some(false) => AnyMatch(spec, results, i + 1)
  }

  /** `True` is a result that describes the snap; `False` means none does. */
  lemma {:induction false} AnyMatchMeaning(spec: SnapSpec, results: seq<Json>, i: nat)
    requires i <= |results|
    ensures AnyMatch(spec, results, i) == Some(true) ==> exists k | i <= k < |results| :: Describes(spec, results[k])
    ensures AnyMatch(spec, results, i) == Some(false) ==> forall k | i <= k < |results| :: !Describes(spec, results[k])
    decreases |results| - i
  {
    if i < |results| {
      var m := MatchesSpec(spec, results[i]);
      var r := AnyMatch(spec, results, i);
      if m == Some(true) {
        assert r == Some(true) && Describes(spec, results[i]);
      } else if m == Some(false) {
        assert r == AnyMatch(spec, results, i + 1) && !Describes(spec, results[i]);
        AnyMatchMeaning(spec, results, i + 1);
        if r == Some(false) {
          forall k | i <= k < |results| ensures !Describes(spec, results[k]) {
            if k == i {
              assert !Describes(spec, results[i]);
            }
          }
        }
      } else {
        assert r.None?;
      }
    }
  }

  /** The results of a store response: `response["results"]`, iterated. */
  function Results(response: Json): Option<seq<Json>> {
    if !response.JObject? then None
    else
      match Lookup(response.fields, "results")
      case None => None
      case Some(rs) => Iterate(rs)
  }

  /** `is_snap_found`: whether some result has the snap's name and version.
      `None` is a response the function raises on. */
  function IsSnapFound(spec: SnapSpec, response: Json): (r: Option<bool>)
    ensures r.Some? ==> Results(response).Some?
    ensures r == Some(true) ==> exists k | 0 <= k < |Results(response).value| :: Describes(spec, Results(response).value[k])
    ensures r == Some(false) ==> forall k | 0 <= k < |Results(response).value| :: !Describes(spec, Results(response).value[k])
  {
    match Results(response)
    case None => None
    case Some(items) =>
      AnyMatchMeaning(spec, items, 0);
      AnyMatch(spec, items, 0)
  }

  lemma {:induction false} AnyMatchInspectable(spec: SnapSpec, results: seq<Json>, i: nat)
    requires i <= |results|
    requires forall k | i <= k < |results| :: Inspectable(spec, results[k])
    ensures AnyMatch(spec, results, i).Some?
    decreases |results| - i
  {
    if i < |results| {
      var m := MatchesSpec(spec, results[i]);
      assert m.Some?;
      if !m.value {
        AnyMatchInspectable(spec, results, i + 1);
      }
    }
  }

  /** On a response whose results are all inspectable, the snap is found
      exactly when some result describes it. */
  lemma FoundIff(spec: SnapSpec, response: Json)
    requires Results(response).Some?
    requires forall k | 0 <= k < |Results(response).value| :: Inspectable(spec, Results(response).value[k])
    ensures IsSnapFound(spec, response) ==
      Some(exists k | 0 <= k < |Results(response).value| :: Describes(spec, Results(response).value[k]))
  {
    var items := Results(response).value;
    AnyMatchInspectable(spec, items, 0);
    var r := IsSnapFound(spec, response);
    assert r == AnyMatch(spec, items, 0);
    if exists k | 0 <= k < |items| :: Describes(spec, items[k]) {
      var k :| 0 <= k < |items| && Describes(spec, items[k]);
      assert r != Some(false);
    } else {
      assert r.Some?;
      assert r != Some(true);
      assert !r.value;
    }
  }

  lemma {:induction false} AnyMatchIgnoresChannelArch(spec: SnapSpec, channel: string, arch: string, results: seq<Json>, i: nat)
    requires i <= |results|
    ensures AnyMatch(spec, results, i) == AnyMatch(spec.(channel := channel, arch := arch), results, i)
    decreases |results| - i
  {
    if i < |results| {
      MatchIgnoresChannelArch(spec, channel, arch, results[i]);
      AnyMatchIgnoresChannelArch(spec, channel, arch, results, i + 1);
    }
  }

  lemma MatchIgnoresChannelArch(spec: SnapSpec, channel: string, arch: string, result: Json)
    ensures MatchesSpec(spec, result) == MatchesSpec(spec.(channel := channel, arch := arch), result)
  {
    var other := spec.(channel := channel, arch := arch);
    assert other.name == spec.name && other.version == spec.version;
  }

  /** The channel and architecture of the snap play no part in reading the
      response: only the query selects them. */
  lemma FoundIgnoresChannelArch(spec: SnapSpec, channel: string, arch: string, response: Json)
    ensures IsSnapFound(spec, response) == IsSnapFound(spec.(channel := channel, arch := arch), response)
  {
    if Results(response).Some? {
      AnyMatchIgnoresChannelArch(spec, channel, arch, Results(response).value, 0);
    }
  }

  // ---------------------------------------------------------------------
  // The matrix of snaps

  /** The snaps of one name, one per architecture. */
  function Row(name: string, version: string, channel: string, arches: seq<string>): (r: seq<SnapSpec>)
    ensures |r| == |arches|
    ensures forall j | 0 <= j < |arches| :: r[j] == SnapSpec(name, version, channel, arches[j])
  {
    seq(|arches|, j requires 0 <= j < |arches| => SnapSpec(name, version, channel, arches[j]))
  }

  /** Every combination of name and architecture, name by name. */
  function Matrix(version: string, channel: string, names: seq<string>, arches: seq<string>): (r: seq<SnapSpec>)
    ensures |r| == |names| * |arches|
    decreases |names|
  {
    if |names| == 0 then []
    else
      var rest := Matrix(version, channel, names[1..], arches);
      assert |names| * |arches| == |arches| + (|names| - 1) * |arches|;
      Row(names[0], version, channel, arches) + rest
  }

  /** Whatever the matrix holds was asked for. */
  lemma {:induction false} MatrixOnly(version: string, channel: string, names: seq<string>, arches: seq<string>, s: SnapSpec)
    requires s in Matrix(version, channel, names, arches)
    ensures s.version == version && s.channel == channel && s.name in names && s.arch in arches
    decreases |names|
  {
    if |names| > 0 {
      var rest := Matrix(version, channel, names[1..], arches);
      assert Matrix(version, channel, names, arches) == Row(names[0], version, channel, arches) + rest;
      if s !in Row(names[0], version, channel, arches) {
        MatrixOnly(version, channel, names[1..], arches, s);
        assert s.name in names[1..];
      }
    }
  }

  /** The snap of name `i` and architecture `j` sits at `i * |arches| + j`. */
  lemma {:induction false} MatrixAt(version: string, channel: string, names: seq<string>, arches: seq<string>, i: nat, j: nat)
    requires i < |names| && j < |arches|
    ensures i * |arches| + j < |names| * |arches|
    ensures Matrix(version, channel, names, arches)[i * |arches| + j] == SnapSpec(names[i], version, channel, arches[j])
    decreases i
  {
    var m := Matrix(version, channel, names, arches);
    var rest := Matrix(version, channel, names[1..], arches);
    assert m == Row(names[0], version, channel, arches) + rest;
    if i > 0 {
      MatrixAt(version, channel, names[1..], arches, i - 1, j);
      assert i * |arches| + j == |arches| + ((i - 1) * |arches| + j);
    }
  }

  /** A snap is in the matrix exactly when its name and architecture were
      asked for, with the version and channel of the run. */
  lemma MatrixMembers(version: string, channel: string, names: seq<string>, arches: seq<string>, s: SnapSpec)
    ensures s in Matrix(version, channel, names, arches) <==>
      s.version == version && s.channel == channel && s.name in names && s.arch in arches
  {
    if s.version == version && s.channel == channel && s.name in names && s.arch in arches {
      var i :| 0 <= i < |names| && names[i] == s.name;
      var j :| 0 <= j < |arches| && arches[j] == s.arch;
      MatrixAt(version, channel, names, arches, i, j);
    } else if s in Matrix(version, channel, names, arches) {
      MatrixOnly(version, channel, names, arches, s);
    }
  }

  /** The architecture checked when none is given. */
  const DefaultArch: string := "amd64"

  /** The architectures the `--arch` option collects as written: `append`
      adds to its non-empty default, so the default is always kept. */
  function ArchesAsWritten(given: seq<string>): (r: seq<string>)
    ensures |r| == |given| + 1 && r[1..] == given
  {
    [DefaultArch] + given
  }

  /** As written, asking for other architectures still checks the default
      one for every name. */
  lemma DefaultArchAlwaysChecked(version: string, channel: string, names: seq<string>, given: seq<string>, name: string)
    requires name in names
    ensures SnapSpec(name, version, channel, DefaultArch) in Matrix(version, channel, names, ArchesAsWritten(given))
  {
    MatrixMembers(version, channel, names, ArchesAsWritten(given), SnapSpec(name, version, channel, DefaultArch));
  }

  /** The architectures as intended: the default only when none is given. */
  function Arches(given: seq<string>): (r: seq<string>)
    ensures |given| > 0 ==> r == given
    ensures |r| > 0
  {
    if |given| == 0 then [DefaultArch] else given
  }

  /** With the intended option, exactly the requested architectures are checked. */
  lemma MatrixOfRequestedArches(version: string, channel: string, names: seq<string>, given: seq<string>, s: SnapSpec)
    requires |given| > 0
    ensures s in Matrix(version, channel, names, Arches(given)) <==>
      s.version == version && s.channel == channel && s.name in names && s.arch in given
  {
    MatrixMembers(version, channel, names, Arches(given), s);
  }

  // ---------------------------------------------------------------------
  // Availability

  /** Whether each snap has been found so far. */
  type Availability = map<SnapSpec, bool>

  /** The map starts with one `False` entry per distinct snap. */
  function Initial(specs: seq<SnapSpec>): (a: Availability)
    ensures forall s :: s in a <==> s in specs
    ensures forall s | s in a :: !a[s]
  {
    map s | s in specs :: false
  }

  /** What querying the store for a snap gave: an error of the request
      (retried in the next round), or a decoded response. */
  datatype Query = Failed | Answered(response: Json)

  /** One pass over the snaps from position `i`: each snap not yet found is
      queried, with `answers[k]` the store's answer for position `k`.
      `None` is a response `is_snap_found` raises on. */
  function Round(specs: seq<SnapSpec>, avail: Availability, answers: seq<Query>, i: nat): (r: Option<Availability>)
    requires |answers| == |specs| && i <= |specs|
    requires forall k | 0 <= k < |specs| :: specs[k] in avail
    ensures r.Some? ==> r.value.Keys == avail.Keys
    ensures r.Some? ==> forall s | s in avail && avail[s] :: r.value[s]
    decreases |specs| - i
  {
    if i == |specs| then Some(avail)
    else
      var s := specs[i];
      if avail[s] then Round(specs, avail, answers, i + 1)
      else
        match answers[i]
        case Failed => Round(specs, avail, answers, i + 1)
        case Answered(resp) =>
          match IsSnapFound(s, resp)
          case None => None
          case Some(b) => Round(specs, avail[s := b], answers, i + 1)
  }

  /** A flag turns `True` only on an answer in which the snap is found; a
      failed request leaves it as it was. */
  lemma {:induction false} RoundFlags(specs: seq<SnapSpec>, avail: Availability, answers: seq<Query>, i: nat, s: SnapSpec)
    requires |answers| == |specs| && i <= |specs|
    requires forall k | 0 <= k < |specs| :: specs[k] in avail
    requires Round(specs, avail, answers, i).Some? && s in avail
    ensures Round(specs, avail, answers, i).value[s] ==>
      avail[s] || exists k | i <= k < |specs| ::
        (specs[k] == s && answers[k].Answered? && IsSnapFound(s, answers[k].response) == Some(true))
    ensures (forall k | i <= k < |specs| :: specs[k] == s ==> answers[k].Failed?) ==>
      Round(specs, avail, answers, i).value[s] == avail[s]
    decreases |specs| - i
  {
    if i < |specs| {
      var t := specs[i];
      if avail[t] || answers[i].Failed? {
        RoundFlags(specs, avail, answers, i + 1, s);
      } else {
        var b := IsSnapFound(t, answers[i].response).value;
        RoundFlags(specs, avail[t := b], answers, i + 1, s);
      }
    }
  }

  /** Every flag is `True`. */
  predicate AllFound(avail: Availability) {
    forall s | s in avail :: avail[s]
  }

  /** The result of polling: the final flags and the number of rounds run. */
  datatype Polled = Polled(avail: Availability, rounds: nat)

  /** The polling loop from round `k`. `answers[k]` are the answers of round
      `k`; there are as many entries as rounds that start before the
      deadline. */
  function Poll(specs: seq<SnapSpec>, avail: Availability, answers: seq<seq<Query>>, k: nat): (r: Option<Polled>)
    requires k <= |answers| && forall j | 0 <= j < |answers| :: |answers[j]| == |specs|
    requires forall j | 0 <= j < |specs| :: specs[j] in avail
    ensures r.Some? ==> r.value.avail.Keys == avail.Keys
    ensures r.Some? ==> forall s | s in avail && avail[s] :: r.value.avail[s]
    ensures r.Some? ==> k <= r.value.rounds <= |answers|
    ensures r.Some? && r.value.rounds < |answers| ==> AllFound(r.value.avail)
    decreases |answers| - k
  {
    if k == |answers| then Some(Polled(avail, k))
    else
      match Round(specs, avail, answers[k], 0)
      case None => None
      case Some(a) =>
        if AllFound(a) then Some(Polled(a, k + 1))
        else Poll(specs, a, answers, k + 1)
  }

  /** Polling stops right after the first round that leaves every flag `True`. */
  lemma StopsWhenAllFound(specs: seq<SnapSpec>, avail: Availability, answers: seq<seq<Query>>, k: nat)
    requires k < |answers| && forall j | 0 <= j < |answers| :: |answers[j]| == |specs|
    requires forall j | 0 <= j < |specs| :: specs[j] in avail
    requires Round(specs, avail, answers[k], 0).Some? && AllFound(Round(specs, avail, answers[k], 0).value)
    ensures Poll(specs, avail, answers, k) == Some(Polled(Round(specs, avail, answers[k], 0).value, k + 1))
  {
  }

  /** The snaps still not found, in the order of the map (first appearance
      in `specs[i..]`), each once. */
  function NotFound(specs: seq<SnapSpec>, avail: Availability, seen: set<SnapSpec>, i: nat): (r: seq<SnapSpec>)
    requires i <= |specs| && forall j | 0 <= j < |specs| :: specs[j] in avail
    ensures forall s :: s in r <==> s !in seen && s in avail && !avail[s] && exists j | i <= j < |specs| :: specs[j] == s
    ensures forall a, b | 0 <= a < b < |r| :: r[a] != r[b]
    decreases |specs| - i
  {
    if i == |specs| then []
    else
      var s := specs[i];
      if s in seen || avail[s] then NotFound(specs, avail, seen + {s}, i + 1)
      else [s] + NotFound(specs, avail, seen + {s}, i + 1)
  }

  /** The exit status: 1 when some snap was not found, else 0. */
  function ExitStatus(specs: seq<SnapSpec>, avail: Availability): (code: int)
    requires forall j | 0 <= j < |specs| :: specs[j] in avail
    ensures code == 0 || code == 1
  {
    if |NotFound(specs, avail, {}, 0)| > 0 then 1 else 0
  }

  /** The run fails exactly when some flag of the map is still `False`. */
  lemma ExitStatusIff(specs: seq<SnapSpec>, avail: Availability)
    requires forall s :: s in avail <==> s in specs
    ensures ExitStatus(specs, avail) == 0 <==> AllFound(avail)
  {
    var nf := NotFound(specs, avail, {}, 0);
    if !AllFound(avail) {
      var s :| s in avail && !avail[s];
      var j :| 0 <= j < |specs| && specs[j] == s;
      assert s in nf;
    }
    if |nf| > 0 {
      assert nf[0] in nf;
      assert !AllFound(avail);
    }
  }
}

=== FILE: snap_board.dfy ===
/** The snap promotion board (`trello-board-manager.py`): every card in the
    Edge, Beta and Candidate lanes names a snap revision; the store's
    channel map decides whether the card is stale (archived) or was
    promoted (moved to the next lane). The store response is an input. */
module SnapBoard {
  import opened Wrappers
  import opened Text
  import opened Json
  import opened CardTitle

  /** `channel_promotion_map`: the channel a lane's snaps are promoted to. */
  function NextChannel(lane: string): Option<string> {
    if lane == "edge" then Some("beta")
    else if lane == "beta" then Some("candidate")
    else if lane == "candidate" then Some("stable")
    else None
  }

  /** Position of a risk level in the store's order, least stable first. */
  function Risk(channel: string): Option<nat> {
    if channel == "edge" then Some(0)
    else if channel == "beta" then Some(1)
    else if channel == "candidate" then Some(2)
    else if channel == "stable" then Some(3)
    else None
  }

  /** Promotion moves exactly one risk level up, so a card can only travel
      edge, beta, candidate, stable in that order. */
  lemma PromotionClimbs(lane: string)
    ensures NextChannel(lane).Some? <==> Risk(lane).Some? && Risk(lane).value < 3
    ensures NextChannel(lane).Some? ==> Risk(NextChannel(lane).value) == Some(Risk(lane).value + 1)
  {
  }

  /** The lanes `main` processes: those whose lower-cased name is a key of
      the promotion map. */
  predicate Processed(laneName: string) {
    NextChannel(Lower(laneName)).Some?
  }

  // ---- the store's answer ----

  /** One entry of a track's channel map. `channel` is read outside the
      script's `try`, so its absence aborts the card; a closed channel
      lacks `version` and `revision`. `revision` is its `str()` text. */
  datatype ChannelInfo = ChannelInfo(channel: Option<string>, version: Option<string>, revision: Option<string>)

  /** One element of `channel_maps_list`: `track` is read for every entry,
      `map` only for the card's track. */
  datatype TrackMap = TrackMap(track: Option<string>, infos: Option<seq<ChannelInfo>>)

  datatype Action = Archive | MoveTo(lane: nat)

  /** How a scan ended: still going, returned after a move, or stopped by
      an exception (which `main` swallows). */
  datatype Stop = Running | Moved | Raised

  /** The actions taken so far and how the scan stopped. */
  datatype Scan = Scan(actions: seq<Action>, stop: Stop)

  /** Running `a` and, unless it stopped, then `b`. */
  function Then(a: Scan, b: Scan): Scan {
    if a.stop == Running then Scan(a.actions + b.actions, b.stop) else a
  }

  lemma ThenAssoc(a: Scan, b: Scan, c: Scan)
    ensures Then(Then(a, b), c) == Then(a, Then(b, c))
  {
    if a.stop == Running && b.stop == Running {
      assert a.actions + b.actions + c.actions == a.actions + (b.actions + c.actions);
    }
  }

  /** What the scan knows about the card: its lane, the channel it would
      be promoted to, its track, version and revision, and the open lane
      to move it to, if there is one. */
  datatype Ctx = Ctx(lane: string, next: string, track: string, version: string, revision: string, target: Option<nat>)

  /** One channel-map entry. */
  function Step(ctx: Ctx, info: ChannelInfo): Scan {
    if info.channel.None? then Scan([], Raised)
    else if info.version.None? || info.revision.None? then Scan([], Running)
    else if info.channel.value == ctx.lane && info.revision.value != ctx.revision then Scan([Archive], Running)
    else if info.channel.value == ctx.next && info.version.value == ctx.version
         && info.revision.value == ctx.revision && ctx.target.Some?
    then Scan([MoveTo(ctx.target.value)], Moved)
    else Scan([], Running)
  }

  function ScanInfos(ctx: Ctx, infos: seq<ChannelInfo>): Scan
    decreases |infos|
  {
    if |infos| == 0 then Scan([], Running) else Then(Step(ctx, infos[0]), ScanInfos(ctx, infos[1..]))
  }

  function ScanTrack(ctx: Ctx, t: TrackMap): Scan {
    match t.track
    case None => Scan([], Raised)
    case Some(name) =>
      if name != ctx.track then Scan([], Running)
      else match t.infos
        case None => Scan([], Raised)
        case Some(infos) => ScanInfos(ctx, infos)
  }

  function ScanTracks(ctx: Ctx, ts: seq<TrackMap>): Scan
    decreases |ts|
  {
    if |ts| == 0 then Scan([], Running) else Then(ScanTrack(ctx, ts[0]), ScanTracks(ctx, ts[1..]))
  }

  // ---- the card ----

  datatype Lane = Lane(name: string, open: bool, cards: seq<string>)

  /** Index of the first open lane called `name`, from `i`. */
  function OpenLane(lanes: seq<Lane>, name: string, i: nat): (r: Option<nat>)
    requires i <= |lanes|
    ensures r.Some? ==> i <= r.value < |lanes| && lanes[r.value].open && lanes[r.value].name == name
    decreases |lanes| - i
  {
    if i == |lanes| then None
    else if lanes[i].open && lanes[i].name == name then Some(i)
    else OpenLane(lanes, name, i + 1)
  }

  /** `config[snap]["arch"]` and `config[snap]["store"]` both succeed. */
  predicate Configured(config: Json, snap: string) {
    && config.JObject?
    && match Lookup(config.fields, snap)
       case Some(JObject(f)) => Lookup(f, "arch").Some? && Lookup(f, "store").Some?
       case _ => false
  }

  /** The track a card belongs to: an absent or empty track group means
      `latest`. */
  function CardTrack(t: Title): string {
    if t.track.None? || t.track.value == "" then "latest" else t.track.value
  }

  /** The scan context of a card in a processed lane. */
  function CardCtx(lane: string, t: Title, lanes: seq<Lane>): Ctx
    requires NextChannel(lane).Some?
  {
    var ori := NextChannel(lane).value;
    var track := CardTrack(t);
    var next := if track == "latest" then ori else track + "/" + ori;
    Ctx(lane, next, track, t.version, t.revision, OpenLane(lanes, Capitalize(ori), 0))
  }

  /** `move_card(config, lane_name, card)`. `store` maps a snap name to the
      store's `channel_maps_list` for it; a snap missing from it is a
      failed request. */
  function MoveCard(config: Json, lane: string, title: string, store: map<string, seq<TrackMap>>, lanes: seq<Lane>): Scan
    requires NextChannel(lane).Some?
  {
    match ParseTitle(title)
    case None => Scan([], Running)
    case Some(t) =>
      if !Configured(config, t.snap) || t.snap !in store then Scan([], Raised)
      else ScanTracks(CardCtx(lane, t, lanes), store[t.snap])
  }

  // ---- what a scan can do ----

  /** A scan archives the card any number of times and then moves it at
      most once, as its last action, to the target lane. */
  predicate Shaped(ctx: Ctx, r: Scan) {
    && (forall k | 0 <= k < |r.actions| - 1 :: r.actions[k] == Archive)
    && (r.stop == Moved <==> |r.actions| > 0 && r.actions[|r.actions| - 1].MoveTo?)
    && (r.stop == Moved ==> ctx.target.Some? && r.actions[|r.actions| - 1] == MoveTo(ctx.target.value))
  }

  lemma ThenShaped(ctx: Ctx, a: Scan, b: Scan)
    requires Shaped(ctx, a) && Shaped(ctx, b)
    ensures Shaped(ctx, Then(a, b))
  {
    if a.stop == Running {
      var r := Then(a, b);
      forall k | 0 <= k < |r.actions| - 1 ensures r.actions[k] == Archive {
        if k < |a.actions| {
          assert r.actions[k] == a.actions[k];
        } else {
          assert r.actions[k] == b.actions[k - |a.actions|];
        }
      }
      if |b.actions| == 0 && |a.actions| > 0 {
        assert r.actions[|r.actions| - 1] == a.actions[|a.actions| - 1];
      }
    }
  }

  lemma {:induction false} ScanInfosShaped(ctx: Ctx, infos: seq<ChannelInfo>)
    ensures Shaped(ctx, ScanInfos(ctx, infos))
    decreases |infos|
  {
    if |infos| > 0 {
      ScanInfosShaped(ctx, infos[1..]);
      ThenShaped(ctx, Step(ctx, infos[0]), ScanInfos(ctx, infos[1..]));
    }
  }

  lemma {:induction false} ScanTracksShaped(ctx: Ctx, ts: seq<TrackMap>)
    ensures Shaped(ctx, ScanTracks(ctx, ts))
    decreases |ts|
  {
    if |ts| > 0 {
      if ts[0].track.Some? && ts[0].track.value == ctx.track && ts[0].infos.Some? {
        ScanInfosShaped(ctx, ts[0].infos.value);
      }
      ScanTracksShaped(ctx, ts[1..]);
      ThenShaped(ctx, ScanTrack(ctx, ts[0]), ScanTracks(ctx, ts[1..]));
    }
  }

  /** A card whose title does not match is left alone; otherwise it is
      archived some number of times and then moved at most once, as the
      last action, to the first open lane named after the channel it was
      promoted to (without the track). */
  lemma {:induction false} MoveCardShape(config: Json, lane: string, title: string, store: map<string, seq<TrackMap>>, lanes: seq<Lane>)
    requires NextChannel(lane).Some?
    ensures var r := MoveCard(config, lane, title, store, lanes);
      && (ParseTitle(title).None? ==> r == Scan([], Running))
      && (forall k | 0 <= k < |r.actions| - 1 :: r.actions[k] == Archive)
      && (r.stop == Moved <==> |r.actions| > 0 && r.actions[|r.actions| - 1].MoveTo?)
      && (r.stop == Moved ==> exists k | 0 <= k < |lanes| ::
            && r.actions[|r.actions| - 1] == MoveTo(k)
            && lanes[k].open && lanes[k].name == Capitalize(NextChannel(lane).value))
  {
    match ParseTitle(title)
    case None =>
    case Some(t) =>
      if Configured(config, t.snap) && t.snap in store {
        TracksShape(CardCtx(lane, t, lanes), store[t.snap], lanes, Capitalize(NextChannel(lane).value));
      }
  }

  /** A scan whose target is the first open lane called `name` archives
      and then moves at most once, as its last action, to such a lane. */
  lemma {:induction false} TracksShape(ctx: Ctx, ts: seq<TrackMap>, lanes: seq<Lane>, name: string)
    requires ctx.target == OpenLane(lanes, name, 0)
    ensures var r := ScanTracks(ctx, ts);
      && (forall k | 0 <= k < |r.actions| - 1 :: r.actions[k] == Archive)
      && (r.stop == Moved <==> |r.actions| > 0 && r.actions[|r.actions| - 1].MoveTo?)
      && (r.stop == Moved ==> exists k | 0 <= k < |lanes| ::
            && r.actions[|r.actions| - 1] == MoveTo(k)
            && lanes[k].open && lanes[k].name == name)
  {
    ScanTracksShaped(ctx, ts);
    var r := ScanTracks(ctx, ts);
    if r.stop == Moved {
      assert r.actions[|r.actions| - 1] == MoveTo(ctx.target.value);
    }
  }

  // ---- entries that do not matter ----

  /** The channel maps without the entries of other tracks (an entry with
      no track still aborts, so it stays). */
  function OnlyTrack(ts: seq<TrackMap>, track: string): (r: seq<TrackMap>)
    ensures forall t | t in r :: t in ts && (t.track.None? || t.track.value == track)
    decreases |ts|
  {
    if |ts| == 0 then []
    else if ts[0].track.Some? && ts[0].track.value != track then OnlyTrack(ts[1..], track)
    else [ts[0]] + OnlyTrack(ts[1..], track)
  }

  /** Entries of other tracks are never looked at. */
  lemma {:induction false} OtherTracksIgnored(ctx: Ctx, ts: seq<TrackMap>)
    ensures ScanTracks(ctx, ts) == ScanTracks(ctx, OnlyTrack(ts, ctx.track))
    decreases |ts|
  {
    if |ts| > 0 {
      OtherTracksIgnored(ctx, ts[1..]);
      if !(ts[0].track.Some? && ts[0].track.value != ctx.track) {
        var f := OnlyTrack(ts, ctx.track);
        assert f[0] == ts[0] && f[1..] == OnlyTrack(ts[1..], ctx.track);
      }
    }
  }

  /** The entries without the closed channels: those that name a channel
      but lack a version or a revision. */
  function Complete(infos: seq<ChannelInfo>): (r: seq<ChannelInfo>)
    ensures forall x | x in r :: x in infos && (x.channel.None? || (x.version.Some? && x.revision.Some?))
    decreases |infos|
  {
    if |infos| == 0 then []
    else if infos[0].channel.Some? && (infos[0].version.None? || infos[0].revision.None?) then Complete(infos[1..])
    else [infos[0]] + Complete(infos[1..])
  }

  /** Closed channels are skipped. */
  lemma {:induction false} IncompleteIgnored(ctx: Ctx, infos: seq<ChannelInfo>)
    ensures ScanInfos(ctx, infos) == ScanInfos(ctx, Complete(infos))
    decreases |infos|
  {
    if |infos| > 0 {
      IncompleteIgnored(ctx, infos[1..]);
      if !(infos[0].channel.Some? && (infos[0].version.None? || infos[0].revision.None?)) {
        var c := Complete(infos);
        assert c[0] == infos[0] && c[1..] == Complete(infos[1..]);
      }
    }
  }

  // ---- the decision in closed form ----

  /** The store has the card's lane at another revision. */
  predicate Stale(ctx: Ctx, x: ChannelInfo)
    requires x.channel.Some? && x.revision.Some?
  {
    x.channel.value == ctx.lane && x.revision.value != ctx.revision
  }

  /** The store has the card's exact version and revision in the channel
      it would be promoted to. */
  predicate Promoted(ctx: Ctx, x: ChannelInfo)
    requires x.channel.Some? && x.version.Some? && x.revision.Some?
  {
    x.channel.value == ctx.next && x.version.value == ctx.version && x.revision.value == ctx.revision
  }

  predicate Open(x: ChannelInfo) {
    x.channel.Some? && x.version.Some? && x.revision.Some?
  }

  predicate AllOpen(xs: seq<ChannelInfo>) {
    forall k | 0 <= k < |xs| :: Open(xs[k])
  }

  function CountStale(ctx: Ctx, xs: seq<ChannelInfo>): nat
    requires AllOpen(xs)
    decreases |xs|
  {
    if |xs| == 0 then 0 else (if Stale(ctx, xs[0]) then 1 else 0) + CountStale(ctx, xs[1..])
  }

  /** Index of the first entry showing the promotion. */
  function FirstPromoted(ctx: Ctx, xs: seq<ChannelInfo>): (r: Option<nat>)
    requires AllOpen(xs)
    ensures r.Some? ==> r.value < |xs| && Promoted(ctx, xs[r.value])
    ensures r.None? <==> forall k | 0 <= k < |xs| :: !Promoted(ctx, xs[k])
    decreases |xs|
  {
    if |xs| == 0 then None
    else if Promoted(ctx, xs[0]) then Some(0)
    else match FirstPromoted(ctx, xs[1..])
      case None => None
      case Some(j) => Some(j + 1)
  }

  function Archives(n: nat): (r: seq<Action>)
    ensures |r| == n && forall k | 0 <= k < n :: r[k] == Archive
  {
    seq(n, k => Archive)
  }

  /** The decision over the entries of the card's track, all naming an
      open channel: one archive per stale entry before the first entry
      showing the promotion, then the move; with no such entry or no lane
      to move to, one archive per stale entry and no move. */
  function Decide(ctx: Ctx, xs: seq<ChannelInfo>): Scan
    requires AllOpen(xs)
  {
    match (if ctx.target.None? then None else FirstPromoted(ctx, xs))
    case None => Scan(Archives(CountStale(ctx, xs)), Running)
    case Some(j) => Scan(Archives(CountStale(ctx, xs[..j])) + [MoveTo(ctx.target.value)], Moved)
  }

  /** The scan of open channels is the closed-form decision, when the
      card's lane and its promotion channel differ (they always do). */
  lemma {:induction false} ScanInfosDecides(ctx: Ctx, xs: seq<ChannelInfo>)
    requires ctx.lane != ctx.next
    requires AllOpen(xs)
    ensures ScanInfos(ctx, xs) == Decide(ctx, xs)
    decreases |xs|
  {
    if |xs| > 0 {
      ScanInfosDecides(ctx, xs[1..]);
      DecideCons(ctx, xs);
    }
  }

  /** The closed form unrolls one entry the way the scan does. */
  lemma {:induction false} DecideCons(ctx: Ctx, xs: seq<ChannelInfo>)
    requires ctx.lane != ctx.next
    requires AllOpen(xs) && |xs| > 0
    ensures Decide(ctx, xs) == Then(Step(ctx, xs[0]), Decide(ctx, xs[1..]))
  {
    var x := xs[0];
    var rest := xs[1..];
    if ctx.target.Some? && Promoted(ctx, x) {
      assert FirstPromoted(ctx, xs) == Some(0);
      assert xs[..0] == [];
    } else {
      var fr := if ctx.target.None? then None else FirstPromoted(ctx, rest);
      assert (if ctx.target.None? then None else FirstPromoted(ctx, xs)) == (if fr.None? then None else Some(fr.value + 1));
      var n := if fr.None? then CountStale(ctx, rest) else CountStale(ctx, rest[..fr.value]);
      var tail := if fr.None? then [] else [MoveTo(ctx.target.value)];
      assert Decide(ctx, rest) == Scan(Archives(n) + tail, if fr.None? then Running else Moved);
      var m := if fr.None? then CountStale(ctx, xs) else CountStale(ctx, xs[..fr.value + 1]);
      assert Decide(ctx, xs) == Scan(Archives(m) + tail, if fr.None? then Running else Moved);
      StaleCount(ctx, xs, fr, n, m);
      if Stale(ctx, x) {
        assert [Archive] + Archives(n) == Archives(n + 1);
        assert Archives(m) + tail == [Archive] + (Archives(n) + tail);
      } else {
        assert Step(ctx, x) == Scan([], Running);
      }
    }
  }

  lemma StaleCount(ctx: Ctx, xs: seq<ChannelInfo>, fr: Option<nat>, n: nat, m: nat)
    requires AllOpen(xs) && |xs| > 0
    requires fr.Some? ==> fr.value < |xs| - 1
    requires n == if fr.None? then CountStale(ctx, xs[1..]) else CountStale(ctx, xs[1..][..fr.value])
    requires m == if fr.None? then CountStale(ctx, xs) else CountStale(ctx, xs[..fr.value + 1])
    ensures m == (if Stale(ctx, xs[0]) then 1 else 0) + n
  {
    if fr.Some? {
      var p := xs[..fr.value + 1];
      assert p[0] == xs[0] && p[1..] == xs[1..][..fr.value];
    }
  }

  /** Concatenated scans run one after the other. */
  lemma {:induction false} ScanInfosConcat(ctx: Ctx, a: seq<ChannelInfo>, b: seq<ChannelInfo>)
    ensures ScanInfos(ctx, a + b) == Then(ScanInfos(ctx, a), ScanInfos(ctx, b))
    decreases |a|
  {
    if |a| == 0 {
      assert a + b == b;
      assert ScanInfos(ctx, b).actions == [] + ScanInfos(ctx, b).actions;
    } else {
      assert (a + b)[0] == a[0] && (a + b)[1..] == a[1..] + b;
      ScanInfosConcat(ctx, a[1..], b);
      ThenAssoc(Step(ctx, a[0]), ScanInfos(ctx, a[1..]), ScanInfos(ctx, b));
    }
  }

  /** Every entry names its track and has its map, and every channel entry
      names its channel: nothing in the answer aborts the scan. */
  predicate WellFormed(ts: seq<TrackMap>) {
    forall t | t in ts :: t.track.Some? && t.infos.Some? && forall x | x in t.infos.value :: x.channel.Some?
  }

  /** The entries of the card's track, in order. */
  function Relevant(ts: seq<TrackMap>, track: string): seq<ChannelInfo>
    requires WellFormed(ts)
    decreases |ts|
  {
    if |ts| == 0 then []
    else (if ts[0].track.value == track then ts[0].infos.value else []) + Relevant(ts[1..], track)
  }

  lemma {:induction false} ScanTracksFlat(ctx: Ctx, ts: seq<TrackMap>)
    requires WellFormed(ts)
    ensures ScanTracks(ctx, ts) == ScanInfos(ctx, Relevant(ts, ctx.track))
    decreases |ts|
  {
    if |ts| > 0 {
      assert WellFormed(ts[1..]) by {
        assert forall t | t in ts[1..] :: t in ts;
      }
      ScanTracksFlat(ctx, ts[1..]);
      var mine := if ts[0].track.value == ctx.track then ts[0].infos.value else [];
      ScanInfosConcat(ctx, mine, Relevant(ts[1..], ctx.track));
    }
  }

  lemma {:induction false} RelevantNamed(ts: seq<TrackMap>, track: string)
    requires WellFormed(ts)
    ensures forall x | x in Relevant(ts, track) :: x.channel.Some?
    decreases |ts|
  {
    if |ts| > 0 {
      assert WellFormed(ts[1..]) by {
        assert forall t | t in ts[1..] :: t in ts;
      }
      RelevantNamed(ts[1..], track);
      assert ts[0] in ts;
    }
  }

  /** On a well-formed answer, `move_card` is the closed-form decision over
      the open channels of the card's track, in the answer's order. */
  lemma MoveCardDecides(config: Json, lane: string, title: string, store: map<string, seq<TrackMap>>, lanes: seq<Lane>)
    requires NextChannel(lane).Some?
    requires ParseTitle(title).Some?
    requires Configured(config, ParseTitle(title).value.snap)
    requires ParseTitle(title).value.snap in store && WellFormed(store[ParseTitle(title).value.snap])
    ensures var t := ParseTitle(title).value;
      var ctx := CardCtx(lane, t, lanes);
      var xs := Complete(Relevant(store[t.snap], ctx.track));
      && AllOpen(xs)
      && MoveCard(config, lane, title, store, lanes) == Decide(ctx, xs)
  {
    var t := ParseTitle(title).value;
    var ctx := CardCtx(lane, t, lanes);
    var ys := Relevant(store[t.snap], ctx.track);
    var xs := Complete(ys);
    RelevantNamed(store[t.snap], ctx.track);
    assert AllOpen(xs) by {
      assert forall k | 0 <= k < |xs| :: xs[k] in xs;
    }
    assert ctx.lane != ctx.next by { LaneIsNotNext(lane, ctx.track); }
    ScanTracksFlat(ctx, store[t.snap]);
    IncompleteIgnored(ctx, ys);
    ScanInfosDecides(ctx, xs);
  }

  lemma LaneIsNotNext(lane: string, track: string)
    requires NextChannel(lane).Some?
    ensures lane != (if track == "latest" then NextChannel(lane).value else track + "/" + NextChannel(lane).value)
  {
    if track != "latest" {
      var n := track + "/" + NextChannel(lane).value;
      assert '/' in n by { assert n[|track|] == '/'; }
      assert '/' !in lane;
    }
  }

  // ---- the board run ----

  /** One `move_card` call of a run: the lane listed, the card's title, and
      what the call did. */
  datatype Visit = Visit(lane: nat, title: string, scan: Scan)

  /** A card moved without being archived first stays open in its new lane.
      An archived card is closed, and `list_cards` lists open cards only. */
  predicate MovedOpen(r: Scan) {
    r.stop == Moved && |r.actions| == 1 && r.actions[0].MoveTo?
  }

  /** The open cards of every lane once `title` got `r`: a card moved while
      open joins the end of its new lane. */
  function Arrive(cards: seq<seq<string>>, title: string, r: Scan): (c: seq<seq<string>>)
    ensures |c| == |cards|
    ensures forall k | 0 <= k < |cards| :: cards[k] <= c[k]
    ensures MovedOpen(r) && r.actions[0].lane < |cards| ==> title in c[r.actions[0].lane]
    ensures forall k | 0 <= k < |cards| ::
      (|c[k]| <= |cards[k]| + 1 && (|c[k]| > |cards[k]| ==> MovedOpen(r) && r.actions[0].lane == k && c[k][|cards[k]|] == title))
  {
    if MovedOpen(r) && r.actions[0].lane < |cards| then
      var k := r.actions[0].lane;
      assert (cards[k] + [title])[|cards[k]|] == title;
      cards[k := cards[k] + [title]]
    else cards
  }

  /** The cards listed in lane `i`, one decision each in listing order;
      `cards` holds the open cards of every lane and is carried from card
      to card. `decide` is `move_card` on a lower-cased lane name and a
      card title. */
  function LaneRun(lanes: seq<Lane>, decide: (string, string) -> Scan, i: nat, todo: seq<string>, cards: seq<seq<string>>)
    : (r: (seq<Visit>, seq<seq<string>>))
    requires i < |lanes|
    ensures |r.0| == |todo| && |r.1| == |cards|
    ensures forall j | 0 <= j < |todo| :: r.0[j] == Visit(i, todo[j], decide(Lower(lanes[i].name), todo[j]))
    ensures forall k | 0 <= k < |cards| :: cards[k] <= r.1[k]
    decreases |todo|
  {
    if |todo| == 0 then ([], cards)
    else
      var v := Visit(i, todo[0], decide(Lower(lanes[i].name), todo[0]));
      var (vs, after) := LaneRun(lanes, decide, i, todo[1..], Arrive(cards, todo[0], v.scan));
      PrefixTrans(cards, Arrive(cards, todo[0], v.scan), after);
      ([v] + vs, after)
  }

  lemma PrefixTrans(a: seq<seq<string>>, b: seq<seq<string>>, c: seq<seq<string>>)
    requires |a| == |b| == |c|
    requires forall k | 0 <= k < |a| :: a[k] <= b[k]
    requires forall k | 0 <= k < |b| :: b[k] <= c[k]
    ensures forall k | 0 <= k < |a| :: a[k] <= c[k]
  {
    forall k | 0 <= k < |a| ensures a[k] <= c[k] {
      assert a[k] == b[k][..|a[k]|];
      assert b[k] == c[k][..|b[k]|];
    }
  }

  /** `main` from lane `i` on: each lane is listed once, in board order,
      when its turn comes, so it lists the cards moved into it by the lanes
      before it; a lane whose name `processed` rejects is skipped. An
      exception of `move_card` is swallowed and ends only that card. */
  function RunFrom(lanes: seq<Lane>, processed: string -> bool, decide: (string, string) -> Scan, i: nat, cards: seq<seq<string>>)
    : (vs: seq<Visit>)
    requires i <= |lanes| && |cards| == |lanes|
    ensures forall p | 0 <= p < |vs| ::
      && i <= vs[p].lane < |lanes| && processed(lanes[vs[p].lane].name)
      && vs[p].scan == decide(Lower(lanes[vs[p].lane].name), vs[p].title)
    ensures forall p, q | 0 <= p < q < |vs| :: vs[p].lane <= vs[q].lane
    decreases |lanes| - i
  {
    if i == |lanes| then []
    else if !processed(lanes[i].name) then RunFrom(lanes, processed, decide, i + 1, cards)
    else
      var (here, after) := LaneRun(lanes, decide, i, cards[i], cards);
      here + RunFrom(lanes, processed, decide, i + 1, after)
  }

  /** The cards of every lane when the board is first listed. */
  function Listed(lanes: seq<Lane>): (cards: seq<seq<string>>)
    ensures |cards| == |lanes|
    ensures forall k | 0 <= k < |lanes| :: cards[k] == lanes[k].cards
  {
    seq(|lanes|, k requires 0 <= k < |lanes| => lanes[k].cards)
  }

  /** A whole run of a board manager's `main`. */
  function RunBoard(lanes: seq<Lane>, processed: string -> bool, decide: (string, string) -> Scan): seq<Visit> {
    RunFrom(lanes, processed, decide, 0, Listed(lanes))
  }

  /** `titles`, decided in lane `k` (named `name`) one after the other,
      from position `p` of the run `vs` on. */
  predicate DecidedBlock(vs: seq<Visit>, p: int, k: nat, name: string, titles: seq<string>, decide: (string, string) -> Scan) {
    && 0 <= p && p + |titles| <= |vs|
    && forall j | 0 <= j < |titles| :: vs[p + j] == Visit(k, titles[j], decide(Lower(name), titles[j]))
  }

  /** A card that sits in lane `k` when the run reaches lane `i <= k` is
      decided in lane `k`: its lane's listing, which starts with the cards
      it has now, is decided card by card as one block of the run. */
  lemma {:induction false} ListedDecided(lanes: seq<Lane>, processed: string -> bool, decide: (string, string) -> Scan,
                                         i: nat, cards: seq<seq<string>>, k: nat)
    requires i <= k < |lanes| && |cards| == |lanes| && processed(lanes[k].name)
    ensures exists p :: DecidedBlock(RunFrom(lanes, processed, decide, i, cards), p, k, lanes[k].name, cards[k], decide)
    decreases |lanes| - i
  {
    var vs := RunFrom(lanes, processed, decide, i, cards);
    if !processed(lanes[i].name) {
      ListedDecided(lanes, processed, decide, i + 1, cards, k);
    } else {
      var (here, after) := LaneRun(lanes, decide, i, cards[i], cards);
      var rest := RunFrom(lanes, processed, decide, i + 1, after);
      assert vs == here + rest;
      if i == k {
        assert DecidedBlock(vs, 0, k, lanes[k].name, cards[k], decide) by {
          forall j | 0 <= j < |cards[k]| ensures vs[0 + j] == here[j] { }
        }
      } else {
        ListedDecided(lanes, processed, decide, i + 1, after, k);
        var p' :| DecidedBlock(rest, p', k, lanes[k].name, after[k], decide);
        BlockPrefix(here, rest, p', k, lanes[k].name, cards[k], after[k], decide);
      }
    }
  }

  /** A block of the later part of a run, cut to a prefix of its titles, is
      a block of the whole run. */
  lemma BlockPrefix(here: seq<Visit>, rest: seq<Visit>, p: int, k: nat, name: string, titles: seq<string>, more: seq<string>,
                    decide: (string, string) -> Scan)
    requires DecidedBlock(rest, p, k, name, more, decide) && titles <= more
    ensures DecidedBlock(here + rest, |here| + p, k, name, titles, decide)
  {
    var vs := here + rest;
    forall j | 0 <= j < |titles| ensures vs[|here| + p + j] == Visit(k, titles[j], decide(Lower(name), titles[j])) {
      assert titles[j] == more[j];
      assert vs[|here| + p + j] == rest[p + j];
    }
  }

  /** A card a decision moves while open is in its new lane's cards after
      the lane's run. */
  lemma {:induction false} LaneRunArrivals(lanes: seq<Lane>, decide: (string, string) -> Scan, i: nat, todo: seq<string>,
                                           cards: seq<seq<string>>, j: nat)
    requires i < |lanes| && j < |todo|
    requires var r := decide(Lower(lanes[i].name), todo[j]); MovedOpen(r) && r.actions[0].lane < |cards|
    ensures var r := decide(Lower(lanes[i].name), todo[j]);
      todo[j] in LaneRun(lanes, decide, i, todo, cards).1[r.actions[0].lane]
    decreases |todo|
  {
    var r0 := decide(Lower(lanes[i].name), todo[0]);
    var c1 := Arrive(cards, todo[0], r0);
    var after := LaneRun(lanes, decide, i, todo[1..], c1).1;
    assert after == LaneRun(lanes, decide, i, todo, cards).1;
    if j == 0 {
      var k := r0.actions[0].lane;
      assert todo[0] in c1[k];
      assert c1[k] == after[k][..|c1[k]|];
    } else {
      LaneRunArrivals(lanes, decide, i, todo[1..], c1, j - 1);
      assert todo[1..][j - 1] == todo[j];
    }
  }

  /** `title` is decided in lane `k` (named `name`) somewhere after
      position `p` of the run `vs`. */
  predicate DecidedLater(vs: seq<Visit>, p: int, k: nat, name: string, title: string, decide: (string, string) -> Scan) {
    exists q | 0 <= q && p < q < |vs| :: vs[q] == Visit(k, title, decide(Lower(name), title))
  }

  /** Decision `p` of the run `vs` moves its card, while open, into a
      processed lane further along the board. */
  predicate MovesOnward(lanes: seq<Lane>, processed: string -> bool, vs: seq<Visit>, p: nat) {
    && p < |vs|
    && MovedOpen(vs[p].scan)
    && vs[p].lane < vs[p].scan.actions[0].lane < |lanes|
    && processed(lanes[vs[p].scan.actions[0].lane].name)
  }

  /** The card of decision `p` is decided again in the lane it was moved
      to, later in the run. */
  predicate DecidedAgain(lanes: seq<Lane>, decide: (string, string) -> Scan, vs: seq<Visit>, p: nat)
    requires p < |vs| && MovedOpen(vs[p].scan) && vs[p].scan.actions[0].lane < |lanes|
  {
    var k := vs[p].scan.actions[0].lane;
    DecidedLater(vs, p, k, lanes[k].name, vs[p].title, decide)
  }

  /** A card that a decision moves, while open, into a later lane that is
      processed is decided again in that lane, later in the run. */
  lemma {:induction false} MovedDecidedAgain(lanes: seq<Lane>, processed: string -> bool, decide: (string, string) -> Scan,
                                             i: nat, cards: seq<seq<string>>, vs: seq<Visit>, p: nat)
    requires i <= |lanes| && |cards| == |lanes| && vs == RunFrom(lanes, processed, decide, i, cards)
    requires MovesOnward(lanes, processed, vs, p)
    ensures DecidedAgain(lanes, decide, vs, p)
    decreases |lanes| - i, 1
  {
    if !processed(lanes[i].name) {
      MovedSkipLane(lanes, processed, decide, i, cards, vs, p);
    } else if p < |cards[i]| {
      MovedHere(lanes, processed, decide, i, cards, vs, p);
    } else {
      MovedAfterLane(lanes, processed, decide, i, cards, vs, p);
    }
  }

  /** The case of `MovedDecidedAgain` where lane `i` is skipped. */
  lemma {:induction false} MovedSkipLane(lanes: seq<Lane>, processed: string -> bool, decide: (string, string) -> Scan,
                                         i: nat, cards: seq<seq<string>>, vs: seq<Visit>, p: nat)
    requires i < |lanes| && |cards| == |lanes| && !processed(lanes[i].name)
    requires vs == RunFrom(lanes, processed, decide, i, cards)
    requires MovesOnward(lanes, processed, vs, p)
    ensures DecidedAgain(lanes, decide, vs, p)
    decreases |lanes| - i, 0
  {
    MovedDecidedAgain(lanes, processed, decide, i + 1, cards, vs, p);
  }

  /** The case of `MovedDecidedAgain` where the move happens after lane
      `i`'s listing. */
  lemma {:induction false} MovedAfterLane(lanes: seq<Lane>, processed: string -> bool, decide: (string, string) -> Scan,
                                          i: nat, cards: seq<seq<string>>, vs: seq<Visit>, p: nat)
    requires i < |lanes| && |cards| == |lanes| && processed(lanes[i].name) && |cards[i]| <= p
    requires vs == RunFrom(lanes, processed, decide, i, cards)
    requires MovesOnward(lanes, processed, vs, p)
    ensures DecidedAgain(lanes, decide, vs, p)
    decreases |lanes| - i, 0
  {
    var v := vs[p];
    var k := v.scan.actions[0].lane;
    var (here, after) := LaneRun(lanes, decide, i, cards[i], cards);
    var rest := RunFrom(lanes, processed, decide, i + 1, after);
    assert vs == here + rest;
    assert vs[p] == rest[p - |here|];
    MovedDecidedAgain(lanes, processed, decide, i + 1, after, rest, p - |here|);
    LaterShift(here, rest, p - |here|, k, lanes[k].name, v.title, decide);
  }

  /** A decision in the later part of a run is one in the whole run. */
  lemma LaterShift(here: seq<Visit>, rest: seq<Visit>, p: int, k: nat, name: string, title: string, decide: (string, string) -> Scan)
    requires DecidedLater(rest, p, k, name, title, decide)
    ensures DecidedLater(here + rest, |here| + p, k, name, title, decide)
  {
    var q :| 0 <= q && p < q < |rest| && rest[q] == Visit(k, title, decide(Lower(name), title));
    assert (here + rest)[|here| + q] == rest[q];
  }

  /** The case of `MovedDecidedAgain` where the move happens in lane `i`. */
  lemma {:induction false} MovedHere(lanes: seq<Lane>, processed: string -> bool, decide: (string, string) -> Scan,
                                     i: nat, cards: seq<seq<string>>, vs: seq<Visit>, p: nat)
    requires i < |lanes| && |cards| == |lanes| && processed(lanes[i].name) && p < |cards[i]|
    requires vs == RunFrom(lanes, processed, decide, i, cards)
    requires MovesOnward(lanes, processed, vs, p)
    ensures DecidedAgain(lanes, decide, vs, p)
  {
    var title := cards[i][p];
    var (here, after) := LaneRun(lanes, decide, i, cards[i], cards);
    var rest := RunFrom(lanes, processed, decide, i + 1, after);
    assert vs == here + rest;
    assert vs[p] == here[p] == Visit(i, title, decide(Lower(lanes[i].name), title));
    var k := vs[p].scan.actions[0].lane;
    MovedIntoRest(lanes, processed, decide, i, cards, p);
    LaterShift(here, rest, -1, k, lanes[k].name, title, decide);
    assert |here| == |cards[i]|;
  }

  /** A card that lane `i`'s listing moves, while open, into a later
      processed lane is decided there by the rest of the run. */
  lemma MovedIntoRest(lanes: seq<Lane>, processed: string -> bool, decide: (string, string) -> Scan,
                      i: nat, cards: seq<seq<string>>, p: nat)
    requires i < |lanes| && |cards| == |lanes| && p < |cards[i]|
    requires var r := decide(Lower(lanes[i].name), cards[i][p]);
      MovedOpen(r) && i < r.actions[0].lane < |lanes| && processed(lanes[r.actions[0].lane].name)
    ensures var k := decide(Lower(lanes[i].name), cards[i][p]).actions[0].lane;
      var rest := RunFrom(lanes, processed, decide, i + 1, LaneRun(lanes, decide, i, cards[i], cards).1);
      DecidedLater(rest, -1, k, lanes[k].name, cards[i][p], decide)
  {
    var title := cards[i][p];
    var k := decide(Lower(lanes[i].name), title).actions[0].lane;
    var after := LaneRun(lanes, decide, i, cards[i], cards).1;
    var rest := RunFrom(lanes, processed, decide, i + 1, after);
    LaneRunArrivals(lanes, decide, i, cards[i], cards, p);
    var m :| 0 <= m < |after[k]| && after[k][m] == title;
    ListedDecided(lanes, processed, decide, i + 1, after, k);
    var p' :| DecidedBlock(rest, p', k, lanes[k].name, after[k], decide);
    assert rest[p' + m] == Visit(k, title, decide(Lower(lanes[k].name), title));
  }

  /** Decision `v` moved `title`, while open, into lane `k`. */
  predicate Brought(v: Visit, k: nat, title: string) {
    MovedOpen(v.scan) && v.scan.actions[0].lane == k && v.title == title
  }

  /** `title` sat in lane `k` when the board was first listed, or one of
      the decisions `done` brought it there. */
  predicate Explained(lanes: seq<Lane>, done: seq<Visit>, k: nat, title: string) {
    (k < |lanes| && title in lanes[k].cards) || exists q | 0 <= q < |done| :: Brought(done[q], k, title)
  }

  predicate AllExplained(lanes: seq<Lane>, done: seq<Visit>, cards: seq<seq<string>>) {
    forall k, m | 0 <= k < |cards| && 0 <= m < |cards[k]| :: Explained(lanes, done, k, cards[k][m])
  }

  lemma ExplainedGrow(lanes: seq<Lane>, done: seq<Visit>, more: seq<Visit>, k: nat, title: string)
    requires Explained(lanes, done, k, title)
    ensures Explained(lanes, done + more, k, title)
  {
    if !(k < |lanes| && title in lanes[k].cards) {
      var q :| 0 <= q < |done| && Brought(done[q], k, title);
      assert (done + more)[q] == done[q];
    }
  }

  /** A lane's run keeps every open card explained. */
  lemma {:induction false} LaneRunExplained(lanes: seq<Lane>, decide: (string, string) -> Scan, i: nat, todo: seq<string>,
                                            cards: seq<seq<string>>, done: seq<Visit>)
    requires i < |lanes| && AllExplained(lanes, done, cards)
    ensures var r := LaneRun(lanes, decide, i, todo, cards); AllExplained(lanes, done + r.0, r.1)
    decreases |todo|
  {
    if |todo| == 0 {
      assert done + [] == done;
    } else {
      var v := Visit(i, todo[0], decide(Lower(lanes[i].name), todo[0]));
      var c1 := Arrive(cards, todo[0], v.scan);
      ArriveExplained(lanes, done, cards, v);
      LaneRunExplained(lanes, decide, i, todo[1..], c1, done + [v]);
      var r := LaneRun(lanes, decide, i, todo[1..], c1);
      assert LaneRun(lanes, decide, i, todo, cards) == ([v] + r.0, r.1);
      assert done + [v] + r.0 == done + ([v] + r.0);
    }
  }

  /** One decision keeps every open card explained. */
  lemma ArriveExplained(lanes: seq<Lane>, done: seq<Visit>, cards: seq<seq<string>>, v: Visit)
    requires AllExplained(lanes, done, cards)
    ensures AllExplained(lanes, done + [v], Arrive(cards, v.title, v.scan))
  {
    var c1 := Arrive(cards, v.title, v.scan);
    forall k, m | 0 <= k < |c1| && 0 <= m < |c1[k]| ensures Explained(lanes, done + [v], k, c1[k][m]) {
      if m < |cards[k]| {
        assert c1[k][m] == cards[k][m];
        ExplainedGrow(lanes, done, [v], k, cards[k][m]);
      } else {
        assert (done + [v])[|done|] == v && Brought(v, k, c1[k][m]);
      }
    }
  }

  /** Before any decision, every card is in its first listing. */
  lemma ListedExplained(lanes: seq<Lane>)
    ensures AllExplained(lanes, [], Listed(lanes))
  {
    var cards := Listed(lanes);
    forall k, m | 0 <= k < |cards| && 0 <= m < |cards[k]| ensures Explained(lanes, [], k, cards[k][m]) {
      assert cards[k][m] in lanes[k].cards;
    }
  }

  /** Every decision of `vs` is of a card explained by `done` and the
      decisions of `vs` before it. */
  predicate RunExplained(lanes: seq<Lane>, done: seq<Visit>, vs: seq<Visit>) {
    forall p | 0 <= p < |vs| :: Explained(lanes, done + vs[..p], vs[p].lane, vs[p].title)
  }

  lemma RunExplainedConcat(lanes: seq<Lane>, done: seq<Visit>, here: seq<Visit>, rest: seq<Visit>)
    requires RunExplained(lanes, done, here) && RunExplained(lanes, done + here, rest)
    ensures RunExplained(lanes, done, here + rest)
  {
    var vs := here + rest;
    forall p | 0 <= p < |vs| ensures Explained(lanes, done + vs[..p], vs[p].lane, vs[p].title) {
      if p < |here| {
        assert vs[..p] == here[..p] && vs[p] == here[p];
      } else {
        var p' := p - |here|;
        assert vs[p] == rest[p'];
        assert done + vs[..p] == done + here + rest[..p'];
      }
    }
  }

  /** The decisions of a lane's listing are of cards explained before the
      lane's run. */
  lemma ListingExplained(lanes: seq<Lane>, decide: (string, string) -> Scan, i: nat, cards: seq<seq<string>>, done: seq<Visit>)
    requires i < |lanes| && i < |cards| && AllExplained(lanes, done, cards)
    ensures RunExplained(lanes, done, LaneRun(lanes, decide, i, cards[i], cards).0)
  {
    var here := LaneRun(lanes, decide, i, cards[i], cards).0;
    forall p | 0 <= p < |here| ensures Explained(lanes, done + here[..p], here[p].lane, here[p].title) {
      assert here[p].title == cards[i][p] && here[p].lane == i;
      assert Explained(lanes, done, i, cards[i][p]);
      ExplainedGrow(lanes, done, here[..p], i, cards[i][p]);
    }
  }

  /** Every decision of a run from lane `i` is of a card explained by the
      decisions before it. */
  lemma {:induction false} RunFromExplained(lanes: seq<Lane>, processed: string -> bool, decide: (string, string) -> Scan,
                                            i: nat, cards: seq<seq<string>>, done: seq<Visit>)
    requires i <= |lanes| && |cards| == |lanes| && AllExplained(lanes, done, cards)
    ensures RunExplained(lanes, done, RunFrom(lanes, processed, decide, i, cards))
    decreases |lanes| - i
  {
    var vs := RunFrom(lanes, processed, decide, i, cards);
    if i < |lanes| {
      if !processed(lanes[i].name) {
        assert vs == RunFrom(lanes, processed, decide, i + 1, cards);
        RunFromExplained(lanes, processed, decide, i + 1, cards, done);
      } else {
        var (here, after) := LaneRun(lanes, decide, i, cards[i], cards);
        var rest := RunFrom(lanes, processed, decide, i + 1, after);
        assert vs == here + rest;
        ListingExplained(lanes, decide, i, cards, done);
        LaneRunExplained(lanes, decide, i, cards[i], cards, done);
        RunFromExplained(lanes, processed, decide, i + 1, after, done + here);
        RunExplainedConcat(lanes, done, here, rest);
      }
    }
  }

  /** `MovedDecidedAgain` for a whole run. */
  lemma BoardMovedDecidedAgain(lanes: seq<Lane>, processed: string -> bool, decide: (string, string) -> Scan, p: nat)
    requires p < |RunBoard(lanes, processed, decide)|
    requires var v := RunBoard(lanes, processed, decide)[p];
      MovedOpen(v.scan) && v.lane < v.scan.actions[0].lane < |lanes| && processed(lanes[v.scan.actions[0].lane].name)
    ensures var vs := RunBoard(lanes, processed, decide);
      var k := vs[p].scan.actions[0].lane;
      DecidedLater(vs, p, k, lanes[k].name, vs[p].title, decide)
  {
    MovedDecidedAgain(lanes, processed, decide, 0, Listed(lanes), RunBoard(lanes, processed, decide), p);
  }

  /** Every decision of a whole run is of a card that was in its lane when
      the board was first listed, or that an earlier decision brought
      there. */
  lemma {:induction false} BoardExplained(lanes: seq<Lane>, processed: string -> bool, decide: (string, string) -> Scan, p: nat)
    requires p < |RunBoard(lanes, processed, decide)|
    ensures var vs := RunBoard(lanes, processed, decide);
      || vs[p].title in lanes[vs[p].lane].cards
      || exists q | 0 <= q < p :: Brought(vs[q], vs[p].lane, vs[p].title)
  {
    ListedExplained(lanes);
    RunFromExplained(lanes, processed, decide, 0, Listed(lanes), []);
    ExplainedAt(lanes, RunBoard(lanes, processed, decide), p);
  }

  /** A decision of a run explained from the start is of a card in its
      lane's first listing or brought there by an earlier decision. */
  lemma ExplainedAt(lanes: seq<Lane>, vs: seq<Visit>, p: nat)
    requires RunExplained(lanes, [], vs) && p < |vs| && vs[p].lane < |lanes|
    ensures || vs[p].title in lanes[vs[p].lane].cards
            || exists q | 0 <= q < p :: Brought(vs[q], vs[p].lane, vs[p].title)
  {
    assert Explained(lanes, [] + vs[..p], vs[p].lane, vs[p].title);
    if !(vs[p].title in lanes[vs[p].lane].cards) {
      var q :| 0 <= q < |[] + vs[..p]| && Brought(([] + vs[..p])[q], vs[p].lane, vs[p].title);
      assert ([] + vs[..p])[q] == vs[q];
    }
  }


  // ---- the snap board ----

  /** `move_card` as a decision on any lane name: lanes without a
      promotion channel are never decided, since `main` skips them. */
  function Decider(config: Json, store: map<string, seq<TrackMap>>, lanes: seq<Lane>): (string, string) -> Scan {
    (lane: string, title: string) =>
      if NextChannel(lane).Some? then MoveCard(config, lane, title, store, lanes) else Scan([], Running)
  }

  /** `main`: the Edge, Beta and Candidate lanes (in any case) are listed in
      board order, each when its turn comes, and every card listed gets
      `move_card`. */
  function ManageBoard(config: Json, lanes: seq<Lane>, store: map<string, seq<TrackMap>>): seq<Visit> {
    RunBoard(lanes, Processed, Decider(config, store, lanes))
  }

  /** The lane a promoted card belongs in, by the lower-cased name of the
      lane it sits in. */
  function PromotedLane(lane: string): string {
    if lane == "edge" then "Beta" else if lane == "beta" then "Candidate" else "Stable"
  }

  /** Lanes other than Edge, Beta and Candidate (in any case) are never
      listed: none of their cards is decided, archived or moved. */
  lemma OtherLanesUntouched(config: Json, lanes: seq<Lane>, store: map<string, seq<TrackMap>>, i: nat)
    requires i < |lanes| && Lower(lanes[i].name) !in {"edge", "beta", "candidate"}
    ensures forall p | 0 <= p < |ManageBoard(config, lanes, store)| :: ManageBoard(config, lanes, store)[p].lane != i
  {
    assert !Processed(lanes[i].name);
  }

  /** Every decision of a run is `move_card` on a card listed in an Edge,
      Beta or Candidate lane; a card that moves goes, as its last action, to
      an open lane named after the next risk level. */
  lemma {:induction false} OnlyPromotedMoves(config: Json, lanes: seq<Lane>, store: map<string, seq<TrackMap>>, p: nat)
    requires p < |ManageBoard(config, lanes, store)|
    ensures var v := ManageBoard(config, lanes, store)[p];
      && v.lane < |lanes| && Lower(lanes[v.lane].name) in {"edge", "beta", "candidate"}
      && v.scan == MoveCard(config, Lower(lanes[v.lane].name), v.title, store, lanes)
      && (v.scan.stop == Moved ==>
            exists k | 0 <= k < |lanes| ::
              && lanes[k].open && lanes[k].name == PromotedLane(Lower(lanes[v.lane].name))
              && |v.scan.actions| > 0 && v.scan.actions[|v.scan.actions| - 1] == MoveTo(k))
  {
    var v := ManageBoard(config, lanes, store)[p];
    var lane := Lower(lanes[v.lane].name);
    assert Processed(lanes[v.lane].name);
    MoveCardShape(config, lane, v.title, store, lanes);
    CapitalizedNext(lane);
  }

  /** Every card an Edge, Beta or Candidate lane holds when the board is
      first listed is decided in that lane, the lane's cards in order. */
  lemma InitialCardsDecided(config: Json, lanes: seq<Lane>, store: map<string, seq<TrackMap>>, i: nat)
    requires i < |lanes| && Processed(lanes[i].name)
    ensures exists p :: DecidedBlock(ManageBoard(config, lanes, store), p, i, lanes[i].name, lanes[i].cards, Decider(config, store, lanes))
    ensures forall t :: Decider(config, store, lanes)(Lower(lanes[i].name), t) == MoveCard(config, Lower(lanes[i].name), t, store, lanes)
  {
    var decide := Decider(config, store, lanes);
    var vs := ManageBoard(config, lanes, store);
    assert vs == RunFrom(lanes, Processed, decide, 0, Listed(lanes));
    assert Listed(lanes)[i] == lanes[i].cards;
    ListedDecided(lanes, Processed, decide, 0, Listed(lanes), i);
    var p :| DecidedBlock(vs, p, i, lanes[i].name, Listed(lanes)[i], decide);
    assert DecidedBlock(vs, p, i, lanes[i].name, lanes[i].cards, decide);
  }

  /** Promotions cascade: a card that an Edge or Beta lane moves, without
      archiving it, into a lane further along the board is decided again in
      that lane (Beta or Candidate) later in the same run. A card can so
      climb from Edge to Candidate, or from Beta to Stable, in one run. */
  lemma {:induction false} PromotedDecidedAgain(config: Json, lanes: seq<Lane>, store: map<string, seq<TrackMap>>, p: nat)
    requires p < |ManageBoard(config, lanes, store)|
    requires var v := ManageBoard(config, lanes, store)[p];
      && v.lane < |lanes| && Lower(lanes[v.lane].name) in {"edge", "beta"}
      && MovedOpen(v.scan) && v.lane < v.scan.actions[0].lane
    ensures var vs := ManageBoard(config, lanes, store);
      var k := vs[p].scan.actions[0].lane;
      && k < |lanes| && Lower(lanes[k].name) == NextChannel(Lower(lanes[vs[p].lane].name)).value
      && exists q | p < q < |vs| :: vs[q] == Visit(k, vs[p].title, MoveCard(config, Lower(lanes[k].name), vs[p].title, store, lanes))
  {
    var decide := Decider(config, store, lanes);
    var vs := ManageBoard(config, lanes, store);
    assert vs == RunFrom(lanes, Processed, decide, 0, Listed(lanes));
    var v := vs[p];
    var lane := Lower(lanes[v.lane].name);
    OnlyPromotedMoves(config, lanes, store, p);
    var k := v.scan.actions[0].lane;
    assert k < |lanes| && lanes[k].name == PromotedLane(lane);
    PromotedLaneProcessed(lane);
    MovedDecidedAgain(lanes, Processed, decide, 0, Listed(lanes), vs, p);
    var q :| p < q < |vs| && vs[q] == Visit(k, v.title, decide(Lower(lanes[k].name), v.title));
    assert decide(Lower(lanes[k].name), v.title) == MoveCard(config, Lower(lanes[k].name), v.title, store, lanes);
  }

  /** Conversely, every card decided in a lane was in that lane when the
      board was first listed, or an earlier decision of the same run moved
      it there without archiving it. */
  lemma {:induction false} DecisionsExplained(config: Json, lanes: seq<Lane>, store: map<string, seq<TrackMap>>, p: nat)
    requires p < |ManageBoard(config, lanes, store)|
    ensures var vs := ManageBoard(config, lanes, store);
      || vs[p].title in lanes[vs[p].lane].cards
      || exists q | 0 <= q < p :: Brought(vs[q], vs[p].lane, vs[p].title)
  {
    BoardExplained(lanes, Processed, Decider(config, store, lanes), p);
  }

  /** The lanes Edge and Beta promote into are processed in their turn. */
  lemma PromotedLaneProcessed(lane: string)
    requires lane in {"edge", "beta"}
    ensures Lower(PromotedLane(lane)) == NextChannel(lane).value
    ensures Processed(PromotedLane(lane))
  {
    if lane == "edge" {
      assert Lower("Beta") == "beta";
    } else {
      assert Lower("Candidate") == "candidate";
    }
  }

  /** The lane named after the next risk level, as `capitalize` spells it. */
  lemma CapitalizedNext(lane: string)
    requires NextChannel(lane).Some?
    ensures Capitalize(NextChannel(lane).value) == PromotedLane(lane)
  {
    if lane == "edge" {
      assert Lower("eta") == "eta";
    } else if lane == "beta" {
      assert Lower("andidate") == "andidate";
    } else {
      assert Lower("table") == "table";
    }
  }
}

=== FILE: snap_updater.dfy ===
/** Reporting a Testflinger run on the snap board
    (`trello-board-updater.py`): find or create the snap's card, comment
    the run's summary on it, record the run in the `Testflinger` checklist,
    flag a crash, and give a new card its `Sign-Off` checklist. The card
    search (an unescaped regular expression built from the arguments) is an
    input: the card it found, if any. */
module SnapUpdater {
  import opened Wrappers
  import opened Text
  import opened CardTitle
  import opened Checklists

  /** The track argument with every `__track__` placeholder removed. */
  function NormaliseTrack(arg: string): string {
    Replace(arg, "__track__", "")
  }

  /** A track argument without the placeholder is used as given, and the
      bare placeholder means no track. */
  lemma NormaliseTrackCases(arg: string)
    ensures !Contains(arg, "__track__") ==> NormaliseTrack(arg) == arg
    ensures NormaliseTrack("__track__") == ""
  {
    if !Contains(arg, "__track__") {
      ReplaceAbsent(arg, "__track__", "");
    }
    var p := "__track__";
    assert p[..|p|] == p && p[|p|..] == "";
    assert Replace("", p, "") == "";
  }

  /** A card as the updater sees it: title, checklists, label names and
      comments. */
  datatype Card = Card(name: string, checklists: seq<Checklist>, labels: seq<string>, comments: seq<string>)

  /** The run either crashed (no card found and no lane to create it in:
      the script calls `comment` on `None`) or updated a card, created in
      the given open list with the given title when none was found. */
  datatype Outcome = Crashed | Updated(created: Option<(nat, string)>, card: Card)

  const CrashLabel := "TESTFLINGER CRASH"

  /** The Testflinger entry: a link to the C3 results when there are any. */
  function TestflingerItem(name: string, time: string, c3: string): string {
    if c3 == "" then name + " (" + time + ")"
    else "[" + name + " (" + time + ")](" + c3 + ")"
  }

  /** The comment posted for the run. */
  function SummaryComment(name: string, snap: string, version: string, revision: string, channel: string,
                          buildUrl: string, c3: string, summary: string): string {
    "**[TESTFLINGER] " + name + " " + snap + " " + version + " (" + revision + ") " + channel + "**\n---\n\n"
    + "- Jenkins build details: " + buildUrl + "\n"
    + "- Full results at: " + c3 + "\n\n```\n"
    + summary + "\n```\n"
  }

  /** The `Sign-Off` checklist of a new card: landing and edge are cleared,
      beta is cleared when the run was on the beta channel. */
  function SignOffItems(channel: string): seq<Item> {
    [ Item("Clear for Landing", true), Item("Ready for Edge", true), Item("Ready for Beta", channel == "beta"),
      Item("Ready for Candidate", false), Item("Ready for Stable", false), Item("Can be Archived", false) ]
  }

  /** Index of the first open list called `name`. */
  function FirstNamed(lists: seq<string>, name: string, i: nat): (r: Option<nat>)
    requires i <= |lists|
    ensures r.Some? ==> i <= r.value < |lists| && lists[r.value] == name
    ensures r.None? ==> forall k | i <= k < |lists| :: lists[k] != name
    decreases |lists| - i
  {
    if i == |lists| then None
    else if lists[i] == name then Some(i)
    else FirstNamed(lists, name, i + 1)
  }

  /** Appends an item to the checklist at index `i`. */
  function AddItem(cls: seq<Checklist>, i: nat, item: Item): (r: seq<Checklist>)
    requires i < |cls|
  {
    cls[i := cls[i].(items := cls[i].items + [item])]
  }

  /** The card's labels after the crash rule: a run without C3 results adds
      the board's crash label unless the card has it. */
  function CrashLabels(labels: seq<string>, boardLabels: seq<string>, c3: string): seq<string> {
    if c3 == "" && CrashLabel in boardLabels && CrashLabel !in labels then labels + [CrashLabel] else labels
  }

  /** `main` after argument parsing. `found` is the card the search
      returned; `openLists` are the board's open list names; `time` is the
      run's UTC timestamp. */
  function Update(found: Option<Card>, openLists: seq<string>, boardLabels: seq<string>,
                  name: string, snap: string, version: string, revision: string, channel: string,
                  trackArg: string, c3: string, buildUrl: string, time: string, summary: string): Outcome
  {
    var track := NormaliseTrack(trackArg);
    var start: Option<(Option<(nat, string)>, Card)> :=
      if found.Some? then Some((None, found.value))
      else match FirstNamed(openLists, Capitalize(channel), 0)
        case None => None
        case Some(i) =>
          var title := FormatTitle(snap, version, revision, track);
          Some((Some((i, title)), Card(title, [], [], [])));
    match start
    case None => Crashed
    case Some((created, card)) =>
      var comments := card.comments + [SummaryComment(name, snap, version, revision, channel, buildUrl, c3, summary)];
      var checklists := RecordRun(card.checklists, Item(TestflingerItem(name, time, c3), false), channel);
      Updated(created, Card(card.name, checklists, CrashLabels(card.labels, boardLabels, c3), comments))
  }

  /** The card's checklists after the run: its entry appended to the
      `Testflinger` checklist (made if missing), and a `Sign-Off` checklist
      added if the card has none. */
  function RecordRun(before: seq<Checklist>, item: Item, channel: string): seq<Checklist> {
    var (cls, i) := FindOrCreate(before, "Testflinger", []);
    var withRun := AddItem(cls, i, item);
    if FindChecklist(withRun, "Sign-Off").Some? then withRun
    else withRun + [Checklist("Sign-Off", SignOffItems(channel))]
  }

  /** The run crashes exactly when no card was found and no open list is
      named after the channel. A card it creates sits in the first such
      list, and its title reads back through the snap board's title
      grammar as the snap, version, revision and track it was made from. */
  lemma {:induction false} UpdateCreates(found: Option<Card>, openLists: seq<string>, boardLabels: seq<string>,
                      name: string, snap: string, version: string, revision: string, channel: string,
                      trackArg: string, c3: string, buildUrl: string, time: string, summary: string)
    requires NoSpace(snap) && version != "" && NoSpace(version)
    requires NoNewline(revision) && ')' !in revision
    requires NoNewline(NormaliseTrack(trackArg)) && ']' !in NormaliseTrack(trackArg)
    ensures var o := Update(found, openLists, boardLabels, name, snap, version, revision, channel, trackArg, c3, buildUrl, time, summary);
      && (o.Crashed? <==> found.None? && forall k | 0 <= k < |openLists| :: openLists[k] != Capitalize(channel))
      && (o.Updated? ==> (o.created.Some? <==> found.None?))
      && (o.Updated? && o.created.Some? ==>
            && o.created.value.0 < |openLists| && openLists[o.created.value.0] == Capitalize(channel)
            && o.card.name == o.created.value.1
            && var track := NormaliseTrack(trackArg);
               ParseTitle(o.card.name) == Some(Title(snap, version, revision, if track == "" then None else Some(track))))
  {
    var track := NormaliseTrack(trackArg);
    FormatParses(snap, version, revision, track);
  }

  /** After an update the `Testflinger` checklist has gained exactly the
      run's entry, as its last item; every other checklist the card had is
      unchanged; the card has a `Sign-Off` checklist, a new one only when
      it had none; and it carries the crash label exactly when it did
      before or the run had no C3 results and the board has the label. */
  lemma UpdateRecords(found: Option<Card>, openLists: seq<string>, boardLabels: seq<string>,
                      name: string, snap: string, version: string, revision: string, channel: string,
                      trackArg: string, c3: string, buildUrl: string, time: string, summary: string)
    ensures var o := Update(found, openLists, boardLabels, name, snap, version, revision, channel, trackArg, c3, buildUrl, time, summary);
      o.Updated? ==>
        && RunRecorded(if found.Some? then found.value.checklists else [], o.card.checklists, Item(TestflingerItem(name, time, c3), false))
        && (CrashLabel in o.card.labels <==>
              (found.Some? && CrashLabel in found.value.labels) || (c3 == "" && CrashLabel in boardLabels))
  {
    var o := Update(found, openLists, boardLabels, name, snap, version, revision, channel, trackArg, c3, buildUrl, time, summary);
    if o.Updated? {
      var before := if found.Some? then found.value.checklists else [];
      assert o.card.checklists == RecordRun(before, Item(TestflingerItem(name, time, c3), false), channel);
      RecordRunRecords(before, Item(TestflingerItem(name, time, c3), false), channel);
    }
  }

  /** What recording a run does to a card's checklists: the `Testflinger`
      checklist has gained exactly the run's entry, as its last item; every
      other checklist the card had is unchanged; and there is a `Sign-Off`
      checklist, which is the card's own when it had one. */
  ghost predicate RunRecorded(before: seq<Checklist>, after: seq<Checklist>, item: Item) {
    && FindChecklist(after, "Testflinger").Some?
    && var t := FindChecklist(after, "Testflinger").value;
    && (t < |before| ==> after[t].items == before[t].items + [item])
    && (t >= |before| ==> after[t].items == [item])
    && (forall k | 0 <= k < |before| && k != t :: k < |after| && after[k] == before[k])
    && FindChecklist(after, "Sign-Off").Some?
    && (FindChecklist(before, "Sign-Off").Some? ==>
          after[FindChecklist(after, "Sign-Off").value] == before[FindChecklist(before, "Sign-Off").value])
  }

  lemma RecordRunRecords(before: seq<Checklist>, item: Item, channel: string)
    ensures RunRecorded(before, RecordRun(before, item, channel), item)
  {
    var (cls, i) := FindOrCreate(before, "Testflinger", []);
    FindOrCreateKeeps(before, "Testflinger", []);
    FindChecklistFirst(before, "Testflinger");
    var withRun := AddItem(cls, i, item);
    AddedKeepsNames(cls, i, item);
    SignOffStep(before, cls, i, item, channel);
    var after := RecordRun(before, item, channel);
    assert after[..|withRun|] == withRun;
    FindChecklistFirst(after, "Testflinger");
    assert FindChecklist(after, "Testflinger") == Some(i) by {
      assert after[i] == withRun[i];
      assert forall k | 0 <= k < i :: after[k].name == cls[k].name;
    }
    if i < |before| {
      assert cls == before;
    }
  }

  /** Adding an item renames nothing. */
  lemma AddedKeepsNames(cls: seq<Checklist>, i: nat, item: Item)
    requires i < |cls|
    ensures |AddItem(cls, i, item)| == |cls|
    ensures forall k | 0 <= k < |cls| :: AddItem(cls, i, item)[k].name == cls[k].name
    ensures forall k | 0 <= k < |cls| && k != i :: AddItem(cls, i, item)[k] == cls[k]
    ensures AddItem(cls, i, item)[i].items == cls[i].items + [item]
  {
  }

  lemma SignOffStep(before: seq<Checklist>, cls: seq<Checklist>, i: nat, item: Item, channel: string)
    requires (cls, i) == FindOrCreate(before, "Testflinger", [])
    ensures var withRun := AddItem(cls, i, item);
      var after := if FindChecklist(withRun, "Sign-Off").Some? then withRun
                   else withRun + [Checklist("Sign-Off", SignOffItems(channel))];
      && FindChecklist(after, "Sign-Off").Some?
      && (FindChecklist(before, "Sign-Off").Some? ==>
            after[FindChecklist(after, "Sign-Off").value] == before[FindChecklist(before, "Sign-Off").value])
  {
    var withRun := AddItem(cls, i, item);
    FindOrCreateKeeps(before, "Testflinger", []);
    AddedKeepsNames(cls, i, item);
    FindChecklistFirst(withRun, "Sign-Off");
    FindChecklistFirst(before, "Sign-Off");
    var after := if FindChecklist(withRun, "Sign-Off").Some? then withRun
                 else withRun + [Checklist("Sign-Off", SignOffItems(channel))];
    FindChecklistFirst(after, "Sign-Off");
    if FindChecklist(withRun, "Sign-Off").None? {
      assert after[|withRun|].name == "Sign-Off";
    }
    if FindChecklist(before, "Sign-Off").Some? {
      var b := FindChecklist(before, "Sign-Off").value;
      assert cls[..|before|] == before;
      assert cls[b] == before[b];
      assert b != i by {
        assert cls[i].name == "Testflinger";
      }
      assert withRun[b] == before[b];
      assert forall k | 0 <= k < b :: withRun[k].name == before[k].name by {
        assert forall k | 0 <= k < b :: cls[k] == before[k];
      }
      assert FindChecklist(withRun, "Sign-Off") == Some(b);
    }
  }
}

=== FILE: snappy_timing.dfy ===
/** Boot and snap-operation timings pulled out of a Checkbox submission and
    turned into `snap_timing` points and InfluxDB line inserts, together with
    the parser for the one-line summary that `systemd-analyze` prints. */
module SnappyTiming {
  import opened Wrappers
  import opened Text
  import opened Decimal
  import opened Json

  /** Job-id suffixes whose Checkbox `duration` is the measurement. */
  const MeasuredJobs: seq<string> :=
    ["snap-install", "snap-remove", "connect-tillamook-plugs", "connect-caracalla-plugs"]

  /** Job-id suffix of the job whose output holds the boot summary. */
  const BootupJobId: string := "info/systemd-analyze"

  /** `dquote(s)`: `s` between double quotes. */
  function DQuote(s: string): (r: string)
    ensures |r| == |s| + 2 && r[0] == '"' && r[|r| - 1] == '"'
    ensures r[1..|r| - 1] == s
  {
    "\"" + s + "\""
  }

  // ---------------------------------------------------------------------
  // The per-segment pattern
  //   [^\d]*(\s\d+h)?(\s\d+min)?(\s\d+)(\.\d+)?s
  // applied with re.match.  Every group after `[^\d]*` begins with `\s\d`,
  // so of all the lengths the greedy `[^\d]*` can take only the one ending
  // just before the first digit can succeed, and it needs whitespace there.
  // Each `\d+` must be followed by a non-digit (`h`, `m`, `.` or `s`), so it
  // only succeeds with the whole digit run.  At one position at most one of
  // the hours, minutes and seconds groups can match (they differ in the
  // character after the digits), so backtracking over the two optional
  // groups never finds a second match: the match, when there is one, takes
  // each optional group exactly when it matches where the previous one
  // ended.
  // ---------------------------------------------------------------------

  /** `\s\d+` followed by `unit` at position `x`: the number and the position
      after the unit. */
  function UnitComponent(s: string, x: nat, unit: string): Option<(real, nat)> {
    if x + 1 < |s| && IsSpace(s[x]) && IsDigit(s[x + 1]) then
      var e := DigitRunEnd(s, x + 1);
      if LiteralAt(s, e, unit) then Some((NumberIn(s, x + 1, e) as real, e + |unit|)) else None
    else None
  }

  /** `(\s\d+)(\.\d+)?s` at position `x`: the seconds, fraction included. */
  function SecondsComponent(s: string, x: nat): Option<real> {
    if x + 1 < |s| && IsSpace(s[x]) && IsDigit(s[x + 1]) then
      var e := DigitRunEnd(s, x + 1);
      var whole := NumberIn(s, x + 1, e) as real;
      if e + 1 < |s| && s[e] == '.' && IsDigit(s[e + 1]) then
        var f := DigitRunEnd(s, e + 1);
        if f < |s| && s[f] == 's' then Some(whole + FractionIn(s, e + 1, f)) else None
      else if e < |s| && s[e] == 's' then Some(whole)
      else None
    else None
  }

  /** The nested `extract`: the duration a segment reports, in seconds, or
      `None` where the source's `re.match(...).groupdict()` raises. */
  function Segment(tx: string): (r: Option<real>)
    ensures r.Some? ==> r.value >= 0.0
  {
    var p := FirstDigit(tx);
    if p == 0 || p == |tx| || !IsSpace(tx[p - 1]) then None
    else
      var q := p - 1;
      var hours := UnitComponent(tx, q, "h");
      var a := if hours.Some? then hours.value.1 else q;
      var minutes := UnitComponent(tx, a, "min");
      var b := if minutes.Some? then minutes.value.1 else a;
      var seconds := SecondsComponent(tx, b);
      if seconds.None? then None
      else
        var h := if hours.Some? then hours.value.0 else 0.0;
        var m := if minutes.Some? then minutes.value.0 else 0.0;
        Some(3600.0 * h + 60.0 * m + seconds.value)
  }

  /** What the parser gives back: Python's `None`, the triple, or an
      exception (`ValueError` from unpacking a split, `AttributeError` from a
      segment the pattern does not match). */
  datatype SysdOutcome = NoTimings | Timings(kernel: real, userspace: real, total: real) | Raises

  /** `parse_sysd_analyze(text)` of the current script. */
  function ParseSysd(text: string): (r: SysdOutcome)
    ensures r == NoTimings <==> '+' !in text || '=' !in text
    ensures r.Timings? ==> CountChar(text, '+') == 1
    ensures r.Timings? ==>
      var halves := Split(text, '+');
      var parts := Split(halves[1], '=');
      && |parts| == 2
      && Segment(halves[0]) == Some(r.kernel)
      && Segment(parts[0]) == Some(r.userspace)
      && Segment(parts[1]) == Some(r.total)
  {
    if '+' !in text || '=' !in text then NoTimings
    else if CountChar(text, '+') != 1 then Raises
    else
      var halves := Split(text, '+');
      if CountChar(halves[1], '=') != 1 then Raises
      else
        var parts := Split(halves[1], '=');
        match (Segment(halves[0]), Segment(parts[0]), Segment(parts[1]))
        case (Some(k), Some(u), Some(t)) => Timings(k, u, t)
        case _ => Raises
  }

  // ---------------------------------------------------------------------
  // Rendered durations: the partner of the segment parser.
  // ---------------------------------------------------------------------

  /** A duration as `systemd-analyze` prints it: optional hours and minutes,
      whole seconds and an optional fraction, all as digit strings. */
  datatype Duration = Duration(hours: Option<string>, minutes: Option<string>, seconds: string, fraction: Option<string>)

  predicate DigitString(s: string) {
    |s| > 0 && AllDigits(s)
  }

  predicate ValidDuration(d: Duration) {
    && (d.hours.Some? ==> DigitString(d.hours.value))
    && (d.minutes.Some? ==> DigitString(d.minutes.value))
    && DigitString(d.seconds)
    && (d.fraction.Some? ==> DigitString(d.fraction.value))
  }

  function HoursText(d: Duration): string
    requires ValidDuration(d)
  {
    if d.hours.Some? then " " + d.hours.value + "h" else ""
  }

  function MinutesText(d: Duration): string
    requires ValidDuration(d)
  {
    if d.minutes.Some? then " " + d.minutes.value + "min" else ""
  }

  function SecondsText(d: Duration): string
    requires ValidDuration(d)
  {
    " " + d.seconds + FractionText(d) + "s"
  }

  /** ` 1h 4min 20.111s`: each component preceded by a space. */
  function Render(d: Duration): string
    requires ValidDuration(d)
  {
    HoursText(d) + MinutesText(d) + SecondsText(d)
  }

  /** 3600·h + 60·min + s + fraction, absent components counting 0. */
  function Seconds(d: Duration): real
    requires ValidDuration(d)
  {
    3600.0 * HoursValue(d) + 60.0 * MinutesValue(d) + SecondsValue(d)
  }

  function HoursValue(d: Duration): real
    requires ValidDuration(d)
  {
    if d.hours.Some? then DigitsValue(d.hours.value) as real else 0.0
  }

  function MinutesValue(d: Duration): real
    requires ValidDuration(d)
  {
    if d.minutes.Some? then DigitsValue(d.minutes.value) as real else 0.0
  }

  function SecondsValue(d: Duration): real
    requires ValidDuration(d)
  {
    DigitsValue(d.seconds) as real + (if d.fraction.Some? then FractionValue(d.fraction.value) else 0.0)
  }

  /** `tx` holds `" " + ds + after` at `x`, with `after` not starting with a
      digit: `\s\d+` matches there and its digits are `ds`. */
  lemma NumberAt(tx: string, x: nat, ds: string, after: string)
    requires DigitString(ds) && |after| > 0 && !IsDigit(after[0])
    requires x <= |tx| && LiteralAt(tx, x, " " + ds + after)
    ensures x + 1 < |tx| && IsSpace(tx[x]) && IsDigit(tx[x + 1])
    ensures DigitRunEnd(tx, x + 1) == x + 1 + |ds|
    ensures NumberIn(tx, x + 1, x + 1 + |ds|) == DigitsValue(ds)
    ensures x + 1 + |ds| < |tx| && tx[x + 1 + |ds|] == after[0]
    ensures LiteralAt(tx, x + 1 + |ds|, after)
  {
    var t := " " + ds + after;
    LiteralAtSlice(tx, x, t);
    SliceInner(tx, x, t, 1, 1 + |ds|);
    SliceInner(tx, x, t, 1 + |ds|, |t|);
    assert t[1..1 + |ds|] == ds;
    assert t[1 + |ds|..] == after;
    assert tx[x] == t[0];
    assert tx[x + 1 + |ds|] == after[0];
    forall k | x + 1 <= k < x + 1 + |ds|
      ensures IsDigit(tx[k])
    {
      assert tx[k] == tx[x + 1..x + 1 + |ds|][k - x - 1];
    }
    DigitRunEndUnique(tx, x + 1, x + 1 + |ds|);
    NumberInSlice(tx, x + 1, x + 1 + |ds|);
    LiteralAtSlice(tx, x + 1 + |ds|, after);
  }

  /** `\s\d+` then `unit` where the text holds a space, digits and the unit. */
  lemma UnitHit(tx: string, x: nat, ds: string, unit: string, rest: string)
    requires DigitString(ds) && |unit| > 0 && !IsDigit(unit[0])
    requires x <= |tx| && LiteralAt(tx, x, " " + ds + (unit + rest))
    ensures UnitComponent(tx, x, unit) == Some((DigitsValue(ds) as real, x + 1 + |ds| + |unit|))
  {
    var after := unit + rest;
    NumberAt(tx, x, ds, after);
    var e := x + 1 + |ds|;
    LiteralSplit(tx, e, unit, rest);
    UnitHitAt(tx, x, e, unit, DigitsValue(ds) as real);
  }

  /** The unit group by the position where its digit run ends. */
  lemma UnitHitAt(s: string, x: nat, e: nat, unit: string, value: real)
    requires x + 1 < |s| && IsSpace(s[x]) && IsDigit(s[x + 1]) && DigitRunEnd(s, x + 1) == e
    requires LiteralAt(s, e, unit) && value == NumberIn(s, x + 1, e) as real
    ensures UnitComponent(s, x, unit) == Some((value, e + |unit|))
  {
  }

  /** The unit does not follow the digits: no match at `x`. */
  lemma UnitMiss(tx: string, x: nat, ds: string, after: string, unit: string)
    requires DigitString(ds) && |after| > 0 && !IsDigit(after[0])
    requires x <= |tx| && LiteralAt(tx, x, " " + ds + after)
    requires |unit| > 0 && after[0] != unit[0]
    ensures UnitComponent(tx, x, unit).None?
  {
    NumberAt(tx, x, ds, after);
  }

  /** The seconds component with a fraction. */
  lemma SecondsWithFraction(tx: string, b: nat, ds: string, fv: string)
    requires DigitString(ds) && DigitString(fv)
    requires b <= |tx| && LiteralAt(tx, b, " " + ds + ("." + fv + "s"))
    ensures SecondsComponent(tx, b) == Some(DigitsValue(ds) as real + FractionValue(fv))
  {
    var tail := "." + fv + "s";
    NumberAt(tx, b, ds, tail);
    var e := b + 1 + |ds|;
    FractionAt(tx, e, fv);
    SecondsWithFractionAt(tx, b, e, e + 1 + |fv|, DigitsValue(ds) as real + FractionValue(fv));
  }

  /** The seconds group with a fraction, by the positions where its digit
      runs end. */
  lemma SecondsWithFractionAt(s: string, x: nat, e: nat, f: nat, total: real)
    requires x + 1 < |s| && IsSpace(s[x]) && IsDigit(s[x + 1]) && DigitRunEnd(s, x + 1) == e
    requires e + 1 < |s| && s[e] == '.' && IsDigit(s[e + 1]) && DigitRunEnd(s, e + 1) == f
    requires f < |s| && s[f] == 's'
    requires total == NumberIn(s, x + 1, e) as real + FractionIn(s, e + 1, f)
    ensures SecondsComponent(s, x) == Some(total)
  {
  }

  /** The seconds component without a fraction. */
  lemma SecondsWhole(tx: string, b: nat, ds: string)
    requires DigitString(ds)
    requires b <= |tx| && LiteralAt(tx, b, " " + ds + "s")
    ensures SecondsComponent(tx, b) == Some(DigitsValue(ds) as real)
  {
    NumberAt(tx, b, ds, "s");
  }

  /** `.` digits `s` at `e`: the fraction is those digits. */
  lemma FractionAt(tx: string, e: nat, fv: string)
    requires DigitString(fv)
    requires e <= |tx| && LiteralAt(tx, e, "." + fv + "s")
    ensures e + 1 < |tx| && tx[e] == '.' && IsDigit(tx[e + 1])
    ensures DigitRunEnd(tx, e + 1) == e + 1 + |fv|
    ensures e + 1 + |fv| < |tx| && tx[e + 1 + |fv|] == 's'
    ensures FractionIn(tx, e + 1, e + 1 + |fv|) == FractionValue(fv)
  {
    var t := "." + fv + "s";
    LiteralAtSlice(tx, e, t);
    assert tx[e] == t[0];
    assert tx[e + 1] == t[1] == fv[0];
    assert tx[e + 1 + |fv|] == t[1 + |fv|];
    SliceInner(tx, e, t, 1, 1 + |fv|);
    assert t[1..1 + |fv|] == fv;
    forall k | e + 1 <= k < e + 1 + |fv|
      ensures IsDigit(tx[k])
    {
      assert tx[k] == tx[e + 1..e + 1 + |fv|][k - e - 1];
    }
    DigitRunEndUnique(tx, e + 1, e + 1 + |fv|);
    FractionInSlice(tx, e + 1, e + 1 + |fv|);
  }

  /** The hours group on a rendered duration at `q`. */
  lemma HoursPart(tx: string, q: nat, d: Duration) returns (hours: Option<(real, nat)>, a: nat)
    requires ValidDuration(d) && q <= |tx| && LiteralAt(tx, q, Render(d))
    ensures UnitComponent(tx, q, "h") == hours
    ensures a == (if hours.Some? then hours.value.1 else q) == q + |HoursText(d)|
    ensures (if hours.Some? then hours.value.0 else 0.0) == HoursValue(d)
  {
    var r := Render(d);
    a := q + |HoursText(d)|;
    if d.hours.Some? {
      var hv := d.hours.value;
      assert r == " " + hv + ("h" + (MinutesText(d) + SecondsText(d)));
      UnitHit(tx, q, hv, "h", MinutesText(d) + SecondsText(d));
      hours := Some((HoursValue(d), a));
    } else if d.minutes.Some? {
      var mv := d.minutes.value;
      assert r == " " + mv + ("min" + SecondsText(d));
      UnitMiss(tx, q, mv, "min" + SecondsText(d), "h");
      hours := None;
    } else {
      var tail := FractionText(d) + "s";
      assert r == " " + d.seconds + tail;
      UnitMiss(tx, q, d.seconds, tail, "h");
      hours := None;
    }
  }

  function FractionText(d: Duration): string
    requires ValidDuration(d)
  {
    if d.fraction.Some? then "." + d.fraction.value else ""
  }

  /** The minutes group where the text after the hours group holds the
      rest of a rendered duration. */
  lemma MinutesPart(tx: string, a: nat, d: Duration) returns (minutes: Option<(real, nat)>, b: nat)
    requires ValidDuration(d) && a <= |tx| && LiteralAt(tx, a, MinutesText(d) + SecondsText(d))
    ensures UnitComponent(tx, a, "min") == minutes
    ensures b == (if minutes.Some? then minutes.value.1 else a) == a + |MinutesText(d)|
    ensures (if minutes.Some? then minutes.value.0 else 0.0) == MinutesValue(d)
  {
    var ms := MinutesText(d);
    var ss := SecondsText(d);
    b := a + |ms|;
    if d.minutes.Some? {
      var mv := d.minutes.value;
      assert ms + ss == " " + mv + ("min" + ss);
      UnitHit(tx, a, mv, "min", ss);
      minutes := Some((MinutesValue(d), b));
    } else {
      var tail := FractionText(d) + "s";
      assert ms + ss == " " + d.seconds + tail;
      UnitMiss(tx, a, d.seconds, tail, "min");
      minutes := None;
    }
  }

  /** The seconds group where the text after the optional groups holds the
      seconds of a rendered duration. */
  lemma SecondsPart(tx: string, b: nat, d: Duration)
    requires ValidDuration(d) && b <= |tx| && LiteralAt(tx, b, SecondsText(d))
    ensures SecondsComponent(tx, b) == Some(SecondsValue(d))
  {
    var ss := SecondsText(d);
    if d.fraction.Some? {
      assert ss == " " + d.seconds + ("." + d.fraction.value + "s");
      SecondsWithFraction(tx, b, d.seconds, d.fraction.value);
    } else {
      assert ss == " " + d.seconds + "s";
      SecondsWhole(tx, b, d.seconds);
    }
  }

  /** The tails of a text that holds `hs + ms + ss` at `q`. */
  lemma {:induction false} ThreeParts(tx: string, q: nat, hs: string, ms: string, ss: string)
    requires q <= |tx| && LiteralAt(tx, q, hs + ms + ss)
    ensures q + |hs| + |ms| + |ss| <= |tx|
    ensures LiteralAt(tx, q + |hs|, ms + ss)
    ensures LiteralAt(tx, q + |hs| + |ms|, ss)
  {
    var w := hs + ms + ss;
    LiteralAtSlice(tx, q, w);
    LiteralAtSlice(tx, q + |hs|, ms + ss);
    LiteralAtSlice(tx, q + |hs| + |ms|, ss);
    SliceInner(tx, q, w, |hs|, |w|);
    assert w[|hs|..] == ms + ss;
    SliceInner(tx, q, w, |hs| + |ms|, |w|);
    assert w[|hs| + |ms|..] == ss;
  }

  /** A rendered duration starts with a space and a digit. */
  lemma RenderStart(d: Duration)
    requires ValidDuration(d)
    ensures |Render(d)| > 1 && Render(d)[0] == ' ' && IsDigit(Render(d)[1])
  {
    var h, m, sec := HoursText(d), MinutesText(d), SecondsText(d);
    assert Render(d) == h + m + sec;
    SpaceDigitStart(d.seconds, FractionText(d) + "s");
    assert sec == " " + d.seconds + (FractionText(d) + "s");
    if d.minutes.Some? {
      SpaceDigitStart(d.minutes.value, "min");
      StartsLike(m, sec);
    }
    if d.hours.Some? {
      SpaceDigitStart(d.hours.value, "h");
      StartsLike(h, m);
      StartsLike(h + m, sec);
    } else {
      assert h + m == m;
      if d.minutes.None? {
        assert m + sec == sec;
      }
    }
  }

  /** A space and a number start with a space and a digit. */
  lemma SpaceDigitStart(ds: string, rest: string)
    requires DigitString(ds)
    ensures var r := " " + ds + rest; |r| > 1 && r[0] == ' ' && IsDigit(r[1])
  {
    assert (" " + ds + rest)[1] == ds[0];
  }

  /** Text that starts with a space and a digit still does with more after it. */
  lemma StartsLike(a: string, b: string)
    requires |a| > 1 && a[0] == ' ' && IsDigit(a[1])
    ensures |a + b| > 1 && (a + b)[0] == ' ' && IsDigit((a + b)[1])
  {
  }

  /** The first digit of `lead + r + rest` is just after `lead` when `lead`
      has no digits and `r` starts with a space and a digit. */
  lemma LeadIn(lead: string, r: string, rest: string)
    requires NoDigits(lead) && |r| > 1 && r[0] == ' ' && IsDigit(r[1])
    ensures var tx := lead + r + rest;
      && FirstDigit(tx) == |lead| + 1
      && |lead| + |r| <= |tx|
      && tx[|lead|..|lead| + |r|] == r
  {
    var tx := lead + r + rest;
    forall k | 0 <= k < |lead| + 1
      ensures !IsDigit(tx[k])
    {
      if k < |lead| {
        assert tx[k] == lead[k];
      } else {
        assert tx[k] == r[0];
      }
    }
    assert tx[|lead| + 1] == r[1];
    FirstDigitUnique(tx, |lead| + 1);
    assert tx[|lead|..|lead| + |r|] == r;
  }

  /** Round trip: a digit-free lead-in followed by a rendered duration
      parses to that duration's length in seconds, whatever follows it. */
  lemma SegmentOfRendered(lead: string, d: Duration, rest: string)
    requires ValidDuration(d) && NoDigits(lead)
    ensures Segment(lead + Render(d) + rest) == Some(Seconds(d))
  {
    RenderStart(d);
    LeadIn(lead, Render(d), rest);
    LiteralAtSlice(lead + Render(d) + rest, |lead|, Render(d));
    SegmentAt(lead + Render(d) + rest, |lead|, d);
  }

  /** A rendered duration at `q`, where the first digit sits just after
      `q`: the segment is that duration. */
  lemma SegmentAt(tx: string, q: nat, d: Duration)
    requires ValidDuration(d) && q <= |tx| && LiteralAt(tx, q, Render(d))
    requires FirstDigit(tx) == q + 1
    ensures Segment(tx) == Some(Seconds(d))
  {
    var hours, a, minutes, b := RenderedParts(tx, q, d);
    SegmentOfComponents(tx, q, a, b, hours, minutes, HoursValue(d), MinutesValue(d), SecondsValue(d), Seconds(d));
  }

  /** The three groups of the pattern on a rendered duration at `q`. */
  lemma RenderedParts(tx: string, q: nat, d: Duration)
    returns (hours: Option<(real, nat)>, a: nat, minutes: Option<(real, nat)>, b: nat)
    requires ValidDuration(d) && q <= |tx| && LiteralAt(tx, q, Render(d))
    ensures q + 1 < |tx| && IsSpace(tx[q])
    ensures UnitComponent(tx, q, "h") == hours && a == (if hours.Some? then hours.value.1 else q)
    ensures UnitComponent(tx, a, "min") == minutes && b == (if minutes.Some? then minutes.value.1 else a)
    ensures SecondsComponent(tx, b) == Some(SecondsValue(d))
    ensures (if hours.Some? then hours.value.0 else 0.0) == HoursValue(d)
    ensures (if minutes.Some? then minutes.value.0 else 0.0) == MinutesValue(d)
  {
    SpaceAt(tx, q, d);
    ThreeParts(tx, q, HoursText(d), MinutesText(d), SecondsText(d));
    hours, a := HoursPart(tx, q, d);
    minutes, b := MinutesPart(tx, a, d);
    SecondsPart(tx, b, d);
  }

  lemma SpaceAt(tx: string, q: nat, d: Duration)
    requires ValidDuration(d) && q <= |tx| && LiteralAt(tx, q, Render(d))
    ensures q + 1 < |tx| && IsSpace(tx[q])
  {
    LiteralAtSlice(tx, q, Render(d));
    RenderStart(d);
    assert tx[q] == Render(d)[0];
  }

  /** `Segment` once the three component results are known. */
  lemma SegmentOfComponents(
    tx: string, q: nat, a: nat, b: nat,
    hours: Option<(real, nat)>, minutes: Option<(real, nat)>, h: real, m: real, s: real, total: real)
    requires FirstDigit(tx) == q + 1 && q + 1 < |tx| && IsSpace(tx[q])
    requires UnitComponent(tx, q, "h") == hours && a == (if hours.Some? then hours.value.1 else q)
    requires UnitComponent(tx, a, "min") == minutes && b == (if minutes.Some? then minutes.value.1 else a)
    requires SecondsComponent(tx, b) == Some(s)
    requires h == (if hours.Some? then hours.value.0 else 0.0)
    requires m == (if minutes.Some? then minutes.value.0 else 0.0)
    requires total == 3600.0 * h + 60.0 * m + s
    ensures Segment(tx) == Some(total)
  {
  }

  /** No seconds component where the optional ones end: no match. */
  lemma SegmentWithoutSeconds(
    tx: string, q: nat, a: nat, b: nat, hours: Option<(real, nat)>, minutes: Option<(real, nat)>)
    requires FirstDigit(tx) == q + 1 && q + 1 < |tx| && IsSpace(tx[q])
    requires UnitComponent(tx, q, "h") == hours && a == (if hours.Some? then hours.value.1 else q)
    requires UnitComponent(tx, a, "min") == minutes && b == (if minutes.Some? then minutes.value.1 else a)
    requires SecondsComponent(tx, b).None?
    ensures Segment(tx).None?
  {
  }

  /** Minutes with no seconds after them (`2min` alone) do not match. */
  lemma SegmentMinutesOnly(lead: string, ds: string, rest: string)
    requires DigitString(ds) && NoDigits(lead) && NoDigits(rest)
    ensures Segment(lead + " " + ds + "min" + rest).None?
  {
    LeadIn(lead, " " + ds, "min" + rest);
    var tx := lead + " " + ds + "min" + rest;
    assert tx == lead + (" " + ds) + ("min" + rest);
    assert tx[|lead|..] == " " + ds + ("min" + rest);
    LiteralAtSlice(tx, |lead|, " " + ds + ("min" + rest));
    MinutesThenNoDigit(tx, |lead|, ds, rest);
  }

  /** `\s` digits `min`, then only non-digits to the end. */
  lemma MinutesThenNoDigit(tx: string, q: nat, ds: string, rest: string)
    requires DigitString(ds) && NoDigits(rest)
    requires FirstDigit(tx) == q + 1
    requires q + |" " + ds + ("min" + rest)| == |tx|
    requires LiteralAt(tx, q, " " + ds + ("min" + rest))
    ensures Segment(tx).None?
  {
    NumberAt(tx, q, ds, "min" + rest);
    UnitMiss(tx, q, ds, "min" + rest, "h");
    UnitHit(tx, q, ds, "min", rest);
    var b := q + 1 + |ds| + 3;
    LiteralSplit(tx, q + 1 + |ds|, "min", rest);
    LiteralAtSlice(tx, b, rest);
    if b + 1 < |tx| {
      assert tx[b + 1] == tx[b..b + |rest|][1] == rest[1];
    }
    SegmentWithoutSeconds(tx, q, q, b, None, Some((DigitsValue(ds) as real, b)));
  }

  /** Milliseconds (`752ms`) are not a seconds component. */
  lemma SegmentMilliseconds(lead: string, ds: string, rest: string)
    requires DigitString(ds) && NoDigits(lead)
    ensures Segment(lead + " " + ds + "ms" + rest).None?
  {
    LeadIn(lead, " " + ds, "ms" + rest);
    var tx := lead + " " + ds + "ms" + rest;
    assert tx == lead + (" " + ds) + ("ms" + rest);
    assert tx[|lead|..] == " " + ds + ("ms" + rest);
    LiteralAtSlice(tx, |lead|, " " + ds + ("ms" + rest));
    MillisecondsAt(tx, |lead|, ds, rest);
  }

  /** `\s` digits `ms`: neither hours, minutes nor seconds. */
  lemma MillisecondsAt(tx: string, q: nat, ds: string, rest: string)
    requires DigitString(ds)
    requires FirstDigit(tx) == q + 1
    requires q <= |tx| && LiteralAt(tx, q, " " + ds + ("ms" + rest))
    ensures Segment(tx).None?
  {
    var after := "ms" + rest;
    NumberAt(tx, q, ds, after);
    UnitMiss(tx, q, ds, after, "h");
    var e := q + 1 + |ds|;
    LiteralSplit(tx, e, "ms", rest);
    assert tx[e] == 'm' && tx[e + 1] == 's';
    assert !LiteralAt(tx, e + 1, "in");
    assert !LiteralAt(tx, e, "min");
    SegmentWithoutSeconds(tx, q, q, q, None, None);
  }

  /** A number that is not preceded by whitespace does not match. */
  lemma SegmentNeedsSpace(lead: string, rest: string)
    requires NoDigits(lead) && |lead| > 0 && !IsSpace(lead[|lead| - 1])
    requires |rest| > 0 && IsDigit(rest[0])
    ensures Segment(lead + rest).None?
  {
    var tx := lead + rest;
    forall k | 0 <= k < |lead|
      ensures !IsDigit(tx[k])
    {
      assert tx[k] == lead[k];
    }
    FirstDigitUnique(tx, |lead|);
  }

  /** The characters of a rendered duration are digits, spaces and the
      letters of the units: never `+` or `=`. */
  lemma RenderHasNoSigns(d: Duration)
    requires ValidDuration(d)
    ensures '+' !in Render(d) && '=' !in Render(d)
  {
    assert '+' !in HoursText(d) && '=' !in HoursText(d) by {
      if d.hours.Some? { NoSignsIn(d.hours.value); }
    }
    assert '+' !in MinutesText(d) && '=' !in MinutesText(d) by {
      if d.minutes.Some? { NoSignsIn(d.minutes.value); }
    }
    NoSignsIn(d.seconds);
    if d.fraction.Some? { NoSignsIn(d.fraction.value); }
  }

  lemma NoSignsIn(ds: string)
    requires AllDigits(ds)
    ensures '+' !in ds && '=' !in ds
  {
  }

  /** A whole summary line built from three rendered durations, with free
      text around them that has no digits before the durations and no `+` or
      `=` anywhere, parses to the three durations. */
  lemma ParseSysdOfRendered(
    kl: string, kd: Duration, kr: string,
    ul: string, ud: Duration, ur: string,
    tl: string, td: Duration, tr: string)
    requires ValidDuration(kd) && ValidDuration(ud) && ValidDuration(td)
    requires NoDigits(kl) && NoDigits(ul) && NoDigits(tl)
    requires '+' !in kl + kr + ul + ur + tl + tr && '=' !in kl + kr + ul + ur + tl + tr
    ensures ParseSysd(kl + Render(kd) + kr + "+" + ul + Render(ud) + ur + "=" + tl + Render(td) + tr)
         == Timings(Seconds(kd), Seconds(ud), Seconds(td))
  {
    var k := SignFree(kl, kd, kr);
    var u := SignFree(ul, ud, ur);
    var t := SignFree(tl, td, tr);
    SegmentOfRendered(kl, kd, kr);
    SegmentOfRendered(ul, ud, ur);
    SegmentOfRendered(tl, td, tr);
    ParseSysdOfSegments(k, u, t, Seconds(kd), Seconds(ud), Seconds(td));
    Regroup(kl, Render(kd), kr, ul, Render(ud), ur, tl, Render(td), tr);
  }

  lemma Regroup(a: string, b: string, c: string, d: string, e: string, f: string, g: string, h: string, i: string)
    ensures (a + b + c) + "+" + (d + e + f) + "=" + (g + h + i)
         == a + b + c + "+" + d + e + f + "=" + g + h + i
  {
  }

  /** A free text, a rendered duration and a free text with no `+` or `=`
      together have none either. */
  lemma SignFree(lead: string, d: Duration, rest: string) returns (s: string)
    requires ValidDuration(d) && '+' !in lead + rest && '=' !in lead + rest
    ensures s == lead + Render(d) + rest
    ensures '+' !in s && '=' !in s
  {
    RenderHasNoSigns(d);
    s := lead + Render(d) + rest;
    assert forall c :: c in lead + rest <==> c in lead || c in rest;
  }

  /** Three segments joined by one `+` and one `=`, none containing either
      sign, parse to the three segment values. */
  lemma ParseSysdOfSegments(k: string, u: string, t: string, kv: real, uv: real, tv: real)
    requires '+' !in k && '=' !in k && '+' !in u && '=' !in u && '+' !in t && '=' !in t
    requires Segment(k) == Some(kv) && Segment(u) == Some(uv) && Segment(t) == Some(tv)
    ensures ParseSysd(k + "+" + u + "=" + t) == Timings(kv, uv, tv)
  {
    SignSplits(k, u, t);
    SignCounts(k, u, t);
    ParseSysdOfSplits(k + "+" + u + "=" + t, k, u + "=" + t, u, t, kv, uv, tv);
  }

  /** `parse_sysd_analyze` once both splits are known. */
  lemma ParseSysdOfSplits(text: string, k: string, tail: string, u: string, t: string, kv: real, uv: real, tv: real)
    requires '+' in text && '=' in text && CountChar(text, '+') == 1 && CountChar(tail, '=') == 1
    requires Split(text, '+') == [k, tail] && Split(tail, '=') == [u, t]
    requires Segment(k) == Some(kv) && Segment(u) == Some(uv) && Segment(t) == Some(tv)
    ensures ParseSysd(text) == Timings(kv, uv, tv)
  {
  }

  /** The splits of `k + "+" + u + "=" + t` when no part has a sign. */
  lemma SignSplits(k: string, u: string, t: string)
    requires '+' !in k && '=' !in k && '+' !in u && '=' !in u && '+' !in t && '=' !in t
    ensures Split(k + "+" + u + "=" + t, '+') == [k, u + "=" + t]
    ensures Split(u + "=" + t, '=') == [u, t]
  {
    assert k + "+" + u + "=" + t == k + ['+'] + (u + "=" + t);
    assert u + "=" + t == u + ['='] + t;
    assert '+' !in u + "=" + t;
    SplitAround(k, '+', u + "=" + t);
    SplitAround(u, '=', t);
  }

  /** The sign counts of `k + "+" + u + "=" + t` when no part has a sign. */
  lemma SignCounts(k: string, u: string, t: string)
    requires '+' !in k && '=' !in k && '+' !in u && '=' !in u && '+' !in t && '=' !in t
    ensures '+' in k + "+" + u + "=" + t && '=' in k + "+" + u + "=" + t
    ensures CountChar(k + "+" + u + "=" + t, '+') == 1
    ensures CountChar(u + "=" + t, '=') == 1
  {
    var tail := u + "=" + t;
    var text := k + "+" + tail;
    assert text == k + "+" + u + "=" + t;
    assert '+' !in tail;
    CountCharZero(k, '+');
    CountCharZero(tail, '+');
    assert text == k + ("+" + tail);
    CountCharConcat(k, "+" + tail, '+');
    CountCharConcat("+", tail, '+');
    CountCharZero(u, '=');
    CountCharZero(t, '=');
    assert tail == u + ("=" + t);
    CountCharConcat(u, "=" + t, '=');
    CountCharConcat("=", t, '=');
    assert text[|k|] == '+' && text[|k| + 1 + |u|] == '=';
  }

  /** A second `+` makes the tuple unpacking of the split raise. */
  lemma ParseSysdTwoPluses(a: string, b: string, c: string)
    requires '=' in a + "+" + b + "+" + c
    ensures ParseSysd(a + "+" + b + "+" + c) == Raises
  {
    var text := a + "+" + b + "+" + c;
    assert text[|a|] == '+' && text[|a| + 1 + |b|] == '+';
    CountCharTwo(text, '+', |a|, |a| + 1 + |b|);
  }

  // ---------------------------------------------------------------------
  // Measurement extraction.
  // ---------------------------------------------------------------------

  /** One entry of `results` / `resource-results`; absent keys are `None`. */
  datatype JobResult = JobResult(id: Option<string>, duration: Option<Json>, ioLog: Option<string>)

  datatype SnapPackage = SnapPackage(name: Option<string>, revision: Option<string>)

  /** The parts of a submission the writer reads; absent lists are empty. */
  datatype Submission = Submission(
    title: Option<string>,
    distributionDescription: Option<string>,
    snapPackages: seq<SnapPackage>,
    results: seq<JobResult>,
    resourceResults: seq<JobResult>)

  /** The state `InfluxQueryWriter.__init__` sets up. */
  datatype Writer = Writer(
    project: string, time: int, hwId: string, osKind: string, coreRevision: string,
    results: seq<JobResult>)

  datatype Tags = Tags(projectName: string, jobName: string, hwId: string, osKind: string, coreRevision: string)

  /** A `snap_timing` point; its `fields` hold only `elapsed`. */
  datatype Point = Point(tags: Tags, time: int, elapsed: Json)

  /** `int(x)`: truncation toward zero. */
  function TruncateToInt(x: real): (i: int)
    ensures x >= 0.0 ==> i as real <= x < i as real + 1.0
    ensures x < 0.0 ==> i as real - 1.0 < x <= i as real
  {
    if x >= 0.0 then x.Floor else -((-x).Floor)
  }

  /** Revision of the first snap named `core` (`'0'` when that entry has no
      revision), else `'0'`. */
  function CoreRevision(snaps: seq<SnapPackage>): (rev: string)
  {
    if |snaps| == 0 then "0"
    else if snaps[0].name == Some("core") then snaps[0].revision.GetOr("0")
    else CoreRevision(snaps[1..])
  }

  /** The revision comes from the first `core` entry, and is `'0'` without one. */
  lemma {:induction false} CoreRevisionFirst(snaps: seq<SnapPackage>)
    ensures (forall i | 0 <= i < |snaps| :: snaps[i].name != Some("core")) ==> CoreRevision(snaps) == "0"
    ensures forall i | 0 <= i < |snaps| ::
      snaps[i].name == Some("core") && (forall j | 0 <= j < i :: snaps[j].name != Some("core"))
      ==> CoreRevision(snaps) == snaps[i].revision.GetOr("0")
  {
    if |snaps| > 0 && snaps[0].name != Some("core") {
      CoreRevisionFirst(snaps[1..]);
      assert forall i | 1 <= i < |snaps| :: snaps[i] == snaps[1..][i - 1];
    }
  }

  /** `InfluxQueryWriter(hw_id, submission, tstamp)`. */
  function NewWriter(hwId: string, sub: Submission, tstamp: real): (w: Writer)
    ensures w.time == TruncateToInt(tstamp * 1000000000.0)
    ensures w.project == DQuote(sub.title.GetOr("unknown"))
    ensures w.hwId == DQuote(hwId)
    ensures w.osKind == DQuote(sub.distributionDescription.GetOr("unknown"))
    ensures w.coreRevision == CoreRevision(sub.snapPackages)
    ensures w.results == sub.results + sub.resourceResults
  {
    Writer(
      DQuote(sub.title.GetOr("unknown")),
      TruncateToInt(tstamp * 1000000000.0),
      DQuote(hwId),
      DQuote(sub.distributionDescription.GetOr("unknown")),
      CoreRevision(sub.snapPackages),
      sub.results + sub.resourceResults)
  }

  /** The writer's view of a point: its timestamp and its tags other than the job. */
  predicate OfWriter(w: Writer, p: Point) {
    && p.time == w.time && p.tags.projectName == w.project && p.tags.hwId == w.hwId
    && p.tags.osKind == w.osKind && p.tags.coreRevision == w.coreRevision
  }

  function PointFor(w: Writer, job: string, elapsed: Json): Point {
    Point(Tags(w.project, DQuote(job), w.hwId, w.osKind, w.coreRevision), w.time, elapsed)
  }

  /** What the extractor yields for one result, and whether it raised. */
  datatype Yield = Yield(points: seq<Point>, raised: bool)

  /** The points for the tracked jobs among `jobs` whose name ends `id`. */
  function DurationPoints(w: Writer, id: string, duration: Option<Json>, jobs: seq<string>): (ps: seq<Point>)
    ensures |ps| <= |jobs|
    ensures forall p | p in ps :: OfWriter(w, p)
  {
    if |jobs| == 0 then []
    else
      var here := if EndsWith(id, jobs[0]) && duration.Some? && Truthy(duration.value)
        then [PointFor(w, jobs[0], duration.value)] else [];
      here + DurationPoints(w, id, duration, jobs[1..])
  }

  /** The points of one result: first those of the tracked jobs, then the
      boot summary's total. */
  function ResultPoints(w: Writer, r: JobResult): (y: Yield)
    ensures forall p | p in y.points :: OfWriter(w, p)
  {
    match r.id
    case None => Yield([], true)
    case Some(id) =>
      var timed := DurationPoints(w, id, r.duration, MeasuredJobs);
      if !EndsWith(id, BootupJobId) then Yield(timed, false)
      else match r.ioLog
        case None => Yield(timed, true)
        case Some(log) =>
          match ParseSysd(log)
          case Raises => Yield(timed, true)
          case NoTimings => Yield(timed, false)
          case Timings(_, _, total) => Yield(timed + [PointFor(w, BootupJobId, JFloat(total))], false)
  }

  /** `extract_measurements()`: results in order; an exception stops the
      generator after what it has yielded so far. */
  function ExtractFrom(w: Writer, results: seq<JobResult>): (y: Yield)
    ensures forall p | p in y.points :: OfWriter(w, p)
  {
    if |results| == 0 then Yield([], false)
    else
      var first := ResultPoints(w, results[0]);
      if first.raised then first
      else
        var rest := ExtractFrom(w, results[1..]);
        Yield(first.points + rest.points, rest.raised)
  }

  function Extract(w: Writer): Yield {
    ExtractFrom(w, w.results)
  }

  /** All points of one submission share one timestamp, the nanosecond
      truncation of `tstamp`, and one set of tags apart from the job: the
      quoted title, hardware id and OS description (each `unknown` when
      absent) and the unquoted revision of the first `core` snap. */
  lemma SharedTags(hwId: string, sub: Submission, tstamp: real)
    ensures forall p | p in Extract(NewWriter(hwId, sub, tstamp)).points ::
      && p.time == TruncateToInt(tstamp * 1000000000.0)
      && p.tags.projectName == DQuote(sub.title.GetOr("unknown"))
      && p.tags.hwId == DQuote(hwId)
      && p.tags.osKind == DQuote(sub.distributionDescription.GetOr("unknown"))
      && p.tags.coreRevision == CoreRevision(sub.snapPackages)
  {
  }

  /** A timestamp of one second is stamped 1000000000 nanoseconds. */
  lemma UnitStamp(hwId: string, sub: Submission)
    ensures NewWriter(hwId, sub, 1.0).time == 1000000000
  {
  }

  /** Output follows result order: the extraction of two consecutive lists
      is the first's output followed by the second's, unless the first
      raised. */
  lemma {:induction false} ExtractFromConcat(w: Writer, xs: seq<JobResult>, ys: seq<JobResult>)
    ensures ExtractFrom(w, xs).raised ==> ExtractFrom(w, xs + ys) == ExtractFrom(w, xs)
    ensures !ExtractFrom(w, xs).raised ==>
      ExtractFrom(w, xs + ys).points == ExtractFrom(w, xs).points + ExtractFrom(w, ys).points
    ensures !ExtractFrom(w, xs).raised ==> ExtractFrom(w, xs + ys).raised == ExtractFrom(w, ys).raised
    decreases |xs|
  {
    if |xs| == 0 {
      assert xs + ys == ys;
    } else {
      assert (xs + ys)[0] == xs[0];
      assert (xs + ys)[1..] == xs[1..] + ys;
      ExtractFromConcat(w, xs[1..], ys);
      var first := ResultPoints(w, xs[0]);
      if !first.raised {
        var mid := ExtractFrom(w, xs[1..]);
        if !mid.raised {
          assert first.points + (mid.points + ExtractFrom(w, ys).points)
              == (first.points + mid.points) + ExtractFrom(w, ys).points;
        }
      }
    }
  }

  /** A job id ends with at most one of the tracked suffixes and the boot
      job's suffix. */
  lemma OnlyOneSuffix(id: string, k: nat)
    requires k < |MeasuredJobs| && EndsWith(id, MeasuredJobs[k])
    ensures forall j | 0 <= j < |MeasuredJobs| && j != k :: !EndsWith(id, MeasuredJobs[j])
    ensures !EndsWith(id, BootupJobId)
  {
    forall j | 0 <= j < |MeasuredJobs| && j != k
      ensures !EndsWith(id, MeasuredJobs[j])
    {
      SuffixesDiffer(id, k, j);
    }
    BootSuffixDiffers(id, k);
  }

  /** Two tracked suffixes differ near their ends. */
  lemma SuffixesDiffer(id: string, k: nat, j: nat)
    requires k < |MeasuredJobs| && j < |MeasuredJobs| && k != j
    ensures !(EndsWith(id, MeasuredJobs[k]) && EndsWith(id, MeasuredJobs[j]))
  {
    var a, b := MeasuredJobs[k], MeasuredJobs[j];
    if k >= 2 && j >= 2 {
      assert a[|a| - 7] != b[|b| - 7];
      NotBothSuffixes(id, a, b, 6);
    } else {
      assert a[|a| - 1] != b[|b| - 1];
      NotBothSuffixes(id, a, b, 0);
    }
  }

  /** The boot job's suffix differs from every tracked suffix near its end. */
  lemma BootSuffixDiffers(id: string, k: nat)
    requires k < |MeasuredJobs|
    ensures !(EndsWith(id, MeasuredJobs[k]) && EndsWith(id, BootupJobId))
  {
    var a := MeasuredJobs[k];
    if k == 1 {
      assert a[|a| - 2] != BootupJobId[|BootupJobId| - 2];
      NotBothSuffixes(id, a, BootupJobId, 1);
    } else {
      assert a[|a| - 1] != BootupJobId[|BootupJobId| - 1];
      NotBothSuffixes(id, a, BootupJobId, 0);
    }
  }

  /** When exactly one of `jobs` is a suffix of the id and the duration is
      truthy, the jobs loop yields exactly one point. */
  lemma {:induction false} DurationPointsOne(w: Writer, id: string, duration: Json, jobs: seq<string>, k: nat)
    requires k < |jobs| && EndsWith(id, jobs[k]) && Truthy(duration)
    requires forall j | 0 <= j < |jobs| && j != k :: !EndsWith(id, jobs[j])
    ensures DurationPoints(w, id, Some(duration), jobs) == [PointFor(w, jobs[k], duration)]
    decreases |jobs|
  {
    if k == 0 {
      NoTrackedSuffix(w, id, Some(duration), jobs[1..]);
    } else {
      DurationPointsOne(w, id, duration, jobs[1..], k - 1);
    }
  }

  lemma {:induction false} NoTrackedSuffix(w: Writer, id: string, duration: Option<Json>, jobs: seq<string>)
    requires forall j | 0 <= j < |jobs| :: !EndsWith(id, jobs[j])
    ensures DurationPoints(w, id, duration, jobs) == []
    decreases |jobs|
  {
    if |jobs| > 0 {
      NoTrackedSuffix(w, id, duration, jobs[1..]);
    }
  }

  /** A result for a tracked job with a truthy duration gives exactly one
      point, carrying that duration, the writer's tags and its time. */
  lemma TrackedJobPoint(w: Writer, prefix: string, k: nat, duration: Json)
    requires k < |MeasuredJobs| && Truthy(duration)
    ensures ResultPoints(w, JobResult(Some(prefix + MeasuredJobs[k]), Some(duration), None))
         == Yield([PointFor(w, MeasuredJobs[k], duration)], false)
  {
    var id := prefix + MeasuredJobs[k];
    assert id[|id| - |MeasuredJobs[k]|..] == MeasuredJobs[k];
    OnlyOneSuffix(id, k);
    DurationPointsOne(w, id, duration, MeasuredJobs, k);
  }

  /** A result whose duration is missing or falsy gives no duration point. */
  lemma {:induction false} FalsyDurationNoPoint(w: Writer, id: string, duration: Option<Json>, jobs: seq<string>)
    requires duration.None? || !Truthy(duration.value)
    ensures DurationPoints(w, id, duration, jobs) == []
    decreases |jobs|
  {
    if |jobs| > 0 {
      FalsyDurationNoPoint(w, id, duration, jobs[1..]);
    }
  }

  /** The boot job gives the parsed total when the summary parses, nothing
      when it is not a summary, and stops the generator otherwise. */
  lemma BootupPoint(w: Writer, prefix: string, duration: Option<Json>, log: string)
    ensures var y := ResultPoints(w, JobResult(Some(prefix + BootupJobId), duration, Some(log)));
      && (ParseSysd(log).Timings? ==> !y.raised && y.points == [PointFor(w, BootupJobId, JFloat(ParseSysd(log).total))])
      && (ParseSysd(log) == NoTimings ==> !y.raised && y.points == [])
      && (ParseSysd(log) == Raises ==> y.raised && y.points == [])
  {
    var id := prefix + BootupJobId;
    assert id[|id| - |BootupJobId|..] == BootupJobId;
    forall j | 0 <= j < |MeasuredJobs|
      ensures !EndsWith(id, MeasuredJobs[j])
    {
      if EndsWith(id, MeasuredJobs[j]) {
        OnlyOneSuffix(id, j);
      }
    }
    NoTrackedSuffix(w, id, duration, MeasuredJobs);
  }

  // ---------------------------------------------------------------------
  // generate_sql_inserts
  // ---------------------------------------------------------------------

  /** One InfluxDB line-protocol insert; `show` renders the elapsed value as
      Python's `str` would. */
  function SqlInsert(p: Point, show: Json -> string): string {
    "INSERT snap_timing,project_name=" + p.tags.projectName
    + ",job_name=" + p.tags.jobName
    + ",hw_id=" + p.tags.hwId
    + ",os_kind=" + p.tags.osKind
    + ",core_revision=" + p.tags.coreRevision
    + " elapsed=" + show(p.elapsed)
    + " " + IntToString(p.time)
  }

  /** `generate_sql_inserts()`: one line per extracted point, in order. */
  function SqlInserts(w: Writer, show: Json -> string): (lines: seq<string>)
    ensures |lines| == |Extract(w).points|
    ensures forall i | 0 <= i < |lines| :: lines[i] == SqlInsert(Extract(w).points[i], show)
  {
    var ps := Extract(w).points;
    seq(|ps|, i requires 0 <= i < |ps| => SqlInsert(ps[i], show))
  }

  /** Line `i` is the fixed template filled with the writer's shared tags
      and timestamp and with point `i`'s job and elapsed value. */
  lemma SqlInsertsTemplate(w: Writer, show: Json -> string)
    ensures |SqlInserts(w, show)| == |Extract(w).points|
    ensures var ps := Extract(w).points;
      forall i | 0 <= i < |ps| :: SqlInserts(w, show)[i] ==
        "INSERT snap_timing,project_name=" + w.project + ",job_name=" + ps[i].tags.jobName
        + ",hw_id=" + w.hwId + ",os_kind=" + w.osKind + ",core_revision=" + w.coreRevision
        + " elapsed=" + show(ps[i].elapsed) + " " + IntToString(w.time)
  {
    var ps := Extract(w).points;
    forall i | 0 <= i < |ps|
      ensures OfWriter(w, ps[i])
    {
      assert ps[i] in ps;
    }
  }

  /** Every line ends with the writer's timestamp. */
  lemma SqlInsertsEndWithTime(w: Writer, show: Json -> string)
    ensures forall line | line in SqlInserts(w, show) :: EndsWith(line, " " + IntToString(w.time))
  {
    var ps := Extract(w).points;
    var lines := SqlInserts(w, show);
    forall i | 0 <= i < |lines|
      ensures EndsWith(lines[i], " " + IntToString(w.time))
    {
      assert ps[i] in ps;
      SqlInsertEndsWithTime(ps[i], show);
    }
  }

  /** An insert ends with its point's timestamp. */
  lemma SqlInsertEndsWithTime(p: Point, show: Json -> string)
    ensures EndsWith(SqlInsert(p, show), " " + IntToString(p.time))
  {
    var line := SqlInsert(p, show);
    var tail := " " + IntToString(p.time);
    assert line == line[..|line| - |tail|] + tail;
  }

  /** A submission without results gives no line. */
  lemma NoResultsNoLines(hwId: string, sub: Submission, tstamp: real, show: Json -> string)
    requires sub.results == [] && sub.resourceResults == []
    ensures SqlInserts(NewWriter(hwId, sub, tstamp), show) == []
  {
  }
}

=== FILE: sru_bug_manager.dfy ===
/** Closing the certification task of kernel SRU tracking bugs
    (`trello-sru-bug-manager.py`). For every kernel snap card in the snap
    board's beta lane whose `Ready for Candidate` box is ticked, the script
    looks up the tracking bug of the card's snap and version in the kernel
    team's status file, links the bug from the card, and marks the bug's
    `snap-certification-testing` task Fix Released with a comment.
    Launchpad is a map from bug number to bug; the decoded status file is
    an input (`None` when fetching or decoding it failed). */
module SruBugManager {
  import opened Wrappers
  import opened Text
  import opened Json
  import opened CardTitle
  import opened Checklists
  import SnapUpdater

  // ---- card titles ----

  /** `get_card_snap_version`: the snap and version of a title in the snap
      board's grammar; `None` where the script raises ValueError. */
  function CardSnapVersion(name: string): Option<(string, string)> {
    match ParseTitle(name)
    case None => None
    case Some(t) => Some((t.snap, t.version))
  }

  /** A title the snap board updater writes reads back as its snap and
      version. */
  lemma CardSnapVersionOfTitle(snap: string, version: string, revision: string, track: string)
    requires NoSpace(snap) && version != "" && NoSpace(version)
    requires NoNewline(revision) && ')' !in revision && NoNewline(track) && ']' !in track
    ensures CardSnapVersion(FormatTitle(snap, version, revision, track)) == Some((snap, version))
  {
    FormatParses(snap, version, revision, track);
  }

  // ---- the status file ----

  /** A bug record of the status file: a mapping. */
  type Record = seq<(string, Json)>

  /** `d[k] = v` on a dict: an existing key keeps its place and takes the
      new value, a new key goes last. */
  function SetKey(fields: Record, k: string, v: Json): Record {
    if |fields| == 0 then [(k, v)]
    else if fields[0].0 == k then [(k, v)] + fields[1..]
    else [fields[0]] + SetKey(fields[1..], k, v)
  }

  /** After the assignment the key reads as the new value and every other
      key as before. */
  lemma {:induction false} SetKeyLookup(fields: Record, k: string, v: Json, other: string)
    ensures Lookup(SetKey(fields, k, v), k) == Some(v)
    ensures other != k ==> Lookup(SetKey(fields, k, v), other) == Lookup(fields, other)
  {
    if |fields| > 0 && fields[0].0 != k {
      SetKeyLookup(fields[1..], k, v, other);
    }
  }

  /** The loading loop over the top-level mapping: each value with its key
      added as `bug`, up to the first value that is not a mapping (the
      assignment raises there, and the handler keeps what was collected). */
  function RecordsFrom(fields: seq<(string, Json)>): (r: seq<Record>)
    ensures |r| <= |fields|
  {
    if |fields| == 0 then []
    else match fields[0].1
      case JObject(rec) => [SetKey(rec, "bug", JStr(fields[0].0))] + RecordsFrom(fields[1..])
      case _ => []
  }

  /** The records a load yields: none when the fetch failed or the file is
      not a mapping. */
  function Records(fetched: Option<Json>): seq<Record> {
    match fetched
    case Some(JObject(fields)) => RecordsFrom(fields)
    case _ => []
  }

  /** The records are the leading run of mapping values, in file order,
      each tagged with its own key. */
  lemma {:induction false} RecordsFromMeaning(fields: seq<(string, Json)>)
    ensures var r := RecordsFrom(fields);
      && |r| <= |fields|
      && (forall i | 0 <= i < |r| :: fields[i].1.JObject? && r[i] == SetKey(fields[i].1.fields, "bug", JStr(fields[i].0)))
      && (|r| < |fields| ==> !fields[|r|].1.JObject?)
  {
    if |fields| > 0 && fields[0].1.JObject? {
      RecordsFromMeaning(fields[1..]);
      var r := RecordsFrom(fields);
      assert forall i | 1 <= i < |r| :: r[i] == RecordsFrom(fields[1..])[i - 1] && fields[i] == fields[1..][i - 1];
    }
  }

  /** Every loaded record names its bug: the key it was filed under. */
  lemma RecordsTagged(fields: seq<(string, Json)>, i: nat)
    requires i < |RecordsFrom(fields)|
    ensures Lookup(RecordsFrom(fields)[i], "bug") == Some(JStr(fields[i].0))
  {
    RecordsFromMeaning(fields);
    SetKeyLookup(fields[i].1.fields, "bug", JStr(fields[i].0), "bug");
  }

  /** The cache when a search starts: the status file is loaded only while
      the cache is empty. */
  function Loaded(cache: seq<Record>, fetched: Option<Json>): seq<Record> {
    if |cache| == 0 then Records(fetched) else cache
  }

  /** A cache as a run leaves it: never loaded yet, or loaded. */
  predicate Warm(cache: seq<Record>, fetched: Option<Json>) {
    cache == [] || cache == Records(fetched)
  }

  // ---- finding the tracking bug ----

  const TargetTask := "snap-certification-testing"

  /** `v.get(key, {})`: `None` where `v` is not a mapping (the call raises). */
  function GetOrEmpty(v: Json, key: string): Option<Json> {
    match v
    case JObject(fields) => Some(Lookup(fields, key).GetOr(JObject([])))
    case _ => None
  }

  /** The search's test on one record: same version, and the record's
      certification task targets the snap. `None` where the test raises. */
  function Matches(rec: Record, snap: string, version: string): Option<bool> {
    if Lookup(rec, "version") != Some(JStr(version)) then Some(false)
    else match GetOrEmpty(Lookup(rec, "task").GetOr(JObject([])), TargetTask)
      case None => None
      case Some(JObject(task)) => Some(Lookup(task, "target") == Some(JStr(snap)))
      case Some(_) => None
  }

  /** Where the loop over the records stops: at a match, at a record whose
      test raises, or at the end. */
  datatype Search = Hit(index: nat) | Raised(index: nat) | Miss

  function SearchFrom(records: seq<Record>, snap: string, version: string, i: nat): (r: Search)
    requires i <= |records|
    ensures r.Hit? || r.Raised? ==> i <= r.index < |records|
    decreases |records| - i
  {
    if i == |records| then Miss
    else match Matches(records[i], snap, version)
      case None => Raised(i)
      case Some(true) => Hit(i)
      case Some(false) => SearchFrom(records, snap, version, i + 1)
  }

  lemma {:induction false} SearchFromFirst(records: seq<Record>, snap: string, version: string, i: nat)
    requires i <= |records|
    requires forall j | 0 <= j < i :: Matches(records[j], snap, version) == Some(false)
    ensures var r := SearchFrom(records, snap, version, i);
      && (r.Hit? ==> r.index < |records| && Matches(records[r.index], snap, version) == Some(true))
      && (r.Raised? ==> r.index < |records| && Matches(records[r.index], snap, version).None?)
      && (r.Hit? || r.Raised? ==> forall j | 0 <= j < r.index :: Matches(records[j], snap, version) == Some(false))
      && (r.Miss? <==> forall j | 0 <= j < |records| :: Matches(records[j], snap, version) == Some(false))
    decreases |records| - i
  {
    if i < |records| && Matches(records[i], snap, version) == Some(false) {
      SearchFromFirst(records, snap, version, i + 1);
    }
  }

  /** The search stops at the first record whose test does not answer no:
      a match is the first matching record, a raise the first raising one,
      and it finds nothing exactly when every record answers no. */
  lemma SearchFirst(records: seq<Record>, snap: string, version: string)
    ensures var r := SearchFrom(records, snap, version, 0);
      && (r.Hit? ==> r.index < |records| && Matches(records[r.index], snap, version) == Some(true))
      && (r.Raised? ==> r.index < |records| && Matches(records[r.index], snap, version).None?)
      && (r.Hit? || r.Raised? ==> forall j | 0 <= j < r.index :: Matches(records[j], snap, version) == Some(false))
      && (r.Miss? <==> forall j | 0 <= j < |records| :: Matches(records[j], snap, version) == Some(false))
  {
    SearchFromFirst(records, snap, version, 0);
  }

  /** `find_sru_bug`: the bug of the first matching record, `NoBug` when no
      record matches (the function falls off its end), and `LookupFailed`
      when a test raises or Launchpad has no bug of that number. */
  datatype Found = FoundBug(key: string) | NoBug | LookupFailed

  function FindSruBug(records: seq<Record>, known: set<string>, snap: string, version: string): (r: Found)
    ensures r.FoundBug? ==> r.key in known
  {
    match SearchFrom(records, snap, version, 0)
    case Miss => NoBug
    case Raised(_) => LookupFailed
    case Hit(i) =>
      match Lookup(records[i], "bug")
      case Some(JStr(k)) => if k in known then FoundBug(k) else LookupFailed
      case _ => LookupFailed
  }

  /** On loaded records a found bug is the one the first matching record
      was filed under; and no bug is reported exactly when no record
      matches. */
  lemma FindSruBugMeaning(fields: seq<(string, Json)>, known: set<string>, snap: string, version: string)
    ensures var records := RecordsFrom(fields);
      var r := FindSruBug(records, known, snap, version);
      && (r.FoundBug? ==> exists i | 0 <= i < |records| ::
            && Matches(records[i], snap, version) == Some(true)
            && (forall j | 0 <= j < i :: Matches(records[j], snap, version) == Some(false))
            && fields[i].0 == r.key)
      && (r.NoBug? <==> forall j | 0 <= j < |records| :: Matches(records[j], snap, version) == Some(false))
  {
    var records := RecordsFrom(fields);
    SearchFirst(records, snap, version);
    match SearchFrom(records, snap, version, 0)
    case Hit(i) =>
      RecordsTagged(fields, i);
    case Raised(_) =>
    case Miss =>
  }

  // ---- Launchpad bugs ----

  /** A bug task: its text form (which names the task) and its status. */
  datatype Task = Task(text: string, status: string)

  /** A Launchpad bug; `id` is its number as written in decimal. */
  datatype Bug = Bug(id: string, webLink: string, title: string, tasks: seq<Task>, comments: seq<string>)

  const FixReleased := "Fix Released"

  /** `get_task_state`: index of the first task whose text contains the
      name; `None` where the method raises LookupError. */
  function TaskIndex(tasks: seq<Task>, name: string, i: nat): (r: Option<nat>)
    requires i <= |tasks|
    ensures r.Some? ==> i <= r.value < |tasks|
    decreases |tasks| - i
  {
    if i == |tasks| then None
    else if Contains(tasks[i].text, name) then Some(i)
    else TaskIndex(tasks, name, i + 1)
  }

  lemma {:induction false} TaskIndexFirst(tasks: seq<Task>, name: string, i: nat)
    requires i <= |tasks|
    requires forall j | 0 <= j < i :: !Contains(tasks[j].text, name)
    ensures var r := TaskIndex(tasks, name, i);
      && (r.Some? ==> r.value < |tasks| && Contains(tasks[r.value].text, name)
                      && forall j | 0 <= j < r.value :: !Contains(tasks[j].text, name))
      && (r.None? <==> forall j | 0 <= j < |tasks| :: !Contains(tasks[j].text, name))
    decreases |tasks| - i
  {
    if i < |tasks| && !Contains(tasks[i].text, name) {
      TaskIndexFirst(tasks, name, i + 1);
    }
  }

  /** `set_task_state`: every task whose text contains the name takes the
      state. */
  function SetTaskState(tasks: seq<Task>, name: string, state: string): (r: seq<Task>) {
    seq(|tasks|, k requires 0 <= k < |tasks| =>
      if Contains(tasks[k].text, name) then tasks[k].(status := state) else tasks[k])
  }

  /** Setting a state keeps every task's text and leaves the tasks the name
      does not select as they were; afterwards the same task is the one
      `get_task_state` finds, and it has the new state. */
  lemma SetThenGet(tasks: seq<Task>, name: string, state: string)
    ensures var after := SetTaskState(tasks, name, state);
      && |after| == |tasks|
      && (forall k | 0 <= k < |tasks| :: after[k].text == tasks[k].text)
      && (forall k | 0 <= k < |tasks| && !Contains(tasks[k].text, name) :: after[k] == tasks[k])
      && TaskIndex(after, name, 0) == TaskIndex(tasks, name, 0)
      && (TaskIndex(after, name, 0).Some? ==> after[TaskIndex(after, name, 0).value].status == state)
  {
    var after := SetTaskState(tasks, name, state);
    TaskIndexFirst(tasks, name, 0);
    TaskIndexFirst(after, name, 0);
    assert forall k | 0 <= k < |tasks| :: after[k].text == tasks[k].text;
    match TaskIndex(tasks, name, 0)
    case None =>
    case Some(t) =>
      assert Contains(after[t].text, name);
      assert forall j | 0 <= j < t :: !Contains(after[j].text, name);
      assert TaskIndex(after, name, 0) == Some(t);
  }

  /** A bug whose certification task needs no update: it has none, or the
      first one is already Fix Released. */
  predicate Settled(b: Bug) {
    match TaskIndex(b.tasks, TargetTask, 0)
    case None => true
    case Some(t) => b.tasks[t].status == FixReleased
  }

  const PromotionComment := "Snap beta testing complete, no regressions found. Ready for promotion. Results here: "

  /** Marking the certification task done and commenting with the card's
      address. */
  function Promote(b: Bug, cardUrl: string): (r: Bug)
    ensures Settled(r)
  {
    SetThenGet(b.tasks, TargetTask, FixReleased);
    b.(tasks := SetTaskState(b.tasks, TargetTask, FixReleased), comments := b.comments + [PromotionComment + cardUrl])
  }

  /** The card description linking the bug: its number, address and title. */
  function Description(b: Bug): string {
    "[[" + b.id + "](" + b.webLink + ")] - " + b.title
  }

  // ---- the board ----

  datatype Card = Card(name: string, url: string, checklists: seq<Checklist>)
  datatype Lane = Lane(name: string, cards: seq<Card>)

  /** `_get_lane`: the first list whose lower-cased name is the id; `None`
      where the method raises LookupError. */
  function GetLane(lanes: seq<Lane>, id: string, i: nat): (r: Option<nat>)
    requires i <= |lanes|
    ensures r.Some? ==> i <= r.value < |lanes| && Lower(lanes[r.value].name) == id
    decreases |lanes| - i
  {
    if i == |lanes| then None
    else if Lower(lanes[i].name) == id then Some(i)
    else GetLane(lanes, id, i + 1)
  }

  lemma {:induction false} GetLaneFirst(lanes: seq<Lane>, id: string, i: nat)
    requires i <= |lanes|
    requires forall j | 0 <= j < i :: Lower(lanes[j].name) != id
    ensures var r := GetLane(lanes, id, i);
      && (r.Some? ==> forall j | 0 <= j < r.value :: Lower(lanes[j].name) != id)
      && (r.None? <==> forall j | 0 <= j < |lanes| :: Lower(lanes[j].name) != id)
    decreases |lanes| - i
  {
    if i < |lanes| && Lower(lanes[i].name) != id {
      GetLaneFirst(lanes, id, i + 1);
    }
  }

  /** `search_cards_in_lane` once the lane is found: the cards whose title
      contains the text, in lane order. */
  function SearchCards(cards: seq<Card>, text: string): seq<Card> {
    if |cards| == 0 then []
    else (if Contains(cards[0].name, text) then [cards[0]] else []) + SearchCards(cards[1..], text)
  }

  /** The search keeps exactly the cards whose title contains the text. */
  lemma {:induction false} SearchCardsMeaning(cards: seq<Card>, text: string)
    ensures forall c | c in SearchCards(cards, text) :: c in cards && Contains(c.name, text)
    ensures forall c | c in cards && Contains(c.name, text) :: c in SearchCards(cards, text)
  {
    if |cards| > 0 {
      SearchCardsMeaning(cards[1..], text);
      assert cards == [cards[0]] + cards[1..];
    }
  }

  /** The search keeps the lane's order: it distributes over a split of
      the lane. */
  lemma {:induction false} SearchCardsConcat(a: seq<Card>, b: seq<Card>, text: string)
    ensures SearchCards(a + b, text) == SearchCards(a, text) + SearchCards(b, text)
  {
    if |a| > 0 {
      assert (a + b)[1..] == a[1..] + b;
      SearchCardsConcat(a[1..], b, text);
    } else {
      assert a + b == b;
    }
  }

  // ---- sign-off ----

  /** py-trello's `_get_item_index`: the first item with the name. */
  function ItemIndex(items: seq<Item>, name: string, i: nat): (r: Option<nat>)
    requires i <= |items|
    ensures r.Some? ==> i <= r.value < |items| && items[r.value].name == name
    decreases |items| - i
  {
    if i == |items| then None
    else if items[i].name == name then Some(i)
    else ItemIndex(items, name, i + 1)
  }

  lemma {:induction false} ItemIndexFirst(items: seq<Item>, name: string, i: nat)
    requires i <= |items|
    requires forall j | 0 <= j < i :: items[j].name != name
    ensures var r := ItemIndex(items, name, i);
      && (r.Some? ==> forall j | 0 <= j < r.value :: items[j].name != name)
      && (r.None? <==> forall j | 0 <= j < |items| :: items[j].name != name)
    decreases |items| - i
  {
    if i < |items| && items[i].name != name {
      ItemIndexFirst(items, name, i + 1);
    }
  }

  /** `card_ready_for_candidate`: false without a `Sign-Off` checklist,
      otherwise the state of the first `Ready for Candidate` item of the
      first one; `None` where that item is missing (the index is `None`
      and indexing with it raises). */
  function ReadyForCandidate(cls: seq<Checklist>): Option<bool> {
    match FindChecklist(cls, "Sign-Off")
    case None => Some(false)
    case Some(c) =>
      match ItemIndex(cls[c].items, "Ready for Candidate", 0)
      case None => None
      case Some(j) => Some(cls[c].items[j].checked)
  }

  /** `c` is the first checklist called `Sign-Off`. */
  ghost predicate FirstSignOff(cls: seq<Checklist>, c: int) {
    0 <= c < |cls| && cls[c].name == "Sign-Off" && forall k | 0 <= k < c :: cls[k].name != "Sign-Off"
  }

  /** `j` is the first item called `Ready for Candidate`. */
  ghost predicate FirstReadyItem(items: seq<Item>, j: int) {
    0 <= j < |items| && items[j].name == "Ready for Candidate"
    && forall k | 0 <= k < j :: items[k].name != "Ready for Candidate"
  }

  /** Without a `Sign-Off` checklist a card is not ready. With one, the
      first such checklist decides: the check raises exactly when it has
      no `Ready for Candidate` item, and otherwise answers with the state
      of its first such item. */
  lemma ReadyMeaning(cls: seq<Checklist>)
    ensures (forall k | 0 <= k < |cls| :: cls[k].name != "Sign-Off") ==> ReadyForCandidate(cls) == Some(false)
    ensures forall c | FirstSignOff(cls, c) ::
      && (ReadyForCandidate(cls).None? <==>
            forall k | 0 <= k < |cls[c].items| :: cls[c].items[k].name != "Ready for Candidate")
      && (forall j | FirstReadyItem(cls[c].items, j) :: ReadyForCandidate(cls) == Some(cls[c].items[j].checked))
  {
    FindChecklistFirst(cls, "Sign-Off");
    forall c | FirstSignOff(cls, c)
      ensures ReadyForCandidate(cls).None? <==>
            forall k | 0 <= k < |cls[c].items| :: cls[c].items[k].name != "Ready for Candidate"
      ensures forall j | FirstReadyItem(cls[c].items, j) :: ReadyForCandidate(cls) == Some(cls[c].items[j].checked)
    {
      var r := FindChecklist(cls, "Sign-Off").value;
      assert r == c;
      var items := cls[c].items;
      ItemIndexFirst(items, "Ready for Candidate", 0);
      forall j | FirstReadyItem(items, j) ensures ReadyForCandidate(cls) == Some(items[j].checked) {
        var i := ItemIndex(items, "Ready for Candidate", 0).value;
        assert i == j;
      }
    }
  }

  /** A card the snap board updater has just created is not ready: its
      `Sign-Off` checklist starts with `Ready for Candidate` unticked. */
  lemma NewCardNotReady(channel: string)
    ensures ReadyForCandidate([Checklist("Sign-Off", SnapUpdater.SignOffItems(channel))]) == Some(false)
  {
    var items := SnapUpdater.SignOffItems(channel);
    var cls := [Checklist("Sign-Off", items)];
    ReadyMeaning(cls);
    assert FirstSignOff(cls, 0);
    assert FirstReadyItem(items, 3) by {
      assert items[0].name != "Ready for Candidate" by { NotReadyName("Clear for Landing"); }
      assert items[1].name != "Ready for Candidate" by { NotReadyName("Ready for Edge"); }
      assert items[2].name != "Ready for Candidate" by { NotReadyName("Ready for Beta"); }
    }
  }

  lemma NotReadyName(s: string)
    requires s == "Clear for Landing" || s == "Ready for Edge" || s == "Ready for Beta"
    ensures s != "Ready for Candidate"
  {
    assert |s| < |"Ready for Candidate"|;
  }

  // ---- the run ----

  /** What the run did with one card. A card linked to its bug carries the
      description it was given. */
  datatype Outcome =
    | Unparsed                     // title outside the grammar: skipped
    | NotReady                     // not ready for candidate: skipped
    | NotFound                     // the bug search raised LookupError: skipped
    | Unmatched                    // no record matched (only the corrected run goes on)
    | NoTask(desc: string)         // the bug has no certification task
    | AlreadyReleased(desc: string)
    | Promoted(desc: string, key: string)

  /** How far the loop gets with a card before touching Launchpad: it
      skips it, raises, or searches for its bug with this result. */
  datatype Stage = BadTitle | Unready | Raise | Searched(found: Found)

  function CardStage(card: Card, records: seq<Record>, known: set<string>): (r: Stage)
    ensures r.Searched? && r.found.FoundBug? ==> r.found.key in known
  {
    match CardSnapVersion(card.name)
    case None => BadTitle
    case Some((snap, version)) =>
      match ReadyForCandidate(card.checklists)
      case None => Raise
      case Some(false) => Unready
      case Some(true) => Searched(FindSruBug(records, known, snap, version))
  }

  /** The loop once a card's stage is known: skip it, raise, or after the
      search skip on LookupError, link the bug, and promote it unless its
      certification task is missing or released. `asWritten` selects the
      script's handling of an unmatched card, which dereferences `None`
      and raises. */
  function Step(st: Stage, cardUrl: string, lp: map<string, Bug>, asWritten: bool): Option<(Outcome, map<string, Bug>)> {
    match st
    case BadTitle => Some((Unparsed, lp))
    case Unready => Some((NotReady, lp))
    case Raise => None
    case Searched(LookupFailed) => Some((NotFound, lp))
    case Searched(NoBug) => if asWritten then None else Some((Unmatched, lp))
    case Searched(FoundBug(k)) =>
      if k !in lp then Some((NotFound, lp))
      else
        var b := lp[k];
        match TaskIndex(b.tasks, TargetTask, 0)
        case None => Some((NoTask(Description(b)), lp))
        case Some(t) =>
          if b.tasks[t].status == FixReleased then Some((AlreadyReleased(Description(b)), lp))
          else Some((Promoted(Description(b), k), lp[k := Promote(b, cardUrl)]))
  }

  /** One card of the loop: the outcome, Launchpad and the cache afterwards;
      `None` where the script raises out of `main`. The status file is
      loaded by the search, so only a searched card can fill the cache. */
  function ProcessCard(card: Card, lp: map<string, Bug>, cache: seq<Record>, fetched: Option<Json>, asWritten: bool)
    : Option<(Outcome, map<string, Bug>, seq<Record>)>
  {
    var records := Loaded(cache, fetched);
    var st := CardStage(card, records, lp.Keys);
    match Step(st, card.url, lp, asWritten)
    case None => None
    case Some((o, lp')) => Some((o, lp', if st.Searched? then records else cache))
  }

  /** The outcomes of the cards processed, Launchpad afterwards, and whether
      the script raised (the raising card has no outcome). */
  datatype Run = Run(outcomes: seq<Outcome>, lp: map<string, Bug>, crashed: bool)

  function RunCards(cards: seq<Card>, i: nat, lp: map<string, Bug>, cache: seq<Record>, fetched: Option<Json>, asWritten: bool): Run
    requires i <= |cards|
    decreases |cards| - i
  {
    if i == |cards| then Run([], lp, false)
    else match ProcessCard(cards[i], lp, cache, fetched, asWritten)
      case None => Run([], lp, true)
      case Some((o, lp', cache')) =>
        var rest := RunCards(cards, i + 1, lp', cache', fetched, asWritten);
        Run([o] + rest.outcomes, rest.lp, rest.crashed)
  }

  /** The kernel snap cards of the beta lane. */
  function BetaKernelCards(lanes: seq<Lane>): Option<seq<Card>> {
    match GetLane(lanes, "beta", 0)
    case None => None
    case Some(l) => Some(SearchCards(lanes[l].cards, "-kernel"))
  }

  /** `main` as written, after argument parsing; a board without a beta
      lane raises before any card. */
  function MainAsWritten(lanes: seq<Lane>, lp: map<string, Bug>, fetched: Option<Json>): Run {
    match BetaKernelCards(lanes)
    case None => Run([], lp, true)
    case Some(cards) => RunCards(cards, 0, lp, [], fetched, true)
  }

  /** `main` with an unmatched card skipped like one whose search raised. */
  function Main(lanes: seq<Lane>, lp: map<string, Bug>, fetched: Option<Json>): Run {
    match BetaKernelCards(lanes)
    case None => Run([], lp, true)
    case Some(cards) => RunCards(cards, 0, lp, [], fetched, false)
  }

  // ---- what a run does ----

  /** A stage at which the script raises. */
  predicate CrashesAt(st: Stage, asWritten: bool) {
    st.Raise? || (asWritten && st == Searched(NoBug))
  }

  /** The bug a stage leads to. */
  function StageBug(st: Stage): Option<string> {
    if st.Searched? && st.found.FoundBug? then Some(st.found.key) else None
  }

  /** One card: the loop raises exactly at a crashing stage; only a
      promotion changes Launchpad, and then only the card's bug, which was
      not settled and is afterwards; whatever the outcome, the card's bug
      is settled after it, so a settled bug is never promoted. */
  lemma StepEffect(st: Stage, cardUrl: string, lp: map<string, Bug>, asWritten: bool)
    ensures var r := Step(st, cardUrl, lp, asWritten);
      && (r.None? <==> CrashesAt(st, asWritten))
      && (r.Some? ==>
            && r.value.1.Keys == lp.Keys
            && (r.value.0.Promoted? ==>
                  && StageBug(st) == Some(r.value.0.key)
                  && r.value.0.key in lp && !Settled(lp[r.value.0.key])
                  && r.value.1 == lp[r.value.0.key := Promote(lp[r.value.0.key], cardUrl)])
            && (!r.value.0.Promoted? ==> r.value.1 == lp)
            && (StageBug(st).Some? && StageBug(st).value in lp ==> Settled(r.value.1[StageBug(st).value])))
  {
  }

  /** The loop over the cards with their stages worked out beforehand. */
  function RunStages(stages: seq<Stage>, cards: seq<Card>, i: nat, lp: map<string, Bug>, asWritten: bool): Run
    requires |stages| == |cards| && i <= |cards|
    decreases |cards| - i
  {
    if i == |cards| then Run([], lp, false)
    else match Step(stages[i], cards[i].url, lp, asWritten)
      case None => Run([], lp, true)
      case Some((o, lp')) =>
        var rest := RunStages(stages, cards, i + 1, lp', asWritten);
        Run([o] + rest.outcomes, rest.lp, rest.crashed)
  }

  /** With the cache warm, a card's step depends only on its stage. */
  lemma ProcessCardStage(card: Card, lp: map<string, Bug>, cache: seq<Record>, fetched: Option<Json>, asWritten: bool,
                         st: Stage)
    requires Warm(cache, fetched) && st == CardStage(card, Records(fetched), lp.Keys)
    ensures var r := ProcessCard(card, lp, cache, fetched, asWritten);
      var s := Step(st, card.url, lp, asWritten);
      && (r.None? <==> s.None?)
      && (r.Some? ==> r.value.0 == s.value.0 && r.value.1 == s.value.1 && Warm(r.value.2, fetched))
  {
    assert Loaded(cache, fetched) == Records(fetched);
  }

  /** Each card's stage is fixed for the whole run: every fetch of the
      status file in a run returns the same answer (`fetched`), so a
      reload while the cache is empty gives the same records, and
      Launchpad's bug numbers do not change. */
  lemma {:induction false} RunCardsStages(cards: seq<Card>, stages: seq<Stage>, i: nat, lp: map<string, Bug>,
                                          cache: seq<Record>, fetched: Option<Json>, asWritten: bool, known: set<string>)
    requires |stages| == |cards| && i <= |cards|
    requires Warm(cache, fetched) && lp.Keys == known
    requires forall j | i <= j < |cards| :: stages[j] == CardStage(cards[j], Records(fetched), known)
    ensures RunCards(cards, i, lp, cache, fetched, asWritten) == RunStages(stages, cards, i, lp, asWritten)
    decreases |cards| - i
  {
    if i < |cards| {
      ProcessCardStage(cards[i], lp, cache, fetched, asWritten, stages[i]);
      StepEffect(stages[i], cards[i].url, lp, asWritten);
      match ProcessCard(cards[i], lp, cache, fetched, asWritten)
      case None =>
      case Some((o, lp', cache')) =>
        RunCardsStages(cards, stages, i + 1, lp', cache', fetched, asWritten, known);
    }
  }

  /** The stages of a board's cards. */
  function StagesOf(cards: seq<Card>, fetched: Option<Json>, known: set<string>): (r: seq<Stage>)
    ensures |r| == |cards|
    ensures forall j | 0 <= j < |cards| :: r[j] == CardStage(cards[j], Records(fetched), known)
  {
    seq(|cards|, j requires 0 <= j < |cards| => CardStage(cards[j], Records(fetched), known))
  }

  /** A run keeps Launchpad's bug numbers and never unsettles a bug. */
  lemma {:induction false} RunKeeps(stages: seq<Stage>, cards: seq<Card>, i: nat, lp: map<string, Bug>, asWritten: bool)
    requires |stages| == |cards| && i <= |cards|
    ensures var run := RunStages(stages, cards, i, lp, asWritten);
      && run.lp.Keys == lp.Keys
      && (forall k | k in lp && Settled(lp[k]) :: Settled(run.lp[k]))
    decreases |cards| - i
  {
    if i < |cards| {
      StepEffect(stages[i], cards[i].url, lp, asWritten);
      match Step(stages[i], cards[i].url, lp, asWritten)
      case None =>
      case Some((o, lp')) =>
        RunKeeps(stages, cards, i + 1, lp', asWritten);
    }
  }

  /** A run processes cards up to the first whose stage raises, or all of
      them. */
  lemma {:induction false} RunShape(stages: seq<Stage>, cards: seq<Card>, i: nat, lp: map<string, Bug>, asWritten: bool)
    requires |stages| == |cards| && i <= |cards|
    ensures var run := RunStages(stages, cards, i, lp, asWritten);
      var n := i + |run.outcomes|;
      && n <= |cards|
      && (run.crashed <==> n < |cards|)
      && (n < |cards| ==> CrashesAt(stages[n], asWritten))
      && (forall j | i <= j < n :: !CrashesAt(stages[j], asWritten))
    decreases |cards| - i
  {
    if i < |cards| {
      StepEffect(stages[i], cards[i].url, lp, asWritten);
      match Step(stages[i], cards[i].url, lp, asWritten)
      case None =>
      case Some((o, lp')) =>
        RunShape(stages, cards, i + 1, lp', asWritten);
    }
  }

  /** Every card a run processed has its bug settled at the end. */
  lemma {:induction false} RunSettles(stages: seq<Stage>, cards: seq<Card>, i: nat, lp: map<string, Bug>, asWritten: bool)
    requires |stages| == |cards| && i <= |cards|
    ensures var run := RunStages(stages, cards, i, lp, asWritten);
      forall j | i <= j < i + |run.outcomes| && j < |stages| :: StageBug(stages[j]).Some? && StageBug(stages[j]).value in lp ==>
        StageBug(stages[j]).value in run.lp && Settled(run.lp[StageBug(stages[j]).value])
    decreases |cards| - i
  {
    if i < |cards| {
      StepEffect(stages[i], cards[i].url, lp, asWritten);
      match Step(stages[i], cards[i].url, lp, asWritten)
      case None =>
      case Some((o, lp')) =>
        RunSettles(stages, cards, i + 1, lp', asWritten);
        RunKeeps(stages, cards, i + 1, lp', asWritten);
    }
  }

  /** A run over cards whose bugs are all settled, up to a card whose
      stage raises, changes nothing on Launchpad and promotes nothing. */
  lemma {:induction false} RunQuiet(stages: seq<Stage>, cards: seq<Card>, i: nat, n: nat, lp: map<string, Bug>, asWritten: bool)
    requires |stages| == |cards| && i <= n <= |cards|
    requires n < |cards| ==> CrashesAt(stages[n], asWritten)
    requires forall j | i <= j < n :: !CrashesAt(stages[j], asWritten)
    requires forall j | i <= j < n :: StageBug(stages[j]).Some? && StageBug(stages[j]).value in lp ==>
               Settled(lp[StageBug(stages[j]).value])
    ensures var run := RunStages(stages, cards, i, lp, asWritten);
      && run.lp == lp
      && |run.outcomes| == n - i
      && forall j | 0 <= j < |run.outcomes| :: !run.outcomes[j].Promoted?
    decreases |cards| - i
  {
    if i < |cards| {
      StepEffect(stages[i], cards[i].url, lp, asWritten);
      match Step(stages[i], cards[i].url, lp, asWritten)
      case None =>
      case Some((o, lp')) =>
        RunQuiet(stages, cards, i + 1, n, lp', asWritten);
    }
  }

  /** How many times the outcomes promote bug `k`. */
  function Promotions(outcomes: seq<Outcome>, k: string): nat {
    if |outcomes| == 0 then 0
    else (if outcomes[0].Promoted? && outcomes[0].key == k then 1 else 0) + Promotions(outcomes[1..], k)
  }

  /** A run promotes a bug at most once and never a settled one; the bug
      keeps its comments and gains one per promotion. */
  lemma {:induction false} RunComments(stages: seq<Stage>, cards: seq<Card>, i: nat, lp: map<string, Bug>,
                                       asWritten: bool, k: string)
    requires |stages| == |cards| && i <= |cards| && k in lp
    ensures var run := RunStages(stages, cards, i, lp, asWritten);
      && k in run.lp
      && Promotions(run.outcomes, k) <= 1
      && (Settled(lp[k]) ==> Promotions(run.outcomes, k) == 0)
      && |run.lp[k].comments| == |lp[k].comments| + Promotions(run.outcomes, k)
      && run.lp[k].comments[..|lp[k].comments|] == lp[k].comments
    decreases |cards| - i
  {
    if i < |cards| {
      StepEffect(stages[i], cards[i].url, lp, asWritten);
      match Step(stages[i], cards[i].url, lp, asWritten)
      case None =>
      case Some((o, lp')) =>
        RunComments(stages, cards, i + 1, lp', asWritten, k);
        var run := RunStages(stages, cards, i, lp, asWritten);
        var rest := RunStages(stages, cards, i + 1, lp', asWritten);
        assert run.outcomes[1..] == rest.outcomes;
        if o.Promoted? && o.key == k {
          assert lp'[k].comments == lp[k].comments + [PromotionComment + cards[i].url];
          assert lp'[k].comments[..|lp[k].comments|] == lp[k].comments;
        }
    }
  }

  /** Each bug gets at most one comment from a run, exactly when the run
      promotes it, and it keeps the comments it had. */
  lemma MainComments(lanes: seq<Lane>, lp: map<string, Bug>, fetched: Option<Json>, k: string)
    requires k in lp
    ensures var run := Main(lanes, lp, fetched);
      && k in run.lp
      && Promotions(run.outcomes, k) <= 1
      && (Settled(lp[k]) ==> Promotions(run.outcomes, k) == 0)
      && |run.lp[k].comments| == |lp[k].comments| + Promotions(run.outcomes, k)
      && run.lp[k].comments[..|lp[k].comments|] == lp[k].comments
  {
    match BetaKernelCards(lanes)
    case None =>
    case Some(cards) =>
      var stages := StagesOf(cards, fetched, lp.Keys);
      RunCardsStages(cards, stages, 0, lp, [], fetched, false, lp.Keys);
      RunComments(stages, cards, 0, lp, false, k);
  }

  /** Rerunning over the same stages from where a run left Launchpad
      changes nothing and promotes nothing, and raises where the first run
      did. */
  lemma {:induction false} QuietRerun(stages: seq<Stage>, cards: seq<Card>, lp: map<string, Bug>)
    requires |stages| == |cards|
    ensures var first := RunStages(stages, cards, 0, lp, false);
      var second := RunStages(stages, cards, 0, first.lp, false);
      && second.lp == first.lp
      && second.crashed == first.crashed
      && forall j | 0 <= j < |second.outcomes| :: !second.outcomes[j].Promoted?
  {
    var first := RunStages(stages, cards, 0, lp, false);
    RunKeeps(stages, cards, 0, lp, false);
    RunShape(stages, cards, 0, lp, false);
    RunSettles(stages, cards, 0, lp, false);
    RunQuiet(stages, cards, 0, |first.outcomes|, first.lp, false);
    RunShape(stages, cards, 0, first.lp, false);
  }

  /** Running the script a second time on the same board and status file
      changes nothing on Launchpad: every bug the first run reached is
      settled, so no task is set and no comment is posted. */
  lemma SecondRunQuiet(lanes: seq<Lane>, lp: map<string, Bug>, fetched: Option<Json>)
    ensures var first := Main(lanes, lp, fetched);
      var second := Main(lanes, first.lp, fetched);
      && second.lp == first.lp
      && second.crashed == first.crashed
      && forall j | 0 <= j < |second.outcomes| :: !second.outcomes[j].Promoted?
  {
    match BetaKernelCards(lanes)
    case None =>
    case Some(cards) =>
      var stages := StagesOf(cards, fetched, lp.Keys);
      var first := Main(lanes, lp, fetched);
      assert first == RunStages(stages, cards, 0, lp, false) by {
        RunCardsStages(cards, stages, 0, lp, [], fetched, false, lp.Keys);
      }
      assert first.lp.Keys == lp.Keys by {
        RunKeeps(stages, cards, 0, lp, false);
      }
      assert Main(lanes, first.lp, fetched) == RunStages(stages, cards, 0, first.lp, false) by {
        RunCardsStages(cards, stages, 0, first.lp, [], fetched, false, lp.Keys);
      }
      QuietRerun(stages, cards, lp);
  }

  /** The script as written raises on a ready kernel card with no
      matching record, for instance when the status file could not be
      fetched: no card after it is processed. */
  lemma UnmatchedCrashes(lanes: seq<Lane>, lp: map<string, Bug>)
    requires BetaKernelCards(lanes).Some? && |BetaKernelCards(lanes).value| > 0
    requires var card := BetaKernelCards(lanes).value[0];
      CardSnapVersion(card.name).Some? && ReadyForCandidate(card.checklists) == Some(true)
    ensures MainAsWritten(lanes, lp, None) == Run([], lp, true)
    ensures var run := Main(lanes, lp, None); |run.outcomes| > 0 && run.outcomes[0] == Unmatched
  {
  }

  /** With unmatched cards skipped, the run raises only where a board has
      no beta lane or a kernel card's readiness check raises, and then at
      the first such card. */
  lemma MainCrashes(lanes: seq<Lane>, lp: map<string, Bug>, fetched: Option<Json>)
    ensures var run := Main(lanes, lp, fetched);
      match BetaKernelCards(lanes)
      case None => run.crashed
      case Some(cards) =>
        && |run.outcomes| <= |cards|
        && (run.crashed <==> |run.outcomes| < |cards|)
        && (|run.outcomes| < |cards| ==>
              && CardSnapVersion(cards[|run.outcomes|].name).Some?
              && ReadyForCandidate(cards[|run.outcomes|].checklists).None?)
  {
    match BetaKernelCards(lanes)
    case None =>
    case Some(cards) =>
      var stages := StagesOf(cards, fetched, lp.Keys);
      var run := Main(lanes, lp, fetched);
      assert run == RunStages(stages, cards, 0, lp, false) by {
        RunCardsStages(cards, stages, 0, lp, [], fetched, false, lp.Keys);
      }
      RunShape(stages, cards, 0, lp, false);
      var n := |run.outcomes|;
      if n < |cards| {
        RaiseMeaning(cards[n], Records(fetched), lp.Keys);
      }
  }

  lemma RaiseMeaning(card: Card, records: seq<Record>, known: set<string>)
    ensures CardStage(card, records, known).Raise? ==>
      CardSnapVersion(card.name).Some? && ReadyForCandidate(card.checklists).None?
  {
  }
}

=== FILE: text.dfy ===
/** Character classes and the handful of Python `str` operations the scripts
    rely on (`in`, `startswith`, `endswith`, `split`, `replace`, `lower`,
    `capitalize`), each written with Python's exact semantics for the ASCII
    range. */
module Text {

  /** `\d` of a `re` pattern and the digits `int()` accepts (ASCII range). */
  predicate IsDigit(c: char) {
    '0' <= c <= '9'
  }

  /** `\s` of a `re` pattern over `str`, i.e. the characters for which
      `str.isspace()` holds. */
  predicate IsSpace(c: char) {
    || '\t' <= c <= '\r' || '\U{1c}' <= c <= ' ' || c == '\U{85}' || c == '\U{a0}' || c == '\U{1680}'
    || '\U{2000}' <= c <= '\U{200a}' || c == '\U{2028}' || c == '\U{2029}' || c == '\U{202f}'
    || c == '\U{205f}' || c == '\U{3000}'
  }

  /** No digit is whitespace. */
  lemma DigitNotSpace(c: char)
    requires IsDigit(c)
    ensures !IsSpace(c)
  {
  }

  predicate AllDigits(s: string) {
    forall i | 0 <= i < |s| :: IsDigit(s[i])
  }

  predicate NoDigits(s: string) {
    forall i | 0 <= i < |s| :: !IsDigit(s[i])
  }

  predicate NoSpace(s: string) {
    forall i | 0 <= i < |s| :: !IsSpace(s[i])
  }

  predicate NoNewline(s: string) {
    forall i | 0 <= i < |s| :: s[i] != '\n'
  }

  /** `t` occurs in `s` starting at position `i`. */
  predicate OccursAt(s: string, t: string, i: int) {
    0 <= i && i + |t| <= |s| && s[i..i + |t|] == t
  }

  /** `t in s` for strings: `t` occurs as a contiguous block of `s`. */
  predicate Contains(s: string, t: string) {
    exists i | 0 <= i <= |s| :: OccursAt(s, t, i)
  }

  predicate StartsWith(s: string, p: string) {
    |p| <= |s| && s[..|p|] == p
  }

  predicate EndsWith(s: string, p: string) {
    |p| <= |s| && s[|s| - |p|..] == p
  }

  lemma StartsWithContains(s: string, p: string)
    requires StartsWith(s, p)
    ensures Contains(s, p)
  {
    assert OccursAt(s, p, 0);
  }

  /** A block of `t` is also a block of anything `t` is a block of. */
  lemma ContainsTrans(s: string, t: string, u: string)
    requires Contains(s, t) && Contains(t, u)
    ensures Contains(s, u)
  {
    var i :| 0 <= i <= |s| && OccursAt(s, t, i);
    var j :| 0 <= j <= |t| && OccursAt(t, u, j);
    forall k | 0 <= k < |u|
      ensures s[i + j..i + j + |u|][k] == u[k]
    {
      assert u[k] == t[j + k] == s[i + j + k];
    }
    assert s[i + j..i + j + |u|] == u;
    assert OccursAt(s, u, i + j);
  }

  /** Number of occurrences of the character `c` in `s`. */
  function CountChar(s: string, c: char): nat {
    if |s| == 0 then 0 else (if s[0] == c then 1 else 0) + CountChar(s[1..], c)
  }

  lemma CountCharZero(s: string, c: char)
    ensures CountChar(s, c) == 0 <==> c !in s
  {
    if |s| > 0 {
      CountCharZero(s[1..], c);
      assert c in s <==> s[0] == c || c in s[1..];
    }
  }

  lemma CountCharConcat(a: string, b: string, c: char)
    ensures CountChar(a + b, c) == CountChar(a, c) + CountChar(b, c)
  {
    if |a| == 0 {
      assert a + b == b;
    } else {
      assert (a + b)[1..] == a[1..] + b;
      CountCharConcat(a[1..], b, c);
    }
  }

  /** Index of the first `c` in `s`. */
  function IndexOfChar(s: string, c: char): (i: nat)
    requires c in s
    ensures i < |s| && s[i] == c && c !in s[..i]
  {
    if s[0] == c then 0 else
      var k := IndexOfChar(s[1..], c);
      assert s[..k + 1] == [s[0]] + s[1..][..k];
      k + 1
  }

  /** `sep.join(parts)` */
  function Join(parts: seq<string>, sep: string): string {
    if |parts| == 0 then ""
    else if |parts| == 1 then parts[0]
    else parts[0] + sep + Join(parts[1..], sep)
  }

  /** `s.split(c)` for a one-character separator: the maximal pieces of `s`
      between occurrences of `c`, including empty ones. */
  function Split(s: string, c: char): (parts: seq<string>)
    ensures |parts| == CountChar(s, c) + 1
    decreases |s|
  {
    if c !in s then
      CountCharZero(s, c);
      [s]
    else
      var i := IndexOfChar(s, c);
      SplitCount(s, c, i);
      [s[..i]] + Split(s[i + 1..], c)
  }

  /** Cutting at the first separator leaves one fewer in the rest. */
  lemma SplitCount(s: string, c: char, i: nat)
    requires c in s && i == IndexOfChar(s, c)
    ensures CountChar(s, c) == CountChar(s[i + 1..], c) + 1
  {
    CountCharZero(s[..i], c);
    assert s == s[..i] + ([c] + s[i + 1..]);
    CountCharConcat(s[..i], [c] + s[i + 1..], c);
    assert ([c] + s[i + 1..])[1..] == s[i + 1..];
  }

  /** The pieces hold no separator and joining them with it gives `s` back. */
  lemma {:induction false} SplitPieces(s: string, c: char)
    ensures forall k | 0 <= k < |Split(s, c)| :: c !in Split(s, c)[k]
    ensures Join(Split(s, c), [c]) == s
    decreases |s|
  {
    if c in s {
      var i := IndexOfChar(s, c);
      var rest := Split(s[i + 1..], c);
      SplitPieces(s[i + 1..], c);
      var parts := [s[..i]] + rest;
      assert parts[1..] == rest;
      assert s == s[..i] + [c] + s[i + 1..];
    }
  }

  /** With exactly one separator, `split` gives the text before and after it. */
  lemma SplitOnlyOne(s: string, c: char)
    requires CountChar(s, c) == 1
    ensures c in s
    ensures Split(s, c) == [s[..IndexOfChar(s, c)], s[IndexOfChar(s, c) + 1..]]
  {
    CountCharZero(s, c);
    var i := IndexOfChar(s, c);
    SplitCount(s, c, i);
    CountCharZero(s[i + 1..], c);
  }

  /** `s.replace(pat, rep)`: non-overlapping occurrences, scanned left to right. */
  function Replace(s: string, pat: string, rep: string): string
    requires |pat| > 0
    decreases |s|
  {
    if |s| < |pat| then s
    else if s[..|pat|] == pat then rep + Replace(s[|pat|..], pat, rep)
    else [s[0]] + Replace(s[1..], pat, rep)
  }

  /** `s.replace(pat, rep, count)`: at most `count` replacements. */
  function ReplaceN(s: string, pat: string, rep: string, count: nat): string
    requires |pat| > 0
    decreases |s|
  {
    if count == 0 || |s| < |pat| then s
    else if s[..|pat|] == pat then rep + ReplaceN(s[|pat|..], pat, rep, count - 1)
    else [s[0]] + ReplaceN(s[1..], pat, rep, count)
  }

  /** Replacing a pattern that does not occur changes nothing. */
  lemma {:induction false} ReplaceAbsent(s: string, pat: string, rep: string)
    requires |pat| > 0 && !Contains(s, pat)
    ensures Replace(s, pat, rep) == s
    decreases |s|
  {
    if |s| >= |pat| {
      assert s[0..|pat|] == s[..|pat|];
      assert !OccursAt(s, pat, 0);
      if Contains(s[1..], pat) {
        var i :| 0 <= i <= |s[1..]| && OccursAt(s[1..], pat, i);
        assert s[i + 1..i + 1 + |pat|] == pat;
        assert OccursAt(s, pat, i + 1);
      }
      ReplaceAbsent(s[1..], pat, rep);
    }
  }

  /** `s.replace(c, rep, count)` leaves the text before the first `c` alone,
      replaces that `c` and goes on with one replacement fewer. */
  lemma {:induction false} ReplaceNFirst(a: string, c: char, b: string, rep: string, count: nat)
    requires c !in a && count > 0
    ensures ReplaceN(a + [c] + b, [c], rep, count) == a + rep + ReplaceN(b, [c], rep, count - 1)
    decreases |a|
  {
    var s := a + [c] + b;
    if |a| == 0 {
      assert s[..1] == [c] && s[1..] == b;
    } else {
      assert s[..1] == [a[0]] && s[..1] != [c];
      assert s[1..] == a[1..] + [c] + b;
      ReplaceNFirst(a[1..], c, b, rep, count);
      assert a == [a[0]] + a[1..];
    }
  }

  /** With no `c` left, a counted replacement changes nothing. */
  lemma {:induction false} ReplaceNAbsent(s: string, c: char, rep: string, count: nat)
    requires c !in s
    ensures ReplaceN(s, [c], rep, count) == s
    decreases |s|
  {
    if count > 0 && |s| >= 1 {
      assert s[..1] == [s[0]] && s[..1] != [c];
      ReplaceNAbsent(s[1..], c, rep, count);
      assert s == [s[0]] + s[1..];
    }
  }

  /** `s.rfind(c)`: index of the last `c`, or -1. */
  function LastIndexOf(s: string, c: char): (r: int)
    ensures r == -1 <==> c !in s
    ensures r != -1 ==> 0 <= r < |s| && s[r] == c && c !in s[r + 1..]
    decreases |s|
  {
    if |s| == 0 then -1
    else if s[|s| - 1] == c then |s| - 1
    else
      var r := LastIndexOf(s[..|s| - 1], c);
      assert s == s[..|s| - 1] + [s[|s| - 1]];
      if r != -1 then
        assert s[r + 1..] == s[..|s| - 1][r + 1..] + [s[|s| - 1]];
        r
      else r
  }

  /** The last `c` is at `i` when `c` is at `i` and not after. */
  lemma {:induction false} LastIndexOfAt(s: string, c: char, i: nat)
    requires i < |s| && s[i] == c && c !in s[i + 1..]
    ensures LastIndexOf(s, c) == i
    decreases |s|
  {
    if i < |s| - 1 {
      assert s[|s| - 1] == s[i + 1..][|s| - 2 - i];
      var init := s[..|s| - 1];
      assert s[i + 1..] == init[i + 1..] + [s[|s| - 1]];
      LastIndexOfAt(init, c, i);
    }
  }

  /** A one-character replacement keeps the length and acts position-wise. */
  lemma {:induction false} ReplaceCharPointwise(s: string, a: char, b: char)
    ensures |Replace(s, [a], [b])| == |s|
    ensures forall i | 0 <= i < |s| ::
      Replace(s, [a], [b])[i] == (if s[i] == a then b else s[i])
    decreases |s|
  {
    if |s| > 0 {
      ReplaceCharPointwise(s[1..], a, b);
      var r := Replace(s, [a], [b]);
      if s[..1] == [a] {
        assert r == [b] + Replace(s[1..], [a], [b]);
      } else {
        assert r == [s[0]] + Replace(s[1..], [a], [b]);
      }
      forall i | 0 <= i < |s|
        ensures r[i] == (if s[i] == a then b else s[i])
      {
        if i > 0 {
          assert r[i] == Replace(s[1..], [a], [b])[i - 1];
          assert s[1..][i - 1] == s[i];
        }
      }
    }
  }

  /** ASCII case mapping of `str.lower()` / `str.upper()`. */
  function LowerChar(c: char): char {
    if 'A' <= c <= 'Z' then (c as int + 32) as char else c
  }

  function UpperChar(c: char): char {
    if 'a' <= c <= 'z' then (c as int - 32) as char else c
  }

  function Lower(s: string): (r: string)
    ensures |r| == |s|
    ensures forall i | 0 <= i < |s| :: r[i] == LowerChar(s[i])
  {
    seq(|s|, i requires 0 <= i < |s| => LowerChar(s[i]))
  }

  /** `str.capitalize()`: first character upper-cased, the rest lower-cased. */
  function Capitalize(s: string): (r: string)
    ensures |r| == |s|
  {
    if |s| == 0 then "" else [UpperChar(s[0])] + Lower(s[1..])
  }

  /** An occurrence in `s` that is not at position 0 is an occurrence in `s[1..]`. */
  lemma ContainsTail(s: string, t: string)
    requires |s| >= |t| && s[..|t|] != t && Contains(s, t)
    ensures Contains(s[1..], t)
  {
    var i :| 0 <= i <= |s| && OccursAt(s, t, i);
    assert i != 0;
    assert s[1..][i - 1..i - 1 + |t|] == t;
    assert OccursAt(s[1..], t, i - 1);
  }

  lemma FindShift(s: string, t: string, k: int)
    requires |s| > 0 && !OccursAt(s, t, 0)
    requires OccursAt(s[1..], t, k)
    requires forall j | 0 <= j < k :: !OccursAt(s[1..], t, j)
    ensures OccursAt(s, t, k + 1)
    ensures forall j | 0 <= j < k + 1 :: !OccursAt(s, t, j)
  {
    assert s[k + 1..k + 1 + |t|] == s[1..][k..k + |t|];
    forall j | 1 <= j < k + 1
      ensures !OccursAt(s, t, j)
    {
      if OccursAt(s, t, j) {
        assert s[1..][j - 1..j - 1 + |t|] == s[j..j + |t|];
        assert OccursAt(s[1..], t, j - 1);
      }
    }
  }

  /** `s.find(t)`: index of the first occurrence of `t`, or -1. */
  function Find(s: string, t: string): (r: int)
    ensures r == -1 || OccursAt(s, t, r)
    ensures r == -1 <==> !Contains(s, t)
    ensures r != -1 ==> forall j | 0 <= j < r :: !OccursAt(s, t, j)
    decreases |s|
  {
    if |s| < |t| then -1
    else if s[..|t|] == t then
      assert OccursAt(s, t, 0); 0
    else
      var k := Find(s[1..], t);
      if k == -1 then
        if Contains(s, t) then ContainsTail(s, t); -1 else -1
      else
        FindShift(s, t, k);
        k + 1
  }

  /** `s.split(sep, maxsplit=1)[-1]`: the text after the first occurrence of
      `sep`, or all of `s` when `sep` does not occur. */
  function AfterFirst(s: string, sep: string): string
    requires |sep| > 0
  {
    var i := Find(s, sep);
    if i == -1 then s else s[i + |sep|..]
  }

  lemma AfterFirstPrefix(p: string, t: string)
    requires |p| > 0
    ensures AfterFirst(p + t, p) == t
  {
    assert (p + t)[..|p|] == p;
    assert OccursAt(p + t, p, 0);
    assert (p + t)[|p|..] == t;
  }

  /** End of the run of digits that starts at `i`: what a greedy `\d+` (or
      `\d*`) consumes from there. */
  function DigitRunEnd(s: string, i: nat): (j: nat)
    requires i <= |s|
    ensures i <= j <= |s|
    ensures forall k | i <= k < j :: IsDigit(s[k])
    ensures j < |s| ==> !IsDigit(s[j])
    decreases |s| - i
  {
    if i < |s| && IsDigit(s[i]) then DigitRunEnd(s, i + 1) else i
  }

  /** The run end is the only position with those two properties. */
  lemma DigitRunEndUnique(s: string, i: nat, j: nat)
    requires i <= j <= |s| && forall k | i <= k < j :: IsDigit(s[k])
    requires j < |s| ==> !IsDigit(s[j])
    ensures DigitRunEnd(s, i) == j
  {
  }

  /** Index of the first digit of `s`, or `|s|`: how far a greedy `[^\d]*`
      reaches from the start. */
  function FirstDigit(s: string): (p: nat)
    ensures p <= |s| && forall k | 0 <= k < p :: !IsDigit(s[k])
    ensures p < |s| ==> IsDigit(s[p])
  {
    FirstDigitFrom(s, 0)
  }

  function FirstDigitFrom(s: string, i: nat): (p: nat)
    requires i <= |s|
    ensures i <= p <= |s|
    ensures forall k | i <= k < p :: !IsDigit(s[k])
    ensures p < |s| ==> IsDigit(s[p])
    decreases |s| - i
  {
    if i == |s| || IsDigit(s[i]) then i else FirstDigitFrom(s, i + 1)
  }

  lemma FirstDigitUnique(s: string, p: nat)
    requires p <= |s| && forall k | 0 <= k < p :: !IsDigit(s[k])
    requires p < |s| ==> IsDigit(s[p])
    ensures FirstDigit(s) == p
  {
  }

  /** The literal `u` occurs in `s` at position `e`, compared character by
      character as a regular expression does. */
  predicate LiteralAt(s: string, e: nat, u: string)
    decreases |u|
  {
    |u| == 0 || (e < |s| && s[e] == u[0] && LiteralAt(s, e + 1, u[1..]))
  }

  lemma {:induction false} LiteralAtSlice(s: string, e: nat, u: string)
    requires e <= |s|
    ensures LiteralAt(s, e, u) <==> e + |u| <= |s| && s[e..e + |u|] == u
    decreases |u|
  {
    if |u| > 0 && e < |s| {
      LiteralAtSlice(s, e + 1, u[1..]);
      if e + |u| <= |s| {
        var w := s[e..e + |u|];
        assert w[0] == s[e] && w[1..] == s[e + 1..e + |u|];
        if w == u {
          assert w[1..] == u[1..];
        }
      }
    }
  }

  /** The literal `u + v` at `e` is `u` at `e` followed by `v`. */
  lemma LiteralSplit(s: string, e: nat, u: string, v: string)
    requires e <= |s| && LiteralAt(s, e, u + v)
    ensures e + |u| + |v| <= |s|
    ensures LiteralAt(s, e, u) && LiteralAt(s, e + |u|, v)
  {
    var w := u + v;
    LiteralAtSlice(s, e, w);
    LiteralAtSlice(s, e, u);
    LiteralAtSlice(s, e + |u|, v);
    SliceInner(s, e, w, 0, |u|);
    assert w[..|u|] == u;
    SliceInner(s, e, w, |u|, |w|);
    assert w[|u|..] == v;
  }

  /** A block of `s` that equals `t` contains each block of `t` at the
      corresponding place. */
  lemma SliceInner(s: string, i: nat, t: string, j: nat, k: nat)
    requires i + |t| <= |s| && s[i..i + |t|] == t && j <= k <= |t|
    ensures s[i + j..i + k] == t[j..k]
  {
    forall n | 0 <= n < k - j
      ensures s[i + j..i + k][n] == t[j..k][n]
    {
      assert s[i + j..i + k][n] == s[i..i + |t|][j + n];
    }
  }

  /** The first `c` is at `i` when `c` is at `i` and not before. */
  lemma IndexOfCharAt(s: string, c: char, i: nat)
    requires i < |s| && s[i] == c && c !in s[..i]
    ensures IndexOfChar(s, c) == i
  {
  }

  /** Splitting `a + [c] + b` on `c`, when neither part holds `c`, gives
      back the two parts. */
  lemma SplitAround(a: string, c: char, b: string)
    requires c !in a && c !in b
    ensures Split(a + [c] + b, c) == [a, b]
  {
    SplitFirst(a, c, b);
    assert Split(b, c) == [b];
  }

  /** `split` cuts at the first separator and goes on with the rest. */
  lemma SplitFirst(a: string, c: char, b: string)
    requires c !in a
    ensures Split(a + [c] + b, c) == [a] + Split(b, c)
  {
    var s := a + [c] + b;
    assert s[..|a|] == a;
    IndexOfCharAt(s, c, |a|);
    assert s[|a| + 1..] == b;
  }

  /** A last separator cuts off the last piece. */
  lemma {:induction false} SplitLast(a: string, c: char, b: string)
    requires c !in b
    ensures Split(a + [c] + b, c) == Split(a, c) + [b]
    decreases |a|
  {
    if c !in a {
      SplitFirst(a, c, b);
      assert Split(b, c) == [b];
    } else {
      var i := IndexOfChar(a, c);
      var s := a + [c] + b;
      assert s == a[..i] + [c] + (a[i + 1..] + [c] + b);
      assert a == a[..i] + [c] + a[i + 1..];
      SplitFirst(a[..i], c, a[i + 1..] + [c] + b);
      SplitFirst(a[..i], c, a[i + 1..]);
      SplitLast(a[i + 1..], c, b);
    }
  }

  /** Splitting joined pieces that hold no separator gives the pieces back. */
  lemma {:induction false} SplitJoin(parts: seq<string>, c: char)
    requires |parts| > 0 && forall i | 0 <= i < |parts| :: c !in parts[i]
    ensures Split(Join(parts, [c]), c) == parts
  {
    if |parts| > 1 {
      SplitJoin(parts[1..], c);
      SplitFirst(parts[0], c, Join(parts[1..], [c]));
      assert Join(parts, [c]) == parts[0] + [c] + Join(parts[1..], [c]);
      assert parts == [parts[0]] + parts[1..];
    }
  }

  /** A string lacking one of `t`'s characters does not contain `t`. */
  lemma NotContainsChar(s: string, t: string, k: nat)
    requires k < |t| && t[k] !in s
    ensures !Contains(s, t)
  {
    forall i | 0 <= i <= |s|
      ensures !OccursAt(s, t, i)
    {
      if i + |t| <= |s| {
        assert s[i..i + |t|][k] == s[i + k] && s[i + k] in s;
      }
    }
  }

  /** A string that does not contain `t` contains nothing that starts with `t`. */
  lemma NotContainsExtended(s: string, t: string, u: string)
    requires !Contains(s, t)
    ensures !Contains(s, t + u)
  {
    forall i | 0 <= i <= |s|
      ensures !OccursAt(s, t + u, i)
    {
      if i + |t + u| <= |s| {
        assert s[i..i + |t + u|][..|t|] == s[i..i + |t|];
        assert (t + u)[..|t|] == t;
        assert !OccursAt(s, t, i);
      }
    }
  }

  /** Two occurrences of `c` make the count at least two. */
  lemma CountCharTwo(s: string, c: char, i: nat, j: nat)
    requires i < j < |s| && s[i] == c && s[j] == c
    ensures CountChar(s, c) >= 2
  {
    assert s == s[..j] + s[j..];
    CountCharConcat(s[..j], s[j..], c);
    assert s[..j][i] == c;
    CountCharZero(s[..j], c);
    assert s[j..][0] == c;
    CountCharZero(s[j..], c);
  }

  /** Two suffixes of one string agree on their common length, so suffixes
      that differ somewhere in that length cannot both hold. */
  lemma NotBothSuffixes(id: string, a: string, b: string, k: nat)
    requires k < |a| && k < |b| && a[|a| - 1 - k] != b[|b| - 1 - k]
    ensures !(EndsWith(id, a) && EndsWith(id, b))
  {
  }
}

=== FILE: wrappers.dfy ===
/** Optional values, standing for Python's `None` and for lookups that may
    find nothing. */
module Wrappers {

  datatype Option<T> = None | Some(value: T) {

    function GetOr(default: T): (r: T)
      ensures Some? ==> r == value
      ensures None? ==> r == default
    {
      if Some? then value else default
    }
  }
}
